=== FILE: README.md ===
# Weibo/Douyin keyword crawler — a Dafny model of its deterministic core

The crawler searches Weibo and Douyin for a keyword, page by page. It
keeps the posts it has not stored yet and writes them to a MySQL table in
batches. It archives raw pages, structured data and a report in a
per-session directory. It builds a summary report from SQL queries over
the stored posts.

This project models the logic under the HTTP, HTML and SQL layers:

- **The crawl run** (`Crawler`, main.py): the page loop, with its stop
  flag, per-page dedup, batch flushes and counters. It also models the
  final status and the run-log row.
- **The retry policies and the response gate** (`Spider`, `WeiboSpider`),
  over oracle outcomes for each attempt.
- **The adapters** (`WeiboSpider`, `DouyinSpider`): card selection, field
  rules, URL building, `_extract_count`, the JSON walk for video dicts,
  and the "fresh id" dedup against `crawled_ids`.
- **The record utilities** (`DataProcessor`, `Dedup`, `Helpers`):
  validation and its field resets, normalisation, hashtag and mention
  extraction, content cleaning, image-URL extraction and filtering, geo flattening,
  file-name helpers, `format_number` on whole numbers, `safe_bool`,
  `truncate_text`, `calculate_time_diff`.
- **The image-URL patterns** (`PicPatterns`): the four regular
  expressions of `pic_url_patterns` and the `re.findall` scan, modelled
  as the engine runs them (greedy runs, backtracking, alternatives in
  order). The module proves that the engine's scan agrees with the
  patterns read as sets of whole strings.
- **The session archive** (`Storage`): names, paths, guards and the
  session listing order.
- **The store** (`Database`): a map keyed by the `_id` column, with
  INSERT IGNORE, plus an append-only run log.
- **The report** (`Analyzer`, with `Ranking` for the SQL and `Counter`
  building blocks): each query is a pure function over a sequence of rows.

Python values are `Values.Value`: null, bool, int, float (as a real), str,
datetime, list and dict. A dict is a sequence of fields, and lookups find
the first binding (see Lookup under Left out). Set membership goes through `Values.HashKey`, so `1`,
`1.0` and `True` are one key, as in Python. Clocks, randomness, page
fetches, `json.dumps`, time parsing and the store's per-statement verdicts
are parameters.

Where the code and its documentation disagree, the model follows the code:

- `get_existing_ids` returns an empty set when connecting or querying
  fails. It does not report an error.
- The session directory is one level: `<timestamp>[_<keyword>]` under the
  base directory. There is no per-platform level.

## Model

| member | source | states |
|---|---|---|
| Crawler.FilterNew | main.py:128-133 | Keeps each record whose `_id` is not yet seen and adds that id. The result is `None` exactly when some record has no usable (present and hashable) `_id`. On success, the seen set becomes the old one plus the page's ids, and every kept record comes from the page. |
| Crawler.FilterNewFresh | main.py:129-133 | The kept records' ids were not seen before and are pairwise different. Their ids are exactly the page's ids minus the seen ones. |
| Crawler.AppendDistinct | main.py:135-136 | Extending the collected list with records whose ids are fresh and pairwise different keeps all ids pairwise different. The id set of the result is the union of the two. |
| Crawler.CrawlLog | main.py:166-176 | The log row binds all eight `crawl_logs` columns. It carries the keyword, the three counters and the status. The error message is the text of the escaped exception, and NULL when there is none. |
| Crawler.Flush | main.py:143-147 | The pending batch becomes the last flushed batch and is then emptied. `success_count` grows by between 0 and the batch length, and success plus errors grow by exactly the batch length. Rows already stored stay unchanged. |
| Crawler.Page | main.py:118-157 | An empty page changes nothing. Otherwise the seen set becomes the one the dedup leaves, and the collected records grow by exactly the records the dedup keeps, in page order, or not at all when the dedup raises. The page adds one error exactly when one of its records has an unusable `_id`. |
| Crawler.PageCollects | main.py:128-138 | After a page, the collected records and the seen ids are those of the dedup fold `Collected` over the pages so far. |
| Crawler.PageFresh | main.py:129-138 | Each page keeps this invariant: collected ids are not pre-seeded, are pairwise different, and are all in the seen set. |
| Crawler.PageWithin | main.py:135-138 | Each page keeps this invariant: every collected record comes from the pages fetched so far. |
| Crawler.PageBatched | main.py:136-147 | Each page keeps this invariant: the flushed batches plus the pending batch are the collected records, every flushed batch is non-empty and reached `batch_size`, and the pending batch is below `batch_size`. |
| Crawler.PageKeeps | main.py:113-157 | A fetched page keeps the whole loop invariant. This includes the counter identity `error_count = flushed - success_count + failed pages`, that stored rows are never lost, and that `all_crawled_data` is the page-ordered concatenation of what the dedup kept from each visited page. |
| Crawler.CrawlPages | main.py:113-157 | Pages are fetched in order while the flag is up. The loop stops at the first page whose flag is down and never goes beyond `max_pages`. At the end the collected records are exactly the dedup fold over the visited pages, and the loop invariant holds. |
| Crawler.Finish | main.py:159-163 | The leftover flush makes the flushed batches exactly the collected records. It leaves earlier flushes as they were and appends the leftover batch only when it is non-empty. |
| Crawler.CrawlWeiboData | main.py:93-230 | For a whole run, the new records are exactly what the dedup kept from each visited page, concatenated in page order: their ids are distinct, were not seeded, and come from the visited pages. `total_crawled` equals their number. The batches concatenate to them, and only the last batch may be short. The counters satisfy `error_count = total - success + failed pages`. The status is `completed`, `interrupted` when the flag went down, or `error` when an exception escaped, and the result is false exactly then. Stored rows are kept. |
| Spider.FirstHitSpec | crawler/base_spider.py:83-87 | Retrying returns the first non-empty result. It is empty exactly when no attempt returned a non-empty list. |
| Spider.BackoffsSpec | crawler/base_spider.py:89-96 | A back-off (sleep and new User-Agent) follows exactly the attempts that raised and were not the last, in attempt order. |
| Spider.CrawlWithRetry | crawler/base_spider.py:81-99 | At most `max_retries` calls are made, and they stop at the first non-empty result, which is returned. Earlier calls all failed. An empty result means every attempt was used. The back-offs are the ones `BackoffsSpec` describes. |
| Spider.ValidateResponse | crawler/base_spider.py:107-123 | Valid exactly when the status is 200, the lowered URL has no `login`, and the body has no `登录` and no `验证码`. The lowered body must also have no `captcha`. |
| Spider.LowerKeepsOccurrence | crawler/base_spider.py:114-119 | A substring survives lower-casing, so the lowered checks see every spelling of the marker. |
| Spider.MarkersReject | crawler/base_spider.py:114-121 | A URL with `login` or a body with `captcha` is rejected, in any letter case. |
| Spider.CookieDomain | crawler/base_spider.py:77-79 | The domain is `.`, then the lowered platform name, then `.com`. |
| Spider.SaveRawData | crawler/base_spider.py:125-129 | Forwards exactly when a storage manager exists and the data is non-empty. It passes the lowered platform name and `<platform>_data` as the data type. |
| Spider.Statistics | crawler/base_spider.py:131-135 | Reports the platform name and `crawled_count` as the number of crawled ids. |
| Spider.KeepFresh | crawler/weibo_spider.py:236-244 | The parser dedup loop. Returned records are parsed candidates whose ids were not crawled before and are pairwise different. `crawled_ids` grows by exactly their ids, and every candidate's id ends up in it. |
| Spider.CrawledCountGrows | crawler/weibo_spider.py:239-241 | `crawled_ids` grows by exactly the number of records returned. |
| Dedup.KeepFirstsSpec | utils/data_processor.py:257-261 | First-occurrence dedup keeps an order-preserving subsequence. Every kept item has a key, the keys are pairwise different, and the kept keys are all the keys of the input. |
| Dedup.FirstIffUnseen | utils/data_processor.py:258-260 | An item is kept exactly when it has a key that no earlier item had. |
| DataProcessor.DeduplicateData | utils/data_processor.py:252-264 | Fails exactly when an `_id` is unhashable. Otherwise it keeps the first record of each truthy `_id`, in order, with pairwise-different ids, and drops records with a missing or empty `_id`. |
| DataProcessor.KeptIds | utils/data_processor.py:252-264 | Every truthy input id has a kept record with that id, and the kept list is a subsequence of the input. |
| DataProcessor.TopicGroups | utils/data_processor.py:123 | Every `#…#` group found is non-empty and free of `#`, and for Douyin also free of whitespace. |
| DataProcessor.TopicStep | utils/data_processor.py:123 | A scan at `#tag#` yields `tag` and continues after the closing `#`. |
| DataProcessor.StripNonEmpty | utils/data_processor.py:124 | Keeps only the stripped, non-empty groups. |
| DataProcessor.StripNonEmptyKeeps | utils/data_processor.py:124 | Groups that are already stripped and non-empty are all kept, unchanged. |
| DataProcessor.ExtractHashtags | utils/data_processor.py:120-124 | Every tag is non-empty, stripped and free of `#`. The Douyin variant also has no whitespace in a tag. |
| DataProcessor.HashtagsRoundTrip | utils/data_processor.py:120-124 | Writing tags as `#t1##t2#…` and extracting gives the same tags back. |
| DataProcessor.MentionGroups | utils/data_processor.py:132 | Every `@name` group is a non-empty run of characters that are not whitespace and not `@`. |
| DataProcessor.MentionStep | utils/data_processor.py:132 | A scan at `@name ` yields `name` and continues after it. |
| DataProcessor.ExtractMentions | utils/data_processor.py:129-133 | Every mention is a non-empty run of characters that are not whitespace and not `@`. |
| DataProcessor.MentionsRoundTrip | utils/data_processor.py:129-133 | Writing names as `@n1 @n2 …` and extracting gives the same names back. |
| DataProcessor.StripTags | utils/data_processor.py:106 | The result has no `<…>` tag left. Text with no `<` is unchanged, and a leading character that is not `<` is kept. |
| DataProcessor.DropControls | utils/data_processor.py:112 | The listed control characters are gone. Text without them is unchanged. |
| DataProcessor.CleanContent | utils/data_processor.py:99-114 | Empty text gives `""`. The result is no longer than the input, has no control characters, has no whitespace other than the plain space, and has no space at either end. Two spaces can stay side by side: a control character dropped between two spaces leaves both. |
| DataProcessor.CleanContentKeepsClean | utils/data_processor.py:99-114 | Text that is `IsClean` is a fixed point: no `<`, no control characters, no whitespace but single spaces, none at either end. So cleaning twice equals cleaning once whenever the first result is clean. That holds for most results, but not for one where a dropped control character left two spaces together. |
| DataProcessor.ResetFields | utils/data_processor.py:193-203 | Each listed field whose value is not an int becomes 0. No other field changes and no key is added or removed. |
| DataProcessor.ValidateWeibo | utils/data_processor.py:182-214 | False and no change when `_id`, `content` or `keyword` is missing or falsy. Otherwise the counters are reset, and the result is true exactly when `created_at` is falsy or a datetime. |
| DataProcessor.ValidateWeiboIdempotent | utils/data_processor.py:182-210 | Validating twice gives the same verdict and the same record as validating once. |
| DataProcessor.ResetFieldsFixed | utils/data_processor.py:193-203 | A record whose listed fields already hold ints is left unchanged. |
| DataProcessor.DouyinResets | utils/data_processor.py:277-284 | Non-int Douyin counters and a non-numeric `video_duration` become 0. The keys stay the same. |
| DataProcessor.ValidateDouyin | utils/data_processor.py:266-295 | The same required fields and `created_at` rule as Weibo, with the Douyin resets. |
| DataProcessor.ValidatePlatform | utils/data_processor.py:402-407 | Dispatches on the lowered platform name: `douyin` gets the Douyin rules, anything else the Weibo rules. |
| DataProcessor.CoerceIntRendered | utils/data_processor.py:236 | `int()` of an int, or of its decimal text padded with whitespace, gives that int back. |
| DataProcessor.MapPresent | utils/data_processor.py:233-244 | Rewrites exactly the listed fields that are present. Every other field is unchanged. |
| DataProcessor.StripField | utils/data_processor.py:224-229 | Touches only the one named field. |
| DataProcessor.NormalizeContent | utils/data_processor.py:220-221 | A non-empty string `content` is replaced by its cleaned form. Nothing else changes. |
| DataProcessor.NormalizeNames | utils/data_processor.py:224-229 | Strips a truthy `user_nick_name` and `source`. It reports failure exactly when one of them is truthy but not a string. |
| DataProcessor.CoerceFields | utils/data_processor.py:231-244 | Present counters become `int(v)`, or 0 when the value is None or unreadable. Present flags become `bool(v)`. Nothing else changes. |
| DataProcessor.CoerceIfStripped | utils/data_processor.py:224-244 | Coerces only when name stripping succeeded. After a failure the record is returned as it was. |
| DataProcessor.NormalizeWith | utils/data_processor.py:216-250 | Normalisation keeps the set and order of keys. |
| DataProcessor.NormalizeWeibo | utils/data_processor.py:216-250 | Normalisation keeps the set and order of keys. |
| DataProcessor.NormalizeKeepsOtherFields | utils/data_processor.py:216-246 | Fields other than content, names, counters and flags are untouched. |
| DataProcessor.NormalizeCleansContent | utils/data_processor.py:220-221 | Non-empty string content ends up cleaned, whatever happens to the other fields. |
| DataProcessor.NormalizeWeiboCleansContent | utils/data_processor.py:220-221 | With `clean_content`, non-empty string content ends up as `CleanContent` of it. |
| DataProcessor.NormalizeCoerces | utils/data_processor.py:231-244 | When the names strip cleanly, every present counter is coerced to int and every present flag to bool. |
| DataProcessor.NormalizeStopsAtBadName | utils/data_processor.py:224-250 | A truthy non-string name raises, and the counters and flags are then left as they were. |
| DataProcessor.NormalizedNeedsNoReset | utils/data_processor.py:193-244 | After a successful normalisation, validation resets nothing. |
| DataProcessor.UrlParsePlain | utils/data_processor.py:86 | `urlparse` of `scheme://host/path` gives the lowered scheme, the host and `/path`. |
| DataProcessor.ImageUrlVerdict | utils/data_processor.py:83-94 | Such a URL is a valid image URL exactly when its lowered path ends in one of the six extensions. |
| DataProcessor.NoColonNotImage | utils/data_processor.py:86-88 | A URL with no `:` has no scheme and is never valid. |
| DataProcessor.ExtractPicUrlsWith | utils/data_processor.py:72-77 | Keeps the first occurrence of each valid candidate, in order. Each kept URL is valid and appears once. Every valid candidate is kept. |
| DataProcessor.ExtractPicUrls | utils/data_processor.py:62-81 | Scans the content with the four patterns, concatenating their `re.findall` results pattern by pattern (`PicPatterns.PicCandidates`). The result is the first-occurrence dedup of those candidates under `_is_valid_image_url`, in candidate order. Each kept URL is valid, appears once, occurs in the content and is matched in full by one of the patterns. Every valid candidate is kept. The `except` branch cannot be reached. |
| PicPatterns.LastDot | utils/data_processor.py:27 | The greedy body backtracks to the last `.` of its run that an extension follows. No such dot means no match. |
| PicPatterns.ExtensionsExclusive | utils/data_processor.py:27 | No two of `jpg`, `jpeg`, `png`, `gif`, `webp`, `bmp` match at the same place, so the order the alternatives are tried in cannot change a match. |
| PicPatterns.MatchAtLongest | utils/data_processor.py:26-31 | The match the engine finds at a position is matched in full by the pattern, read as a set of whole strings (`Matches`). No longer match starts there. The engine finds nothing only when no match starts there. |
| PicPatterns.SpansAreMatches | utils/data_processor.py:68 | Every span `re.findall` reports is the engine's match at its start. |
| PicPatterns.SpansInOrder | utils/data_processor.py:68 | The reported spans do not overlap and come in text order. |
| PicPatterns.SpansCoverMatches | utils/data_processor.py:68 | Every position where the engine finds a match starts a reported span or lies inside one. |
| PicPatterns.FindAllMatches | utils/data_processor.py:68 | `re.findall` returns the pieces of the text at its spans. Each piece is matched in full and is the longest match at its start. The spans are in text order without overlap. Every position where some full match starts is covered by a span. |
| PicPatterns.FindAllPieces | utils/data_processor.py:68 | Every string `re.findall` returns occurs in the text and is matched in full by the pattern. |
| PicPatterns.PicCandidatesSound | utils/data_processor.py:67-69 | The candidate list is the matches of the generic image-file pattern, then those of `wx`, `tva` and `ww`. Each candidate occurs in the content and one of the four patterns matches it in full. |
| DataProcessor.GeoDict | utils/data_processor.py:150-157 | The flattened geo dict has exactly the six geo keys, in order. |
| DataProcessor.ProcessGeoData | utils/data_processor.py:148-180 | A falsy or non-dict input gives all-None fields. Otherwise `geo_type` is the input's `type`. The coordinates are None or the dump of a truthy `coordinates`. The detail fields are set only when `detail` is a dict. |
| DataProcessor.GeoAlwaysSixKeys | utils/data_processor.py:148-176 | The result always has the six geo keys. They are all None for a falsy input. |
| Helpers.MaskUnsafe | utils/helpers.py:244 | Each of `<>:"/\|?*` becomes `_`. Every other character stays in place. |
| Helpers.ReplaceUnsafe | utils/helpers.py:244-245 | The result is file-safe and no longer than the input. It is non-empty when the input is. |
| Helpers.ReplaceUnsafeKeepsSafe | utils/helpers.py:244-245 | A file-safe string is unchanged. |
| Helpers.CreateSafeFilename | utils/helpers.py:238-251 | `untitled` for empty input. Otherwise it is a non-empty, file-safe prefix, at most `max_length` long, of the substituted text. |
| Helpers.CreateSafeFilenameFixedPoint | utils/helpers.py:238-251 | Applying the helper to its own output changes nothing. |
| Helpers.TruncateText | utils/helpers.py:209-217 | Text within the bound is returned as is. Longer text becomes a prefix of it plus `...`, exactly `max_length` long when `max_length >= 3`. |
| Helpers.WeiboIdLanguage | utils/helpers.py:169-176 | Accepted exactly for 10 to 20 ASCII letters and digits, optionally followed by one newline, which Python's `$` admits. |
| Helpers.KeepNumberChars | utils/helpers.py:100 | Keeps only digits, unit characters and `.`. |
| Helpers.UnitOf | utils/helpers.py:106-130 | The chosen unit class occurs in the text, and no class of higher priority (万/w/W, then 千/k/K, then 百, then 十) does. There is none exactly when no unit character is present. |
| Helpers.FormatNumberUnitPriority | utils/helpers.py:105-135 | When a unit class is present and no class of higher priority is, `format_number` removes that class's characters and scales the rest by its multiplier, whatever lower classes also appear. |
| Helpers.RemoveUnit | utils/helpers.py:107-131 | No character of the chosen class remains. |
| Helpers.ScaleNumber | utils/helpers.py:108-142 | A digit string whose scaled value stays below 2^53 reads exactly as its value times the multiplier. A larger one, or a decimal with a point, goes through the floating-point product `floatScale`. Unreadable text reads as 0. |
| Helpers.FormatNumberPlain | utils/helpers.py:137-142 | A whole number below 2^53 with no unit reads back as itself. |
| Helpers.FormatNumberWithUnit | utils/helpers.py:105-135 | A whole number followed by one unit character reads back as the number times that unit, when the product stays below 2^53. |
| Helpers.FormatNumberMixedUnits | utils/helpers.py:105-111 | `n千万` reads as 0: only `万` is removed, and `float()` rejects the `千` left behind. |
| Helpers.SafeBool | utils/helpers.py:196-207 | `None` gives the default and a bool gives itself. `true`, `yes`, `on` in any of their usual capitalisations and `1` give true. `false`, `no`, `off`, `0`, `2` and `''` give false. A string read as true has one to four characters. An int is true exactly when non-zero, and a list exactly when non-empty. |
| Helpers.SafeBoolReadsDisplayedBool | utils/helpers.py:196-207 | `safe_bool(str(b))` is `b`. |
| Helpers.AfterLastDot | utils/helpers.py:234 | The text after the last `.` has no `.` and is a proper suffix. |
| Helpers.GetFileExtension | utils/helpers.py:231-236 | Has no `.` in it, and is `''` for a name without `.`. |
| Helpers.FileExtensionRoundTrip | utils/helpers.py:231-236 | The extension of `base.ext` is the lowered `ext`, whatever `base` is. |
| Helpers.ElapsedOf | utils/helpers.py:259-272 | Picks days and hours exactly when a day or more has passed, otherwise hours and minutes, then minutes and seconds, then seconds. Each part is the matching quotient or remainder of the elapsed seconds. |
| Storage.SessionTimestamp | utils/data_storage_manager.py:31 | The timestamp has the `%Y%m%d_%H%M%S` shape. |
| Storage.TimestampRoundTrip | utils/data_storage_manager.py:31 | Reading a timestamp back gives the moment it was made from. |
| Storage.CleanFilename | utils/data_storage_manager.py:227-233 | A file-safe prefix of the substituted keyword, at most 50 characters, and all of it when that fits. |
| Storage.SessionNameStartsWithTimestamp | utils/data_storage_manager.py:34-39 | A session name is the timestamp, followed by `_` and the cleaned keyword when there is one. |
| Storage.SessionNameRecognised | utils/data_storage_manager.py:235-240 | Every name `create_session_directory` makes passes `_is_session_directory`. |
| Storage.TimestampOfShapedName | utils/data_storage_manager.py:256 | For a name that starts with a `%Y%m%d_%H%M%S` timestamp followed by `_` or by nothing, the derived `timestamp` is those first 15 characters. |
| Storage.TimestampOfSessionName | utils/data_storage_manager.py:256 | The derived timestamp of a session name is the timestamp it was made with. |
| Storage.Page03 | utils/data_storage_manager.py:67 | `{page:03d}` has at least 3 digits and reads back as the page. A negative page starts with `-`. |
| Storage.RawFilename | utils/data_storage_manager.py:66-70 | With a page, the name is `<data_type>_raw_page_<digits>.json`. |
| Storage.RawPageNumberRoundTrip | utils/data_storage_manager.py:67 | The digits in a raw-page file name read back as the page number. |
| Storage.CreateSessionDirectory | utils/data_storage_manager.py:27-56 | Sets the session timestamp and directory `<base>/<session name>` and plans the three subdirectories. A failed mkdir returns None. |
| Storage.SaveRawData | utils/data_storage_manager.py:58-83 | Without a session it returns false and writes nothing. Otherwise it writes `<session>/raw_data/<raw file name>` and succeeds exactly when the write does. |
| Storage.SaveStructuredData | utils/data_storage_manager.py:85-107 | Without a session it returns false and writes nothing. Otherwise it writes under `structured_data`, to the given name or the default one. |
| Storage.SaveAnalysisReport | utils/data_storage_manager.py:109-139 | Without a session it returns false and writes nothing. With an empty report, even after the fallback generation, it writes nothing. Otherwise it writes `analysis_report_<timestamp>.json`. |
| Storage.SessionFields | utils/data_storage_manager.py:149-158 | The four session fields hold the session id, directory, creation time and layout description. |
| Storage.AugmentMetadata | utils/data_storage_manager.py:149-158 | The update sets the four session fields and keeps every other key of the caller's metadata. |
| Storage.SaveSessionMetadata | utils/data_storage_manager.py:141-171 | Without a session it returns false and leaves the metadata as it was. Otherwise it writes `session_metadata.json` with `session_id` set to the session timestamp. |
| Storage.NoSessionNoWrites | utils/data_storage_manager.py:58-146 | Every `save_*` returns false and writes nothing before a session exists. |
| Storage.SavesStayInSession | utils/data_storage_manager.py:42-73 | After a session is created, raw files are written inside that session's `raw_data` directory. |
| Storage.SessionInfo | utils/data_storage_manager.py:242-261 | Without a metadata file, the info's `timestamp` is derived from the name. With one, it is the file's dict. A read error gives None. |
| Storage.CollectSessions | utils/data_storage_manager.py:212-216 | At most one entry per directory, and only non-empty infos. |
| Storage.InsertDesc | utils/data_storage_manager.py:219 | Inserting into a list sorted descending by `timestamp` keys of one kind keeps it sorted and adds exactly that element. |
| Storage.InsertDescStable | utils/data_storage_manager.py:219 | The inserted entry lands ahead of the entries with an equal key, and the entries with any other key keep their order. |
| Storage.SortDesc | utils/data_storage_manager.py:219 | On keys of one kind (all strings, or all numbers) the result is sorted descending, with a missing key read as `''`. It is a permutation of the input and is stable: the entries with any one key keep their input order. |
| Storage.ListAllSessions | utils/data_storage_manager.py:203-225 | Empty when the base directory is missing. Otherwise it is always a permutation of the collected infos, never a failure. When the timestamps are all strings (a missing one read as `''`) or all numbers, it is sorted descending and stable. A single session comes back as it is. |
| Database.Ensure | database/models.py:140-142 | The connection is there exactly when it already was or connecting succeeds. |
| Database.InsertWeibo | database/models.py:138-168 | Succeeds exactly when connected, every column is bound and the statement runs. A success leaves the row's `_id` stored. An existing row is never replaced (INSERT IGNORE). |
| Database.InsertIgnoreIdempotent | database/models.py:145-165 | Re-inserting a stored record changes nothing and still reports success. |
| Database.Accepted | database/models.py:179-182 | The count of successful inserts is at most the list length. |
| Database.InsertAll | database/models.py:179-183 | The loop returns the number of accepted records and keeps every earlier row. |
| Database.InsertAllStores | database/models.py:179-182 | Every record whose insert succeeded has its `_id` stored afterwards. |
| Database.BatchInsert | database/models.py:170-185 | Returns 0 for an empty list or a failed connection. Otherwise it returns the number of successful inserts, between 0 and the list length. It never removes or changes an existing row. |
| Database.ExistingIds | database/models.py:187-200 | Returns all stored `_id`s. It returns an empty set when connecting or the query fails. |
| Database.BatchThenSnapshot | database/models.py:179-200 | After a batch, the id snapshot holds every earlier id and every successfully inserted id. |
| Database.InsertCrawlLog | database/models.py:202-224 | Appends the log row exactly when connected, all columns are bound and the statement runs. The data table is untouched. |
| Database.CrawlLogAppendOnly | database/models.py:208-216 | Earlier log rows are never changed or removed. |
| WeiboSpider.ExtractCount | crawler/weibo_spider.py:468-477 | Text without digits gives 0. |
| WeiboSpider.ExtractCountOf | crawler/weibo_spider.py:472-474 | Gives the value of the first run of digits. |
| WeiboSpider.ActionCountsSpec | crawler/weibo_spider.py:317-331 | A counter is 0 when no link names it. Otherwise it is the count in the last link of its kind. A link with `转发` is a repost link, one with `评论` a comment link, and one with `赞` a like link, checked in that order. |
| WeiboSpider.WeiboUrlRoundTrip | crawler/weibo_spider.py:296-306 | The `/uid/mid` search on `https://weibo.com/uid/mid` finds that uid and mid again. |
| WeiboSpider.WeiboRecord | crawler/weibo_spider.py:336-364 | The record binds the 27 `weibo_data` columns in order, each to its value. |
| WeiboSpider.PicsJson | crawler/weibo_spider.py:352 | `pic_urls` is NULL exactly when there are no pictures. |
| WeiboSpider.ExtractWeiboFromCard | crawler/weibo_spider.py:285-368 | A record exists exactly when the card has a text paragraph and a `/uid/mid` link (and the picture dump succeeds). |
| WeiboSpider.WebCardRecord | crawler/weibo_spider.py:336-364 | A web record's ids, URL, counters, picture count and long-text flag follow the rules above. |
| WeiboSpider.WebParsed | crawler/weibo_spider.py:236-238 | Every card is parsed, in order. |
| WeiboSpider.ParseSearchResults | crawler/weibo_spider.py:236-244 | Records are parsed cards with pairwise-different ids that were not crawled before. `crawled_ids` grows by exactly their ids. |
| WeiboSpider.WebRecordFromCard | crawler/weibo_spider.py:236-241 | Every returned record is the extraction of one of the cards. |
| WeiboSpider.FirstMblog | crawler/weibo_spider.py:380-385 | The `mblog` of the first dict in `card_group` that has one, and None when there is none. |
| WeiboSpider.TopLevelMblogFirst | crawler/weibo_spider.py:377-378 | A top-level `mblog` takes precedence over `card_group`. |
| WeiboSpider.PicUrls | crawler/weibo_spider.py:429-432 | Falsy `pic_infos` gives no pictures. |
| WeiboSpider.ExtractWeiboFromMobileCard | crawler/weibo_spider.py:370-466 | A record exists only when an `mblog` was found and is a truthy dict. |
| WeiboSpider.MobileCardRecord | crawler/weibo_spider.py:434-461 | A mobile record's ids, user id, URL and keyword follow the rules above. |
| WeiboSpider.MobileCardPictures | crawler/weibo_spider.py:429-451 | `pic_num` equals the number of `pic_infos` entries. |
| WeiboSpider.DictPrefix | crawler/weibo_spider.py:261-263 | The loop gets through the leading dict cards. A non-dict card ends the parse. |
| WeiboSpider.MobileParsed | crawler/weibo_spider.py:261-267 | Only cards of type 9 or 11 are extracted. |
| WeiboSpider.ParseMobileResults | crawler/weibo_spider.py:253-283 | Records come from type 9 or 11 cards and have pairwise-different ids that were not crawled before. `crawled_ids` grows by exactly their ids. |
| WeiboSpider.Round | crawler/weibo_spider.py:483-497 | A non-empty primary result is returned. After an empty primary result, the fallback's result is returned, even when empty. The round raises exactly when the primary raises, or when the primary comes back empty and the fallback raises. |
| WeiboSpider.WeiboCrawlWithRetry | crawler/weibo_spider.py:479-507 | Retries only rounds that raised, at most `retry_times` times. It returns the first round that did not raise, or `[]`. |
| DouyinSpider.CookieDomainMatchesBase | crawler/douyin_spider.py:62-64 | The Douyin domain is what the base rule gives for `Douyin`. |
| DouyinSpider.SearchParams | crawler/douyin_spider.py:120-127 | `keyword` is passed unchanged and `count` is 20. `offset` is an int. |
| DouyinSpider.OffsetNamesPage | crawler/douyin_spider.py:126-127 | `offset` is `(page-1)*20`: a multiple of 20 that names the page, and 20 more than the previous page's offset. |
| DouyinSpider.Videos | crawler/douyin_spider.py:247-264 | Every dict found has both `aweme_id` and `desc`. |
| DouyinSpider.VideosFound | crawler/douyin_spider.py:247-264 | The walk finds something exactly when the tree holds such a dict, which it does not descend into. |
| DouyinSpider.VideosInDocumentOrder | crawler/douyin_spider.py:247-264 | The walk returns the dict at every position reachable without passing through a video, in document order and each position once. A position is a path of field or item indices. |
| DouyinSpider.VideosReachable | crawler/douyin_spider.py:247-264 | A value is among the videos found exactly when it is a video at such a position. |
| DouyinSpider.FirstOf | crawler/douyin_spider.py:281 | `[0]` works exactly on a non-empty list or string. |
| DouyinSpider.PositiveOf | crawler/douyin_spider.py:282 | `verification_type > 0` on an int. Comparing a string, None, list or dict raises. |
| DouyinSpider.Hashtags | crawler/douyin_spider.py:318-322 | Iterating succeeds exactly when every entry is a dict. There is then one hashtag per `type == 1` entry. |
| DouyinSpider.HashtagsInOrder | crawler/douyin_spider.py:318-322 | The hashtags list has one element per `type == 1` entry. The entry with `t` topic entries before it supplies element `t`, which is its `hashtag_name`, or `''` when that is missing. |
| DouyinSpider.TopicCountZero | crawler/douyin_spider.py:318-322 | There are no hashtags exactly when no entry has `type == 1`. |
| DouyinSpider.HashtagsColumn | crawler/douyin_spider.py:335 | The column is NULL exactly when there are no hashtags. |
| DouyinSpider.BuildRecord | crawler/douyin_spider.py:324-347 | The record has the 22 Douyin columns in order. `_id` and `aweme_id` are the video id, `url` is `https://www.douyin.com/video/` followed by the id as `Values.Display` renders it, and `platform` is `douyin`. |
| DouyinSpider.ParseContentItem | crawler/douyin_spider.py:266-351 | None unless the item is a dict with a truthy `aweme_id` and a truthy `desc`. |
| DouyinSpider.ParsedItemFields | crawler/douyin_spider.py:324-346 | A parsed record's id, URL, keyword and platform are as above. `user_verified` is `verification_type > 0`. |
| DouyinSpider.ParsedIdTruthy | crawler/douyin_spider.py:270-275 | A parsed record's `_id` is truthy. |
| DouyinSpider.ParsedItems | crawler/douyin_spider.py:194-198 | Only dict entries carrying `aweme_info` are parsed. |
| DouyinSpider.HashablePrefix | crawler/douyin_spider.py:199 | The loop stops at the first parsed record whose id is unhashable. |
| DouyinSpider.ParseSearchResponse | crawler/douyin_spider.py:179-216 | `[]` unless the JSON `status_code` is 0. Records have pairwise-different ids not crawled before, and `crawled_ids` grows by exactly their ids. |
| DouyinSpider.ResponseRecordsFromAwemeInfo | crawler/douyin_spider.py:194-201 | Every returned record is the parse of some entry's `aweme_info`. |
| Ranking.Filter | utils/data_analyzer.py:68-69 | A `WHERE` keeps exactly the matching rows, with their multiplicities. |
| Ranking.SortBy | utils/data_analyzer.py:151 | An `ORDER BY … DESC` result is sorted and is a permutation. |
| Ranking.InsertBy | utils/data_analyzer.py:151 | Inserting into a sorted list keeps it sorted and adds exactly that element. |
| Ranking.TopOf | utils/data_analyzer.py:151-152 | `ORDER BY … DESC LIMIT n` gives `min(n, size)` elements, sorted, drawn from the input. All of them are kept when the input fits. |
| Ranking.TopOfLeavesLower | utils/data_analyzer.py:151-152 | Every element left out ranks no higher than every element kept. |
| Ranking.FirstOccurrences | utils/data_analyzer.py:207 | `Counter` keys: each distinct key once, covering the input. |
| Ranking.GroupCounts | utils/data_analyzer.py:207 | `Counter`/`GROUP BY`: one group per distinct key, with count equal to its multiplicity, in first-seen order. |
| Ranking.FilterCount | utils/data_analyzer.py:202-203 | A filter keeps one element per position whose element satisfies the test. |
| Ranking.CountOfFiltered | utils/data_analyzer.py:201-203 | Any list that holds exactly what a filter keeps, as often, has that many elements. |
| Ranking.SortByStable | utils/data_analyzer.py:224 | The sort is stable: elements of equal key stay in input order. |
| Ranking.TopOfStable | utils/data_analyzer.py:224 | Among elements of one key, the top `n` keep the earliest ones in input order. |
| Ranking.TopCountsSound | utils/data_analyzer.py:224 | `most_common(n)` (`MostCommon`): at most `n` entries, most common first, each a key of the input with its true count, no key twice. A key left out means the list is full and the key occurs no more often than any listed one. Keys of equal count come in first-occurrence order. |
| Ranking.LeftOutRanksLower | utils/data_analyzer.py:151-152 | A group left out of the top `n` means the list is full, and the group ranks no higher than every group kept. |
| Ranking.SumOf | utils/data_analyzer.py:243-245 | `SUM` is NULL exactly when every value is NULL. |
| Ranking.SumAppend | utils/data_analyzer.py:243-245 | `SUM … or 0` adds up over concatenated row sets. |
| Ranking.MaxOf | utils/data_analyzer.py:246-248 | `MAX` is NULL exactly when every value is NULL. Otherwise it bounds every value and is one of them. |
| Ranking.MinOf | utils/data_analyzer.py:63 | `MIN` is NULL exactly when every value is NULL. Otherwise it is below every value and is one of them. |
| Analyzer.ColumnCounts | utils/data_analyzer.py:148-150 | A value's multiplicity in a column equals the number of the keyword's rows with that non-NULL value. |
| Analyzer.MatchingWitness | utils/data_analyzer.py:148-150 | A positive count has a row behind it. |
| Analyzer.GroupCountAt | utils/data_analyzer.py:148-150 | Each group's count is the number of matching rows, and is positive. |
| Analyzer.GroupHas | utils/data_analyzer.py:148-150 | A value has a group exactly when some row of the keyword carries it. |
| Analyzer.GroupBySound | utils/data_analyzer.py:148-150 | `GROUP BY`: group labels are distinct, counts are the matching-row counts, and the groups cover every value present. |
| Analyzer.TopGroupsCounts | utils/data_analyzer.py:148-152 | Top groups have distinct labels and true, positive counts. |
| Analyzer.TopGroupsLeaveLower | utils/data_analyzer.py:151-152 | A value left out of the top `n` means the list is full and the value counts no more than any listed one. |
| Analyzer.TopGroupsSound | utils/data_analyzer.py:148-152 | Top-`n` groups (`TopGroupsOf`): at most `n`, ordered by count descending, with true counts and distinct labels. A value left out means the list is full and the value counts no more rows than any listed one. |
| Analyzer.BasicStatistics | utils/data_analyzer.py:61-78 | `total_posts` is the keyword's row count. The earliest and latest are NULL exactly when no row has `created_at`. Otherwise earliest ≤ latest, they bound every time, and both are actual times. |
| Analyzer.Hour | utils/data_analyzer.py:108 | `HOUR()` is in 0..23. |
| Analyzer.DistributionSound | utils/data_analyzer.py:95-116 | A daily or hourly distribution (`DistributionOf`) is in ascending bucket order. Each count is the number of rows with non-NULL `created_at` in that bucket, and a bucket is listed exactly when it has rows. |
| Analyzer.TimeDistribution | utils/data_analyzer.py:90-131 | Both the daily and the hourly lists are distributions in that sense. Hourly buckets are hours 0..23. |
| Analyzer.TopUsersAre | utils/data_analyzer.py:167-175 | The user entries are the top nickname groups, one for one. |
| Analyzer.TopUsersCounted | utils/data_analyzer.py:142-175 | At most 10 users with distinct names. Each post count is that user's number of posts. |
| Analyzer.TopUsersOrdered | utils/data_analyzer.py:151 | Users are in descending post-count order. |
| Analyzer.TopUsersSound | utils/data_analyzer.py:142-175 | At most 10 users, in descending post-count order, with distinct names and true post counts. |
| Analyzer.FirstCount | utils/data_analyzer.py:178-179 | `next(...)` gives the count of the first group of the wanted truthiness, or 0 when there is none. |
| Analyzer.FirstCountIs | utils/data_analyzer.py:178-179 | With the groups of the two values of a truthiness, the result is one of their counts, chosen by which groups exist. |
| Analyzer.VerifiedDistributionSound | utils/data_analyzer.py:158-180 | `verified` counts the verified rows. `unverified` counts either the false rows or the NULL rows, whichever group comes first. It is the false rows when no row is NULL, and the NULL rows when no row is false. |
| Analyzer.SourceOf | utils/data_analyzer.py:206 | Only non-empty sources are counted. |
| Analyzer.Hashtags | utils/data_analyzer.py:210-214 | Every tag from the contents is non-empty and free of `#`. |
| Analyzer.ContentsCount | utils/data_analyzer.py:192-201 | The content query reads one row per table position holding a row of the keyword with non-NULL content. |
| Analyzer.LongTextCount | utils/data_analyzer.py:202 | The long-text count is the number of those positions whose row is long. |
| Analyzer.WithImageCount | utils/data_analyzer.py:203 | The with-image count is the number of those positions whose row has a positive `pic_num`. |
| Analyzer.ContentAnalysis | utils/data_analyzer.py:192-221 | `total_analyzed` is the number of the keyword's rows with non-NULL content. The long-text and with-image counts are the numbers of those rows that are long, or have a positive `pic_num`. Both are at most `total_analyzed`, so the ratios are well-defined. |
| Analyzer.TopHashtagsSound | utils/data_analyzer.py:210-228 | The top hashtags are `most_common(10)` of the tags found (`Ranking.MostCommon`): at most 10, descending by count, true counts, no tag twice, nothing left out counts more, ties in first-occurrence order. Each is a non-empty run without `#`. |
| Analyzer.TopSourcesSound | utils/data_analyzer.py:205-225 | The top sources are `most_common(10)` of the non-empty sources of those rows, in the same sense. Each source is non-empty, and each count is the number of such rows from it. |
| Analyzer.RankedPermutes | utils/data_analyzer.py:256-261 | Ordering by engagement is a permutation of the keyword's rows. |
| Analyzer.RankedOrder | utils/data_analyzer.py:258-261 | Rows with a total come first, in descending total. Rows whose total is NULL come last, as MySQL sorts NULL lowest. |
| Analyzer.TopEngagementKept | utils/data_analyzer.py:256-262 | The top posts are rows of the keyword. |
| Analyzer.TopEngagementOrdered | utils/data_analyzer.py:261 | The top posts are in descending total order. |
| Analyzer.TopEngagementSound | utils/data_analyzer.py:256-265 | The keyword's posts in descending engagement, ten of them or all when there are fewer. A post left out means the list is full, and a left-out post with a total ranks no higher than every listed post. |
| Analyzer.TopEngagementLeavesLower | utils/data_analyzer.py:256-265 | `LIMIT 10` keeps ten posts or all, and each post left out ranks no higher than those kept. |
| Analyzer.Preview | utils/data_analyzer.py:281 | There is a preview exactly when there is content, so NULL content stays NULL. |
| Analyzer.PreviewShape | utils/data_analyzer.py:281 | Content of up to 100 characters is kept. Longer content becomes its first 100 characters plus `...`. |
| Analyzer.EngagementAnalysis | utils/data_analyzer.py:236-289 | The top list has ten posts, or all of the keyword's posts when there are fewer. |
| Analyzer.EngagementAdditive | utils/data_analyzer.py:241-245 | Total reposts, comments and likes (NULL read as 0) add up over disjoint row sets. |
| Analyzer.MaxEngagementBounds | utils/data_analyzer.py:246-248 | Each reported maximum is at least every non-NULL value of the keyword's rows. |
| Analyzer.IpOf | utils/data_analyzer.py:305 | Empty IP locations are not counted. |
| Analyzer.GeoOf | utils/data_analyzer.py:317 | Empty geo titles are not counted. |
| Analyzer.GeographicAnalysis | utils/data_analyzer.py:297-334 | The IP and geo lists are each the top 20 groups of their column (`TopGroupsOf`): descending by count, true counts, distinct, and nothing left out counts more. Each label is non-empty. |
| Analyzer.Without | utils/data_analyzer.py:42-47 | A section that raised becomes `{}` and the others are unaffected. |
| Analyzer.SummaryReport | utils/data_analyzer.py:32-54 | `{}` exactly when no connection can be made. Otherwise the report has the keyword, `generated_at`, and the six sections, each present exactly when its query did not raise. |
| Analyzer.SectionsIndependent | utils/data_analyzer.py:39-48 | One failing section leaves the other five sections exactly as they would otherwise be. |
| Values.HashKey | main.py:130 | Set membership of an id: bools, ints and floats become numeric keys. Every other value is its own key. |
| Values.HashKeyNumEquals | main.py:130 | An id equals the integer `n` as Python compares it (`True == 1`, `1.0 == 1`) exactly when its key is the key of `n`. |
| Values.Set | utils/data_processor.py:194 | `d[k] = v` binds `k` to `v` and leaves every other key as it was. |
| Values.Update | utils/data_storage_manager.py:149-158 | `d.update(u)` reads a key from `u` when `u` has it, and from `d` otherwise. |
| Values.Trunc | utils/data_processor.py:236 | `int()` of a float truncates toward zero. |
| Values.ParseIntRendered | utils/data_processor.py:236 | `int(str(i))` is `i`. |
| Text.Lower | crawler/base_spider.py:79 | ASCII lower-casing: each character is mapped on its own, so the length is kept. |
| Text.Strip | utils/data_processor.py:124 | `strip()` gives a string with no whitespace at either end. |
| Text.StripStripped | utils/data_processor.py:124 | An already-stripped string is unchanged. |
| Text.CollapseSpaceRuns | utils/data_processor.py:109 | `re.sub(r'\s+', rep, s)`: the only whitespace left is `rep`, never twice in a row. Non-empty input stays non-empty, and its first character is kept or becomes `rep`. |
| Text.CollapseNoSpace | utils/data_processor.py:109 | Text without whitespace is unchanged. |
| Text.CollapseSingleSpaces | utils/data_processor.py:109 | Text with only single spaces is unchanged. |
| Text.PyPrefix | utils/helpers.py:217 | Python's `s[:n]`, including negative and oversized `n`. |
| Text.PaddedValue | utils/data_storage_manager.py:67 | A zero-padded number reads back as the number. |
| Text.StrLessTransitive | utils/data_storage_manager.py:219 | String order is transitive. |
| Text.StrLessTotal | utils/data_storage_manager.py:219 | String order is total. |

## Left out

- **HTTP, sessions, cookies, proxies and HTML.** `search_weibo`, `search_weibo_mobile` and `search_content` are oracles: a page fetch is an input. A web card is the fields BeautifulSoup would extract (text paragraph, `href`, name, action-link texts and picture URLs).
- **Known defects.** Callers pass four arguments to the storage manager's three-argument `save_raw_data`. The resulting TypeError is swallowed inside the search methods, which are not modelled. `unquote` is never imported in the Douyin HTML path, so that path always fails. Both lie outside the modelled functions.
- **Clocks, randomness and sleeps.** `datetime.now()`, `random_delay`, the back-off durations, User-Agent choice and the md5-based Douyin tokens are inputs or left out. Back-offs are recorded as the attempts after which they happen.
- **Floating point.** `AVG`, `round(…, 2)`, the percentage ratios, the video duration in seconds and `format_number` on fractional input are out. `Helpers.ScaleNumber` takes the float-to-int step for decimals as a parameter, and the content ratios are kept as integer numerators over the analysed count.
- **Time formatting and parsing.** `strftime`, `parse_weibo_time` and `DATE()` are parameters or left out. `Analyzer.Day` and `Analyzer.Hour` work on seconds since the epoch.
- **The SQL engine and its tie order.** Queries are pure functions over a sequence of rows. For equal counts, the model keeps groups in first-occurrence order (stable sort). MySQL leaves that order unspecified, and `Counter.most_common` agrees with the model.
- Analyzer.VerifiedDistributionSound: the order of the `GROUP BY user_verified` groups is unspecified in SQL. The model uses first occurrence, so the contract only says `unverified` is one of the two falsy counts, fixed when only one of them is present.
- **JSON encoding.** `json.dumps`, `json.load` and `DecimalEncoder` are parameters (`dumps`), and the written file contents are not modelled. Only paths, names and success flags are.
- **Logging** is left out.
- **Signals.** `_signal_handler` is modelled as the per-page `running` flag. `Crawler.Lowers` states that the flag never rises again.
- Crawler.CrawlWeiboData: an escaping exception is modelled only at the end of the run. It turns the status into `error`, and the run log row is written once. The source can also raise from the logging helpers after the first log row, which would write a second row. The file saves, the report and the session metadata after the loop are separate modelled operations (`Storage`, `Analyzer`) and are not chained into the run.
- Crawler.CrawlWeiboData: `existing_ids` is given as the set of hash keys of the stored ids. Converting `Database.ExistingIds` into it is not part of the run.
- `crawl_weibo_data`'s defaulting of `max_pages` from config, and the CLI and scripts that call it, are left out. `batch_size` and `retry_times` are parameters.
- **Rows for the report.** The analyzer reads `Analyzer.Row`, the columns the queries use. The conversion from stored dicts to rows is not modelled.
- `process_douyin_video_info`, `normalize_douyin_data`, `extract_douyin_mentions`, `extract_urls`, `_extract_source`, `clean_text`, `safe_int`, `validate_url`, `extract_domain`, `format_file_size`, `get_session_summary`, `cleanup_old_sessions` and `get_crawl_statistics` are outside the modelled core.
- Text.Lower: only ASCII letters are lowered, one character for one. Python's `str.lower` lowers every cased letter and can lengthen a string (`'İ'` becomes two characters). The checks for `login`, `captcha`, `douyin` and the image extensions give the same answers either way. The only non-ASCII characters that lower to ASCII letters are the Kelvin sign, which gives `k`, and `İ`, which gives `i` followed by a combining dot. None of those needles contains `k` or ends in `i`.
- Helpers.GetFileExtension: lowers ASCII letters only. `a.É` gives `É`, where Python gives `é`.
- Helpers.FileExtensionRoundTrip: holds with ASCII lowering only. With a non-ASCII capital in the extension, Python's result differs.
- Helpers.ScaleNumber: a digit string scales exactly only while the product stays below 2^53. Larger ones and decimals go through the `floatScale` parameter, which stands for the double rounding and for the overflow that `format_number` turns into 0.
- **Unicode digits.** `Text.IsDigit` is the ASCII digits. Python's `\d`, `int()` and `float()` accept every Unicode decimal digit, such as the full-width `１２`, and `int()` also accepts `_` between digits. The members below differ from Python on such text.
- DataProcessor.CoerceFields: `int()` of a counter string written with non-ASCII decimal digits (`'１２'`) or with `_` separators (`'1_000'`) reads as 0 in the model, where Python reads the number.
- Helpers.KeepNumberChars: keeps only the ASCII digits. `[^\d万千百十kKwW.]` also keeps the other Unicode decimal digits, which `float()` then reads.
- PicPatterns.MatchAtLongest: the `\d+` after `wx`, `tva` or `ww` takes ASCII digits only, in both the engine model and `Matches`. Python also takes the other decimal digits, so `http://wx１.sinaimg.cn/a` is a candidate in Python and not in the model.
- DataProcessor.ExtractPicUrls: the same `\d+` gap for Sina hosts written with non-ASCII digits.
- WeiboSpider.ExtractCount: `\d+` matches any run of Unicode decimal digits, so `转发 １２` gives 12 in Python and 0 in the model.
- WeiboSpider.ExtractCountOf: holds for ASCII digits. A non-ASCII decimal digit in the prefix would be the first match in Python.
- WeiboSpider.ExtractWeiboFromCard: the `\d+` uid of the `/uid/mid` link is ASCII digits only. A uid written in other decimal digits matches in Python and not in the model.
- Storage.IsSessionDirectory: `^\d{8}_\d{6}` also accepts non-ASCII digits in Python. The names `create_session_directory` makes are ASCII, so `Storage.SessionNameRecognised` is unaffected.
- **MySQL collation.** The source creates the database and its tables with `utf8mb4_unicode_ci` and declares `_id VARCHAR(50) UNIQUE`. MySQL therefore compares `_id`, `keyword = %s`, every string `GROUP BY` and `!= ''` without regard to case or accents and ignoring trailing spaces. It stores ids as strings and cuts them at 50 characters. The model compares exact values, and the members below promise exact-value facts.
- Database.InsertWeibo: a row is keyed by the exact `_id` value. MySQL ignores an id that collates equal to a stored one (`Nk3xA` then `nk3xa`, or `5` then `"5"`), yet the call still reports success. It also cuts an id over 50 characters.
- Database.InsertAllStores: "stored" means the exact id value is a key. Under the collation, a variant id reports success without being stored as written.
- Database.ExistingIds: returns the stored id values as given, not the strings MySQL returns, which are rendered and cut at 50 characters.
- Database.BatchThenSnapshot: holds for exact ids. Under the collation, a successfully inserted variant id need not be in the snapshot.
- Analyzer.GroupCountAt: counts the rows whose keyword and value are exactly equal. MySQL merges case, accent and trailing-space variants.
- Analyzer.GroupHas: under the collation a case variant has no group label of its own. The model gives it one.
- Analyzer.GroupBySound: `WHERE keyword = %s` and `GROUP BY` use exact equality.
- Analyzer.TopGroupsCounts: the counts are exact-equality counts.
- Analyzer.TopGroupsSound: labels and counts use exact equality.
- Analyzer.TopUsersCounted: nickname groups use exact equality, so `Alice` and `alice ` are two users here and one in MySQL.
- Analyzer.TopUsersSound: the same nickname-collation gap.
- Analyzer.IpOf: `ip_location != ''` under PAD SPACE also excludes all-space values. The model keeps them.
- Analyzer.GeoOf: the same PAD SPACE gap for `geo_detail_title`.
- Analyzer.GeographicAnalysis: `GROUP BY` and `!= ''` use exact equality.
- Values.Display: renders floats, datetimes, lists and dicts as `<object>`, where Python's `str()` gives their text (such as `1.5`). It is exact for the strings, ints, bools and None that ids are in practice.
- DouyinSpider.BuildRecord: the `url` uses `Display`, so for a float, list or dict `aweme_id` it differs from Python's f-string.
- DouyinSpider.ParsedItemFields: its URL clause has the same `Display` gap.
- WeiboSpider.MobileCardRecord: `user_id` and `url` use `Display`, so for a float, list or dict user id they differ from `str(user.get('id', ''))`.
- Values.Lookup: a dict is a sequence of fields, and a lookup sees the first binding. Python dicts never hold a key twice, but `json.loads` keeps the last of duplicate keys. So a response such as `{"status_code":1,"status_code":0}` is accepted by `parse_search_response` and rejected by `DouyinSpider.ParseSearchResponse`.
- DouyinSpider.Videos: walks every binding of a dict. For a JSON object with a duplicate key, `json.loads` keeps only the last value, so Python's `values()` never reaches a video under an overwritten key, and the model does.
- DouyinSpider.VideosInDocumentOrder: positions index every binding, so it has the same duplicate-key gap.
- DouyinSpider.VideosReachable: the same duplicate-key gap.
- WeiboSpider.PicUrls: walks every binding of `pic_infos`. When the JSON object has a duplicate key, `json.loads` keeps only the last value, so Python's `values()` yields one picture for that key and the model one per binding.
- WeiboSpider.PicList: the same duplicate-key gap, for the picture list it builds.
- WeiboSpider.MobileCardPictures: `pic_num` counts every binding of `pic_infos`, where Python counts the distinct keys.
- Storage.ListAllSessions: when the timestamps are not mutually comparable, Python's sort raises midway and leaves the list partly sorted. The model returns the listing order there, and its contract promises only a permutation. Timestamps that are all lists compare in Python but count as incomparable here.
- Spider.Statistics: `get_statistics` also returns `session_cookies` and `headers`, which belong to the HTTP session the model leaves out.
- **Python version.** The repository pins no Python version. The model follows Python 3.10.
- DataProcessor.CoerceIntRendered: from Python 3.11, `int()` refuses a decimal string of more than 4300 digits, so `normalize_data` stores 0 where the model reads the number.
- Values.ParseIntRendered: from Python 3.11, `str(i)` itself raises for an int of more than 4300 digits.
- DataProcessor.CoerceFields: the same 4300-digit limit applies from Python 3.11.
- DataProcessor.UrlParse: raises only on unbalanced brackets, as Python 3.10 does. From Python 3.11.4, `urlparse` also raises for a bracketed host that is not an IPv6 or IPvFuture address, such as `http://[abc]/x.jpg`, and `_is_valid_image_url` then answers False where the model accepts. The NFKC check `urlsplit` makes on a non-ASCII host is not modelled either: Python raises when normalising the host produces `/`, `?`, `#`, `@` or `:`.
- DataProcessor.UrlParsePlain: a host with a character such as the full-width `＃`, whose NFKC form is `#`, makes Python raise. The model parses it.
- DataProcessor.ImageUrlVerdict: the same NFKC gap. Python answers False for such a host.

=== FILE: analyzer.dfy ===
/** The summary report of `WeiboDataAnalyzer`: six sections, each the
    result of SQL queries over the `weibo_data` rows of one keyword. The
    table is a sequence of rows and every query a pure function of it; a
    section whose query raises is an input (`fails`). Averages and
    percentages are floating point and are kept as the integers they are
    computed from. */
module Analyzer {
  import opened Wrappers
  import DataProcessor
  import opened Ranking

  /** The columns of a `weibo_data` row that the report reads; `None` is
      SQL NULL. `createdAt` is in seconds since the epoch. */
  datatype Row = Row(keyword: string, nickName: Option<string>, reposts: Option<int>, comments: Option<int>,
                     likes: Option<int>, verified: Option<bool>, createdAt: Option<int>,
                     content: Option<string>, picNum: Option<int>, isLongText: Option<bool>,
                     source: Option<string>, ipLocation: Option<string>, geoTitle: Option<string>)

  /** `WHERE keyword = %s` */
  function OfKeyword(rows: seq<Row>, keyword: string): seq<Row> {
    Filter(rows, (row: Row) => row.keyword == keyword)
  }

  // ---------------------------------------------------------------------
  // Columns and GROUP BY

  /** The values a column takes on the keyword's rows, in table order. A
      column is `None` on the rows the query's WHERE clause excludes (a
      NULL, an empty string). */
  function Column<T>(rows: seq<Row>, keyword: string, col: Row -> Option<T>): seq<T>
    decreases |rows|
  {
    if |rows| == 0 then []
    else (if rows[0].keyword == keyword && col(rows[0]).Some? then [col(rows[0]).value] else [])
         + Column(rows[1..], keyword, col)
  }

  /** `SELECT * ... WHERE keyword = %s AND col = v` */
  function Where<T(==)>(rows: seq<Row>, keyword: string, col: Row -> Option<T>, v: T): seq<Row> {
    Filter(rows, (row: Row) => row.keyword == keyword && col(row) == Some(v))
  }

  /** `SELECT COUNT(*) ... WHERE keyword = %s AND col = v` */
  function Matching<T(==)>(rows: seq<Row>, keyword: string, col: Row -> Option<T>, v: T): nat {
    |Where(rows, keyword, col, v)|
  }

  /** A value occurs in the column as often as there are rows matching it. */
  lemma {:induction false} ColumnCounts<T>(rows: seq<Row>, keyword: string, col: Row -> Option<T>, v: T)
    ensures multiset(Column(rows, keyword, col))[v] == Matching(rows, keyword, col, v)
    decreases |rows|
  {
    if |rows| > 0 {
      ColumnCounts(rows[1..], keyword, col, v);
    }
  }

  /** A value with matching rows is taken by one of the keyword's rows. */
  lemma MatchingWitness<T>(rows: seq<Row>, keyword: string, col: Row -> Option<T>, v: T)
    requires Matching(rows, keyword, col, v) > 0
    ensures exists i :: 0 <= i < |rows| && rows[i].keyword == keyword && col(rows[i]) == Some(v)
  {
    var w := Where(rows, keyword, col, v);
    assert w[0] in multiset(w);
    assert w[0] in rows;
  }

  /** `GROUP BY col` with `COUNT(*)`, groups in order of first occurrence. */
  function GroupBy<T(==,!new)>(rows: seq<Row>, keyword: string, col: Row -> Option<T>): seq<Group<T>> {
    GroupCounts(Column(rows, keyword, col))
  }

  /** Each group counts the rows matching its value, and there are some. */
  lemma GroupCountAt<T(!new)>(rows: seq<Row>, keyword: string, col: Row -> Option<T>, i: int)
    requires 0 <= i < |GroupBy(rows, keyword, col)|
    ensures var g := GroupBy(rows, keyword, col); g[i].1 == Matching(rows, keyword, col, g[i].0) > 0
  {
    ColumnCounts(rows, keyword, col, GroupBy(rows, keyword, col)[i].0);
  }

  /** A value has a group exactly when some row matches it. */
  lemma GroupHas<T(!new)>(rows: seq<Row>, keyword: string, col: Row -> Option<T>, v: T)
    ensures Matching(rows, keyword, col, v) > 0 <==> v in Labels(GroupBy(rows, keyword, col))
  {
    ColumnCounts(rows, keyword, col, v);
  }

  /** One group per value that has matching rows, counting them. */
  lemma GroupBySound<T(!new)>(rows: seq<Row>, keyword: string, col: Row -> Option<T>)
    ensures var g := GroupBy(rows, keyword, col);
      && (forall i :: 0 <= i < |g| ==> g[i].1 == Matching(rows, keyword, col, g[i].0) > 0)
      && (forall i, j :: 0 <= i < j < |g| ==> g[i].0 != g[j].0)
      && (forall v :: Matching(rows, keyword, col, v) > 0 <==> v in Labels(g))
  {
    var g := GroupBy(rows, keyword, col);
    forall i | 0 <= i < |g| ensures g[i].1 == Matching(rows, keyword, col, g[i].0) > 0 {
      GroupCountAt(rows, keyword, col, i);
    }
    forall v ensures Matching(rows, keyword, col, v) > 0 <==> v in Labels(g) {
      GroupHas(rows, keyword, col, v);
    }
  }

  /** `GROUP BY col ORDER BY count DESC LIMIT n`. */
  function TopGroups<T(==,!new)>(rows: seq<Row>, keyword: string, col: Row -> Option<T>, n: nat): seq<Group<T>> {
    TopOf(GroupBy(rows, keyword, col), Count, n)
  }

  /** What `GROUP BY col ORDER BY count DESC LIMIT n` promises: at most
      `n` groups, largest first, each counting its matching rows, no value
      twice; a value left out has a full list ahead of it, each counting no
      fewer rows. */
  ghost predicate TopGroupsOf<T(!new)>(r: seq<Group<T>>, rows: seq<Row>, keyword: string, col: Row -> Option<T>, n: nat) {
    && |r| <= n
    && SortedBy(r, Count)
    && (forall i :: 0 <= i < |r| ==> r[i].1 == Matching(rows, keyword, col, r[i].0) > 0)
    && (forall i, j :: 0 <= i < j < |r| ==> r[i].0 != r[j].0)
    && (forall v :: Matching(rows, keyword, col, v) > 0 && v !in Labels(r) ==>
          |r| == n && forall i :: 0 <= i < |r| ==> Matching(rows, keyword, col, v) <= r[i].1)
  }

  lemma TopGroupsSound<T(!new)>(rows: seq<Row>, keyword: string, col: Row -> Option<T>, n: nat)
    ensures TopGroupsOf(TopGroups(rows, keyword, col, n), rows, keyword, col, n)
  {
    TopGroupsCounts(rows, keyword, col, n);
    TopGroupsLeaveLower(rows, keyword, col, n);
  }

  lemma TopGroupsCounts<T(!new)>(rows: seq<Row>, keyword: string, col: Row -> Option<T>, n: nat)
    ensures var r := TopGroups(rows, keyword, col, n);
      && (forall i :: 0 <= i < |r| ==> r[i].1 == Matching(rows, keyword, col, r[i].0) > 0)
      && (forall i, j :: 0 <= i < j < |r| ==> r[i].0 != r[j].0)
  {
    var g := GroupBy(rows, keyword, col);
    var r := TopGroups(rows, keyword, col, n);
    DistinctLabelsSub(g, r);
    forall i | 0 <= i < |r| ensures r[i].1 == Matching(rows, keyword, col, r[i].0) > 0 {
      GroupsFrom(g, r, i);
      var k :| 0 <= k < |g| && g[k] == r[i];
      GroupCountAt(rows, keyword, col, k);
    }
  }

  lemma TopGroupsLeaveLower<T(!new)>(rows: seq<Row>, keyword: string, col: Row -> Option<T>, n: nat)
    ensures var r := TopGroups(rows, keyword, col, n);
      forall v :: Matching(rows, keyword, col, v) > 0 && v !in Labels(r) ==>
        |r| == n && forall i :: 0 <= i < |r| ==> Matching(rows, keyword, col, v) <= r[i].1
  {
    var g := GroupBy(rows, keyword, col);
    var r := TopGroups(rows, keyword, col, n);
    forall v | Matching(rows, keyword, col, v) > 0 && v !in Labels(r)
      ensures |r| == n && forall i :: 0 <= i < |r| ==> Matching(rows, keyword, col, v) <= r[i].1
    {
      GroupHas(rows, keyword, col, v);
      LeftOutRanksLower(g, r, n, v);
      var k :| 0 <= k < |g| && g[k].0 == v && forall i :: 0 <= i < |r| ==> g[k].1 <= r[i].1;
      GroupCountAt(rows, keyword, col, k);
    }
  }

  // ---------------------------------------------------------------------
  // Basic statistics

  datatype Basic = Basic(totalPosts: nat, earliest: Option<int>, latest: Option<int>)

  function CreatedAt(row: Row): Option<int> {
    row.createdAt
  }

  /** `_get_basic_statistics`: `COUNT(*)`, `MIN(created_at)` and
      `MAX(created_at)` over the keyword's rows (the averages are left
      out). */
  function BasicStatistics(rows: seq<Row>, keyword: string): (b: Basic)
    ensures b.totalPosts == |OfKeyword(rows, keyword)|
    ensures var times := Map(OfKeyword(rows, keyword), CreatedAt);
      && (b.earliest.None? <==> forall i :: 0 <= i < |times| ==> times[i].None?)
      && (b.earliest.Some? ==> b.latest.Some? && b.earliest.value <= b.latest.value)
      && (b.earliest.Some? ==> forall i :: 0 <= i < |times| && times[i].Some? ==>
                                 b.earliest.value <= times[i].value <= b.latest.value)
  {
    var kw := OfKeyword(rows, keyword);
    var times := Map(kw, CreatedAt);
    var b := Basic(|kw|, MinOf(times), MaxOf(times));
    assert b.earliest.Some? ==> exists i :: 0 <= i < |times| && times[i] == Some(b.earliest.value);
    b
  }

  // ---------------------------------------------------------------------
  // Time distribution

  const SecondsPerDay := 86400

  /** `DATE(created_at)`, as a day number. */
  function Day(t: int): int {
    t / SecondsPerDay
  }

  /** `HOUR(created_at)` */
  function Hour(t: int): (h: int)
    ensures 0 <= h < 24
  {
    (t % SecondsPerDay) / 3600
  }

  function DayOf(row: Row): Option<int> {
    if row.createdAt.Some? then Some(Day(row.createdAt.value)) else None
  }

  function HourOf(row: Row): Option<int> {
    if row.createdAt.Some? then Some(Hour(row.createdAt.value)) else None
  }

  predicate Ascending(g: seq<Group<int>>) {
    forall i, j :: 0 <= i < j < |g| ==> g[i].0 < g[j].0
  }

  /** Sorting descending by this key sorts ascending by bucket. */
  function Earlier(g: Group<int>): int {
    -g.0
  }

  /** `GROUP BY bucket ORDER BY bucket`, counting rows with a
      `created_at`. */
  function Distribution(rows: seq<Row>, keyword: string, bucket: Row -> Option<int>): seq<Group<int>> {
    SortBy(GroupBy(rows, keyword, bucket), Earlier)
  }

  /** A distribution lists each bucket that has rows once, in ascending
      order, with its number of rows. */
  ghost predicate DistributionOf(d: seq<Group<int>>, rows: seq<Row>, keyword: string, bucket: Row -> Option<int>) {
    && Ascending(d)
    && (forall i :: 0 <= i < |d| ==> d[i].1 == Matching(rows, keyword, bucket, d[i].0) > 0)
    && (forall b :: Matching(rows, keyword, bucket, b) > 0 <==> b in Labels(d))
  }

  lemma DistributionSound(rows: seq<Row>, keyword: string, bucket: Row -> Option<int>)
    ensures DistributionOf(Distribution(rows, keyword, bucket), rows, keyword, bucket)
  {
    var g := GroupBy(rows, keyword, bucket);
    var d := Distribution(rows, keyword, bucket);
    DistinctLabelsSub(g, d);
    SortedAscending(d);
    forall i | 0 <= i < |d| ensures d[i].1 == Matching(rows, keyword, bucket, d[i].0) > 0 {
      GroupsFrom(g, d, i);
      var k :| 0 <= k < |g| && g[k] == d[i];
      GroupCountAt(rows, keyword, bucket, k);
    }
    forall b ensures Matching(rows, keyword, bucket, b) > 0 <==> b in Labels(d) {
      LabelsPermuted(g, d, b);
      GroupHas(rows, keyword, bucket, b);
    }
  }

  lemma SortedAscending(d: seq<Group<int>>)
    requires SortedBy(d, Earlier)
    requires forall i, j :: 0 <= i < j < |d| ==> d[i].0 != d[j].0
    ensures Ascending(d)
  {
    forall i, j | 0 <= i < j < |d| ensures d[i].0 < d[j].0 {
      assert Earlier(d[i]) >= Earlier(d[j]);
    }
  }

  datatype TimeDist = TimeDist(daily: seq<Group<int>>, hourly: seq<Group<int>>)

  /** `_get_time_distribution`: posts per day and per hour of the day, in
      ascending order; every hour is one of 0..23. */
  function TimeDistribution(rows: seq<Row>, keyword: string): (t: TimeDist)
    ensures DistributionOf(t.daily, rows, keyword, DayOf)
    ensures DistributionOf(t.hourly, rows, keyword, HourOf)
    ensures forall i :: 0 <= i < |t.hourly| ==> 0 <= t.hourly[i].0 < 24
  {
    DistributionSound(rows, keyword, DayOf);
    DistributionSound(rows, keyword, HourOf);
    HoursInDay(rows, keyword);
    TimeDist(Distribution(rows, keyword, DayOf), Distribution(rows, keyword, HourOf))
  }

  lemma HoursInDay(rows: seq<Row>, keyword: string)
    ensures var d := Distribution(rows, keyword, HourOf);
      forall i :: 0 <= i < |d| ==> 0 <= d[i].0 < 24
  {
    var d := Distribution(rows, keyword, HourOf);
    DistributionSound(rows, keyword, HourOf);
    forall i | 0 <= i < |d| ensures 0 <= d[i].0 < 24 {
      MatchingWitness(rows, keyword, HourOf, d[i].0);
    }
  }

  // ---------------------------------------------------------------------
  // Users

  function Nick(row: Row): Option<string> {
    row.nickName
  }

  function Reposts(row: Row): Option<int> {
    row.reposts
  }

  function Comments(row: Row): Option<int> {
    row.comments
  }

  function Likes(row: Row): Option<int> {
    row.likes
  }

  /** `SUM(col) or 0` over some rows. */
  function Total(rows: seq<Row>, col: Row -> Option<int>): int {
    OrZero(SumOf(Map(rows, col)))
  }

  datatype UserEntry = UserEntry(name: string, posts: nat, reposts: int, comments: int, likes: int)

  /** One row of the active-users query: the user's post count and the
      sums of their counters. */
  function UserEntryOf(rows: seq<Row>, keyword: string, g: Group<string>): UserEntry {
    var posts := Where(rows, keyword, Nick, g.0);
    UserEntry(g.0, g.1, Total(posts, Reposts), Total(posts, Comments), Total(posts, Likes))
  }

  /** The active-users query: `GROUP BY user_nick_name ORDER BY post_count
      DESC LIMIT 10`, NULL nicknames excluded. */
  function TopUsers(rows: seq<Row>, keyword: string): seq<UserEntry> {
    Map(TopGroups(rows, keyword, Nick, 10), (g: Group<string>) => UserEntryOf(rows, keyword, g))
  }

  /** At most ten users, most active first, no user twice, each with the
      number of the keyword's posts under their name. */
  lemma TopUsersSound(rows: seq<Row>, keyword: string)
    ensures var r := TopUsers(rows, keyword);
      && |r| <= 10
      && (forall i, j :: 0 <= i < j < |r| ==> r[i].posts >= r[j].posts && r[i].name != r[j].name)
      && (forall i :: 0 <= i < |r| ==> r[i].posts == Matching(rows, keyword, Nick, r[i].name) > 0)
  {
    TopUsersCounted(rows, keyword);
    TopUsersOrdered(rows, keyword);
  }

  lemma TopUsersCounted(rows: seq<Row>, keyword: string)
    ensures var r := TopUsers(rows, keyword);
      && |r| <= 10
      && (forall i, j :: 0 <= i < j < |r| ==> r[i].name != r[j].name)
      && (forall i :: 0 <= i < |r| ==> r[i].posts == Matching(rows, keyword, Nick, r[i].name) > 0)
  {
    TopGroupsCounts(rows, keyword, Nick, 10);
    TopUsersAre(rows, keyword);
  }

  lemma TopUsersOrdered(rows: seq<Row>, keyword: string)
    ensures var r := TopUsers(rows, keyword);
      forall i, j :: 0 <= i < j < |r| ==> r[i].posts >= r[j].posts
  {
    var t := TopGroups(rows, keyword, Nick, 10);
    TopUsersAre(rows, keyword);
    var r := TopUsers(rows, keyword);
    forall i, j | 0 <= i < j < |r| ensures r[i].posts >= r[j].posts {
      assert Count(t[i]) >= Count(t[j]);
    }
  }

  lemma TopUsersAre(rows: seq<Row>, keyword: string)
    ensures var (r, t) := (TopUsers(rows, keyword), TopGroups(rows, keyword, Nick, 10));
      |r| == |t| && forall i :: 0 <= i < |r| ==> r[i].name == t[i].0 && r[i].posts == t[i].1
  {
  }

  /** `GROUP BY user_verified` keeps the NULL group. */
  function VerifiedOf(row: Row): Option<Option<bool>> {
    Some(row.verified)
  }

  /** The truth value Python gives a `user_verified` cell. */
  function Truthy(v: Option<bool>): bool {
    v == Some(true)
  }

  /** `next((row[1] for row in stats if <truthiness> row[0]), 0)` */
  function FirstCount(g: seq<Group<Option<bool>>>, truthy: bool): (n: nat)
    ensures n == 0 || exists i :: 0 <= i < |g| && Truthy(g[i].0) == truthy && n == g[i].1
    ensures (forall i :: 0 <= i < |g| ==> g[i].1 > 0) && n == 0 ==> forall i :: 0 <= i < |g| ==> Truthy(g[i].0) != truthy
    ensures forall i :: 0 <= i < |g| && Truthy(g[i].0) == truthy && FirstOfTruthiness(g, truthy, i) ==> n == g[i].1
    ensures (forall i :: 0 <= i < |g| ==> Truthy(g[i].0) != truthy) ==> n == 0
  {
    if |g| == 0 then 0
    else if Truthy(g[0].0) == truthy then g[0].1
    else
      var n := FirstCount(g[1..], truthy);
      assert forall i :: 1 <= i < |g| ==> g[i] == g[1..][i - 1];
      n
  }

  /** No group before the `i`th has truthiness `truthy`. */
  predicate FirstOfTruthiness(g: seq<Group<Option<bool>>>, truthy: bool, i: int) {
    forall j :: 0 <= j < i && j < |g| ==> Truthy(g[j].0) != truthy
  }

  datatype VerifiedSplit = VerifiedSplit(verified: nat, unverified: nat)

  function VerifiedDistribution(rows: seq<Row>, keyword: string): VerifiedSplit {
    var g := GroupBy(rows, keyword, VerifiedOf);
    VerifiedSplit(FirstCount(g, true), FirstCount(g, false))
  }

  /** `verified` counts the verified posts. `unverified` counts the posts
      of whichever falsy group comes first, 0 or NULL: it is exact when
      one of them is empty. */
  lemma VerifiedDistributionSound(rows: seq<Row>, keyword: string)
    ensures var s := VerifiedDistribution(rows, keyword);
      var yes, no, unknown := Matching(rows, keyword, VerifiedOf, Some(true)),
                              Matching(rows, keyword, VerifiedOf, Some(false)),
                              Matching(rows, keyword, VerifiedOf, None);
      && s.verified == yes
      && (s.unverified == no || s.unverified == unknown)
      && (unknown == 0 ==> s.unverified == no)
      && (no == 0 ==> s.unverified == unknown)
  {
    var g := GroupBy(rows, keyword, VerifiedOf);
    var s := VerifiedDistribution(rows, keyword);
    forall i | 0 <= i < |g| ensures g[i].1 > 0 {
      GroupCountAt(rows, keyword, VerifiedOf, i);
    }
    FirstCountIs(rows, keyword, true, Some(true), Some(true));
    FirstCountIs(rows, keyword, false, Some(false), None);
    FirstCountIs(rows, keyword, false, None, Some(false));
  }

  /** When the values of one truthiness are `a` and `b`, the first such
      group counts the rows of `a` or of `b`, and those of `a` when no row
      has `b`. */
  lemma FirstCountIs(rows: seq<Row>, keyword: string, truthy: bool, a: Option<bool>, b: Option<bool>)
    requires Covers(truthy, a, b)
    requires forall i :: 0 <= i < |GroupBy(rows, keyword, VerifiedOf)| ==> GroupBy(rows, keyword, VerifiedOf)[i].1 > 0
    ensures var n := FirstCount(GroupBy(rows, keyword, VerifiedOf), truthy);
      var ma, mb := Matching(rows, keyword, VerifiedOf, a), Matching(rows, keyword, VerifiedOf, b);
      && (n == ma || n == mb)
      && (mb == 0 ==> n == ma)
  {
    var g := GroupBy(rows, keyword, VerifiedOf);
    var n := FirstCount(g, truthy);
    GroupHas(rows, keyword, VerifiedOf, a);
    GroupHas(rows, keyword, VerifiedOf, b);
    CoversAll(truthy, a, b, a);
    if n == 0 {
      NoneOfTruthiness(g, truthy, a);
      NoneOfTruthiness(g, truthy, b);
    } else {
      var i :| 0 <= i < |g| && Truthy(g[i].0) == truthy && n == g[i].1;
      GroupCountAt(rows, keyword, VerifiedOf, i);
      CoversAll(truthy, a, b, g[i].0);
    }
  }

  /** `a` and `b` are the two values of truthiness `truthy`, or the one
      value twice. */
  predicate Covers(truthy: bool, a: Option<bool>, b: Option<bool>) {
    if truthy then a == b == Some(true)
    else (a == Some(false) && b == None) || (a == None && b == Some(false))
  }

  lemma CoversAll(truthy: bool, a: Option<bool>, b: Option<bool>, v: Option<bool>)
    requires Covers(truthy, a, b)
    ensures Truthy(a) == truthy && Truthy(b) == truthy
    ensures Truthy(v) == truthy ==> v == a || v == b
  {
    if v.Some? && v.value {
      assert Truthy(v);
    }
  }

  lemma NoneOfTruthiness(g: seq<Group<Option<bool>>>, truthy: bool, v: Option<bool>)
    requires Truthy(v) == truthy
    requires forall i :: 0 <= i < |g| ==> Truthy(g[i].0) != truthy
    ensures v !in Labels(g)
  {
  }

  datatype Users = Users(top: seq<UserEntry>, split: VerifiedSplit)

  /** `_get_user_analysis` */
  function UserAnalysis(rows: seq<Row>, keyword: string): Users {
    Users(TopUsers(rows, keyword), VerifiedDistribution(rows, keyword))
  }

  // ---------------------------------------------------------------------
  // Content

  /** A row the content query reads: the keyword's, with content. */
  predicate Analyzed(row: Row, keyword: string) {
    row.keyword == keyword && row.content.Some?
  }

  function Contents(rows: seq<Row>, keyword: string): seq<Row> {
    Filter(rows, (row: Row) => Analyzed(row, keyword))
  }

  predicate LongText(row: Row) {
    row.isLongText == Some(true)
  }

  predicate HasImage(row: Row) {
    row.picNum.Some? && row.picNum.value > 0
  }

  /** `[row[3] for row in contents if row[3]]` */
  function SourceOf(row: Row): (r: Option<string>)
    ensures r.Some? ==> r.value != ""
  {
    if row.content.Some? && row.source.Some? && row.source.value != "" then row.source else None
  }

  /** The content query reads one row per position holding an analysed
      row. */
  lemma ContentsCount(rows: seq<Row>, keyword: string)
    ensures |Contents(rows, keyword)| == |set i | 0 <= i < |rows| && Analyzed(rows[i], keyword)|
  {
    var p := (row: Row) => Analyzed(row, keyword);
    CountOfFiltered(Contents(rows, keyword), rows, p);
    assert Positions(rows, p) == set i | 0 <= i < |rows| && Analyzed(rows[i], keyword);
  }

  /** Of the rows read, the long ones are one per position holding an
      analysed long row. */
  lemma LongTextCount(rows: seq<Row>, keyword: string)
    ensures |Filter(Contents(rows, keyword), LongText)|
            == |set i | 0 <= i < |rows| && Analyzed(rows[i], keyword) && LongText(rows[i])|
  {
    var p := (row: Row) => Analyzed(row, keyword) && LongText(row);
    CountOfFiltered(Filter(Contents(rows, keyword), LongText), rows, p);
    assert Positions(rows, p) == set i | 0 <= i < |rows| && Analyzed(rows[i], keyword) && LongText(rows[i]);
  }

  /** Of the rows read, those with images are one per position holding an
      analysed row with images. */
  lemma WithImageCount(rows: seq<Row>, keyword: string)
    ensures |Filter(Contents(rows, keyword), HasImage)|
            == |set i | 0 <= i < |rows| && Analyzed(rows[i], keyword) && HasImage(rows[i])|
  {
    var p := (row: Row) => Analyzed(row, keyword) && HasImage(row);
    CountOfFiltered(Filter(Contents(rows, keyword), HasImage), rows, p);
    assert Positions(rows, p) == set i | 0 <= i < |rows| && Analyzed(rows[i], keyword) && HasImage(rows[i]);
  }

  /** `re.findall(r'#([^#]+)#', content)` over the keyword's non-empty
      contents, concatenated. */
  function Hashtags(rows: seq<Row>, keyword: string): (r: seq<string>)
    ensures forall t :: t in r ==> |t| > 0 && DataProcessor.AllTagChars(t, false)
    decreases |rows|
  {
    if |rows| == 0 then []
    else
      var row := rows[0];
      (if row.keyword == keyword && row.content.Some? && row.content.value != ""
       then DataProcessor.TopicGroups(row.content.value, false) else [])
      + Hashtags(rows[1..], keyword)
  }

  datatype ContentStats = ContentStats(analyzed: nat, longText: nat, withImage: nat,
                                       topSources: seq<Group<string>>, topHashtags: seq<Group<string>>)

  /** `_get_content_analysis`: the number of posts with content, how many
      of them are long or carry images (the percentages are these over
      `analyzed`), and the ten most common sources and topics. */
  function ContentAnalysis(rows: seq<Row>, keyword: string): (c: ContentStats)
    ensures c.analyzed == |set i | 0 <= i < |rows| && Analyzed(rows[i], keyword)|
    ensures c.longText == |set i | 0 <= i < |rows| && Analyzed(rows[i], keyword) && LongText(rows[i])|
    ensures c.withImage == |set i | 0 <= i < |rows| && Analyzed(rows[i], keyword) && HasImage(rows[i])|
    ensures c.longText <= c.analyzed && c.withImage <= c.analyzed
  {
    var contents := Contents(rows, keyword);
    ContentsCount(rows, keyword);
    LongTextCount(rows, keyword);
    WithImageCount(rows, keyword);
    ContentStats(|contents|, |Filter(contents, LongText)|, |Filter(contents, HasImage)|,
                 TopGroups(rows, keyword, SourceOf, 10), TopOf(GroupCounts(Hashtags(rows, keyword)), Count, 10))
  }

  /** The top topics are the ten most common of those matched, each a
      non-empty run without '#'. */
  lemma TopHashtagsSound(rows: seq<Row>, keyword: string)
    ensures var r := ContentAnalysis(rows, keyword).topHashtags;
      && MostCommon(r, Hashtags(rows, keyword), 10)
      && (forall i :: 0 <= i < |r| ==> |r[i].0| > 0 && DataProcessor.AllTagChars(r[i].0, false))
  {
    TopCountsSound(Hashtags(rows, keyword), 10);
  }

  /** The top sources are the ten most common non-empty sources of the
      posts with content. */
  lemma TopSourcesSound(rows: seq<Row>, keyword: string)
    ensures var r := ContentAnalysis(rows, keyword).topSources;
      && TopGroupsOf(r, rows, keyword, SourceOf, 10)
      && MostCommon(r, Column(rows, keyword, SourceOf), 10)
      && forall i :: 0 <= i < |r| ==> r[i].0 != ""
  {
    TopCountsSound(Column(rows, keyword, SourceOf), 10);
    var r := ContentAnalysis(rows, keyword).topSources;
    TopGroupsSound(rows, keyword, SourceOf, 10);
    forall i | 0 <= i < |r| ensures r[i].0 != "" {
      MatchingWitness(rows, keyword, SourceOf, r[i].0);
    }
  }

  // ---------------------------------------------------------------------
  // Engagement

  /** `reposts_count + comments_count + attitudes_count`: NULL when any of
      them is. */
  function Engagement(row: Row): Option<int> {
    if row.reposts.Some? && row.comments.Some? && row.likes.Some?
    then Some(row.reposts.value + row.comments.value + row.likes.value)
    else None
  }

  function EngagementKey(row: Row): int {
    Engagement(row).GetOr(0)
  }

  predicate HasTotal(row: Row) {
    Engagement(row).Some?
  }

  predicate NoTotal(row: Row) {
    Engagement(row).None?
  }

  /** `ORDER BY total_engagement DESC`: MySQL puts NULLs last in a
      descending order. */
  function Ranked(kw: seq<Row>): seq<Row> {
    SortBy(Filter(kw, HasTotal), EngagementKey) + Filter(kw, NoTotal)
  }

  /** The ranking reorders the rows and loses none. */
  lemma RankedPermutes(kw: seq<Row>)
    ensures multiset(Ranked(kw)) == multiset(kw)
  {
    var ranked := Ranked(kw);
    forall x ensures multiset(ranked)[x] == multiset(kw)[x] {
    }
  }

  /** A sorted copy of a filtered list holds only rows passing the filter. */
  lemma SortedKeeps(s: seq<Row>, p: Row -> bool, key: Row -> int, i: int)
    requires 0 <= i < |SortBy(Filter(s, p), key)|
    ensures p(SortBy(Filter(s, p), key)[i])
  {
    var f := Filter(s, p);
    var a := SortBy(f, key);
    assert a[i] in multiset(a);
    assert a[i] in f;
  }

  /** In the ranking, rows with a total come first, highest first. */
  lemma RankedOrder(kw: seq<Row>)
    ensures var ranked := Ranked(kw);
      forall i, j :: 0 <= i < j < |ranked| && HasTotal(ranked[j]) ==>
        HasTotal(ranked[i]) && Engagement(ranked[i]).value >= Engagement(ranked[j]).value
  {
    var a := SortBy(Filter(kw, HasTotal), EngagementKey);
    var b := Filter(kw, NoTotal);
    var ranked := a + b;
    forall k | |a| <= k < |ranked| ensures !HasTotal(ranked[k]) {
      assert ranked[k] == b[k - |a|];
    }
    forall i, j | 0 <= i < j < |ranked| && HasTotal(ranked[j])
      ensures HasTotal(ranked[i]) && Engagement(ranked[i]).value >= Engagement(ranked[j]).value
    {
      assert j < |a|;
      assert ranked[i] == a[i] && ranked[j] == a[j];
      SortedKeeps(kw, HasTotal, EngagementKey, i);
      assert EngagementKey(a[i]) >= EngagementKey(a[j]);
    }
  }

  /** `... LIMIT 10` */
  function TopEngagement(rows: seq<Row>, keyword: string): seq<Row> {
    var ranked := Ranked(OfKeyword(rows, keyword));
    ranked[..Min(10, |ranked|)]
  }

  /** At most ten of the keyword's posts; those with a total come first,
      highest total first. */
  lemma TopEngagementSound(rows: seq<Row>, keyword: string)
    ensures var r := TopEngagement(rows, keyword);
      && |r| <= 10
      && multiset(r) <= multiset(OfKeyword(rows, keyword))
      && (forall i :: 0 <= i < |r| ==> r[i].keyword == keyword)
      && (forall i, j :: 0 <= i < j < |r| && HasTotal(r[j]) ==>
            HasTotal(r[i]) && Engagement(r[i]).value >= Engagement(r[j]).value)
      && |r| == Min(10, |OfKeyword(rows, keyword)|)
      && (forall x :: x in multiset(OfKeyword(rows, keyword)) - multiset(r) ==>
            |r| == 10 && (HasTotal(x) ==> forall i :: 0 <= i < |r| ==>
              HasTotal(r[i]) && Engagement(r[i]).value >= Engagement(x).value))
  {
    TopEngagementKept(rows, keyword);
    TopEngagementOrdered(rows, keyword);
    TopEngagementLeavesLower(rows, keyword);
  }

  /** The list is as long as it can be, and a post left out has no total
      or ranks no higher than every post listed. */
  lemma TopEngagementLeavesLower(rows: seq<Row>, keyword: string)
    ensures var r := TopEngagement(rows, keyword);
      && |r| == Min(10, |OfKeyword(rows, keyword)|)
      && (forall x :: x in multiset(OfKeyword(rows, keyword)) - multiset(r) ==>
            |r| == 10 && (HasTotal(x) ==> forall i :: 0 <= i < |r| ==>
              HasTotal(r[i]) && Engagement(r[i]).value >= Engagement(x).value))
  {
    var kw := OfKeyword(rows, keyword);
    RankedFacts(kw);
    TopLeavesLower(kw, Ranked(kw), TopEngagement(rows, keyword));
  }

  lemma RankedFacts(kw: seq<Row>)
    ensures multiset(Ranked(kw)) == multiset(kw) && |Ranked(kw)| == |kw|
    ensures var ranked := Ranked(kw);
      forall i, j :: 0 <= i < j < |ranked| && HasTotal(ranked[j]) ==>
        HasTotal(ranked[i]) && Engagement(ranked[i]).value >= Engagement(ranked[j]).value
  {
    RankedPermutes(kw);
    RankedOrder(kw);
    assert |multiset(Ranked(kw))| == |multiset(kw)|;
  }

  lemma TopLeavesLower(kw: seq<Row>, ranked: seq<Row>, r: seq<Row>)
    requires multiset(ranked) == multiset(kw) && |ranked| == |kw|
    requires forall i, j :: 0 <= i < j < |ranked| && HasTotal(ranked[j]) ==>
               HasTotal(ranked[i]) && Engagement(ranked[i]).value >= Engagement(ranked[j]).value
    requires r == ranked[..Min(10, |ranked|)]
    ensures |r| == Min(10, |kw|)
    ensures forall x :: x in multiset(kw) - multiset(r) ==>
              |r| == 10 && (HasTotal(x) ==> forall i :: 0 <= i < |r| ==>
                HasTotal(r[i]) && Engagement(r[i]).value >= Engagement(x).value)
  {
    forall x | x in multiset(kw) - multiset(r)
      ensures |r| == 10 && (HasTotal(x) ==> forall i :: 0 <= i < |r| ==>
                HasTotal(r[i]) && Engagement(r[i]).value >= Engagement(x).value)
    {
      PrefixLeavesLower(ranked, |r|, x);
    }
  }

  /** Whatever a prefix of an engagement ranking leaves out lies behind
      it, so the prefix is not the whole ranking, and a left-out post with
      a total ranks no higher than every post in the prefix. */
  lemma PrefixLeavesLower(ranked: seq<Row>, m: nat, x: Row)
    requires m <= |ranked|
    requires forall i, j :: 0 <= i < j < |ranked| && HasTotal(ranked[j]) ==>
               HasTotal(ranked[i]) && Engagement(ranked[i]).value >= Engagement(ranked[j]).value
    requires x in multiset(ranked) - multiset(ranked[..m])
    ensures m < |ranked|
    ensures HasTotal(x) ==> forall i :: 0 <= i < m ==>
              HasTotal(ranked[i]) && Engagement(ranked[i]).value >= Engagement(x).value
  {
    assert ranked == ranked[..m] + ranked[m..];
    assert multiset(ranked) == multiset(ranked[..m]) + multiset(ranked[m..]);
    assert x in multiset(ranked[m..]);
    var j :| 0 <= j < |ranked[m..]| && ranked[m..][j] == x;
    assert ranked[m + j] == x;
  }

  lemma TopEngagementKept(rows: seq<Row>, keyword: string)
    ensures var r := TopEngagement(rows, keyword);
      && multiset(r) <= multiset(OfKeyword(rows, keyword))
      && (forall i :: 0 <= i < |r| ==> r[i].keyword == keyword)
  {
    var kw := OfKeyword(rows, keyword);
    var ranked := Ranked(kw);
    var r := TopEngagement(rows, keyword);
    RankedPermutes(kw);
    PrefixMultiset(ranked, |r|);
    forall i | 0 <= i < |r| ensures r[i].keyword == keyword {
      assert r[i] in multiset(r);
      assert r[i] in kw;
    }
  }

  lemma TopEngagementOrdered(rows: seq<Row>, keyword: string)
    ensures var r := TopEngagement(rows, keyword);
      forall i, j :: 0 <= i < j < |r| && HasTotal(r[j]) ==>
        HasTotal(r[i]) && Engagement(r[i]).value >= Engagement(r[j]).value
  {
    var ranked := Ranked(OfKeyword(rows, keyword));
    var r := TopEngagement(rows, keyword);
    RankedOrder(OfKeyword(rows, keyword));
    forall i, j | 0 <= i < j < |r| && HasTotal(r[j])
      ensures HasTotal(r[i]) && Engagement(r[i]).value >= Engagement(r[j]).value
    {
      assert r[i] == ranked[i] && r[j] == ranked[j];
      assert HasTotal(ranked[j]);
    }
  }

  /** How a post is shown: the first 100 characters and "..." when longer. */
  function Preview(content: Option<string>): (r: Option<string>)
    ensures r.Some? <==> content.Some?
  {
    if content.Some? && |content.value| > 100 then Some(content.value[..100] + "...") else content
  }

  /** A preview is at most 103 characters; a content of at most 100 is
      shown whole, a longer one by its first 100 characters and "...". */
  lemma PreviewShape(c: string)
    ensures var p := Preview(Some(c)).value;
      && |p| <= 103
      && (|c| <= 100 ==> p == c)
      && (|c| > 100 ==> |p| == 103 && p[..100] == c[..100] && p[100..] == "...")
  {
  }

  datatype Post = Post(content: Option<string>, user: Option<string>, reposts: int, comments: int, likes: int, total: int)

  function PostOf(row: Row): Post {
    Post(Preview(row.content), row.nickName, row.reposts.GetOr(0), row.comments.GetOr(0), row.likes.GetOr(0),
         Engagement(row).GetOr(0))
  }

  datatype Triple = Triple(reposts: int, comments: int, likes: int)

  datatype EngagementStats = EngagementStats(total: Triple, max: Triple, top: seq<Post>)

  /** `_get_engagement_analysis`: the sums and maxima of the counters over
      the keyword's rows (0 where all are NULL) and the ten posts with the
      highest total. */
  function EngagementAnalysis(rows: seq<Row>, keyword: string): (e: EngagementStats)
    ensures |e.top| <= 10
    ensures |e.top| == Min(10, |OfKeyword(rows, keyword)|)
  {
    var kw := OfKeyword(rows, keyword);
    TopEngagementSound(rows, keyword);
    EngagementStats(Triple(Total(kw, Reposts), Total(kw, Comments), Total(kw, Likes)),
                    Triple(OrZero(MaxOf(Map(kw, Reposts))), OrZero(MaxOf(Map(kw, Comments))), OrZero(MaxOf(Map(kw, Likes)))),
                    Map(TopEngagement(rows, keyword), PostOf))
  }

  /** Engagement totals add up over a table split in two. */
  lemma EngagementAdditive(a: seq<Row>, b: seq<Row>, keyword: string)
    ensures var (ea, eb, e) := (EngagementAnalysis(a, keyword), EngagementAnalysis(b, keyword), EngagementAnalysis(a + b, keyword));
      && e.total.reposts == ea.total.reposts + eb.total.reposts
      && e.total.comments == ea.total.comments + eb.total.comments
      && e.total.likes == ea.total.likes + eb.total.likes
  {
    var ka, kb := OfKeyword(a, keyword), OfKeyword(b, keyword);
    FilterAppend(a, b, (row: Row) => row.keyword == keyword);
    assert OfKeyword(a + b, keyword) == ka + kb;
    MapAppend(ka, kb, Reposts);
    MapAppend(ka, kb, Comments);
    MapAppend(ka, kb, Likes);
    SumAppend(Map(ka, Reposts), Map(kb, Reposts));
    SumAppend(Map(ka, Comments), Map(kb, Comments));
    SumAppend(Map(ka, Likes), Map(kb, Likes));
  }

  /** No post of the keyword has a counter above the reported maximum. */
  lemma MaxEngagementBounds(rows: seq<Row>, keyword: string)
    ensures var m := EngagementAnalysis(rows, keyword).max;
      forall row :: row in OfKeyword(rows, keyword) ==>
        && (row.reposts.Some? ==> row.reposts.value <= m.reposts)
        && (row.comments.Some? ==> row.comments.value <= m.comments)
        && (row.likes.Some? ==> row.likes.value <= m.likes)
  {
    var kw := OfKeyword(rows, keyword);
    forall row | row in kw
      ensures row.reposts.Some? ==> row.reposts.value <= OrZero(MaxOf(Map(kw, Reposts)))
      ensures row.comments.Some? ==> row.comments.value <= OrZero(MaxOf(Map(kw, Comments)))
      ensures row.likes.Some? ==> row.likes.value <= OrZero(MaxOf(Map(kw, Likes)))
    {
      var i :| 0 <= i < |kw| && kw[i] == row;
      assert Map(kw, Reposts)[i] == row.reposts;
      assert Map(kw, Comments)[i] == row.comments;
      assert Map(kw, Likes)[i] == row.likes;
    }
  }

  // ---------------------------------------------------------------------
  // Geography

  function IpOf(row: Row): (r: Option<string>)
    ensures r.Some? ==> r.value != ""
  {
    if row.ipLocation.Some? && row.ipLocation.value != "" then row.ipLocation else None
  }

  function GeoOf(row: Row): (r: Option<string>)
    ensures r.Some? ==> r.value != ""
  {
    if row.geoTitle.Some? && row.geoTitle.value != "" then row.geoTitle else None
  }

  datatype Geo = Geo(ip: seq<Group<string>>, geo: seq<Group<string>>)

  /** `_get_geographic_analysis`: the twenty most common IP locations and
      place titles, NULL and empty ones excluded. */
  function GeographicAnalysis(rows: seq<Row>, keyword: string): (g: Geo)
    ensures TopGroupsOf(g.ip, rows, keyword, IpOf, 20) && TopGroupsOf(g.geo, rows, keyword, GeoOf, 20)
    ensures forall i :: 0 <= i < |g.ip| ==> g.ip[i].0 != ""
    ensures forall i :: 0 <= i < |g.geo| ==> g.geo[i].0 != ""
  {
    var g := Geo(TopGroups(rows, keyword, IpOf, 20), TopGroups(rows, keyword, GeoOf, 20));
    TopGroupsSound(rows, keyword, IpOf, 20);
    TopGroupsSound(rows, keyword, GeoOf, 20);
    forall i | 0 <= i < |g.ip| ensures g.ip[i].0 != "" {
      MatchingWitness(rows, keyword, IpOf, g.ip[i].0);
    }
    forall i | 0 <= i < |g.geo| ensures g.geo[i].0 != "" {
      MatchingWitness(rows, keyword, GeoOf, g.geo[i].0);
    }
    g
  }

  // ---------------------------------------------------------------------
  // The report

  datatype Section = BasicSection | TimeSection | UserSection | ContentSection | EngagementSection | GeoSection

  /** The report; a section whose queries raised is `None` (an empty dict). */
  datatype Report = Report(keyword: string, generatedAt: string, basic: Option<Basic>, time: Option<TimeDist>,
                           users: Option<Users>, content: Option<ContentStats>,
                           engagement: Option<EngagementStats>, geo: Option<Geo>)

  /** Whether a report holds a section. */
  predicate Holds(r: Report, s: Section) {
    match s
    case BasicSection => r.basic.Some?
    case TimeSection => r.time.Some?
    case UserSection => r.users.Some?
    case ContentSection => r.content.Some?
    case EngagementSection => r.engagement.Some?
    case GeoSection => r.geo.Some?
  }

  /** Every section, as its queries compute it. */
  function FullReport(rows: seq<Row>, keyword: string, generatedAt: string): Report {
    Report(keyword, generatedAt, Some(BasicStatistics(rows, keyword)), Some(TimeDistribution(rows, keyword)),
           Some(UserAnalysis(rows, keyword)), Some(ContentAnalysis(rows, keyword)),
           Some(EngagementAnalysis(rows, keyword)), Some(GeographicAnalysis(rows, keyword)))
  }

  lemma HoldsAll(r: Report)
    requires r.basic.Some? && r.time.Some? && r.users.Some? && r.content.Some? && r.engagement.Some? && r.geo.Some?
    ensures forall s :: Holds(r, s)
  {
  }

  /** `FullReport` with the sections in `fails` emptied. */
  function Without(r: Report, fails: set<Section>): (w: Report)
    ensures w.keyword == r.keyword && w.generatedAt == r.generatedAt
    ensures forall s :: Holds(w, s) <==> Holds(r, s) && s !in fails
  {
    r.(basic := if BasicSection in fails then None else r.basic,
       time := if TimeSection in fails then None else r.time,
       users := if UserSection in fails then None else r.users,
       content := if ContentSection in fails then None else r.content,
       engagement := if EngagementSection in fails then None else r.engagement,
       geo := if GeoSection in fails then None else r.geo)
  }

  /** `generate_summary_report(keyword)`: nothing when the store cannot
      connect; otherwise every section except those that raised. The time
      stamp is an input. */
  function SummaryReport(connected: bool, connectOk: bool, rows: seq<Row>, keyword: string, generatedAt: string,
                         fails: set<Section>): (r: Option<Report>)
    ensures r.Some? <==> connected || connectOk
    ensures r.Some? ==> r.value.keyword == keyword && r.value.generatedAt == generatedAt
    ensures r.Some? ==> forall s: Section :: Holds(r.value, s) <==> s !in fails
  {
    if !connected && !connectOk then None
    else
      var full := FullReport(rows, keyword, generatedAt);
      HoldsAll(full);
      Some(Without(full, fails))
  }

  /** A section that raises takes only itself out of the report: every
      other section is the same as when nothing raises. */
  lemma SectionsIndependent(rows: seq<Row>, keyword: string, generatedAt: string, s: Section)
    ensures var all := SummaryReport(true, true, rows, keyword, generatedAt, {}).value;
      var one := SummaryReport(true, true, rows, keyword, generatedAt, {s}).value;
      && (s != BasicSection ==> one.basic == all.basic)
      && (s != TimeSection ==> one.time == all.time)
      && (s != UserSection ==> one.users == all.users)
      && (s != ContentSection ==> one.content == all.content)
      && (s != EngagementSection ==> one.engagement == all.engagement)
      && (s != GeoSection ==> one.geo == all.geo)
      && (forall t :: Holds(one, t) <==> t != s)
  {
    HoldsAll(FullReport(rows, keyword, generatedAt));
  }
}

=== FILE: base_spider.dfy ===
/** The platform-independent part of a spider (`BaseSpider`): the retry
    loop around a search, the response gate, the cookie domain, the guard
    in front of the raw-data archive, the statistics, and the "fresh id"
    filter every result parser applies against the spider's `crawled_ids`.
    The search itself is an oracle: attempt `a` either raises or returns a
    list of records. */
module Spider {
  import opened Wrappers
  import Text
  import opened Values
  import DataProcessor

  // ---------------------------------------------------------------------
  // Retries

  /** The outcome of one call to the search: an exception, or a list. */
  datatype Attempt = Raised | Returned(items: seq<Dict>)

  /** An attempt that ends the retry loop: a non-empty list. */
  predicate Hit(a: Attempt) {
    a.Returned? && |a.items| > 0
  }

  /** `len(range(n))` */
  function RangeLen(n: int): nat {
    if n < 0 then 0 else n
  }

  /** The reference outcome: the items of the first hit among attempts
      `from` up to `n`, or `[]`. */
  function FirstHit(search: nat -> Attempt, from: nat, n: nat): seq<Dict>
    decreases n - from
  {
    if from >= n then []
    else if Hit(search(from)) then search(from).items
    else FirstHit(search, from + 1, n)
  }

  /** The reference outcome is the items of an attempt that hit, and
      empty only when no attempt did. */
  lemma {:induction false} FirstHitSpec(search: nat -> Attempt, from: nat, n: nat)
    ensures var r := FirstHit(search, from, n);
      && (|r| > 0 ==> exists a: nat :: from <= a < n && Hit(search(a)) && r == search(a).items)
      && (|r| == 0 <==> forall a: nat :: from <= a < n ==> !Hit(search(a)))
    decreases n - from
  {
    if from < n && !Hit(search(from)) {
      FirstHitSpec(search, from + 1, n);
    }
  }

  /** The attempts, among the first `calls`, after which the loop sleeps
      and rotates the User-Agent: those that raised, except the last
      permitted one. */
  function Backoffs(search: nat -> Attempt, calls: nat, maxRetries: int): seq<nat> {
    if calls == 0 then []
    else
      var a := calls - 1;
      Backoffs(search, a, maxRetries) + if search(a).Raised? && a < maxRetries - 1 then [a] else []
  }

  /** The loop sleeps after exactly the attempts that raised and were not
      the last permitted one, in attempt order; an attempt that came back
      empty is retried at once. */
  lemma {:induction false} BackoffsSpec(search: nat -> Attempt, calls: nat, maxRetries: int)
    ensures var r := Backoffs(search, calls, maxRetries);
      && (forall k :: 0 <= k < |r| ==> r[k] < calls && search(r[k]).Raised? && r[k] < maxRetries - 1)
      && (forall a: nat :: a < calls && search(a).Raised? && a < maxRetries - 1 ==> a in r)
      && (forall j, k :: 0 <= j < k < |r| ==> r[j] < r[k])
  {
    if calls > 0 {
      BackoffsSpec(search, calls - 1, maxRetries);
    }
  }

  /** `crawl_with_retry(keyword, page, max_retries)`: the records, the
      number of searches made, and the attempts after which the loop slept
      and rotated the User-Agent. */
  method CrawlWithRetry(maxRetries: int, search: nat -> Attempt) returns (results: seq<Dict>, calls: nat, backoffs: seq<nat>)
    ensures results == FirstHit(search, 0, RangeLen(maxRetries))
    ensures calls <= RangeLen(maxRetries)
    ensures forall a: nat :: a + 1 < calls ==> !Hit(search(a))
    ensures |results| > 0 <==> calls > 0 && Hit(search(calls - 1))
    ensures |results| > 0 ==> results == search(calls - 1).items
    ensures |results| == 0 ==> calls == RangeLen(maxRetries)
    ensures backoffs == Backoffs(search, calls, maxRetries)
  {
    results, calls, backoffs := [], 0, [];
    var n := RangeLen(maxRetries);
    while calls < n && |results| == 0
      invariant calls <= n
      invariant forall a: nat :: a < calls && (|results| == 0 || a + 1 < calls) ==> !Hit(search(a))
      invariant |results| == 0 ==> FirstHit(search, 0, n) == FirstHit(search, calls, n)
      invariant |results| > 0 ==> && calls > 0 && Hit(search(calls - 1)) && results == search(calls - 1).items
                                  && FirstHit(search, 0, n) == results
      invariant backoffs == Backoffs(search, calls, maxRetries)
    {
      var outcome := search(calls);
      if Hit(outcome) {
        results := outcome.items;
      } else if outcome.Raised? && calls < maxRetries - 1 {
        backoffs := backoffs + [calls];
      }
      calls := calls + 1;
    }
  }

  // ---------------------------------------------------------------------
  // The response gate

  /** `validate_response(response)`: a 200 that is neither a login page
      nor a captcha challenge. */
  function ValidateResponse(status: int, url: string, text: string): (ok: bool)
    ensures ok <==> && status == 200
                    && !Text.Contains(Text.Lower(url), "login") && !Text.Contains(text, "登录")
                    && !Text.Contains(text, "验证码") && !Text.Contains(Text.Lower(text), "captcha")
  {
    if status != 200 then false
    else if Text.Contains(Text.Lower(url), "login") || Text.Contains(text, "登录") then false
    else if Text.Contains(text, "验证码") || Text.Contains(Text.Lower(text), "captcha") then false
    else true
  }

  /** Lower-casing keeps an occurrence: whatever spelling of `w` occurs in
      `s`, its lower-case form occurs in the lower-cased `s`. */
  lemma LowerKeepsOccurrence(s: string, w: string)
    requires Text.Contains(s, w)
    ensures Text.Contains(Text.Lower(s), Text.Lower(w))
  {
    var i :| 0 <= i <= |s| - |w| && Text.OccursAt(s, w, i);
    assert Text.Lower(s)[i..i + |w|] == Text.Lower(w) by {
      forall k | 0 <= k < |w| ensures Text.Lower(s)[i..i + |w|][k] == Text.Lower(w)[k] {
        assert s[i..i + |w|][k] == w[k];
      }
    }
    assert Text.OccursAt(Text.Lower(s), Text.Lower(w), i);
  }

  /** Any spelling of `login` in the URL and any spelling of `captcha` in
      the body rejects the response. */
  lemma MarkersReject(status: int, url: string, text: string, loginSpelling: string, captchaSpelling: string)
    requires Text.Lower(loginSpelling) == "login" && Text.Lower(captchaSpelling) == "captcha"
    requires Text.Contains(url, loginSpelling) || Text.Contains(text, captchaSpelling)
    ensures !ValidateResponse(status, url, text)
  {
    if Text.Contains(url, loginSpelling) {
      LowerKeepsOccurrence(url, loginSpelling);
    } else {
      LowerKeepsOccurrence(text, captchaSpelling);
    }
  }

  // ---------------------------------------------------------------------
  // Cookie domain, archive guard, statistics

  /** `_get_cookie_domain()`: `.` + lower-cased platform name + `.com`. */
  function CookieDomain(platformName: string): (r: string)
    ensures |r| == |platformName| + 5
    ensures Text.StartsWith(r, ".") && Text.EndsWith(r, ".com")
    ensures r[1..|r| - 4] == Text.Lower(platformName)
  {
    var r := "." + Text.Lower(platformName) + ".com";
    assert r[1..|r| - 4] == Text.Lower(platformName);
    r
  }

  /** The archive call `save_raw_data(data, page)` makes: the page and the
      data type, `{platform}_data`. */
  datatype RawSave = RawSave(page: Option<int>, dataType: string, platform: string)

  /** `save_raw_data(data, page)`: forwards to the storage manager only when
      one is configured and the data is non-empty. */
  function SaveRawData(hasManager: bool, platformName: string, data: seq<Dict>, page: Option<int>): (r: Option<RawSave>)
    ensures r.Some? <==> hasManager && |data| > 0
    ensures r.Some? ==> r.value.platform == Text.Lower(platformName)
                        && r.value.dataType == r.value.platform + "_data" && r.value.page == page
  {
    if hasManager && |data| > 0 then
      var name := Text.Lower(platformName);
      Some(RawSave(page, name + "_data", name))
    else None
  }

  /** The counters `get_statistics()` reports; session cookies and headers
      are left out. */
  function Statistics(platformName: string, crawled: set<Value>): (d: Dict)
    ensures Lookup(d, "platform") == Some(Str(platformName))
    ensures Lookup(d, "crawled_count") == Some(Int(|crawled|))
  {
    [Field("platform", Str(platformName)), Field("crawled_count", Int(|crawled|))]
  }

  // ---------------------------------------------------------------------
  // The fresh-id filter

  /** The key `crawled_ids` holds for a record. */
  function IdKeyOf(d: Dict): Value {
    HashKey(DataProcessor.IdOf(d))
  }

  /** The keys of a list of records. */
  function IdKeys(s: seq<Dict>): set<Value> {
    set k | 0 <= k < |s| :: IdKeyOf(s[k])
  }

  /** A parsed record the loop considers: `if record and record['_id'] not
      in self.crawled_ids`. An unhashable id raises inside the per-item
      `try`, which skips the item. */
  predicate Candidate(p: Option<Dict>) {
    p.Some? && |p.value| > 0 && Hashable(DataProcessor.IdOf(p.value))
  }

  /** The parsers' loop: each parsed record whose id is not yet in
      `crawled` is kept and its id added. Returns the kept records and the
      grown id set. */
  function KeepFresh(parsed: seq<Option<Dict>>, crawled: set<Value>): (r: (seq<Dict>, set<Value>))
    ensures r.1 == crawled + IdKeys(r.0)
    ensures forall k :: 0 <= k < |r.0| ==> IdKeyOf(r.0[k]) !in crawled
    ensures forall j, k :: 0 <= j < k < |r.0| ==> IdKeyOf(r.0[j]) != IdKeyOf(r.0[k])
    ensures forall i :: 0 <= i < |parsed| && Candidate(parsed[i]) ==> IdKeyOf(parsed[i].value) in r.1
    ensures forall k :: 0 <= k < |r.0| ==> Some(r.0[k]) in parsed && Candidate(Some(r.0[k]))
    decreases |parsed|
  {
    if |parsed| == 0 then ([], crawled)
    else
      var p := parsed[0];
      var take := Candidate(p) && IdKeyOf(p.value) !in crawled;
      var seen := if take then crawled + {IdKeyOf(p.value)} else crawled;
      var rest := KeepFresh(parsed[1..], seen);
      if take then
        TakeFresh(parsed, crawled, rest);
        ([p.value] + rest.0, rest.1)
      else
        SkipFresh(parsed, crawled, rest);
        rest
  }

  /** What `KeepFresh` promises of `r` on `parsed` and `crawled`. */
  predicate FreshResult(parsed: seq<Option<Dict>>, crawled: set<Value>, r: (seq<Dict>, set<Value>)) {
    && r.1 == crawled + IdKeys(r.0)
    && (forall k :: 0 <= k < |r.0| ==> IdKeyOf(r.0[k]) !in crawled)
    && (forall j, k :: 0 <= j < k < |r.0| ==> IdKeyOf(r.0[j]) != IdKeyOf(r.0[k]))
    && (forall i :: 0 <= i < |parsed| && Candidate(parsed[i]) ==> IdKeyOf(parsed[i].value) in r.1)
    && (forall k :: 0 <= k < |r.0| ==> Some(r.0[k]) in parsed && Candidate(Some(r.0[k])))
  }

  /** The first entry is new and kept in front of the rest. */
  lemma TakeFresh(parsed: seq<Option<Dict>>, crawled: set<Value>, rest: (seq<Dict>, set<Value>))
    requires |parsed| > 0 && Candidate(parsed[0]) && IdKeyOf(parsed[0].value) !in crawled
    requires FreshResult(parsed[1..], crawled + {IdKeyOf(parsed[0].value)}, rest)
    ensures FreshResult(parsed, crawled, ([parsed[0].value] + rest.0, rest.1))
  {
    var x := parsed[0].value;
    var seen := crawled + {IdKeyOf(x)};
    assert forall i :: 1 <= i < |parsed| ==> parsed[i] == parsed[1..][i - 1];
    IdKeysCons(x, rest.0);
    ConsDistinct(x, rest.0, seen);
  }

  /** The first entry is skipped: not a candidate, or already crawled. */
  lemma SkipFresh(parsed: seq<Option<Dict>>, crawled: set<Value>, rest: (seq<Dict>, set<Value>))
    requires |parsed| > 0 && !(Candidate(parsed[0]) && IdKeyOf(parsed[0].value) !in crawled)
    requires FreshResult(parsed[1..], crawled, rest)
    ensures FreshResult(parsed, crawled, rest)
  {
    assert forall i :: 1 <= i < |parsed| ==> parsed[i] == parsed[1..][i - 1];
  }

  lemma IdKeysCons(x: Dict, s: seq<Dict>)
    ensures IdKeys([x] + s) == {IdKeyOf(x)} + IdKeys(s)
  {
    var t := [x] + s;
    assert t[0] == x;
    forall v | v in IdKeys(t) ensures v in {IdKeyOf(x)} + IdKeys(s) {
      var k :| 0 <= k < |t| && v == IdKeyOf(t[k]);
      if k > 0 { assert t[k] == s[k - 1]; }
    }
    forall v | v in IdKeys(s) ensures v in IdKeys(t) {
      var k :| 0 <= k < |s| && v == IdKeyOf(s[k]);
      assert t[k + 1] == s[k];
    }
  }

  /** Putting a record in front of records whose keys avoid its own keeps
      the keys pairwise different. */
  lemma ConsDistinct(x: Dict, s: seq<Dict>, seen: set<Value>)
    requires IdKeyOf(x) in seen
    requires forall k :: 0 <= k < |s| ==> IdKeyOf(s[k]) !in seen
    requires forall j, k :: 0 <= j < k < |s| ==> IdKeyOf(s[j]) != IdKeyOf(s[k])
    ensures forall j, k :: 0 <= j < k < |[x] + s| ==> IdKeyOf(([x] + s)[j]) != IdKeyOf(([x] + s)[k])
  {
    var t := [x] + s;
    forall j, k | 0 <= j < k < |t| ensures IdKeyOf(t[j]) != IdKeyOf(t[k]) {
      assert t[k] == s[k - 1];
      if j > 0 { assert t[j] == s[j - 1]; }
    }
  }

  /** The id set, and with it the reported `crawled_count`, grows by
      exactly the number of records a parse keeps. */
  lemma CrawledCountGrows(parsed: seq<Option<Dict>>, crawled: set<Value>)
    ensures var r := KeepFresh(parsed, crawled); |r.1| == |crawled| + |r.0|
  {
    var r := KeepFresh(parsed, crawled);
    var keys := IdKeys(r.0);
    DistinctKeysCount(r.0);
    forall v | v in keys ensures v !in crawled {
      var k :| 0 <= k < |r.0| && v == IdKeyOf(r.0[k]);
    }
    DisjointUnionSize(crawled, keys);
  }

  lemma DisjointUnionSize<T>(a: set<T>, b: set<T>)
    requires forall v :: v in b ==> v !in a
    ensures |a + b| == |a| + |b|
  {
    assert a * b == {};
  }

  /** Records with pairwise different keys have as many keys as records. */
  lemma {:induction false} DistinctKeysCount(s: seq<Dict>)
    requires forall j, k :: 0 <= j < k < |s| ==> IdKeyOf(s[j]) != IdKeyOf(s[k])
    ensures |IdKeys(s)| == |s|
  {
    if |s| > 0 {
      var t := s[1..];
      assert s == [s[0]] + t;
      IdKeysCons(s[0], t);
      forall j, k | 0 <= j < k < |t| ensures IdKeyOf(t[j]) != IdKeyOf(t[k]) {
        assert t[j] == s[j + 1] && t[k] == s[k + 1];
      }
      DistinctKeysCount(t);
      forall k | 0 <= k < |t| ensures IdKeyOf(t[k]) != IdKeyOf(s[0]) {
        assert t[k] == s[k + 1];
      }
      assert IdKeyOf(s[0]) !in IdKeys(t);
    }
  }
}

=== FILE: crawler.dfy ===
/** One crawl run of `WeiboDataCrawler.crawl_weibo_data`: pages 1..n are
    fetched while the stop flag stays up, each page's records are
    deduplicated against the ids already in the store, and the new records
    are written in batches, with a last flush of what is left. What each
    page fetch returns, the stop flag before each page, and the store's
    verdicts are inputs. */
module Crawler {
  import opened Wrappers
  import opened Values
  import Database
  import Spider
  import DataProcessor

  // ---------------------------------------------------------------------
  // The per-page dedup

  /** `weibo['_id'] not in existing_ids` can be evaluated: the key is there
      and its value is hashable. Otherwise the page raises. */
  predicate IdUsable(d: Dict) {
    Has(d, "_id") && Hashable(DataProcessor.IdOf(d))
  }

  /** The dedup loop over one page: each record whose id is not yet in
      `seen` is kept and its id added. `None` when a record raises; the ids
      added before that stay added. */
  function FilterNew(records: seq<Dict>, seen: set<Value>): (r: (Option<seq<Dict>>, set<Value>))
    ensures seen <= r.1
    ensures r.0.Some? <==> forall i :: 0 <= i < |records| ==> IdUsable(records[i])
    ensures r.0.Some? ==> r.1 == seen + Spider.IdKeys(records)
    ensures r.0.Some? ==> forall k :: 0 <= k < |r.0.value| ==> r.0.value[k] in records
    decreases |records|
  {
    if |records| == 0 then (Some([]), seen)
    else
      var d := records[0];
      if !IdUsable(d) then (None, seen)
      else
        var key := Spider.IdKeyOf(d);
        var rest := FilterNew(records[1..], seen + {key});
        assert forall i :: 1 <= i < |records| ==> records[i] == records[1..][i - 1];
        KeysCons(records);
        match rest.0
        case None => (None, rest.1)
        case Some(f) => (Some(if key !in seen then [d] + f else f), rest.1)
  }

  lemma KeysCons(records: seq<Dict>)
    requires |records| > 0
    ensures Spider.IdKeys(records) == {Spider.IdKeyOf(records[0])} + Spider.IdKeys(records[1..])
  {
    assert records == [records[0]] + records[1..];
    Spider.IdKeysCons(records[0], records[1..]);
  }

  /** The kept records are the first record of each id that was not seen:
      their ids are new, pairwise different, and every new id of the page
      is among them. */
  lemma {:induction false} FilterNewFresh(records: seq<Dict>, seen: set<Value>)
    requires FilterNew(records, seen).0.Some?
    ensures var f := FilterNew(records, seen).0.value;
      && (forall k :: 0 <= k < |f| ==> Spider.IdKeyOf(f[k]) !in seen)
      && (forall j, k :: 0 <= j < k < |f| ==> Spider.IdKeyOf(f[j]) != Spider.IdKeyOf(f[k]))
      && Spider.IdKeys(f) == Spider.IdKeys(records) - seen
    decreases |records|
  {
    if |records| > 0 {
      var d := records[0];
      var key := Spider.IdKeyOf(d);
      FilterNewFresh(records[1..], seen + {key});
      KeysCons(records);
      var f := FilterNew(records[1..], seen + {key}).0.value;
      if key !in seen {
        Spider.IdKeysCons(d, f);
        Spider.ConsDistinct(d, f, seen + {key});
        assert [d] + f == FilterNew(records, seen).0.value;
      }
    }
  }

  // ---------------------------------------------------------------------
  // Batches

  /** The batches in order, concatenated. */
  function Flat(batches: seq<seq<Dict>>): seq<Dict>
    decreases |batches|
  {
    if |batches| == 0 then [] else Flat(batches[..|batches| - 1]) + batches[|batches| - 1]
  }

  lemma FlatAppend(batches: seq<seq<Dict>>, b: seq<Dict>)
    ensures Flat(batches + [b]) == Flat(batches) + b
  {
    assert (batches + [b])[..|batches|] == batches;
  }

  lemma FlatPrefix(pages: seq<seq<Dict>>, p: nat)
    requires p < |pages|
    ensures Flat(pages[..p + 1]) == Flat(pages[..p]) + pages[p]
  {
    assert pages[..p + 1][..p] == pages[..p];
  }

  /** Appending records whose ids avoid `seen`, and are pairwise
      different, to records whose ids lie in `seen` keeps all ids pairwise
      different. */
  lemma AppendDistinct(all: seq<Dict>, f: seq<Dict>, seen: set<Value>)
    requires Spider.IdKeys(all) <= seen
    requires forall j, k :: 0 <= j < k < |all| ==> Spider.IdKeyOf(all[j]) != Spider.IdKeyOf(all[k])
    requires forall k :: 0 <= k < |f| ==> Spider.IdKeyOf(f[k]) !in seen
    requires forall j, k :: 0 <= j < k < |f| ==> Spider.IdKeyOf(f[j]) != Spider.IdKeyOf(f[k])
    ensures forall j, k :: 0 <= j < k < |all + f| ==> Spider.IdKeyOf((all + f)[j]) != Spider.IdKeyOf((all + f)[k])
    ensures Spider.IdKeys(all + f) == Spider.IdKeys(all) + Spider.IdKeys(f)
  {
    var t := all + f;
    forall j, k | 0 <= j < k < |t| ensures Spider.IdKeyOf(t[j]) != Spider.IdKeyOf(t[k]) {
      if j < |all| && k >= |all| {
        assert Spider.IdKeyOf(t[j]) in Spider.IdKeys(all);
        assert t[k] == f[k - |all|];
      } else if j >= |all| {
        assert t[j] == f[j - |all|] && t[k] == f[k - |all|];
      }
    }
    forall v | v in Spider.IdKeys(t) ensures v in Spider.IdKeys(all) + Spider.IdKeys(f) {
      var k :| 0 <= k < |t| && v == Spider.IdKeyOf(t[k]);
      if k >= |all| {
        assert t[k] == f[k - |all|];
      }
    }
    forall v | v in Spider.IdKeys(f) ensures v in Spider.IdKeys(t) {
      var k :| 0 <= k < |f| && v == Spider.IdKeyOf(f[k]);
      assert t[|all| + k] == f[k];
    }
    forall v | v in Spider.IdKeys(all) ensures v in Spider.IdKeys(t) {
      var k :| 0 <= k < |all| && v == Spider.IdKeyOf(all[k]);
      assert t[k] == all[k];
    }
  }

  // ---------------------------------------------------------------------
  // The run

  /** The flag `is_running` only ever goes from up to down. */
  predicate Lowers(running: seq<bool>) {
    forall i, j :: 0 <= i <= j < |running| && running[j] ==> running[i]
  }

  /** `'completed' if self.is_running else 'interrupted'` */
  function FinalStatus(running: bool): string {
    if running then "completed" else "interrupted"
  }

  /** The run log row: start and end times are inputs; `message` is the
      error text when an exception escaped the run. */
  function CrawlLog(keyword: string, start: Value, end: Value, total: nat, success: nat, errors: nat,
                    status: string, message: Option<string>): (d: Dict)
    ensures Database.Binds(d, Database.LogColumns)
    ensures Lookup(d, "keyword") == Some(Str(keyword))
    ensures Lookup(d, "total_crawled") == Some(Int(total))
    ensures Lookup(d, "success_count") == Some(Int(success))
    ensures Lookup(d, "error_count") == Some(Int(errors))
    ensures Lookup(d, "status") == Some(Str(status))
    ensures Lookup(d, "error_message") == (if message.Some? then Some(Str(message.value)) else Some(Null))
  {
    var vals := [Str(keyword), start, end, Int(total), Int(success), Int(errors), Str(status),
                 if message.Some? then Str(message.value) else Null];
    LogColumnsDistinct();
    var d := Record(Database.LogColumns, vals);
    assert Lookup(d, Database.LogColumns[3]) == Some(vals[3]);
    assert Lookup(d, Database.LogColumns[4]) == Some(vals[4]);
    assert Lookup(d, Database.LogColumns[5]) == Some(vals[5]);
    assert Lookup(d, Database.LogColumns[6]) == Some(vals[6]);
    assert Lookup(d, Database.LogColumns[7]) == Some(vals[7]);
    forall i | 0 <= i < |Database.LogColumns| ensures Has(d, Database.LogColumns[i]) {
      assert Lookup(d, Database.LogColumns[i]) == Some(vals[i]);
    }
    d
  }

  lemma LogColumnsDistinct()
    ensures forall a, b :: 0 <= a < b < |Database.LogColumns| ==> Database.LogColumns[a] != Database.LogColumns[b]
  {
  }

  /** The state the loop carries: the ids seen so far, the pending batch,
      every new record so far, the batches already flushed, the counters,
      and the store. */
  datatype Progress = Progress(seen: set<Value>, batch: seq<Dict>, all: seq<Dict>, flushes: seq<seq<Dict>>,
                               success: nat, errors: nat, pageErrors: nat, db: Database.Db)

  /** `batch_insert_weibo_data(batch_data)` followed by the counter updates
      and `batch_data = []`; `connectOk` and `execOk` are the store's
      verdicts for this flush, picked by its index. */
  function Flush(s: Progress, connectOk: nat -> bool, execOk: nat -> nat -> bool): (r: Progress)
    ensures r.seen == s.seen && r.all == s.all && r.pageErrors == s.pageErrors
    ensures r.batch == [] && r.flushes == s.flushes + [s.batch]
    ensures Flat(r.flushes) == Flat(s.flushes) + s.batch
    ensures s.success <= r.success <= s.success + |s.batch|
    ensures r.success + r.errors == s.success + s.errors + |s.batch|
    ensures forall id :: id in s.db.rows ==> id in r.db.rows && r.db.rows[id] == s.db.rows[id]
  {
    var inserted := Database.BatchInsert(s.db, s.batch, connectOk(|s.flushes|), execOk(|s.flushes|));
    FlatAppend(s.flushes, s.batch);
    s.(batch := [], flushes := s.flushes + [s.batch], db := inserted.0,
       success := s.success + inserted.1, errors := s.errors + (|s.batch| - inserted.1))
  }

  /** The body of the page loop once the flag is up: an empty page is
      skipped; a page whose dedup raises counts one error; otherwise the
      new records join the batch, which is flushed once it reaches
      `batchSize`. */
  function Page(s: Progress, records: seq<Dict>, batchSize: nat,
                connectOk: nat -> bool, execOk: nat -> nat -> bool): (r: Progress)
    ensures s.seen <= r.seen
    ensures |records| == 0 ==> r == s
    ensures r.seen == FilterNew(records, s.seen).1
    ensures FilterNew(records, s.seen).0.Some? ==> r.all == s.all + FilterNew(records, s.seen).0.value
    ensures FilterNew(records, s.seen).0.None? ==> r.all == s.all
    ensures s.pageErrors <= r.pageErrors <= s.pageErrors + 1
    ensures r.pageErrors == s.pageErrors + 1 <==> exists i :: 0 <= i < |records| && !IdUsable(records[i])
  {
    if |records| == 0 then s
    else
      var filtered := FilterNew(records, s.seen);
      match filtered.0
      case None => s.(seen := filtered.1, errors := s.errors + 1, pageErrors := s.pageErrors + 1)
      case Some(f) =>
        if |f| == 0 then s.(seen := filtered.1)
        else
          var t := s.(seen := filtered.1, batch := s.batch + f, all := s.all + f);
          if |t.batch| >= batchSize then Flush(t, connectOk, execOk) else t
  }

  /** The ids of the collected records are new to the store, pairwise
      different, and all in `seen`. */
  predicate Fresh(s: Progress, existing: set<Value>) {
    && (forall k :: 0 <= k < |s.all| ==> Spider.IdKeyOf(s.all[k]) !in existing)
    && (forall j, k :: 0 <= j < k < |s.all| ==> Spider.IdKeyOf(s.all[j]) != Spider.IdKeyOf(s.all[k]))
    && existing + Spider.IdKeys(s.all) <= s.seen
  }

  /** Every collected record came from the pages visited. */
  predicate Within(s: Progress, visited: seq<Dict>) {
    forall k :: 0 <= k < |s.all| ==> s.all[k] in visited
  }

  /** The flushed batches and the pending one make up the collected
      records; every flushed batch is non-empty and reached `batchSize`,
      and the pending one has not. */
  predicate Batched(s: Progress, batchSize: nat) {
    && Flat(s.flushes) + s.batch == s.all
    && (forall f :: 0 <= f < |s.flushes| ==> |s.flushes[f]| >= batchSize && |s.flushes[f]| > 0)
    && (|s.batch| == 0 || |s.batch| < batchSize)
  }

  /** Each flushed record counts once as a success or an error, and each
      raising page as one more error. */
  predicate Counted(s: Progress, visited: nat) {
    && s.success <= |Flat(s.flushes)| && s.pageErrors <= visited
    && s.errors == |Flat(s.flushes)| - s.success + s.pageErrors
  }

  /** The rows the store held at the start are still there, unchanged. */
  predicate Kept(s: Progress, db0: Database.Db) {
    forall id :: id in db0.rows ==> id in s.db.rows && s.db.rows[id] == db0.rows[id]
  }

  lemma PageFresh(s: Progress, records: seq<Dict>, batchSize: nat, connectOk: nat -> bool,
                  execOk: nat -> nat -> bool, existing: set<Value>)
    requires Fresh(s, existing)
    ensures Fresh(Page(s, records, batchSize, connectOk, execOk), existing)
  {
    if |records| > 0 {
      var filtered := FilterNew(records, s.seen);
      if filtered.0.Some? {
        var f := filtered.0.value;
        FilterNewFresh(records, s.seen);
        AppendDistinct(s.all, f, s.seen);
        var r := Page(s, records, batchSize, connectOk, execOk);
        assert r.all == s.all + f && r.seen == filtered.1;
        forall k | 0 <= k < |r.all| ensures Spider.IdKeyOf(r.all[k]) !in existing {
          if k >= |s.all| {
            assert r.all[k] == f[k - |s.all|];
          }
        }
      }
    }
  }

  lemma PageWithin(s: Progress, records: seq<Dict>, batchSize: nat, connectOk: nat -> bool,
                   execOk: nat -> nat -> bool, visited: seq<Dict>)
    requires Within(s, visited)
    ensures Within(Page(s, records, batchSize, connectOk, execOk), visited + records)
  {
    var r := Page(s, records, batchSize, connectOk, execOk);
    var filtered := FilterNew(records, s.seen);
    forall k | 0 <= k < |r.all| ensures r.all[k] in visited + records {
      if k < |s.all| {
        assert r.all[k] == s.all[k];
      } else {
        var f := filtered.0.value;
        assert r.all == s.all + f;
        assert r.all[k] == f[k - |s.all|];
      }
    }
  }

  lemma PageBatched(s: Progress, records: seq<Dict>, batchSize: nat, connectOk: nat -> bool,
                    execOk: nat -> nat -> bool)
    requires Batched(s, batchSize)
    ensures Batched(Page(s, records, batchSize, connectOk, execOk), batchSize)
  {
    if |records| > 0 {
      var filtered := FilterNew(records, s.seen);
      if filtered.0.Some? && |filtered.0.value| > 0 {
        var f := filtered.0.value;
        var t := s.(seen := filtered.1, batch := s.batch + f, all := s.all + f);
        assert Page(s, records, batchSize, connectOk, execOk)
            == if |t.batch| >= batchSize then Flush(t, connectOk, execOk) else t;
        AppendBatched(s, f, batchSize);
        if |t.batch| >= batchSize {
          FlushBatched(t, batchSize, connectOk, execOk);
        }
      }
    }
  }

  /** New records join the batch and the collected list alike. */
  lemma AppendBatched(s: Progress, f: seq<Dict>, batchSize: nat)
    requires Batched(s, batchSize)
    ensures Flat(s.flushes) + (s.batch + f) == s.all + f
  {
    assert Flat(s.flushes) + (s.batch + f) == (Flat(s.flushes) + s.batch) + f;
  }

  /** Flushing a full batch keeps the flushed batches full and empties the
      current one. */
  lemma FlushBatched(t: Progress, batchSize: nat, connectOk: nat -> bool, execOk: nat -> nat -> bool)
    requires Flat(t.flushes) + t.batch == t.all
    requires forall f :: 0 <= f < |t.flushes| ==> |t.flushes[f]| >= batchSize && |t.flushes[f]| > 0
    requires |t.batch| >= batchSize && |t.batch| > 0
    ensures Batched(Flush(t, connectOk, execOk), batchSize)
  {
    var r := Flush(t, connectOk, execOk);
    forall f | 0 <= f < |r.flushes| ensures |r.flushes[f]| >= batchSize && |r.flushes[f]| > 0 {
      if f < |t.flushes| {
        assert r.flushes[f] == t.flushes[f];
      }
    }
  }

  /** The records the dedup keeps from `pages` in turn, starting from the
      ids in `seen`, and the ids seen afterwards: each page is filtered
      against the ids seen before it, and a page that raises keeps nothing
      but leaves the ids it added. */
  function Collected(pages: seq<seq<Dict>>, seen: set<Value>): (seq<Dict>, set<Value>)
    decreases |pages|
  {
    if |pages| == 0 then ([], seen)
    else
      var prev := Collected(pages[..|pages| - 1], seen);
      var filtered := FilterNew(pages[|pages| - 1], prev.1);
      (prev.0 + (if filtered.0.Some? then filtered.0.value else []), filtered.1)
  }

  /** The collected records and the seen ids are those of `done`, the
      pages visited so far. */
  predicate Collects(s: Progress, done: seq<seq<Dict>>, existing: set<Value>) {
    s.all == Collected(done, existing).0 && s.seen == Collected(done, existing).1
  }

  /** A page step appends exactly what the dedup keeps of that page. */
  lemma PageCollects(s: Progress, records: seq<Dict>, batchSize: nat, connectOk: nat -> bool,
                     execOk: nat -> nat -> bool, existing: set<Value>, done: seq<seq<Dict>>)
    requires Collects(s, done, existing)
    ensures Collects(Page(s, records, batchSize, connectOk, execOk), done + [records], existing)
  {
    assert (done + [records])[..|done|] == done;
  }

  /** The loop invariant, kept by every fetched page. */
  lemma PageKeeps(s: Progress, records: seq<Dict>, batchSize: nat, connectOk: nat -> bool,
                  execOk: nat -> nat -> bool, existing: set<Value>, visited: seq<Dict>, p: nat, db0: Database.Db,
                  done: seq<seq<Dict>>)
    requires Fresh(s, existing) && Within(s, visited) && Batched(s, batchSize) && Counted(s, p) && Kept(s, db0)
    requires Collects(s, done, existing)
    ensures var r := Page(s, records, batchSize, connectOk, execOk);
      && Fresh(r, existing) && Within(r, visited + records) && Batched(r, batchSize)
      && Counted(r, p + 1) && Kept(r, db0) && Collects(r, done + [records], existing)
  {
    PageFresh(s, records, batchSize, connectOk, execOk, existing);
    PageWithin(s, records, batchSize, connectOk, execOk, visited);
    PageBatched(s, records, batchSize, connectOk, execOk);
    PageCollects(s, records, batchSize, connectOk, execOk, existing, done);
  }

  /** The loop invariant of the page loop after `v` pages. */
  predicate Loop(st: Progress, pages: seq<seq<Dict>>, v: nat, existing: set<Value>, batchSize: nat, db0: Database.Db)
    requires v <= |pages|
  {
    && Fresh(st, existing) && Within(st, Flat(pages[..v]))
    && Batched(st, batchSize) && Counted(st, v) && Kept(st, db0)
    && Collects(st, pages[..v], existing)
  }

  lemma LoopInit(pages: seq<seq<Dict>>, existing: set<Value>, batchSize: nat, db0: Database.Db)
    ensures Loop(Progress(existing, [], [], [], 0, 0, 0, db0), pages, 0, existing, batchSize, db0)
  {
    var st := Progress(existing, [], [], [], 0, 0, 0, db0);
    assert pages[..0] == [];
    assert Collected([], existing) == ([], existing);
    assert Spider.IdKeys(st.all) == {};
    assert Fresh(st, existing) && Batched(st, batchSize) && Counted(st, 0) && Kept(st, db0);
  }

  lemma LoopStep(st: Progress, pages: seq<seq<Dict>>, v: nat, existing: set<Value>, batchSize: nat, db0: Database.Db,
                 connectOk: nat -> bool, execOk: nat -> nat -> bool)
    requires v < |pages| && Loop(st, pages, v, existing, batchSize, db0)
    ensures Loop(Page(st, pages[v], batchSize, connectOk, execOk), pages, v + 1, existing, batchSize, db0)
  {
    var done := pages[..v];
    var r := Page(st, pages[v], batchSize, connectOk, execOk);
    FlatPrefix(pages, v);
    assert done + [pages[v]] == pages[..v + 1];
    PageKeeps(st, pages[v], batchSize, connectOk, execOk, existing, Flat(done), v, db0, done);
    assert Within(r, Flat(pages[..v + 1])) && Collects(r, pages[..v + 1], existing);
  }

  /** What a run leaves behind. `visited` is the number of pages fetched;
      `flushes` the batches handed to `batch_insert_weibo_data`, in order;
      `pageErrors` the pages whose processing raised. */
  datatype Run = Run(visited: nat, all: seq<Dict>, flushes: seq<seq<Dict>>, seen: set<Value>,
                     total: nat, success: nat, errors: nat, pageErrors: nat,
                     log: Dict, db: Database.Db, ok: bool)

  /** The page loop `for page in range(1, max_pages + 1)`, left early
      when the flag is down: `visited` pages were fetched. */
  method CrawlPages(pages: seq<seq<Dict>>, running: seq<bool>, existing: set<Value>, batchSize: nat,
                    db0: Database.Db, connectOk: nat -> bool, execOk: nat -> nat -> bool)
    returns (visited: nat, st: Progress)
    requires |running| == |pages| + 1
    ensures visited <= |pages|
    ensures forall i :: 0 <= i < visited ==> running[i]
    ensures visited < |pages| ==> !running[visited]
    ensures Fresh(st, existing) && Within(st, Flat(pages[..visited]))
    ensures Batched(st, batchSize) && Counted(st, visited) && Kept(st, db0)
    ensures st.all == Collected(pages[..visited], existing).0
    ensures st.seen == Collected(pages[..visited], existing).1
  {
    visited := 0;
    var stopped := false;
    st := Progress(existing, [], [], [], 0, 0, 0, db0);
    LoopInit(pages, existing, batchSize, db0);
    while visited < |pages| && !stopped
      invariant 0 <= visited <= |pages|
      invariant forall i :: 0 <= i < visited ==> running[i]
      invariant stopped ==> visited < |pages| && !running[visited]
      invariant Loop(st, pages, visited, existing, batchSize, db0)
      decreases |pages| - visited, if stopped then 0 else 1
    {
      if !running[visited] {
        stopped := true;
      } else {
        LoopStep(st, pages, visited, existing, batchSize, db0, connectOk, execOk);
        st := Page(st, pages[visited], batchSize, connectOk, execOk);
        visited := visited + 1;
      }
    }
  }

  /** The flush of what is left after the loop: afterwards the flushed
      batches are exactly the collected records. */
  function Finish(s: Progress, connectOk: nat -> bool, execOk: nat -> nat -> bool): (r: Progress)
    ensures r.all == s.all && r.seen == s.seen && r.pageErrors == s.pageErrors
    ensures s.success <= r.success <= s.success + |s.batch|
    ensures r.success + r.errors == s.success + s.errors + |s.batch|
    ensures forall id :: id in s.db.rows ==> id in r.db.rows && r.db.rows[id] == s.db.rows[id]
    ensures Flat(s.flushes) + s.batch == s.all ==> Flat(r.flushes) == r.all
    ensures |r.flushes| == |s.flushes| + (if |s.batch| > 0 then 1 else 0)
    ensures forall f :: 0 <= f < |s.flushes| ==> r.flushes[f] == s.flushes[f]
    ensures |s.batch| > 0 ==> r.flushes[|s.flushes|] == s.batch
  {
    if |s.batch| > 0 then Flush(s, connectOk, execOk) else s
  }

  /** `crawl_weibo_data(keyword, max_pages)` with `|pages| == max_pages`:
      `pages[i]` is what `crawl_with_retry` returns for page `i + 1`,
      `running[i]` the stop flag when page `i + 1` is due and
      `running[max_pages]` the flag at the end; `existing` the keys of the
      ids in the store; `connectOk(f)` and `execOk(f)` the store's verdicts
      on the `f`th flush, `logConnectOk` and `logExecOk` on the log row;
      `escape` the message of an exception escaping after the loop. */
  method CrawlWeiboData(keyword: string, pages: seq<seq<Dict>>, running: seq<bool>, existing: set<Value>,
                        batchSize: nat, db0: Database.Db, connectOk: nat -> bool, execOk: nat -> nat -> bool,
                        start: Value, end: Value, logConnectOk: bool, logExecOk: bool, escape: Option<string>)
    returns (run: Run)
    requires |running| == |pages| + 1 && Lowers(running)
    ensures run.visited <= |pages|
    ensures forall i :: 0 <= i < run.visited ==> running[i]
    ensures run.visited < |pages| ==> !running[run.visited]
    ensures forall k :: 0 <= k < |run.all| ==> Spider.IdKeyOf(run.all[k]) !in existing
    ensures forall j, k :: 0 <= j < k < |run.all| ==> Spider.IdKeyOf(run.all[j]) != Spider.IdKeyOf(run.all[k])
    ensures existing + Spider.IdKeys(run.all) <= run.seen
    ensures forall k :: 0 <= k < |run.all| ==> run.all[k] in Flat(pages[..run.visited])
    ensures run.all == Collected(pages[..run.visited], existing).0
    ensures run.seen == Collected(pages[..run.visited], existing).1
    ensures run.total == |run.all|
    ensures Flat(run.flushes) == run.all
    ensures forall f :: 0 <= f < |run.flushes| ==> |run.flushes[f]| > 0
    ensures forall f :: 0 <= f < |run.flushes| - 1 ==> |run.flushes[f]| >= batchSize
    ensures run.success <= run.total && run.pageErrors <= run.visited
    ensures run.errors == run.total - run.success + run.pageErrors
    ensures run.ok <==> escape.None?
    ensures Lookup(run.log, "status") == Some(Str(if escape.Some? then "error" else FinalStatus(running[|pages|])))
    ensures escape.None? && run.visited < |pages| ==> Lookup(run.log, "status") == Some(Str("interrupted"))
    ensures Lookup(run.log, "total_crawled") == Some(Int(run.total))
    ensures Lookup(run.log, "success_count") == Some(Int(run.success))
    ensures Lookup(run.log, "error_count") == Some(Int(run.errors))
    ensures forall id :: id in db0.rows ==> id in run.db.rows && run.db.rows[id] == db0.rows[id]
  {
    var p, st := CrawlPages(pages, running, existing, batchSize, db0, connectOk, execOk);
    var last := Finish(st, connectOk, execOk);
    var status := if escape.Some? then "error" else FinalStatus(running[|pages|]);
    var log := CrawlLog(keyword, start, end, |last.all|, last.success, last.errors, status, escape);
    var logged := Database.InsertCrawlLog(last.db, log, logConnectOk, logExecOk);
    run := Run(p, last.all, last.flushes, last.seen, |last.all|, last.success, last.errors, last.pageErrors,
               log, logged.0, escape.None?);
  }
}

=== FILE: data_processor.dfy ===
/** The record utilities of utils/data_processor.py: the text scanners,
    content cleaning, validation and coercion of record dicts,
    order-preserving deduplication, image-URL filtering and geo flattening. */
module DataProcessor {
  import opened Wrappers
  import Text
  import opened Values
  import Dedup
  import PicPatterns

  // ---------------------------------------------------------------------
  // Scanning, the way `re.findall` and `re.sub` walk a string

  /** The length of the longest prefix of `s` whose characters satisfy `ok`:
      how far a greedy `[...]+` runs. */
  function RunLen(s: string, ok: char -> bool): (k: nat)
    ensures k <= |s|
    ensures forall i :: 0 <= i < k ==> ok(s[i])
    ensures k < |s| ==> !ok(s[k])
  {
    if |s| == 0 || !ok(s[0]) then 0 else 1 + RunLen(s[1..], ok)
  }

  /** A character `[^#]` (Weibo) or `[^#\s]` (Douyin) admits inside a topic. */
  predicate TagChar(c: char, douyin: bool) {
    c != '#' && (!douyin || !Text.IsSpace(c))
  }

  predicate AllTagChars(t: string, douyin: bool) {
    forall i :: 0 <= i < |t| ==> TagChar(t[i], douyin)
  }

  /** `re.findall(r'#([^#]+)#', s)`, or `r'#([^#\s]+)#'` for Douyin: at each
      '#', a non-empty greedy run followed by '#' is a match and scanning
      resumes after the closing '#'; otherwise scanning moves one character
      on. */
  function TopicGroups(s: string, douyin: bool): (r: seq<string>)
    ensures forall t :: t in r ==> |t| > 0 && AllTagChars(t, douyin)
    decreases |s|
  {
    if |s| == 0 then []
    else if s[0] != '#' then TopicGroups(s[1..], douyin)
    else
      var k := RunLen(s[1..], c => TagChar(c, douyin));
      if 0 < k && 1 + k < |s| && s[1 + k] == '#' then [s[1..1 + k]] + TopicGroups(s[2 + k..], douyin)
      else TopicGroups(s[1..], douyin)
  }

  /** `[t.strip() for t in groups if t.strip()]` */
  function StripNonEmpty(groups: seq<string>): (r: seq<string>)
    ensures |r| <= |groups|
    ensures forall t :: t in r ==> |t| > 0 && Text.Stripped(t)
  {
    if |groups| == 0 then []
    else
      var t := Text.Strip(groups[0]);
      if |t| > 0 then [t] + StripNonEmpty(groups[1..]) else StripNonEmpty(groups[1..])
  }

  /** Groups that are already non-empty and stripped pass through. */
  lemma {:induction false} StripNonEmptyKeeps(groups: seq<string>)
    requires forall i :: 0 <= i < |groups| ==> |groups[i]| > 0 && Text.Stripped(groups[i])
    ensures StripNonEmpty(groups) == groups
  {
    if |groups| > 0 {
      Text.StripStripped(groups[0]);
      StripNonEmptyKeeps(groups[1..]);
    }
  }

  /** `extract_hashtags` (Weibo) and `extract_douyin_hashtags` (Douyin). */
  function ExtractHashtags(content: string, douyin: bool): (r: seq<string>)
    ensures forall t :: t in r ==> |t| > 0 && Text.Stripped(t) && AllTagChars(t, douyin)
  {
    var groups := TopicGroups(content, douyin);
    StripKeepsChars(groups, douyin);
    StripNonEmpty(groups)
  }

  lemma {:induction false} StripKeepsChars(groups: seq<string>, douyin: bool)
    requires forall t :: t in groups ==> AllTagChars(t, douyin)
    ensures forall t :: t in StripNonEmpty(groups) ==> AllTagChars(t, douyin)
  {
    if |groups| > 0 {
      var g := groups[0];
      assert g in groups;
      StripKeepsCharsOf(g);
      assert forall u :: u in groups[1..] ==> u in groups;
      StripKeepsChars(groups[1..], douyin);
    }
  }

  /** Each topic wrapped in a pair of '#', back to back. */
  function WrapTopics(tags: seq<string>): string {
    if |tags| == 0 then "" else "#" + tags[0] + "#" + WrapTopics(tags[1..])
  }

  /** Topics written as `#topic#` are found again, in order. */
  lemma {:induction false} HashtagsRoundTrip(tags: seq<string>, douyin: bool)
    requires forall i :: 0 <= i < |tags| ==> |tags[i]| > 0 && Text.Stripped(tags[i]) && AllTagChars(tags[i], douyin)
    ensures ExtractHashtags(WrapTopics(tags), douyin) == tags
  {
    TopicGroupsOfWrapped(tags, douyin);
    StripNonEmptyKeeps(tags);
  }

  lemma {:induction false} TopicGroupsOfWrapped(tags: seq<string>, douyin: bool)
    requires forall i :: 0 <= i < |tags| ==> |tags[i]| > 0 && AllTagChars(tags[i], douyin)
    ensures TopicGroups(WrapTopics(tags), douyin) == tags
  {
    if |tags| > 0 {
      TopicStep(tags[0], WrapTopics(tags[1..]), douyin);
      TopicGroupsOfWrapped(tags[1..], douyin);
    }
  }

  /** A greedy run stops at the first character `ok` rejects. */
  lemma RunLenStops(t: string, stop: char, rest: string, ok: char -> bool)
    requires forall i :: 0 <= i < |t| ==> ok(t[i])
    requires !ok(stop)
    ensures RunLen(t + [stop] + rest, ok) == |t|
  {
    var s := t + [stop] + rest;
    assert s[|t|] == stop;
    assert forall i :: 0 <= i < |t| ==> s[i] == t[i];
  }

  /** One `#topic#` at the front is one match. */
  lemma TopicStep(t: string, rest: string, douyin: bool)
    requires |t| > 0 && AllTagChars(t, douyin)
    ensures TopicGroups("#" + t + "#" + rest, douyin) == [t] + TopicGroups(rest, douyin)
  {
    var s := "#" + t + "#" + rest;
    assert s[1..] == t + ['#'] + rest;
    RunLenStops(t, '#', rest, c => TagChar(c, douyin));
    assert s[1..1 + |t|] == t;
    assert s[2 + |t|..] == rest;
  }

  /** A character `[^\s@]` admits in a mention. */
  predicate MentionChar(c: char) {
    c != '@' && !Text.IsSpace(c)
  }

  /** `re.findall(r'@([^\s@]+)', s)`: at each '@', the maximal non-empty run
      that follows is a match, and scanning resumes right after it. */
  function MentionGroups(s: string): (r: seq<string>)
    ensures forall t :: t in r ==> |t| > 0 && forall i :: 0 <= i < |t| ==> MentionChar(t[i])
    decreases |s|
  {
    if |s| == 0 then []
    else if s[0] != '@' then MentionGroups(s[1..])
    else
      var k := RunLen(s[1..], MentionChar);
      if k > 0 then [s[1..1 + k]] + MentionGroups(s[1 + k..])
      else MentionGroups(s[1..])
  }

  /** `extract_mentions` */
  function ExtractMentions(content: string): (r: seq<string>)
    ensures forall t :: t in r ==> |t| > 0 && forall i :: 0 <= i < |t| ==> MentionChar(t[i])
  {
    var groups := MentionGroups(content);
    assert forall i :: 0 <= i < |groups| ==> |groups[i]| > 0 && Text.Stripped(groups[i]) by {
      forall i | 0 <= i < |groups| ensures |groups[i]| > 0 && Text.Stripped(groups[i]) {
        assert groups[i] in groups;
      }
    }
    StripNonEmptyKeeps(groups);
    StripNonEmpty(groups)
  }

  /** A name `[^\s@]+` matches whole. */
  predicate MentionName(t: string) {
    |t| > 0 && forall j :: 0 <= j < |t| ==> MentionChar(t[j])
  }

  /** Each user name prefixed with '@' and followed by a space. */
  function WrapMentions(names: seq<string>): string {
    if |names| == 0 then "" else "@" + names[0] + " " + WrapMentions(names[1..])
  }

  /** Names written as `@name ` are found again, in order. */
  lemma {:induction false} MentionsRoundTrip(names: seq<string>)
    requires forall i :: 0 <= i < |names| ==> MentionName(names[i])
    ensures ExtractMentions(WrapMentions(names)) == names
  {
    MentionGroupsOfWrapped(names);
    StripNonEmptyKeeps(names);
  }

  lemma {:induction false} MentionGroupsOfWrapped(names: seq<string>)
    requires forall i :: 0 <= i < |names| ==> MentionName(names[i])
    ensures MentionGroups(WrapMentions(names)) == names
  {
    if |names| > 0 {
      MentionStep(names[0], WrapMentions(names[1..]));
      MentionGroupsOfWrapped(names[1..]);
    }
  }

  /** One `@name ` at the front is one match. */
  lemma MentionStep(t: string, rest: string)
    requires MentionName(t)
    ensures MentionGroups("@" + t + " " + rest) == [t] + MentionGroups(rest)
  {
    var s := "@" + t + " " + rest;
    assert s[1..] == t + [' '] + rest;
    RunLenStops(t, ' ', rest, MentionChar);
    assert s[1..1 + |t|] == t;
    assert s[1 + |t|..] == " " + rest;
    assert (" " + rest)[1..] == rest;
  }

  // ---------------------------------------------------------------------
  // clean_content

  predicate NotGt(c: char) {
    c != '>'
  }

  /** `<[^>]+>` matches at position `i`. */
  predicate TagAt(s: string, i: nat)
    requires i < |s|
  {
    s[i] == '<' && var k := RunLen(s[i + 1..], NotGt); 0 < k && i + 1 + k < |s|
  }

  predicate NoTag(s: string) {
    forall i :: 0 <= i < |s| ==> !TagAt(s, i)
  }

  /** `re.sub(r'<[^>]+>', '', s)`: each match is removed and scanning
      resumes after it; a '<' that starts no match stays. */
  function StripTags(s: string): (r: string)
    ensures |r| <= |s|
    ensures NoTag(r)
    ensures '>' !in s ==> '>' !in r
    ensures '<' !in s ==> r == s
    ensures |s| > 0 && s[0] != '<' ==> |r| > 0 && r[0] == s[0]
    decreases |s|
  {
    if |s| == 0 then ""
    else if s[0] == '<' && TagAt(s, 0) then
      var k := RunLen(s[1..], NotGt);
      var r := StripTags(s[2 + k..]);
      assert '>' in s by {
        assert s[1 + k] == '>';
      }
      r
    else
      var rest := StripTags(s[1..]);
      var r := [s[0]] + rest;
      assert '>' !in s ==> '>' !in s[1..];
      KeptHeadNoTag(s, rest);
      r
  }

  /** Prepending the first character, when no match starts there, keeps the
      result free of matches. */
  lemma KeptHeadNoTag(s: string, rest: string)
    requires |s| > 0 && !(s[0] == '<' && TagAt(s, 0))
    requires NoTag(rest)
    requires '>' !in s[1..] ==> '>' !in rest
    requires |s| > 1 && s[1] != '<' ==> |rest| > 0 && rest[0] == s[1]
    ensures NoTag([s[0]] + rest)
  {
    var r := [s[0]] + rest;
    forall i | 1 <= i < |r|
      ensures !TagAt(r, i)
    {
      assert r[i..] == rest[i - 1..];
      assert r[i + 1..] == rest[i..];
      assert !TagAt(rest, i - 1);
    }
    if s[0] == '<' {
      var k := RunLen(s[1..], NotGt);
      if k == 0 {
        if |s| > 1 {
          assert r[1] == '>';
          assert RunLen(r[1..], NotGt) == 0;
        }
      } else {
        assert 1 + k == |s|;
        assert forall i :: 0 <= i < |s[1..]| ==> s[1..][i] != '>';
        assert '>' !in rest;
        assert r[1..] == rest;
        assert RunLen(r[1..], NotGt) == |rest|;
      }
    }
  }

  /** The characters the third substitution deletes:
      `[\x00-\x08\x0b\x0c\x0e-\x1f\x7f-\x9f]`. */
  predicate IsControl(c: char) {
    || c <= '\U{08}'
    || c == '\U{0B}' || c == '\U{0C}'
    || ('\U{0E}' <= c <= '\U{1F}')
    || ('\U{7F}' <= c <= '\U{9F}')
  }

  function DropControls(s: string): (r: string)
    ensures |r| <= |s|
    ensures NoControls(r)
    ensures SpacesAre(s, ' ') ==> SpacesAre(r, ' ')
    ensures NoControls(s) ==> r == s
  {
    if |s| == 0 then ""
    else
      var rest := DropControls(s[1..]);
      if IsControl(s[0]) then rest else [s[0]] + rest
  }

  predicate NoControls(s: string) {
    forall i :: 0 <= i < |s| ==> !IsControl(s[i])
  }

  /** The only whitespace character in `s` is `c`. */
  predicate SpacesAre(s: string, c: char) {
    forall i :: 0 <= i < |s| ==> Text.IsSpace(s[i]) ==> s[i] == c
  }

  /** Text as `clean_content` leaves it: no tag, no control character, no
      whitespace but single spaces, nothing to strip at either end. */
  ghost predicate IsClean(s: string) {
    && '<' !in s
    && NoControls(s)
    && SpacesAre(s, ' ')
    && Text.NoRepeat(s, ' ')
    && (|s| > 0 ==> s[0] != ' ' && s[|s| - 1] != ' ')
  }

  /** `clean_content(content)`: remove tags, collapse whitespace runs to one
      space, delete control characters, strip. */
  function CleanContent(content: string): (r: string)
    ensures |content| == 0 ==> r == ""
    ensures |r| <= |content|
    ensures NoControls(r) && SpacesAre(r, ' ')
    ensures |r| > 0 ==> r[0] != ' ' && r[|r| - 1] != ' '
  {
    if |content| == 0 then ""
    else
      var collapsed := Text.CollapseSpaceRuns(StripTags(content), ' ');
      var dropped := DropControls(collapsed);
      var r := Text.Strip(dropped);
      StripKeepsCharsOf(dropped);
      r
  }

  /** Stripping only removes characters from the ends. */
  lemma StripKeepsCharsOf(s: string)
    ensures forall i :: 0 <= i < |Text.Strip(s)| ==> Text.Strip(s)[i] == s[|s| - |Text.LStrip(s)| + i]
  {
    var l := Text.LStrip(s);
    var r := Text.Strip(s);
    assert forall i :: 0 <= i < |l| ==> l[i] == s[|s| - |l| + i];
    assert forall i :: 0 <= i < |r| ==> r[i] == l[i];
  }

  /** Clean text is a fixed point of `clean_content`. */
  lemma CleanContentKeepsClean(s: string)
    requires IsClean(s)
    ensures CleanContent(s) == s
  {
    if |s| > 0 {
      assert StripTags(s) == s;
      Text.CollapseSingleSpaces(s, ' ');
      assert DropControls(s) == s;
      Text.StripStripped(s);
    }
  }

  // ---------------------------------------------------------------------
  // Validation and coercion of record dicts

  const RequiredFields: seq<string> := ["_id", "content", "keyword"]
  const WeiboCountFields: seq<string> := ["reposts_count", "comments_count", "attitudes_count", "pic_num"]
  const DouyinCountFields: seq<string> := ["digg_count", "comment_count", "share_count", "play_count"]
  const WeiboFlagFields: seq<string> := ["isLongText", "user_verified"]

  /** Every required field is present and truthy. */
  predicate HasRequired(d: Dict) {
    forall f :: f in RequiredFields ==> Truthy(Get(d, f, Null))
  }

  /** `created_at` is unset, falsy, or a `datetime`. */
  predicate CreatedAtOk(d: Dict) {
    var c := Get(d, "created_at", Null);
    !Truthy(c) || c.Time?
  }

  /** `isinstance(v, int)`, or `isinstance(v, (int, float))` when floats are
      accepted. */
  predicate Accepted(v: Value, floats: bool) {
    IsInt(v) || (floats && v.Float?)
  }

  /** What a type reset leaves under `k`: 0 for a present value of the wrong
      type, the old binding otherwise. A missing key reads as the default 0,
      which passes. */
  function AfterReset(d: Dict, k: string, floats: bool): Option<Value> {
    match Lookup(d, k)
    case Some(v) => if Accepted(v, floats) then Some(v) else Some(Int(0))
    case None => None
  }

  /** `if not isinstance(data.get(f, 0), ...): data[f] = 0`, field by field. */
  function ResetFields(d: Dict, fields: seq<string>, floats: bool): (r: Dict)
    ensures KeysOf(r) == KeysOf(d)
    ensures forall k :: k in fields ==> Lookup(r, k) == AfterReset(d, k, floats)
    ensures forall k :: k !in fields ==> Lookup(r, k) == Lookup(d, k)
  {
    if |fields| == 0 then d
    else
      var f := fields[|fields| - 1];
      var d' := ResetFields(d, fields[..|fields| - 1], floats);
      assert forall k :: k in fields ==> k in fields[..|fields| - 1] || k == f;
      match Lookup(d', f)
      case Some(v) => if Accepted(v, floats) then d' else Set(d', f, Int(0))
      case None => d'
  }

  /** `validate_weibo_data(data)`: the verdict, and the dict as the call
      leaves it. */
  function ValidateWeibo(d: Dict): (r: (bool, Dict))
    ensures !HasRequired(d) ==> r == (false, d)
    ensures r.0 <==> HasRequired(d) && CreatedAtOk(d)
    ensures KeysOf(r.1) == KeysOf(d)
    ensures HasRequired(d) ==> forall k :: Lookup(r.1, k) == if k in WeiboCountFields then AfterReset(d, k, false) else Lookup(d, k)
  {
    if !HasRequired(d) then (false, d)
    else
      var d' := ResetFields(d, WeiboCountFields, false);
      assert Get(d', "created_at", Null) == Get(d, "created_at", Null);
      (CreatedAtOk(d'), d')
  }

  function DouyinReset(d: Dict, k: string): Option<Value> {
    if k in DouyinCountFields then AfterReset(d, k, false)
    else if k == "video_duration" then AfterReset(d, k, true)
    else Lookup(d, k)
  }

  /** The Douyin type resets: the four counters, then `video_duration`. */
  function DouyinResets(d: Dict): (r: Dict)
    ensures KeysOf(r) == KeysOf(d)
    ensures forall k :: Lookup(r, k) == DouyinReset(d, k)
  {
    var d1 := ResetFields(d, DouyinCountFields, false);
    assert "video_duration" !in DouyinCountFields;
    assert Lookup(d1, "video_duration") == Lookup(d, "video_duration");
    ResetFields(d1, ["video_duration"], true)
  }

  /** `validate_douyin_data(data)`: as for Weibo, with the four Douyin
      counters and a `video_duration` that may also be a float. */
  function ValidateDouyin(d: Dict): (r: (bool, Dict))
    ensures !HasRequired(d) ==> r == (false, d)
    ensures r.0 <==> HasRequired(d) && CreatedAtOk(d)
    ensures KeysOf(r.1) == KeysOf(d)
    ensures HasRequired(d) ==> forall k :: Lookup(r.1, k) == DouyinReset(d, k)
  {
    if !HasRequired(d) then (false, d)
    else
      var d2 := DouyinResets(d);
      assert "created_at" !in DouyinCountFields;
      assert Lookup(d2, "created_at") == Lookup(d, "created_at");
      (CreatedAtOk(d2), d2)
  }

  /** Validating a second time gives the same verdict and changes nothing
      more. */
  lemma ValidateWeiboIdempotent(d: Dict)
    ensures ValidateWeibo(ValidateWeibo(d).1) == ValidateWeibo(d)
  {
    var d' := ValidateWeibo(d).1;
    if HasRequired(d) {
      FieldListsApart();
      assert forall f :: f in RequiredFields ==> Get(d', f, Null) == Get(d, f, Null);
      ResetFieldsFixed(d', WeiboCountFields, false);
    }
  }

  /** A reset finds nothing to do when every listed field is missing or of
      an accepted type. */
  lemma {:induction false} ResetFieldsFixed(d: Dict, fields: seq<string>, floats: bool)
    requires forall k :: k in fields && Lookup(d, k).Some? ==> Accepted(Lookup(d, k).value, floats)
    ensures ResetFields(d, fields, floats) == d
  {
    if |fields| > 0 {
      ResetFieldsFixed(d, fields[..|fields| - 1], floats);
      assert fields[|fields| - 1] in fields;
    }
  }

  /** `int(v) if v is not None else 0`, with 0 in place of the `ValueError`
      or `TypeError` the conversion raises. */
  function CoerceInt(v: Value): int {
    if v.Null? then 0 else PyInt(v).GetOr(0)
  }

  /** The integer coercion recovers an integer from itself and from its
      decimal text, however it is padded with whitespace. */
  lemma CoerceIntRendered(i: int, pad: string)
    requires Text.AllSpace(pad)
    ensures CoerceInt(Int(i)) == i
    ensures CoerceInt(Str(pad + Text.IntToString(i) + pad)) == i
  {
    var t := Text.IntToString(i);
    var s := pad + t + pad;
    Values.ParseIntRendered(i);
    assert Text.Strip(s) == t by {
      StripPadded(pad, t);
    }
  }

  lemma StripPadded(pad: string, t: string)
    requires Text.AllSpace(pad) && |t| > 0 && Text.Stripped(t)
    ensures Text.Strip(pad + t + pad) == t
  {
    var s := pad + t + pad;
    LStripPadded(pad, t + pad);
    assert s == pad + (t + pad);
    RStripPadded(t, pad);
  }

  lemma {:induction false} LStripPadded(pad: string, u: string)
    requires Text.AllSpace(pad) && |u| > 0 && !Text.IsSpace(u[0])
    ensures Text.LStrip(pad + u) == u
  {
    if |pad| > 0 {
      assert (pad + u)[1..] == pad[1..] + u;
      LStripPadded(pad[1..], u);
    } else {
      assert pad + u == u;
    }
  }

  lemma {:induction false} RStripPadded(t: string, pad: string)
    requires Text.AllSpace(pad) && |t| > 0 && !Text.IsSpace(t[|t| - 1])
    ensures Text.RStrip(t + pad) == t
  {
    if |pad| > 0 {
      assert (t + pad)[..|t + pad| - 1] == t + pad[..|pad| - 1];
      RStripPadded(t, pad[..|pad| - 1]);
    } else {
      assert t + pad == t;
    }
  }

  predicate DistinctKeys(fields: seq<string>) {
    forall i, j :: 0 <= i < j < |fields| ==> fields[i] != fields[j]
  }

  /** `for f in fields: if f in data: data[f] = g(data[f])` */
  function MapPresent(d: Dict, fields: seq<string>, g: Value -> Value): (r: Dict)
    requires DistinctKeys(fields)
    ensures KeysOf(r) == KeysOf(d)
    ensures forall k :: k in fields ==> Lookup(r, k) == if Has(d, k) then Some(g(Lookup(d, k).value)) else None
    ensures forall k :: k !in fields ==> Lookup(r, k) == Lookup(d, k)
  {
    if |fields| == 0 then d
    else
      var f := fields[|fields| - 1];
      var d' := MapPresent(d, fields[..|fields| - 1], g);
      assert forall k :: k in fields ==> k in fields[..|fields| - 1] || k == f;
      assert f !in fields[..|fields| - 1];
      match Lookup(d', f)
      case Some(v) => Set(d', f, g(v))
      case None => d'
  }

  /** Whether `normalize_data` gets past the two `.strip()` calls: a truthy
      `user_nick_name` or `source` that is not a string raises
      `AttributeError`, and the dict is returned as modified so far. */
  predicate StripsSucceed(d: Dict) {
    var nick := Get(d, "user_nick_name", Null);
    var source := Get(d, "source", Null);
    (!Truthy(nick) || nick.Str?) && (!Truthy(source) || source.Str?)
  }

  /** `data[key] = data[key].strip()` when the value is a truthy string. */
  function StripField(d: Dict, key: string): (r: Dict)
    ensures KeysOf(r) == KeysOf(d)
    ensures forall k :: k != key ==> Lookup(r, k) == Lookup(d, k)
  {
    var v := Get(d, key, Null);
    if Truthy(v) && v.Str? then Set(d, key, Str(Text.Strip(v.s))) else d
  }

  /** The content step: `clean_content` on a truthy string. Any other
      truthy value comes back unchanged, since `clean_content` catches the
      `TypeError` its first substitution raises. The cleaner is a parameter
      so that the facts below hold for any cleaner; `NormalizeWeibo` passes
      `CleanContent`. */
  function NormalizeContent(d: Dict, clean: string -> string): (r: Dict)
    ensures KeysOf(r) == KeysOf(d)
    ensures forall k :: k != "content" ==> Lookup(r, k) == Lookup(d, k)
    ensures var c := Get(d, "content", Null);
      Lookup(r, "content") == if c.Str? && |c.s| > 0 then Some(Str(clean(c.s))) else Lookup(d, "content")
  {
    var c := Get(d, "content", Null);
    if Truthy(c) && c.Str? then Set(d, "content", Str(clean(c.s))) else d
  }

  /** The two `.strip()` steps; `false` when one of them raised. */
  function NormalizeNames(d: Dict): (r: (Dict, bool))
    ensures r.1 <==> StripsSucceed(d)
    ensures KeysOf(r.0) == KeysOf(d)
    ensures forall k :: k != "user_nick_name" && k != "source" ==> Lookup(r.0, k) == Lookup(d, k)
  {
    var nick := Get(d, "user_nick_name", Null);
    if Truthy(nick) && !nick.Str? then (d, false)
    else
      var d1 := StripField(d, "user_nick_name");
      var source := Get(d1, "source", Null);
      assert source == Get(d, "source", Null);
      if Truthy(source) && !source.Str? then (d1, false)
      else (StripField(d1, "source"), true)
  }

  /** The integer and boolean coercions of the present counter and flag
      fields. */
  function CoerceFields(d: Dict): (r: Dict)
    ensures KeysOf(r) == KeysOf(d)
    ensures forall k :: k !in WeiboCountFields && k !in WeiboFlagFields ==> Lookup(r, k) == Lookup(d, k)
    ensures forall f :: f in WeiboCountFields && Has(d, f) ==> Lookup(r, f) == Some(Int(CoerceInt(Lookup(d, f).value)))
    ensures forall f :: f in WeiboFlagFields && Has(d, f) ==> Lookup(r, f) == Some(Bool(Truthy(Lookup(d, f).value)))
    ensures forall f :: f in WeiboCountFields && Has(r, f) ==> Lookup(r, f).value.Int?
  {
    FieldListsApart();
    var d1 := MapPresent(d, WeiboCountFields, v => Int(CoerceInt(v)));
    MapPresent(d1, WeiboFlagFields, v => Bool(Truthy(v)))
  }

  lemma FieldListsApart()
    ensures DistinctKeys(WeiboCountFields) && DistinctKeys(WeiboFlagFields)
    ensures forall k :: k in WeiboFlagFields ==> k !in WeiboCountFields
    ensures forall k :: k in RequiredFields ==> k !in WeiboCountFields && k !in WeiboFlagFields
    ensures "created_at" !in WeiboCountFields
  {
  }

  /** The coercions run only when both `.strip()` steps went through. */
  function CoerceIfStripped(p: (Dict, bool)): (r: Dict)
    ensures KeysOf(r) == KeysOf(p.0)
    ensures forall k :: k !in WeiboCountFields && k !in WeiboFlagFields ==> Lookup(r, k) == Lookup(p.0, k)
    ensures !p.1 ==> r == p.0
  {
    if p.1 then CoerceFields(p.0) else p.0
  }

  /** `normalize_data(data)`, with the content cleaner as a parameter. */
  function NormalizeWith(d: Dict, clean: string -> string): (r: Dict)
    ensures KeysOf(r) == KeysOf(d)
  {
    CoerceIfStripped(NormalizeNames(NormalizeContent(d, clean)))
  }

  /** `normalize_data(data)` */
  function NormalizeWeibo(d: Dict): (r: Dict)
    ensures KeysOf(r) == KeysOf(d)
  {
    NormalizeWith(d, CleanContent)
  }

  /** The content step does not touch the fields the later steps read. */
  lemma NormalizeContentKeepsNames(d: Dict, clean: string -> string)
    ensures StripsSucceed(NormalizeContent(d, clean)) == StripsSucceed(d)
  {
    var d1 := NormalizeContent(d, clean);
    assert Get(d1, "user_nick_name", Null) == Get(d, "user_nick_name", Null);
    assert Get(d1, "source", Null) == Get(d, "source", Null);
  }

  /** Fields `normalize_data` does not name keep their values. */
  lemma NormalizeKeepsOtherFields(d: Dict, k: string, clean: string -> string)
    requires k !in WeiboCountFields && k !in WeiboFlagFields
    requires k != "content" && k != "user_nick_name" && k != "source"
    ensures Lookup(NormalizeWith(d, clean), k) == Lookup(d, k)
  {
  }

  /** The steps after the content step leave `content` alone. */
  lemma NormalizeKeepsCleanedContent(d: Dict, clean: string -> string)
    ensures Lookup(NormalizeWith(d, clean), "content") == Lookup(NormalizeContent(d, clean), "content")
  {
    var d1 := NormalizeContent(d, clean);
    NamesKeepContent(d1);
    CoerceKeepsContent(NormalizeNames(d1));
  }

  lemma NamesKeepContent(d: Dict)
    ensures Lookup(NormalizeNames(d).0, "content") == Lookup(d, "content")
  {
  }

  lemma CoerceKeepsContent(p: (Dict, bool))
    ensures Lookup(CoerceIfStripped(p), "content") == Lookup(p.0, "content")
  {
    FieldListsApart();
    assert "content" in RequiredFields;
  }

  /** A non-empty string content is replaced by its cleaned form. */
  lemma NormalizeCleansContent(d: Dict, clean: string -> string)
    requires Get(d, "content", Null).Str? && |Get(d, "content", Null).s| > 0
    ensures Lookup(NormalizeWith(d, clean), "content") == Some(Str(clean(Get(d, "content", Null).s)))
  {
    NormalizeKeepsCleanedContent(d, clean);
  }

  /** Once both names are strings (or falsy), every present counter becomes
      an `int` and every present flag a `bool`. */
  lemma NormalizeCoerces(d: Dict, f: string, clean: string -> string)
    requires StripsSucceed(d) && Has(d, f)
    ensures f in WeiboCountFields ==> Lookup(NormalizeWith(d, clean), f) == Some(Int(CoerceInt(Lookup(d, f).value)))
    ensures f in WeiboFlagFields ==> Lookup(NormalizeWith(d, clean), f) == Some(Bool(Truthy(Lookup(d, f).value)))
  {
    NormalizeContentKeepsNames(d, clean);
    var d1 := NormalizeContent(d, clean);
    var r := NormalizeNames(d1);
    assert r.1;
    if f in WeiboCountFields || f in WeiboFlagFields {
      assert f != "content" && f != "user_nick_name" && f != "source";
      assert Lookup(r.0, f) == Lookup(d, f);
    }
  }

  /** A name that is truthy but not a string stops the call before the
      coercions: counters and flags come back as they were. */
  lemma NormalizeStopsAtBadName(d: Dict, f: string, clean: string -> string)
    requires !StripsSucceed(d)
    requires f in WeiboCountFields || f in WeiboFlagFields
    ensures Lookup(NormalizeWith(d, clean), f) == Lookup(d, f)
  {
    NormalizeContentKeepsNames(d, clean);
  }

  /** A normalised record needs no type reset: validation afterwards only
      judges it. */
  lemma NormalizedNeedsNoReset(d: Dict, clean: string -> string)
    requires StripsSucceed(d)
    ensures ValidateWeibo(NormalizeWith(d, clean)).1 == NormalizeWith(d, clean)
  {
    var n := NormalizeWith(d, clean);
    NormalizeContentKeepsNames(d, clean);
    if HasRequired(n) {
      ResetFieldsFixed(n, WeiboCountFields, false);
    }
  }

  /** The instance `normalize_data` runs: content goes through
      `clean_content`. */
  lemma NormalizeWeiboCleansContent(d: Dict)
    requires Get(d, "content", Null).Str? && |Get(d, "content", Null).s| > 0
    ensures Lookup(NormalizeWeibo(d), "content") == Some(Str(CleanContent(Get(d, "content", Null).s)))
  {
    NormalizeCleansContent(d, CleanContent);
  }

  // ---------------------------------------------------------------------
  // deduplicate_data

  /** `data.get('_id')` */
  function IdOf(d: Dict): Value {
    Get(d, "_id", Null)
  }

  /** The key a record is deduplicated by: its id as a set compares it, when
      the id is truthy. */
  function IdKey(d: Dict): Option<Value> {
    var id := IdOf(d);
    if Truthy(id) then Some(HashKey(id)) else None
  }

  /** A truthy id that cannot be hashed: `content_id not in seen_ids` raises
      `TypeError` on it. */
  predicate BadId(d: Dict) {
    Truthy(IdOf(d)) && !Hashable(IdOf(d))
  }

  /** `deduplicate_data(data_list)`; `None` stands for the `TypeError` an
      unhashable id raises, which the method does not catch. */
  method DeduplicateData(data: seq<Dict>) returns (r: Option<seq<Dict>>)
    ensures r.None? <==> exists i :: 0 <= i < |data| && BadId(data[i])
    ensures r.Some? ==> r.value == Dedup.KeepFirsts(data, IdKey, |data|)
    ensures r.Some? ==> forall k :: 0 <= k < |r.value| ==> Truthy(IdOf(r.value[k]))
    ensures r.Some? ==> forall a, b :: 0 <= a < b < |r.value| ==> HashKey(IdOf(r.value[a])) != HashKey(IdOf(r.value[b]))
    ensures r.Some? ==> forall i :: 0 <= i < |data| && Truthy(IdOf(data[i])) ==>
              exists k :: 0 <= k < |r.value| && HashKey(IdOf(r.value[k])) == HashKey(IdOf(data[i]))
    ensures r.Some? ==> Dedup.SubseqOf(r.value, data)
  {
    var seen: set<Value> := {};
    var unique: seq<Dict> := [];
    var i := 0;
    while i < |data|
      invariant 0 <= i <= |data|
      invariant seen == Dedup.KeysUpTo(data, IdKey, i)
      invariant unique == Dedup.KeepFirsts(data, IdKey, i)
      invariant forall j :: 0 <= j < i ==> !BadId(data[j])
    {
      var id := IdOf(data[i]);
      Dedup.FirstIffUnseen(data, IdKey, i);
      if Truthy(id) {
        if !Hashable(id) {
          return None;
        }
        if HashKey(id) !in seen {
          seen := seen + {HashKey(id)};
          unique := unique + [data[i]];
        }
      }
      i := i + 1;
    }
    KeptIds(data);
    return Some(unique);
  }

  /** What the first-id selection keeps, stated on ids. */
  lemma KeptIds(data: seq<Dict>)
    ensures var u := Dedup.KeepFirsts(data, IdKey, |data|);
      && (forall k :: 0 <= k < |u| ==> Truthy(IdOf(u[k])))
      && (forall a, b :: 0 <= a < b < |u| ==> HashKey(IdOf(u[a])) != HashKey(IdOf(u[b])))
      && (forall i :: 0 <= i < |data| && Truthy(IdOf(data[i])) ==>
            exists k :: 0 <= k < |u| && HashKey(IdOf(u[k])) == HashKey(IdOf(data[i])))
      && Dedup.SubseqOf(u, data)
  {
    var u := Dedup.KeepFirsts(data, IdKey, |data|);
    Dedup.KeepFirstsSpec(data, IdKey, |data|);
    assert data[..|data|] == data;
    forall k | 0 <= k < |u| ensures Truthy(IdOf(u[k])) {
      assert IdKey(u[k]).Some?;
    }
    forall a, b | 0 <= a < b < |u| ensures HashKey(IdOf(u[a])) != HashKey(IdOf(u[b])) {
      assert IdKey(u[a]) != IdKey(u[b]);
    }
    forall i | 0 <= i < |data| && Truthy(IdOf(data[i]))
      ensures exists k :: 0 <= k < |u| && HashKey(IdOf(u[k])) == HashKey(IdOf(data[i]))
    {
      assert IdKey(data[i]).value in Dedup.KeysUpTo(data, IdKey, |data|);
      assert IdKey(data[i]).value in Dedup.KeyValues(u, IdKey);
    }
  }

  // ---------------------------------------------------------------------
  // _is_valid_image_url and _extract_pic_urls

  /** The leading characters `urlsplit` strips: C0 controls and space. */
  predicate IsC0OrSpace(c: char) {
    c <= ' '
  }

  function LStripC0(s: string): (r: string)
    ensures |r| <= |s| && r == s[|s| - |r|..]
    ensures |s| > 0 && !IsC0OrSpace(s[0]) ==> r == s
  {
    if |s| > 0 && IsC0OrSpace(s[0]) then LStripC0(s[1..]) else s
  }

  /** Tab, carriage return and line feed, which `urlsplit` deletes anywhere. */
  predicate IsUnsafeUrlChar(c: char) {
    c == '\t' || c == '\r' || c == '\n'
  }

  function RemoveUnsafeUrlChars(s: string): (r: string)
    ensures (forall i :: 0 <= i < |s| ==> !IsUnsafeUrlChar(s[i])) ==> r == s
    ensures ':' !in s ==> ':' !in r
  {
    if |s| == 0 then ""
    else if IsUnsafeUrlChar(s[0]) then RemoveUnsafeUrlChars(s[1..])
    else [s[0]] + RemoveUnsafeUrlChars(s[1..])
  }

  /** The characters of a scheme: ASCII letters, digits, '+', '-', '.'. */
  predicate IsSchemeChar(c: char) {
    Text.IsAsciiAlnum(c) || c == '+' || c == '-' || c == '.'
  }

  /** The three parts of `urlparse` the image check reads. */
  datatype ParsedUrl = ParsedUrl(scheme: string, netloc: string, path: string)

  /** The schemes whose paths `urlparse` splits `;params` off. */
  predicate UsesParams(scheme: string) {
    scheme in {"", "ftp", "hdl", "prospero", "http", "imap", "https", "shttp", "rtsp", "rtsps",
               "rtspu", "sip", "sips", "mms", "sftp", "tel"}
  }

  /** `_splitparams(path)`: cut at the first ';' after the last '/'. */
  function SplitParams(path: string): (r: string)
    requires ';' in path
    ensures |r| <= |path| && r == path[..|r|]
  {
    if '/' in path then
      var i := Text.FindFrom(path, ';', Text.RFind(path, '/'));
      if i < 0 then path else path[..i]
    else
      var i := Text.Find(path, ';');
      path[..i]
  }

  /** The end of the netloc: the first '/', '?' or '#' at or after `start`. */
  function NetlocEnd(s: string, start: nat): (e: nat)
    requires start <= |s|
    ensures start <= e <= |s|
    ensures forall j :: start <= j < e ==> s[j] != '/' && s[j] != '?' && s[j] != '#'
    ensures e < |s| ==> s[e] == '/' || s[e] == '?' || s[e] == '#'
    decreases |s| - start
  {
    if start == |s| || s[start] == '/' || s[start] == '?' || s[start] == '#' then start
    else NetlocEnd(s, start + 1)
  }

  /** The scheme split: a first ':' after a letter and scheme characters only. */
  function SplitScheme(url: string): (r: (string, string)) {
    var i := Text.Find(url, ':');
    if i > 0 && Text.IsAsciiLetter(url[0]) && (forall j :: 0 <= j < i ==> IsSchemeChar(url[j]))
    then (Text.Lower(url[..i]), url[i + 1..])
    else ("", url)
  }

  /** The netloc split: after a leading "//", up to the first '/', '?' or '#'. */
  function SplitNetloc(rest: string): (r: (string, string)) {
    if |rest| >= 2 && rest[..2] == "//" then
      var e := NetlocEnd(rest, 2);
      (rest[2..e], rest[e..])
    else ("", rest)
  }

  /** The path: what is left after the fragment, the query and (for the
      schemes that use them) the params are cut off. */
  function PathOf(scheme: string, rest: string): string {
    var noFragment := if '#' in rest then rest[..Text.Find(rest, '#')] else rest;
    var noQuery := if '?' in noFragment then noFragment[..Text.Find(noFragment, '?')] else noFragment;
    if UsesParams(scheme) && ';' in noQuery then SplitParams(noQuery) else noQuery
  }

  /** `urlparse(url)`, the scheme, netloc and path; `None` stands for the
      `ValueError` an unbalanced IPv6 bracket raises. */
  function UrlParse(url0: string): Option<ParsedUrl> {
    var url := RemoveUnsafeUrlChars(LStripC0(url0));
    var (scheme, rest) := SplitScheme(url);
    var (netloc, rest2) := SplitNetloc(rest);
    if ('[' in netloc) != (']' in netloc) then None
    else Some(ParsedUrl(scheme, netloc, PathOf(scheme, rest2)))
  }

  const ImageExtensions: seq<string> := [".jpg", ".jpeg", ".png", ".gif", ".webp", ".bmp"]

  /** `_is_valid_image_url(url)` */
  predicate IsValidImageUrl(url: string) {
    match UrlParse(url)
    case None => false
    case Some(p) =>
      |p.scheme| > 0 && |p.netloc| > 0
      && exists e :: e in ImageExtensions && Text.EndsWith(Text.Lower(p.path), e)
  }

  /** A host `urlsplit` reads as one netloc: no path, query or fragment
      delimiter, no IPv6 bracket and no character it deletes. */
  predicate HostChar(c: char) {
    c != '/' && c != '?' && c != '#' && c != '[' && c != ']' && !IsUnsafeUrlChar(c)
  }

  /** A path character that neither starts a query, a fragment or params,
      nor is deleted. */
  predicate PathChar(c: char) {
    c != '?' && c != '#' && c != ';' && !IsUnsafeUrlChar(c)
  }

  /** The shape `scheme://host/path` with a plain scheme, host and path. */
  predicate PlainUrlParts(scheme: string, host: string, path: string) {
    && |scheme| > 0 && Text.IsAsciiLetter(scheme[0])
    && (forall i :: 0 <= i < |scheme| ==> IsSchemeChar(scheme[i]))
    && |host| > 0
    && (forall i :: 0 <= i < |host| ==> HostChar(host[i]))
    && (forall i :: 0 <= i < |path| ==> PathChar(path[i]))
  }

  lemma PlainUrlSanitized(scheme: string, host: string, path: string, url: string)
    requires PlainUrlParts(scheme, host, path) && url == scheme + "://" + host + "/" + path
    ensures RemoveUnsafeUrlChars(LStripC0(url)) == url
  {
    var n := |scheme|;
    assert LStripC0(url) == url;
    forall i | 0 <= i < |url| ensures !IsUnsafeUrlChar(url[i]) {
      if i < n {
        assert url[i] == scheme[i];
      } else if n + 3 <= i < n + 3 + |host| {
        assert url[i] == host[i - n - 3];
      } else if n + 4 + |host| <= i {
        assert url[i] == path[i - n - 4 - |host|];
      }
    }
  }

  lemma PlainUrlScheme(scheme: string, tail: string)
    requires |scheme| > 0 && Text.IsAsciiLetter(scheme[0])
    requires forall i :: 0 <= i < |scheme| ==> IsSchemeChar(scheme[i])
    ensures SplitScheme(scheme + ":" + tail) == (Text.Lower(scheme), tail)
  {
    var url := scheme + ":" + tail;
    var n := |scheme|;
    assert url[..n] == scheme;
    assert url[n] == ':';
    assert url[n + 1..] == tail;
  }

  lemma PlainUrlNetloc(host: string, path: string)
    requires |host| > 0 && forall i :: 0 <= i < |host| ==> HostChar(host[i])
    ensures SplitNetloc("//" + host + "/" + path) == (host, "/" + path)
    ensures '[' !in host && ']' !in host
  {
    forall i | 0 <= i < |host| ensures host[i] != '[' && host[i] != ']' {
      assert HostChar(host[i]);
    }
    var rest := "//" + host + "/" + path;
    var e := NetlocEnd(rest, 2);
    var h := |host|;
    assert rest[2 + h] == '/';
    assert rest[2..e] == host;
    assert rest[e..] == "/" + path;
  }

  lemma PlainUrlPath(scheme: string, path: string)
    requires forall i :: 0 <= i < |path| ==> PathChar(path[i])
    ensures PathOf(scheme, "/" + path) == "/" + path
  {
    var p := "/" + path;
    forall i | 0 <= i < |p| ensures p[i] != '#' && p[i] != '?' && p[i] != ';' {
      if i > 0 {
        assert p[i] == path[i - 1];
      }
    }
  }

  /** `urlparse` read stage by stage. */
  lemma UrlParseStages(url: string, scheme: string, rest: string, netloc: string, rest2: string)
    requires RemoveUnsafeUrlChars(LStripC0(url)) == url
    requires SplitScheme(url) == (scheme, rest)
    requires SplitNetloc(rest) == (netloc, rest2)
    requires '[' !in netloc && ']' !in netloc
    ensures UrlParse(url) == Some(ParsedUrl(scheme, netloc, PathOf(scheme, rest2)))
  {
  }

  /** The four stages on a plain `scheme://host/path`. */
  lemma PlainUrlStages(scheme: string, host: string, path: string, url: string, rest: string)
    requires PlainUrlParts(scheme, host, path)
    requires rest == "//" + host + "/" + path && url == scheme + ":" + rest
    ensures RemoveUnsafeUrlChars(LStripC0(url)) == url
    ensures SplitScheme(url) == (Text.Lower(scheme), rest)
    ensures SplitNetloc(rest) == (host, "/" + path) && '[' !in host && ']' !in host
    ensures PathOf(Text.Lower(scheme), "/" + path) == "/" + path
  {
    PlainUrlConcat(scheme, host, path);
    PlainUrlSanitized(scheme, host, path, url);
    PlainUrlScheme(scheme, rest);
    PlainUrlNetloc(host, path);
    PlainUrlPath(Text.Lower(scheme), path);
  }

  /** `urlparse` splits a plain `scheme://host/path` back into its parts. */
  lemma UrlParsePlain(scheme: string, host: string, path: string)
    requires PlainUrlParts(scheme, host, path)
    ensures UrlParse(scheme + "://" + host + "/" + path)
            == Some(ParsedUrl(Text.Lower(scheme), host, "/" + path))
  {
    var rest := "//" + host + "/" + path;
    var url := scheme + ":" + rest;
    PlainUrlConcat(scheme, host, path);
    PlainUrlStages(scheme, host, path, url, rest);
    UrlParseStages(url, Text.Lower(scheme), rest, host, "/" + path);
  }

  lemma PlainUrlConcat(scheme: string, host: string, path: string)
    ensures scheme + "://" + host + "/" + path == scheme + ":" + ("//" + host + "/" + path)
  {
    assert "://" == ":" + "//";
  }

  /** On a plain `scheme://host/path`, the image check is exactly the
      extension test on the lower-cased path. */
  lemma ImageUrlVerdict(scheme: string, host: string, path: string)
    requires PlainUrlParts(scheme, host, path)
    ensures IsValidImageUrl(scheme + "://" + host + "/" + path)
            <==> exists e :: e in ImageExtensions && Text.EndsWith(Text.Lower("/" + path), e)
  {
    UrlParsePlain(scheme, host, path);
  }

  /** Without a ':' there is no scheme, so no URL is accepted. */
  lemma NoColonNotImage(url: string)
    requires ':' !in url
    ensures !IsValidImageUrl(url)
  {
    var u := RemoveUnsafeUrlChars(LStripC0(url));
    assert ':' !in LStripC0(url);
  }

  /** The key `_extract_pic_urls` dedups on: the URL itself when `valid`
      accepts it. */
  function PicKey(valid: string -> bool): string -> Option<string> {
    url => if valid(url) then Some(url) else None
  }

  /** `_extract_pic_urls`, after the pattern matching: the first occurrence
      of each candidate that `valid` accepts, in match order. */
  method ExtractPicUrlsWith(candidates: seq<string>, valid: string -> bool) returns (urls: seq<string>)
    ensures urls == Dedup.KeepFirsts(candidates, PicKey(valid), |candidates|)
    ensures forall k :: 0 <= k < |urls| ==> valid(urls[k])
    ensures forall k, l :: 0 <= k < l < |urls| ==> urls[k] != urls[l]
    ensures forall c :: c in candidates && valid(c) ==> c in urls
    ensures Dedup.SubseqOf(urls, candidates)
  {
    var key := PicKey(valid);
    urls := [];
    var seen: set<string> := {};
    var i := 0;
    while i < |candidates|
      invariant 0 <= i <= |candidates|
      invariant seen == Dedup.KeysUpTo(candidates, key, i)
      invariant urls == Dedup.KeepFirsts(candidates, key, i)
    {
      Dedup.FirstIffUnseen(candidates, key, i);
      var url := candidates[i];
      if url !in seen && valid(url) {
        urls := urls + [url];
        seen := seen + {url};
      }
      i := i + 1;
    }
    Dedup.KeepFirstsSpec(candidates, key, |candidates|);
    assert candidates[..|candidates|] == candidates;
    forall k | 0 <= k < |urls| ensures valid(urls[k]) {
      assert key(urls[k]).Some?;
    }
    forall k, l | 0 <= k < l < |urls| ensures urls[k] != urls[l] {
      assert key(urls[k]) != key(urls[l]);
    }
    forall c | c in candidates && valid(c) ensures c in urls {
      var j :| 0 <= j < |candidates| && candidates[j] == c;
      assert key(candidates[j]) == Some(c);
      assert c in Dedup.KeyValues(urls, key);
      var k :| 0 <= k < |urls| && key(urls[k]).Some? && key(urls[k]).value == c;
      assert urls[k] == c;
    }
  }

  /** `_extract_pic_urls(content)`: the matches of the four picture
      patterns, pattern by pattern, filtered by `_is_valid_image_url` and
      deduplicated keeping first occurrences. Neither `re.findall` nor the
      validity test (which catches its own errors) raises, so the `except`
      branch returning `[]` is not reachable. */
  method ExtractPicUrls(content: string) returns (urls: seq<string>)
    ensures var candidates := PicPatterns.PicCandidates(content);
            urls == Dedup.KeepFirsts(candidates, PicKey(IsValidImageUrl), |candidates|)
    ensures forall k :: 0 <= k < |urls| ==> IsValidImageUrl(urls[k])
    ensures forall k, l :: 0 <= k < l < |urls| ==> urls[k] != urls[l]
    ensures forall c :: c in PicPatterns.PicCandidates(content) && IsValidImageUrl(c) ==> c in urls
    ensures Dedup.SubseqOf(urls, PicPatterns.PicCandidates(content))
    ensures forall k :: 0 <= k < |urls| ==>
              Text.Contains(content, urls[k])
              && exists p :: p in PicPatterns.Patterns && PicPatterns.Matches(p, urls[k])
  {
    var candidates := PicPatterns.PicCandidates(content);
    PicPatterns.PicCandidatesSound(content);
    urls := ExtractPicUrlsWith(candidates, IsValidImageUrl);
    Dedup.SubseqOfIn(urls, candidates);
  }

  // ---------------------------------------------------------------------
  // process_geo_data

  /** The six geo columns `process_geo_data` fills. */
  datatype Geo = Geo(geoType: Value, coordinates: Value, poiid: Value, title: Value,
                     detailType: Value, spotType: Value)

  const NoGeo := Geo(Null, Null, Null, Null, Null, Null)

  const GeoKeys: seq<string> := ["geo_type", "geo_coordinates", "geo_detail_poiid", "geo_detail_title",
                                 "geo_detail_type", "geo_detail_spot_type"]

  /** The result as the dict the source returns. */
  function GeoDict(g: Geo): (d: Dict)
    ensures KeysOf(d) == GeoKeys
  {
    [Field("geo_type", g.geoType), Field("geo_coordinates", g.coordinates),
     Field("geo_detail_poiid", g.poiid), Field("geo_detail_title", g.title),
     Field("geo_detail_type", g.detailType), Field("geo_detail_spot_type", g.spotType)]
  }

  /** `process_geo_data(geo_data)`. `dumps` is `json.dumps`, which may raise
      (`None`). An exception, including the `AttributeError` of calling
      `.get` on a truthy value that is not a dict, returns the columns
      filled so far. */
  function ProcessGeoData(geo: Value, dumps: Value -> Option<string>): (g: Geo)
    ensures !(geo.Obj? && Truthy(geo)) ==> g == NoGeo
    ensures geo.Obj? && Truthy(geo) ==> g.geoType == Get(geo.fields, "type", Null)
    ensures g.coordinates == Null || (geo.Obj? && g.coordinates.Str?
            && dumps(Get(geo.fields, "coordinates", Null)) == Some(g.coordinates.s))
    ensures g.poiid != Null ==> geo.Obj? && Get(geo.fields, "detail", Obj([])).Obj?
    ensures GeoDetailRead(geo, dumps) ==>
              var detail := Get(geo.fields, "detail", Obj([])).fields;
              g.poiid == Get(detail, "poiid", Null) && g.title == Get(detail, "title", Null)
              && g.detailType == Get(detail, "type", Null) && g.spotType == Get(detail, "spot_type", Null)
    ensures !GeoDetailRead(geo, dumps) ==> g.poiid == g.title == g.detailType == g.spotType == Null
  {
    if !Truthy(geo) || !geo.Obj? then NoGeo
    else
      var geoType := Get(geo.fields, "type", Null);
      var coords := Get(geo.fields, "coordinates", Null);
      if Truthy(coords) && dumps(coords).None? then NoGeo.(geoType := geoType)
      else
        var coordinates := if Truthy(coords) then Str(dumps(coords).value) else Null;
        var detail := Get(geo.fields, "detail", Obj([]));
        if !Truthy(detail) || !detail.Obj? then Geo(geoType, coordinates, Null, Null, Null, Null)
        else
          Geo(geoType, coordinates, Get(detail.fields, "poiid", Null), Get(detail.fields, "title", Null),
              Get(detail.fields, "type", Null), Get(detail.fields, "spot_type", Null))
  }

  /** The run reaches the four detail reads: a truthy dict whose coordinates
      (if any) serialise and whose `detail` is a truthy dict. */
  predicate GeoDetailRead(geo: Value, dumps: Value -> Option<string>) {
    geo.Obj? && Truthy(geo)
    && (var coords := Get(geo.fields, "coordinates", Null);
        !Truthy(coords) || dumps(coords).Some?)
    && (var detail := Get(geo.fields, "detail", Obj([]));
        Truthy(detail) && detail.Obj?)
  }

  /** Whatever the input, the returned dict has exactly the six geo keys, and
      an empty input leaves them all `None`. */
  lemma GeoAlwaysSixKeys(geo: Value, dumps: Value -> Option<string>)
    ensures KeysOf(GeoDict(ProcessGeoData(geo, dumps))) == GeoKeys
    ensures !Truthy(geo) ==> forall k :: k in GeoKeys ==> Lookup(GeoDict(ProcessGeoData(geo, dumps)), k) == Some(Null)
  {
  }

  // ---------------------------------------------------------------------
  // validate_platform_data

  /** `validate_platform_data(data, platform)`: the Douyin rules exactly when
      the lower-cased platform is "douyin", the Weibo rules otherwise. */
  function ValidatePlatform(d: Dict, platform: string): (r: (bool, Dict))
    ensures r.0 <==> HasRequired(d) && CreatedAtOk(d)
    ensures KeysOf(r.1) == KeysOf(d)
    ensures HasRequired(d) && Text.Lower(platform) == "douyin" ==>
              forall k :: Lookup(r.1, k) == DouyinReset(d, k)
    ensures HasRequired(d) && Text.Lower(platform) != "douyin" ==>
              forall k :: Lookup(r.1, k) == if k in WeiboCountFields then AfterReset(d, k, false) else Lookup(d, k)
  {
    if Text.Lower(platform) == "douyin" then ValidateDouyin(d) else ValidateWeibo(d)
  }
}

=== FILE: database.dfy ===
/** The MySQL store of `DatabaseManager`: the `weibo_data` table, keyed by
    its UNIQUE `_id` column and written with INSERT IGNORE, and the
    append-only `crawl_logs` table. The SQL engine is modelled by its
    effect on a map and a sequence; whether a connection or a statement
    succeeds for reasons outside the model is an input. */
module Database {
  import opened Wrappers
  import opened Values

  /** The manager's view of the database: whether a connection is open,
      the stored rows by `_id`, and the run log in insertion order. */
  datatype Db = Db(connected: bool, rows: map<Value, Dict>, logs: seq<Dict>)

  /** The named parameters of the `weibo_data` INSERT; a record missing
      one of them fails before reaching the server. */
  const WeiboColumns: seq<string> := [
    "_id", "mblogid", "created_at", "geo_type", "geo_coordinates", "geo_detail_poiid",
    "geo_detail_title", "geo_detail_type", "geo_detail_spot_type", "ip_location",
    "reposts_count", "comments_count", "attitudes_count", "source", "content",
    "pic_urls", "pic_num", "isLongText", "user_id", "user_avatar_hd", "user_nick_name",
    "user_verified", "user_mbrank", "user_mbtype", "user_verified_type", "url", "keyword"]

  /** No column is named twice. */
  lemma WeiboColumnsDistinct()
    ensures forall a, b :: 0 <= a < b < |WeiboColumns| ==> WeiboColumns[a] != WeiboColumns[b]
  {
  }

  /** The named parameters of the `crawl_logs` INSERT. */
  const LogColumns: seq<string> := [
    "keyword", "start_time", "end_time", "total_crawled", "success_count",
    "error_count", "status", "error_message"]

  /** Every named parameter of a statement has a value in `d`. */
  predicate Binds(d: Dict, columns: seq<string>) {
    forall i :: 0 <= i < |columns| ==> Has(d, columns[i])
  }

  /** The `_id` a record is stored under. A record that binds every
      parameter has one. */
  function RowId(d: Dict): Value {
    Lookup(d, "_id").GetOr(Null)
  }

  /** `if not self.connection: if not self.connect(): return <failure>`:
      the state after the guard, or `None` when connecting fails. */
  function Ensure(db: Db, connectOk: bool): (r: Option<Db>)
    ensures r.Some? <==> db.connected || connectOk
    ensures r.Some? ==> r.value == db.(connected := true)
  {
    if db.connected then Some(db)
    else if connectOk then Some(db.(connected := true))
    else None
  }

  /** `insert_weibo_data(data)`: the new state and the result. `execOk` is
      whether the server accepts the statement. A row whose `_id` is
      already stored is left as it is, and the call still succeeds. */
  function InsertWeibo(db: Db, data: Dict, connectOk: bool, execOk: bool): (r: (Db, bool))
    ensures r.0.logs == db.logs
    ensures r.1 <==> (db.connected || connectOk) && Binds(data, WeiboColumns) && execOk
    ensures r.1 ==> RowId(data) in r.0.rows
    ensures forall id :: id in db.rows ==> id in r.0.rows && r.0.rows[id] == db.rows[id]
    ensures forall id :: id in r.0.rows && id !in db.rows ==> r.1 && id == RowId(data)
    ensures r.1 && RowId(data) !in db.rows ==> r.0.rows[RowId(data)] == data
  {
    match Ensure(db, connectOk)
    case None => (db, false)
    case Some(c) =>
      if !Binds(data, WeiboColumns) || !execOk then (c, false)
      else
        var id := RowId(data);
        if id in c.rows then (c, true)
        else (c.(rows := c.rows[id := data]), true)
  }

  /** INSERT IGNORE is idempotent: inserting the same record again changes
      nothing and still reports success. */
  lemma InsertIgnoreIdempotent(db: Db, data: Dict, connectOk: bool)
    requires InsertWeibo(db, data, connectOk, true).1
    ensures var once := InsertWeibo(db, data, connectOk, true).0;
      InsertWeibo(once, data, connectOk, true) == (once, true)
  {
    var once := InsertWeibo(db, data, connectOk, true).0;
    assert once.connected;
    assert RowId(data) in once.rows;
  }

  /** The number of records among `list` whose insert succeeds on a
      connected store, with `execOk(i)` the server's verdict on the `i`th. */
  function Accepted(list: seq<Dict>, execOk: nat -> bool, from: nat): (n: nat)
    ensures n <= |list|
    decreases |list|
  {
    if |list| == 0 then 0
    else (if Binds(list[0], WeiboColumns) && execOk(from) then 1 else 0) + Accepted(list[1..], execOk, from + 1)
  }

  /** The per-record inserts of a batch, from position `from` on, on a
      connected store. */
  function InsertAll(db: Db, list: seq<Dict>, execOk: nat -> bool, from: nat): (r: (Db, nat))
    requires db.connected
    ensures r.0.connected && r.0.logs == db.logs
    ensures r.1 == Accepted(list, execOk, from)
    ensures forall id :: id in db.rows ==> id in r.0.rows && r.0.rows[id] == db.rows[id]
    decreases |list|
  {
    if |list| == 0 then (db, 0)
    else
      var (d1, ok) := InsertWeibo(db, list[0], false, execOk(from));
      var (d2, n) := InsertAll(d1, list[1..], execOk, from + 1);
      (d2, (if ok then 1 else 0) + n)
  }

  /** Every record whose insert succeeded has its `_id` in the table. */
  lemma {:induction false} InsertAllStores(db: Db, list: seq<Dict>, execOk: nat -> bool, from: nat)
    requires db.connected
    ensures forall i :: 0 <= i < |list| && Binds(list[i], WeiboColumns) && execOk(from + i) ==>
              RowId(list[i]) in InsertAll(db, list, execOk, from).0.rows
    decreases |list|
  {
    if |list| > 0 {
      var (d1, ok) := InsertWeibo(db, list[0], false, execOk(from));
      InsertAllStores(d1, list[1..], execOk, from + 1);
      forall i | 0 <= i < |list| && Binds(list[i], WeiboColumns) && execOk(from + i)
        ensures RowId(list[i]) in InsertAll(db, list, execOk, from).0.rows
      {
        if i > 0 {
          assert list[1..][i - 1] == list[i];
        }
      }
    }
  }

  /** `batch_insert_weibo_data(data_list)`: the number of records whose
      insert succeeded, 0 when connecting fails or the list is empty. */
  function BatchInsert(db: Db, list: seq<Dict>, connectOk: bool, execOk: nat -> bool): (r: (Db, nat))
    ensures r.1 <= |list|
    ensures |list| == 0 ==> r.1 == 0
    ensures !(db.connected || connectOk) ==> r == (db, 0)
    ensures (db.connected || connectOk) ==> r.1 == Accepted(list, execOk, 0)
    ensures r.0.logs == db.logs
    ensures forall id :: id in db.rows ==> id in r.0.rows && r.0.rows[id] == db.rows[id]
  {
    match Ensure(db, connectOk)
    case None => (db, 0)
    case Some(c) =>
      if |list| == 0 then (c, 0)
      else InsertAll(c, list, execOk, 0)
  }

  /** `get_existing_ids()`: the stored `_id` values, or the empty set when
      connecting or the query fails. */
  function ExistingIds(db: Db, connectOk: bool, queryOk: bool): (r: (Db, set<Value>))
    ensures r.0.rows == db.rows && r.0.logs == db.logs
    ensures (db.connected || connectOk) && queryOk ==> r.1 == db.rows.Keys
    ensures !((db.connected || connectOk) && queryOk) ==> r.1 == {}
  {
    match Ensure(db, connectOk)
    case None => (db, {})
    case Some(c) => (c, if queryOk then c.rows.Keys else {})
  }

  /** After a batch, the snapshot holds every record that was accepted, and
      every id stored before. */
  lemma BatchThenSnapshot(db: Db, list: seq<Dict>, connectOk: bool, execOk: nat -> bool)
    requires db.connected || connectOk
    ensures var after := BatchInsert(db, list, connectOk, execOk).0;
      var ids := ExistingIds(after, false, true).1;
      && db.rows.Keys <= ids
      && forall i :: 0 <= i < |list| && Binds(list[i], WeiboColumns) && execOk(i) ==>
           RowId(list[i]) in ids
  {
    var c := Ensure(db, connectOk).value;
    if |list| > 0 {
      InsertAllStores(c, list, execOk, 0);
    }
  }

  /** `insert_crawl_log(log_data)`: appends one row to `crawl_logs`. */
  function InsertCrawlLog(db: Db, log: Dict, connectOk: bool, execOk: bool): (r: (Db, bool))
    ensures r.0.rows == db.rows
    ensures r.1 <==> (db.connected || connectOk) && Binds(log, LogColumns) && execOk
    ensures r.0.logs == if r.1 then db.logs + [log] else db.logs
  {
    match Ensure(db, connectOk)
    case None => (db, false)
    case Some(c) =>
      if Binds(log, LogColumns) && execOk then (c.(logs := c.logs + [log]), true)
      else (c, false)
  }

  /** The run log only grows: each earlier entry stays where it was. */
  lemma CrawlLogAppendOnly(db: Db, log: Dict, connectOk: bool, execOk: bool)
    ensures var after := InsertCrawlLog(db, log, connectOk, execOk).0;
      |after.logs| >= |db.logs| && after.logs[..|db.logs|] == db.logs
  {
  }
}

=== FILE: dedup.dfy ===
/** First-occurrence selection, the pattern behind every "seen set" loop in
    the crawler: walk a sequence, keep an element when its key is present
    and has not been seen, and remember the key. The reference here decides
    each position on its own, from the elements before it, so the loops can
    be proved equal to it. */
module Dedup {
  import opened Wrappers

  /** Position `i` carries a key that no earlier position carries. */
  predicate IsFirst<T, K(==)>(xs: seq<T>, key: T -> Option<K>, i: int)
    requires 0 <= i < |xs|
  {
    key(xs[i]).Some? && forall j :: 0 <= j < i ==> key(xs[j]) != key(xs[i])
  }

  /** The elements of `xs[..n]` at first-occurrence positions, in order. */
  function KeepFirsts<T, K(==)>(xs: seq<T>, key: T -> Option<K>, n: nat): seq<T>
    requires n <= |xs|
  {
    if n == 0 then []
    else KeepFirsts(xs, key, n - 1) + (if IsFirst(xs, key, n - 1) then [xs[n - 1]] else [])
  }

  /** The keys present in `xs[..n]`. */
  function KeysUpTo<T, K(==)>(xs: seq<T>, key: T -> Option<K>, n: nat): set<K>
    requires n <= |xs|
  {
    set j | 0 <= j < n && key(xs[j]).Some? :: key(xs[j]).value
  }

  /** `a` is `b` with some elements left out, order kept. */
  predicate SubseqOf<T(==)>(a: seq<T>, b: seq<T>)
    decreases |b|
  {
    if |b| == 0 then |a| == 0
    else
      || (|a| > 0 && a[|a| - 1] == b[|b| - 1] && SubseqOf(a[..|a| - 1], b[..|b| - 1]))
      || SubseqOf(a, b[..|b| - 1])
  }

  function KeyValues<T, K>(r: seq<T>, key: T -> Option<K>): set<K>
  {
    set k | 0 <= k < |r| && key(r[k]).Some? :: key(r[k]).value
  }

  /** The step a seen-set loop takes: position `i` is first exactly when its
      key is present and not among the keys seen so far. */
  lemma FirstIffUnseen<T, K>(xs: seq<T>, key: T -> Option<K>, i: nat)
    requires i < |xs|
    ensures IsFirst(xs, key, i) <==> key(xs[i]).Some? && key(xs[i]).value !in KeysUpTo(xs, key, i)
    ensures KeysUpTo(xs, key, i + 1) == KeysUpTo(xs, key, i) + (if key(xs[i]).Some? then {key(xs[i]).value} else {})
  {
    if key(xs[i]).Some? && key(xs[i]).value in KeysUpTo(xs, key, i) {
      var j :| 0 <= j < i && key(xs[j]).Some? && key(xs[j]).value == key(xs[i]).value;
      assert key(xs[j]) == key(xs[i]);
    }
  }

  /** What the selection keeps: keyed elements with pairwise-distinct keys,
      whose keys are exactly the keys present, in their original order. */
  lemma {:induction false} KeepFirstsSpec<T, K>(xs: seq<T>, key: T -> Option<K>, n: nat)
    requires n <= |xs|
    ensures var r := KeepFirsts(xs, key, n);
      && (forall k :: 0 <= k < |r| ==> key(r[k]).Some?)
      && (forall a, b :: 0 <= a < b < |r| ==> key(r[a]) != key(r[b]))
      && KeyValues(r, key) == KeysUpTo(xs, key, n)
      && SubseqOf(r, xs[..n])
  {
    if n > 0 {
      KeepFirstsSpec(xs, key, n - 1);
      KeepFirstsStep(xs, key, n, KeepFirsts(xs, key, n - 1));
    }
  }

  /** The four facts `KeepFirstsSpec` states of `r`, the selection from `xs[..n]`. */
  predicate Selection<T(==), K(==)>(xs: seq<T>, key: T -> Option<K>, n: nat, r: seq<T>)
    requires n <= |xs|
  {
    && (forall k :: 0 <= k < |r| ==> key(r[k]).Some?)
    && (forall a, b :: 0 <= a < b < |r| ==> key(r[a]) != key(r[b]))
    && KeyValues(r, key) == KeysUpTo(xs, key, n)
    && SubseqOf(r, xs[..n])
  }

  /** One more position: its element is appended exactly when it is first. */
  lemma KeepFirstsStep<T, K>(xs: seq<T>, key: T -> Option<K>, n: nat, p: seq<T>)
    requires 0 < n <= |xs| && Selection(xs, key, n - 1, p)
    ensures Selection(xs, key, n, p + if IsFirst(xs, key, n - 1) then [xs[n - 1]] else [])
  {
    FirstIffUnseen(xs, key, n - 1);
    assert xs[..n][..n - 1] == xs[..n - 1];
    if IsFirst(xs, key, n - 1) {
      AppendNewKey(p, xs[n - 1], key);
      var r := p + [xs[n - 1]];
      assert r[..|r| - 1] == p;
    } else {
      assert p + [] == p;
    }
  }

  /** Appending an element whose key is new keeps the keys distinct and adds
      that key. */
  lemma AppendNewKey<T, K>(p: seq<T>, x: T, key: T -> Option<K>)
    requires forall k :: 0 <= k < |p| ==> key(p[k]).Some?
    requires forall a, b :: 0 <= a < b < |p| ==> key(p[a]) != key(p[b])
    requires key(x).Some? && key(x).value !in KeyValues(p, key)
    ensures var r := p + [x];
      && (forall k :: 0 <= k < |r| ==> key(r[k]).Some?)
      && (forall a, b :: 0 <= a < b < |r| ==> key(r[a]) != key(r[b]))
      && KeyValues(r, key) == KeyValues(p, key) + {key(x).value}
  {
    var r := p + [x];
    forall a, b | 0 <= a < b < |r|
      ensures key(r[a]) != key(r[b])
    {
      if b == |r| - 1 {
        assert r[a] == p[a];
        assert key(p[a]).value in KeyValues(p, key);
      }
    }
    forall v | v in KeyValues(r, key) ensures v in KeyValues(p, key) + {key(x).value} {
      var k :| 0 <= k < |r| && key(r[k]).Some? && key(r[k]).value == v;
      if k < |p| {
        assert r[k] == p[k];
      }
    }
    forall v | v in KeyValues(p, key) ensures v in KeyValues(r, key) {
      var k :| 0 <= k < |p| && key(p[k]).Some? && key(p[k]).value == v;
      assert r[k] == p[k];
    }
    assert r[|r| - 1] == x;
  }

  /** Every element of a subsequence is an element of the sequence. */
  lemma {:induction false} SubseqOfIn<T>(a: seq<T>, b: seq<T>)
    requires SubseqOf(a, b)
    ensures forall k :: 0 <= k < |a| ==> a[k] in b
    decreases |b|
  {
    if |b| > 0 {
      var b' := b[..|b| - 1];
      if |a| > 0 && a[|a| - 1] == b[|b| - 1] && SubseqOf(a[..|a| - 1], b') {
        SubseqOfIn(a[..|a| - 1], b');
        forall k | 0 <= k < |a| - 1
          ensures a[k] in b
        {
          assert a[k] == a[..|a| - 1][k];
        }
      } else {
        SubseqOfIn(a, b');
      }
    }
  }
}

=== FILE: douyin_spider.dfy ===
/** The Douyin adapter (`DouyinSpider`): the paging parameters of a search,
    the walk that finds video dicts in a JSON tree, the reading of one
    video into a record, and the parser of a search response. The clock,
    `datetime.fromtimestamp`, the duration division and `json.dumps` are
    inputs. */
module DouyinSpider {
  import opened Wrappers
  import Text
  import opened Values
  import DataProcessor
  import Spider

  /** `get_platform_name()` */
  const PlatformName := "Douyin"

  /** `_get_cookie_domain()`: the fixed domain the Douyin adapter returns
      is the one the base adapter would derive from its name. */
  lemma CookieDomainMatchesBase()
    ensures Spider.CookieDomain(PlatformName) == ".douyin.com"
  {
    var l := Text.Lower(PlatformName);
    assert l == "douyin" by {
      assert Text.LowerChar('D') == 'd';
    }
  }

  // ---------------------------------------------------------------------
  // Search parameters

  /** Results per page. */
  const PageSize := 20

  /** The paging part of `_build_search_params(keyword, page)`. */
  function SearchParams(keyword: string, page: int): (d: Dict)
    ensures Lookup(d, "keyword") == Some(Str(keyword))
    ensures Lookup(d, "count") == Some(Int(PageSize))
    ensures Lookup(d, "offset").Some? && Lookup(d, "offset").value.Int?
  {
    var d := [Field("keyword", Str(keyword)), Field("offset", Int((page - 1) * PageSize)), Field("count", Int(PageSize))];
    assert "keyword" != "count" && "offset" != "count" && "keyword" != "offset";
    assert Lookup(d[2..], "count") == Some(Int(PageSize));
    assert Lookup(d[1..], "count") == Some(Int(PageSize));
    d
  }

  /** The offset names the page it was built for, and consecutive pages do
      not overlap: page `p` starts where page `p - 1`'s 20 results end. */
  lemma OffsetNamesPage(keyword: string, page: int)
    ensures var off := Lookup(SearchParams(keyword, page), "offset").value.i;
      && off % PageSize == 0 && off / PageSize + 1 == page
      && off == Lookup(SearchParams(keyword, page - 1), "offset").value.i + PageSize
  {
  }

  // ---------------------------------------------------------------------
  // `_extract_videos_from_json`

  /** A dict with both `aweme_id` and `desc`. */
  predicate IsVideo(v: Value) {
    v.Obj? && Has(v.fields, "aweme_id") && Has(v.fields, "desc")
  }

  /** The video dicts of a JSON tree in traversal order: a video is taken
      whole, other dicts and lists are searched value by value, and
      scalars hold none. */
  function Videos(v: Value): (r: seq<Value>)
    ensures forall i :: 0 <= i < |r| ==> IsVideo(r[i])
    decreases v, 1, 0
  {
    match v
    case Obj(fs) => if IsVideo(v) then [v] else VideosInFields(v, 0)
    case Arr(items) => VideosInItems(v, 0)
    case _ => []
  }

  function VideosInFields(v: Value, i: nat): (r: seq<Value>)
    requires v.Obj? && i <= |v.fields|
    ensures forall k :: 0 <= k < |r| ==> IsVideo(r[k])
    decreases v, 0, |v.fields| - i
  {
    if i == |v.fields| then [] else Videos(v.fields[i].val) + VideosInFields(v, i + 1)
  }

  function VideosInItems(v: Value, i: nat): (r: seq<Value>)
    requires v.Arr? && i <= |v.items|
    ensures forall k :: 0 <= k < |r| ==> IsVideo(r[k])
    decreases v, 0, |v.items| - i
  {
    if i == |v.items| then [] else Videos(v.items[i]) + VideosInItems(v, i + 1)
  }

  /** The tree holds a video dict somewhere. */
  predicate HasVideo(v: Value)
    decreases v, 1, 0
  {
    match v
    case Obj(fs) => IsVideo(v) || HasVideoInFields(v, 0)
    case Arr(items) => HasVideoInItems(v, 0)
    case _ => false
  }

  predicate HasVideoInFields(v: Value, i: nat)
    requires v.Obj? && i <= |v.fields|
    decreases v, 0, |v.fields| - i
  {
    i < |v.fields| && (HasVideo(v.fields[i].val) || HasVideoInFields(v, i + 1))
  }

  predicate HasVideoInItems(v: Value, i: nat)
    requires v.Arr? && i <= |v.items|
    decreases v, 0, |v.items| - i
  {
    i < |v.items| && (HasVideo(v.items[i]) || HasVideoInItems(v, i + 1))
  }

  /** The walk finds something exactly when the tree holds a video. */
  lemma {:induction false} VideosFound(v: Value)
    ensures |Videos(v)| > 0 <==> HasVideo(v)
    decreases v, 1, 0
  {
    match v
    case Obj(fs) =>
      if !IsVideo(v) {
        VideosFoundInFields(v, 0);
      }
    case Arr(items) => VideosFoundInItems(v, 0);
    case _ =>
  }

  lemma {:induction false} VideosFoundInFields(v: Value, i: nat)
    requires v.Obj? && i <= |v.fields|
    ensures |VideosInFields(v, i)| > 0 <==> HasVideoInFields(v, i)
    decreases v, 0, |v.fields| - i
  {
    if i < |v.fields| {
      VideosFound(v.fields[i].val);
      VideosFoundInFields(v, i + 1);
    }
  }

  lemma {:induction false} VideosFoundInItems(v: Value, i: nat)
    requires v.Arr? && i <= |v.items|
    ensures |VideosInItems(v, i)| > 0 <==> HasVideoInItems(v, i)
    decreases v, 0, |v.items| - i
  {
    if i < |v.items| {
      VideosFound(v.items[i]);
      VideosFoundInItems(v, i + 1);
    }
  }

  // ---------------------------------------------------------------------
  // Where the walk finds its videos

  /** How many values a dict or a list holds; scalars hold none. */
  function Arity(v: Value): nat {
    match v
    case Obj(fs) => |fs|
    case Arr(items) => |items|
    case _ => 0
  }

  /** The `i`th value of a dict (in field order) or of a list. */
  function Child(v: Value, i: nat): Value
    requires i < Arity(v)
  {
    if v.Obj? then v.fields[i].val else v.items[i]
  }

  /** The value a path of positions leads to, if it leads anywhere. */
  function At(v: Value, p: seq<nat>): Option<Value>
    decreases |p|
  {
    if |p| == 0 then Some(v)
    else if p[0] < Arity(v) then At(Child(v, p[0]), p[1..])
    else None
  }

  predicate VideoHere(v: Value, p: seq<nat>) {
    At(v, p).Some? && IsVideo(At(v, p).value)
  }

  /** `p` leads to a video and passes no video on the way there. */
  predicate OutermostVideo(v: Value, p: seq<nat>) {
    VideoHere(v, p) && forall k :: 0 <= k < |p| ==> !VideoHere(v, p[..k])
  }

  /** Document order: the first position where two paths differ decides. */
  predicate PathBefore(p: seq<nat>, q: seq<nat>)
    decreases |p|
  {
    |p| > 0 && |q| > 0 && (p[0] < q[0] || (p[0] == q[0] && PathBefore(p[1..], q[1..])))
  }

  function Under(i: nat, ps: seq<seq<nat>>): seq<seq<nat>> {
    seq(|ps|, k requires 0 <= k < |ps| => [i] + ps[k])
  }

  /** The positions of the videos the walk returns, in the walk's order. */
  ghost function VideoPaths(v: Value): seq<seq<nat>>
    decreases v, 1, 0
  {
    if IsVideo(v) then [[]] else PathsFrom(v, 0)
  }

  ghost function PathsFrom(v: Value, i: nat): seq<seq<nat>>
    requires i <= Arity(v)
    decreases v, 0, Arity(v) - i
  {
    if i == Arity(v) then [] else Under(i, VideoPaths(Child(v, i))) + PathsFrom(v, i + 1)
  }

  /** The walk over the values of a dict or a list from the `i`th on. */
  function VideosFrom(v: Value, i: nat): seq<Value>
    requires i <= Arity(v)
  {
    if v.Obj? then VideosInFields(v, i) else if v.Arr? then VideosInItems(v, i) else []
  }

  lemma VideosStep(v: Value)
    ensures Videos(v) == if IsVideo(v) then [v] else VideosFrom(v, 0)
  {
  }

  lemma VideosFromStep(v: Value, i: nat)
    requires i < Arity(v)
    ensures VideosFrom(v, i) == Videos(Child(v, i)) + VideosFrom(v, i + 1)
  {
  }

  lemma PathsFromStep(v: Value, i: nat)
    requires i < Arity(v)
    ensures PathsFrom(v, i) == Under(i, VideoPaths(Child(v, i))) + PathsFrom(v, i + 1)
  {
  }

  /** Below a dict or list that is not a video, a path through its `i`th
      value leads where the rest of the path leads from that value, and
      passes a video exactly when the rest does. */
  lemma OutermostUnder(v: Value, i: nat, q: seq<nat>)
    requires i < Arity(v) && !IsVideo(v)
    ensures At(v, [i] + q) == At(Child(v, i), q)
    ensures OutermostVideo(v, [i] + q) <==> OutermostVideo(Child(v, i), q)
  {
    var p := [i] + q;
    var c := Child(v, i);
    assert p[1..] == q;
    assert p[..0] == [] && At(v, []) == Some(v);
    forall k | 1 <= k <= |q| ensures VideoHere(v, p[..k]) <==> VideoHere(c, q[..k - 1]) {
      assert p[..k] == [i] + q[..k - 1];
      assert p[..k][1..] == q[..k - 1];
    }
    if OutermostVideo(c, q) {
      forall k | 0 <= k < |p| ensures !VideoHere(v, p[..k]) {
        if k > 0 {
          assert !VideoHere(c, q[..k - 1]);
        }
      }
    }
    if OutermostVideo(v, p) {
      forall k | 0 <= k < |q| ensures !VideoHere(c, q[..k]) {
        assert !VideoHere(v, p[..k + 1]);
      }
    }
  }

  lemma PathBeforeUnder(i: nat, p: seq<nat>, q: seq<nat>)
    ensures PathBefore([i] + p, [i] + q) <==> PathBefore(p, q)
  {
    assert ([i] + p)[1..] == p && ([i] + q)[1..] == q;
  }

  /** `ps[k]` is where the walk finds `vs[k]`. */
  predicate Located(v: Value, ps: seq<seq<nat>>, vs: seq<Value>) {
    |ps| == |vs| && forall k :: 0 <= k < |ps| ==> OutermostVideo(v, ps[k]) && At(v, ps[k]) == Some(vs[k])
  }

  predicate InOrder(ps: seq<seq<nat>>) {
    forall j, k :: 0 <= j < k < |ps| ==> PathBefore(ps[j], ps[k])
  }

  /** Every path starts at a position `i` or later. */
  predicate StartFrom(ps: seq<seq<nat>>, i: nat) {
    forall k :: 0 <= k < |ps| ==> |ps[k]| > 0 && i <= ps[k][0]
  }

  lemma LocatedAppend(v: Value, a: seq<seq<nat>>, x: seq<Value>, b: seq<seq<nat>>, y: seq<Value>)
    requires Located(v, a, x) && Located(v, b, y)
    ensures Located(v, a + b, x + y)
  {
    forall k | 0 <= k < |a + b| ensures OutermostVideo(v, (a + b)[k]) && At(v, (a + b)[k]) == Some((x + y)[k]) {
      if k >= |a| {
        assert (a + b)[k] == b[k - |a|] && (x + y)[k] == y[k - |a|];
      }
    }
  }

  lemma InOrderAppend(a: seq<seq<nat>>, b: seq<seq<nat>>, i: nat)
    requires InOrder(a) && InOrder(b) && StartFrom(b, i + 1)
    requires forall k :: 0 <= k < |a| ==> |a[k]| > 0 && a[k][0] == i
    ensures InOrder(a + b)
  {
    forall j, k | 0 <= j < k < |a + b| ensures PathBefore((a + b)[j], (a + b)[k]) {
      if j >= |a| {
        assert (a + b)[j] == b[j - |a|] && (a + b)[k] == b[k - |a|];
      } else if k >= |a| {
        assert (a + b)[k] == b[k - |a|];
      }
    }
  }

  /** The paths through the `i`th value are those of that value, one
      position deeper. */
  lemma UnderFacts(v: Value, i: nat)
    requires i < Arity(v) && !IsVideo(v)
    requires Located(Child(v, i), VideoPaths(Child(v, i)), Videos(Child(v, i)))
    requires InOrder(VideoPaths(Child(v, i)))
    ensures var (c, a) := (Child(v, i), Under(i, VideoPaths(Child(v, i))));
      && Located(v, a, Videos(c)) && InOrder(a)
      && (forall k :: 0 <= k < |a| ==> |a[k]| > 0 && a[k][0] == i)
  {
    var cs := VideoPaths(Child(v, i));
    var a := Under(i, cs);
    forall k | 0 <= k < |a| ensures OutermostVideo(v, a[k]) && At(v, a[k]) == Some(Videos(Child(v, i))[k]) {
      OutermostUnder(v, i, cs[k]);
    }
    forall j, k | 0 <= j < k < |a| ensures PathBefore(a[j], a[k]) {
      PathBeforeUnder(i, cs[j], cs[k]);
    }
  }

  lemma {:induction false} VideoPathsMatch(v: Value)
    ensures Located(v, VideoPaths(v), Videos(v)) && InOrder(VideoPaths(v))
    decreases v, 1, 0
  {
    VideosStep(v);
    if IsVideo(v) {
      assert At(v, []) == Some(v);
    } else {
      PathsFromMatch(v, 0);
    }
  }

  lemma {:induction false} PathsFromMatch(v: Value, i: nat)
    requires i <= Arity(v) && !IsVideo(v)
    ensures Located(v, PathsFrom(v, i), VideosFrom(v, i)) && InOrder(PathsFrom(v, i)) && StartFrom(PathsFrom(v, i), i)
    decreases v, 0, Arity(v) - i
  {
    if i < Arity(v) {
      var c := Child(v, i);
      VideoPathsMatch(c);
      PathsFromMatch(v, i + 1);
      VideosFromStep(v, i);
      UnderFacts(v, i);
      PathsFromStep(v, i);
      AppendFacts(v, Under(i, VideoPaths(c)), Videos(c), PathsFrom(v, i + 1), VideosFrom(v, i + 1), i);
    }
  }

  /** The paths through the `i`th value, followed by those through the
      later ones, keep all three facts. */
  lemma AppendFacts(v: Value, a: seq<seq<nat>>, x: seq<Value>, b: seq<seq<nat>>, y: seq<Value>, i: nat)
    requires Located(v, a, x) && InOrder(a) && forall k :: 0 <= k < |a| ==> |a[k]| > 0 && a[k][0] == i
    requires Located(v, b, y) && InOrder(b) && StartFrom(b, i + 1)
    ensures Located(v, a + b, x + y) && InOrder(a + b) && StartFrom(a + b, i)
  {
    LocatedAppend(v, a, x, b, y);
    InOrderAppend(a, b, i);
    assert StartFrom(a, i);
    StartFromAppend(a, b, i);
  }

  lemma StartFromAppend(a: seq<seq<nat>>, b: seq<seq<nat>>, i: nat)
    requires StartFrom(a, i) && StartFrom(b, i + 1)
    ensures StartFrom(a + b, i)
  {
    forall k | 0 <= k < |a + b| ensures |(a + b)[k]| > 0 && i <= (a + b)[k][0] {
      if k >= |a| {
        assert (a + b)[k] == b[k - |a|];
      }
    }
  }

  lemma {:induction false} VideoPathsComplete(v: Value, p: seq<nat>)
    requires OutermostVideo(v, p)
    ensures p in VideoPaths(v)
    decreases v, 1, 0
  {
    if |p| > 0 {
      assert p[..0] == [] && At(v, []) == Some(v);
      assert !VideoHere(v, p[..0]);
      var q := p[1..];
      assert p == [p[0]] + q;
      OutermostUnder(v, p[0], q);
      PathsFromComplete(v, 0, p[0], q);
    }
  }

  lemma {:induction false} PathsFromComplete(v: Value, i: nat, j: nat, q: seq<nat>)
    requires !IsVideo(v) && i <= j < Arity(v) && OutermostVideo(Child(v, j), q)
    ensures [j] + q in PathsFrom(v, i)
    decreases v, 0, Arity(v) - i
  {
    if i == j {
      var c := Child(v, j);
      VideoPathsComplete(c, q);
      var k :| 0 <= k < |VideoPaths(c)| && VideoPaths(c)[k] == q;
      assert Under(j, VideoPaths(c))[k] == [j] + q;
    } else {
      PathsFromComplete(v, i + 1, j, q);
    }
  }

  /** `_extract_videos_from_json` returns the video at every position it
      can reach without passing through a video, each position once, in
      document order: `VideoPaths(v)` lists those positions. */
  lemma VideosInDocumentOrder(v: Value)
    ensures var (ps, vs) := (VideoPaths(v), Videos(v));
      && |ps| == |vs|
      && (forall k :: 0 <= k < |ps| ==> OutermostVideo(v, ps[k]) && At(v, ps[k]) == Some(vs[k]))
      && (forall j, k :: 0 <= j < k < |ps| ==> PathBefore(ps[j], ps[k]))
      && (forall p :: OutermostVideo(v, p) ==> p in ps)
  {
    VideoPathsMatch(v);
    forall p | OutermostVideo(v, p) ensures p in VideoPaths(v) {
      VideoPathsComplete(v, p);
    }
  }

  /** A dict is among the videos found exactly when it sits at a position
      the walk reaches without passing through a video. */
  lemma VideosReachable(v: Value, w: Value)
    ensures w in Videos(v) <==> exists p :: OutermostVideo(v, p) && At(v, p) == Some(w)
  {
    VideosInDocumentOrder(v);
    var ps := VideoPaths(v);
    if w in Videos(v) {
      var k :| 0 <= k < |Videos(v)| && Videos(v)[k] == w;
      assert OutermostVideo(v, ps[k]) && At(v, ps[k]) == Some(w);
    }
    if exists p :: OutermostVideo(v, p) && At(v, p) == Some(w) {
      var p :| OutermostVideo(v, p) && At(v, p) == Some(w);
      var k :| 0 <= k < |ps| && ps[k] == p;
      assert Videos(v)[k] == w;
    }
  }

  // ---------------------------------------------------------------------
  // `parse_content_item`

  /** The conversions the parser calls and the model does not compute:
      the clock, `datetime.fromtimestamp`, the millisecond-to-second
      division and `json.dumps`; `None` stands for a raised exception. */
  datatype Env = Env(now: Value, fromTimestamp: Value -> Option<Value>,
                     toSeconds: Value -> Option<Value>, dumps: Value -> Option<string>)

  /** Python's `v[0]` on a JSON value: the first element of a list or the
      first character of a string; anything else raises (a dict has no key
      `0`, since JSON keys are strings). */
  function FirstOf(v: Value): (r: Option<Value>)
    ensures r.Some? <==> (v.Arr? && |v.items| > 0) || (v.Str? && |v.s| > 0)
  {
    match v
    case Arr(items) => if |items| > 0 then Some(items[0]) else None
    case Str(s) => if |s| > 0 then Some(Str([s[0]])) else None
    case _ => None
  }

  /** `x > 0` for the value of `verification_type`; comparing a string or
      `None` with an int raises. */
  function PositiveOf(v: Value): (r: Option<bool>)
    ensures v.Int? ==> r == Some(v.i > 0)
    ensures v.Str? || v.Null? || v.Arr? || v.Obj? ==> r.None?
  {
    match v
    case Int(i) => Some(i > 0)
    case Float(f) => Some(f > 0.0)
    case Bool(b) => Some(b)
    case _ => None
  }

  /** The first URL of a `play_addr` or `cover` dict, `''` when there is
      none: `addr['url_list'][0] if addr['url_list'] else ''`, guarded by
      `if addr and 'url_list' in addr`. */
  function UrlOf(addr: Value): Option<Value> {
    if !Truthy(addr) then Some(Str(""))
    else match addr
      case Obj(fs) =>
        if Has(fs, "url_list") then
          var u := Lookup(fs, "url_list").value;
          if Truthy(u) then FirstOf(u) else Some(Str(""))
        else Some(Str(""))
      case Arr(items) => if Str("url_list") in items then None else Some(Str(""))   // list indices must be integers
      case Str(s) => if Text.Contains(s, "url_list") then None else Some(Str(""))    // likewise string indices
      case _ => None   // `in` on a number
  }

  /** `(video_url, video_cover, video_duration)` */
  function VideoColumns(video: Value, env: Env): Option<(Value, Value, Value)> {
    if !Truthy(video) then Some((Str(""), Str(""), Int(0)))
    else if !video.Obj? then None
    else
      var fs := video.fields;
      match (UrlOf(Get(fs, "play_addr", Obj([]))), UrlOf(Get(fs, "cover", Obj([]))), env.toSeconds(Get(fs, "duration", Int(0))))
      case (Some(url), Some(cover), Some(secs)) => Some((url, cover, secs))
      case _ => None
  }

  /** `d.get(key, '') if d else ''` */
  function FieldIfAny(d: Value, key: string): Option<Value> {
    if !Truthy(d) then Some(Str(""))
    else if d.Obj? then Some(Get(d.fields, key, Str("")))
    else None
  }

  /** The entries `for extra in text_extra` visits; iterating `None` or a
      number raises, and the keys or characters of a non-empty dict or
      string have no `.get`. */
  function ExtraEntries(v: Value): Option<seq<Value>> {
    match v
    case Arr(items) => Some(items)
    case Obj(fs) => if |fs| == 0 then Some([]) else None
    case Str(s) => if |s| == 0 then Some([]) else None
    case _ => None
  }

  /** A topic entry: `extra.get('type') == 1`. */
  predicate IsTopic(extra: Dict) {
    NumEquals(Get(extra, "type", Null), 1)
  }

  /** The hashtag names of the topic entries, in order. */
  function Hashtags(extras: seq<Value>): (r: Option<seq<Value>>)
    ensures r.Some? <==> forall i :: 0 <= i < |extras| ==> extras[i].Obj?
    ensures r.Some? ==> |r.value| == TopicCount(extras)
  {
    if |extras| == 0 then Some([])
    else if !extras[0].Obj? then None
    else
      var rest := Hashtags(extras[1..]);
      assert forall i :: 1 <= i < |extras| ==> extras[i] == extras[1..][i - 1];
      if rest.None? then None
      else if IsTopic(extras[0].fields) then Some([Get(extras[0].fields, "hashtag_name", Str(""))] + rest.value)
      else rest
  }

  /** How many entries are topic entries. */
  function TopicCount(extras: seq<Value>): nat {
    if |extras| == 0 then 0
    else (if extras[0].Obj? && IsTopic(extras[0].fields) then 1 else 0) + TopicCount(extras[1..])
  }

  /** There are no topics exactly when no entry is a topic entry. */
  lemma {:induction false} TopicCountZero(extras: seq<Value>)
    ensures TopicCount(extras) == 0 <==> forall i :: 0 <= i < |extras| ==> !(extras[i].Obj? && IsTopic(extras[i].fields))
  {
    if |extras| > 0 {
      TopicCountZero(extras[1..]);
      assert forall i :: 1 <= i < |extras| ==> extras[i] == extras[1..][i - 1];
    }
  }

  /** The name a topic entry contributes: `extra.get('hashtag_name', '')`. */
  function TopicName(extra: Value): Value
    requires extra.Obj?
  {
    Get(extra.fields, "hashtag_name", Str(""))
  }

  predicate IsTopicEntry(extra: Value) {
    extra.Obj? && IsTopic(extra.fields)
  }

  lemma TopicCountCons(extras: seq<Value>, i: nat)
    requires 0 < i <= |extras|
    ensures TopicCount(extras[..i]) == (if IsTopicEntry(extras[0]) then 1 else 0) + TopicCount(extras[1..][..i - 1])
  {
    assert extras[..i][1..] == extras[1..][..i - 1];
  }

  /** The hashtags list holds, for each topic entry in turn, its
      `hashtag_name` or `''`: the entry with `t` topic entries before it
      supplies element `t`, and the list has one element per topic entry. */
  lemma {:induction false} HashtagsInOrder(extras: seq<Value>)
    requires Hashtags(extras).Some?
    ensures var tags := Hashtags(extras).value;
      && |tags| == TopicCount(extras)
      && forall i :: 0 <= i < |extras| && IsTopicEntry(extras[i]) ==>
           TopicCount(extras[..i]) < |tags| && tags[TopicCount(extras[..i])] == TopicName(extras[i])
  {
    if |extras| > 0 {
      var tags := Hashtags(extras).value;
      var rest := extras[1..];
      assert forall i :: 1 <= i < |extras| ==> extras[i] == rest[i - 1];
      HashtagsInOrder(rest);
      var head := if IsTopicEntry(extras[0]) then 1 else 0;
      assert tags[head..] == Hashtags(rest).value;
      forall i | 0 <= i < |extras| && IsTopicEntry(extras[i])
        ensures TopicCount(extras[..i]) < |tags| && tags[TopicCount(extras[..i])] == TopicName(extras[i])
      {
        if i == 0 {
          assert extras[..0] == [];
        } else {
          TopicCountCons(extras, i);
          assert extras[i] == rest[i - 1];
          assert tags[head + TopicCount(rest[..i - 1])] == Hashtags(rest).value[TopicCount(rest[..i - 1])];
        }
      }
    }
  }

  /** The `hashtags` column: `json.dumps(hashtags) if hashtags else None`. */
  function HashtagsColumn(tags: seq<Value>, env: Env): (r: Option<Value>)
    ensures r == Some(Null) <==> |tags| == 0
  {
    if |tags| == 0 then Some(Null)
    else match env.dumps(Arr(tags))
         case Some(j) => Some(Str(j))
         case None => None
  }

  /** The columns of a Douyin record, in the order the source writes them. */
  const Columns: seq<string> := [
    "_id", "aweme_id", "created_at", "content", "video_url", "video_cover", "video_duration",
    "music_title", "music_author", "location", "hashtags", "digg_count", "comment_count",
    "share_count", "play_count", "user_id", "user_name", "user_avatar", "user_verified",
    "url", "keyword", "platform"]

  lemma ColumnsDistinct()
    ensures forall a, b :: 0 <= a < b < |Columns| ==> Columns[a] != Columns[b]
  {
  }

  /** The address of a video's page. */
  function VideoUrl(awemeId: Value): string {
    "https://www.douyin.com/video/" + Display(awemeId)
  }

  /** Everything `parse_content_item` reads before building the record,
      or `None` when reading raises. */
  datatype Parts = Parts(awemeId: Value, desc: Value, created: Value, author: Dict, stats: Dict,
                         video: (Value, Value, Value), avatar: Value, verified: bool,
                         musicTitle: Value, musicAuthor: Value, location: Value, hashtags: Value)

  function ReadParts(item: Dict, env: Env): Option<Parts> {
    var awemeId := Get(item, "aweme_id", Str(""));
    var desc := Get(item, "desc", Str(""));
    var createTime := Get(item, "create_time", Int(0));
    var created := if Truthy(createTime) then env.fromTimestamp(createTime) else Some(env.now);
    var author := Get(item, "author", Obj([]));
    var stats := Get(item, "statistics", Obj([]));
    var music := Get(item, "music", Obj([]));
    var entries := ExtraEntries(Get(item, "text_extra", Arr([])));
    if created.None? || !author.Obj? || !stats.Obj? || entries.None? then None
    else
      var thumb := Get(author.fields, "avatar_thumb", Obj([]));
      var avatar := if thumb.Obj? then FirstOf(Get(thumb.fields, "url_list", Arr([Str("")]))) else None;
      var verified := PositiveOf(Get(author.fields, "verification_type", Int(0)));
      var video := VideoColumns(Get(item, "video", Obj([])), env);
      var title := FieldIfAny(music, "title");
      var musicAuthor := FieldIfAny(music, "author");
      var location := FieldIfAny(Get(item, "poi_info", Null), "poi_name");
      var tags := Hashtags(entries.value);
      if avatar.None? || verified.None? || video.None? || title.None? || musicAuthor.None?
         || location.None? || tags.None? then None
      else
        match HashtagsColumn(tags.value, env)
        case None => None
        case Some(h) =>
          Some(Parts(awemeId, desc, created.value, author.fields, stats.fields, video.value, avatar.value,
                     verified.value, title.value, musicAuthor.value, location.value, h))
  }

  /** The record built from what was read. */
  function BuildRecord(p: Parts, keyword: string): (r: Dict)
    ensures KeysOf(r) == Columns
    ensures Lookup(r, "_id") == Some(p.awemeId) && Lookup(r, "aweme_id") == Some(p.awemeId)
    ensures Lookup(r, "hashtags") == Some(p.hashtags) && Lookup(r, "user_verified") == Some(Bool(p.verified))
    ensures Lookup(r, "url") == Some(Str(VideoUrl(p.awemeId)))
    ensures Lookup(r, "keyword") == Some(Str(keyword)) && Lookup(r, "platform") == Some(Str("douyin"))
  {
    var vals := [p.awemeId, p.awemeId, p.created, p.desc, p.video.0, p.video.1, p.video.2,
                 p.musicTitle, p.musicAuthor, p.location, p.hashtags,
                 Get(p.stats, "digg_count", Int(0)), Get(p.stats, "comment_count", Int(0)),
                 Get(p.stats, "share_count", Int(0)), Get(p.stats, "play_count", Int(0)),
                 Get(p.author, "uid", Str("")), Get(p.author, "nickname", Str("")), p.avatar,
                 Bool(p.verified), Str(VideoUrl(p.awemeId)), Str(keyword), Str("douyin")];
    ColumnsDistinct();
    var r := Values.Record(Columns, vals);
    BuildRecordKeys(r);
    r
  }

  lemma BuildRecordKeys(r: Dict)
    requires KeysOf(r) == Columns
    ensures r[0].key == "_id" && r[1].key == "aweme_id" && r[10].key == "hashtags" && r[18].key == "user_verified"
    ensures r[19].key == "url" && r[20].key == "keyword" && r[21].key == "platform"
  {
    assert r[0].key == KeysOf(r)[0] && r[1].key == KeysOf(r)[1] && r[10].key == KeysOf(r)[10];
    assert r[18].key == KeysOf(r)[18] && r[19].key == KeysOf(r)[19];
    assert r[20].key == KeysOf(r)[20] && r[21].key == KeysOf(r)[21];
  }

  /** `parse_content_item(item_data, keyword)`: `None` when `aweme_id` or
      `desc` is missing or empty, or when reading the item raises. */
  function ParseContentItem(itemData: Value, keyword: string, env: Env): (r: Option<Dict>)
    ensures r.Some? ==> itemData.Obj? && Truthy(Get(itemData.fields, "aweme_id", Str("")))
                        && Truthy(Get(itemData.fields, "desc", Str("")))
  {
    if !itemData.Obj? then None
    else
      var item := itemData.fields;
      if !Truthy(Get(item, "aweme_id", Str(""))) || !Truthy(Get(item, "desc", Str(""))) then None
      else
        match ReadParts(item, env)
        case None => None
        case Some(p) => Some(BuildRecord(p, keyword))
  }

  /** What a Douyin record holds: the video id as `_id` and `aweme_id`,
      its page URL, the keyword, `'douyin'`, `user_verified` exactly when
      `verification_type > 0`, and `None` for hashtags exactly when no
      `text_extra` entry has type 1. */
  lemma ParsedItemFields(itemData: Value, keyword: string, env: Env)
    requires ParseContentItem(itemData, keyword, env).Some?
    ensures var r := ParseContentItem(itemData, keyword, env).value;
      var item := itemData.fields;
      var awemeId := Get(item, "aweme_id", Str(""));
      var vt := Get(Get(item, "author", Obj([])).fields, "verification_type", Int(0));
      var extras := ExtraEntries(Get(item, "text_extra", Arr([]))).value;
      && Lookup(r, "_id") == Some(awemeId) && Lookup(r, "aweme_id") == Some(awemeId)
      && Lookup(r, "url") == Some(Str("https://www.douyin.com/video/" + Display(awemeId)))
      && Lookup(r, "keyword") == Some(Str(keyword)) && Lookup(r, "platform") == Some(Str("douyin"))
      && PositiveOf(vt).Some? && Lookup(r, "user_verified") == Some(Bool(PositiveOf(vt).value))
      && (Lookup(r, "hashtags") == Some(Null) <==> forall i :: 0 <= i < |extras| ==> !IsTopic(extras[i].fields))
  {
    var item := itemData.fields;
    var p := ReadParts(item, env).value;
    var extras := ExtraEntries(Get(item, "text_extra", Arr([]))).value;
    TopicCountZero(extras);
  }

  /** A record's `_id` is a truthy `aweme_id`. */
  lemma ParsedIdTruthy(itemData: Value, keyword: string, env: Env)
    requires ParseContentItem(itemData, keyword, env).Some?
    ensures Truthy(DataProcessor.IdOf(ParseContentItem(itemData, keyword, env).value))
  {
    ParsedItemFields(itemData, keyword, env);
  }

  // ---------------------------------------------------------------------
  // `_parse_search_response`

  /** The entries of `data` the loop visits: a list's items; the keys or
      characters of a dict or string are never dicts, and iterating
      anything else raises before a record is kept. */
  function DataItems(json: Dict): seq<Value> {
    match Get(json, "data", Arr([]))
    case Arr(items) => items
    case _ => []
  }

  /** What the loop parses per entry: a record for an entry that is a dict
      with `aweme_info`, nothing for the others. */
  function ParsedItems(items: seq<Value>, keyword: string, env: Env): (p: seq<Option<Dict>>)
    ensures |p| == |items|
    ensures forall i :: 0 <= i < |items| ==>
              p[i] == if items[i].Obj? && Has(items[i].fields, "aweme_info")
                      then ParseContentItem(Lookup(items[i].fields, "aweme_info").value, keyword, env) else None
  {
    seq(|items|, i requires 0 <= i < |items| =>
          if items[i].Obj? && Has(items[i].fields, "aweme_info")
          then ParseContentItem(Lookup(items[i].fields, "aweme_info").value, keyword, env) else None)
  }

  /** How many parsed entries the loop gets through: testing an unhashable
      `_id` against `crawled_ids` raises, and the outer handler returns
      what was kept so far. */
  function HashablePrefix(parsed: seq<Option<Dict>>): (n: nat)
    ensures n <= |parsed|
    ensures forall i :: 0 <= i < n && parsed[i].Some? ==> Hashable(DataProcessor.IdOf(parsed[i].value))
    ensures n < |parsed| ==> parsed[n].Some? && !Hashable(DataProcessor.IdOf(parsed[n].value))
  {
    if |parsed| == 0 then 0
    else if parsed[0].Some? && !Hashable(DataProcessor.IdOf(parsed[0].value)) then 0
    else
      var n := HashablePrefix(parsed[1..]);
      assert forall i :: 1 <= i < |parsed| ==> parsed[i] == parsed[1..][i - 1];
      1 + n
  }

  /** `_parse_search_response(response_text, keyword)`, with `json` the
      result of `json.loads` on a text starting with `{`, or `None` when
      the text is not JSON. The HTML fallback that a non-JSON text takes
      yields nothing. Returns the records and the grown `crawled_ids`. */
  function ParseSearchResponse(json: Option<Value>, keyword: string, crawled: set<Value>, env: Env): (r: (seq<Dict>, set<Value>))
    ensures json.None? || !json.value.Obj? || !NumEquals(Get(json.value.fields, "status_code", Null), 0) ==> r == ([], crawled)
    ensures r.1 == crawled + Spider.IdKeys(r.0)
    ensures forall k :: 0 <= k < |r.0| ==> Spider.IdKeyOf(r.0[k]) !in crawled
    ensures forall j, k :: 0 <= j < k < |r.0| ==> Spider.IdKeyOf(r.0[j]) != Spider.IdKeyOf(r.0[k])
    ensures r.0 != [] ==> forall k :: 0 <= k < |r.0| ==> Some(r.0[k]) in ParsedItems(DataItems(json.value.fields), keyword, env)
  {
    if json.None? || !json.value.Obj? then ([], crawled)
    else
      var fields := json.value.fields;
      if !NumEquals(Get(fields, "status_code", Null), 0) then ([], crawled)
      else
        var parsed := ParsedItems(DataItems(fields), keyword, env);
        var n := HashablePrefix(parsed);
        var r := Spider.KeepFresh(parsed[..n], crawled);
        assert forall k :: 0 <= k < |r.0| ==> Some(r.0[k]) in parsed[..n];
        r
  }

  /** Every record of a response is a parsed video with a truthy id that
      came from an entry carrying `aweme_info`. */
  lemma ResponseRecordsFromAwemeInfo(json: Option<Value>, keyword: string, crawled: set<Value>, env: Env)
    ensures var r := ParseSearchResponse(json, keyword, crawled, env);
      forall k :: 0 <= k < |r.0| ==>
        exists i :: 0 <= i < |DataItems(json.value.fields)|
                    && DataItems(json.value.fields)[i].Obj? && Has(DataItems(json.value.fields)[i].fields, "aweme_info")
                    && ParseContentItem(Lookup(DataItems(json.value.fields)[i].fields, "aweme_info").value, keyword, env) == Some(r.0[k])
  {
    var r := ParseSearchResponse(json, keyword, crawled, env);
    if r.0 != [] {
      var items := DataItems(json.value.fields);
      var parsed := ParsedItems(items, keyword, env);
      forall k | 0 <= k < |r.0|
        ensures exists i :: 0 <= i < |items| && items[i].Obj? && Has(items[i].fields, "aweme_info")
                            && ParseContentItem(Lookup(items[i].fields, "aweme_info").value, keyword, env) == Some(r.0[k])
      {
        var i := ParsedFrom(items, keyword, env, r.0[k]);
      }
    }
  }

  /** The entry a parsed record came from. */
  lemma ParsedFrom(items: seq<Value>, keyword: string, env: Env, d: Dict) returns (i: nat)
    requires Some(d) in ParsedItems(items, keyword, env)
    ensures i < |items| && items[i].Obj? && Has(items[i].fields, "aweme_info")
    ensures ParseContentItem(Lookup(items[i].fields, "aweme_info").value, keyword, env) == Some(d)
  {
    var parsed := ParsedItems(items, keyword, env);
    var j :| 0 <= j < |parsed| && parsed[j] == Some(d);
    i := j;
  }
}

=== FILE: helpers.dfy ===
/** The string and number helpers of utils/helpers.py. */
module Helpers {
  import opened Wrappers
  import Text
  import opened Values

  /** The characters `<>:"/\|?*` that the file-name helpers replace. */
  predicate IsUnsafe(c: char) {
    c in "<>:\"/\\|?*"
  }

  predicate FileSafe(s: string) {
    forall i :: 0 <= i < |s| ==> !IsUnsafe(s[i]) && !Text.IsSpace(s[i])
  }

  function MaskUnsafe(s: string): (r: string)
    ensures |r| == |s|
    ensures forall i :: 0 <= i < |s| ==> r[i] == if IsUnsafe(s[i]) then '_' else s[i]
  {
    seq(|s|, i requires 0 <= i < |s| => if IsUnsafe(s[i]) then '_' else s[i])
  }

  /** The two substitutions shared by `create_safe_filename` and the storage
      manager's `_clean_filename`: each unsafe character becomes `_`, then
      each whitespace run becomes one `_`. */
  function ReplaceUnsafe(s: string): (r: string)
    ensures FileSafe(r)
    ensures |r| <= |s|
    ensures |s| > 0 ==> |r| > 0
  {
    var m := MaskUnsafe(s);
    var r := Text.CollapseSpaceRuns(m, '_');
    assert forall i :: 0 <= i < |r| ==> !IsUnsafe(r[i]) by {
      MaskedStaysSafe(m);
    }
    r
  }

  lemma {:induction false} MaskedStaysSafe(m: string)
    requires forall i :: 0 <= i < |m| ==> !IsUnsafe(m[i])
    ensures forall i :: 0 <= i < |Text.CollapseSpaceRuns(m, '_')| ==> !IsUnsafe(Text.CollapseSpaceRuns(m, '_')[i])
    decreases |m|
  {
    if |m| > 0 {
      if Text.IsSpace(m[0]) {
        var l := Text.LStrip(m);
        assert forall i :: 0 <= i < |l| ==> l[i] == m[|m| - |l| + i];
        MaskedStaysSafe(l);
      } else {
        MaskedStaysSafe(m[1..]);
      }
    }
  }

  /** A string that is already file-safe goes through unchanged. */
  lemma ReplaceUnsafeKeepsSafe(s: string)
    requires FileSafe(s)
    ensures ReplaceUnsafe(s) == s
  {
    assert MaskUnsafe(s) == s;
    Text.CollapseNoSpace(s, '_');
  }

  /** `create_safe_filename(text, max_length)` */
  function CreateSafeFilename(text: string, maxLength: int): (r: string)
    ensures |r| > 0 && FileSafe(r)
    ensures |text| == 0 ==> r == "untitled"
    ensures |text| > 0 && maxLength >= 1 ==>
              |r| <= maxLength && |r| <= |ReplaceUnsafe(text)| && r == ReplaceUnsafe(text)[..|r|]
  {
    if |text| == 0 then "untitled"
    else
      var t := Text.PyPrefix(ReplaceUnsafe(text), maxLength);
      if |t| == 0 then "untitled" else t
  }

  /** Safe names within the bound are fixed points, so the helper is
      idempotent on its own non-empty results. */
  lemma CreateSafeFilenameFixedPoint(text: string, maxLength: int)
    requires |text| > 0 && maxLength >= 1
    ensures CreateSafeFilename(CreateSafeFilename(text, maxLength), maxLength) == CreateSafeFilename(text, maxLength)
  {
    var r := CreateSafeFilename(text, maxLength);
    ReplaceUnsafeKeepsSafe(r);
  }

  /** `truncate_text(text, max_length)` */
  function TruncateText(text: string, maxLength: int): (r: string)
    ensures |text| <= maxLength || |text| == 0 ==> r == text
    ensures |text| > maxLength && |text| > 0 ==> Text.EndsWith(r, "...") && Text.StartsWith(text, r[..|r| - 3])
    ensures |text| > maxLength >= 3 ==> |r| == maxLength
  {
    if |text| == 0 then ""
    else if |text| <= maxLength then text
    else Text.PyPrefix(text, maxLength - 3) + "..."
  }

  /** `is_valid_weibo_id`: `re.match(r'^[A-Za-z0-9]{10,20}$', id)`, run the
      way the regex engine runs it: the greedy `{10,20}` takes as many
      alphanumerics as it can (at most 20), then backs off one at a time
      until `$` matches (at the end, or before one final newline). */
  predicate IsValidWeiboId(id: string) {
    |id| > 0 && RepeatThenEnd(id, AlnumPrefix(id, 20))
  }

  /** The length of the longest alphanumeric prefix, capped at `cap`. */
  function AlnumPrefix(s: string, cap: nat): (k: nat)
    ensures k <= cap && k <= |s|
    ensures forall i :: 0 <= i < k ==> Text.IsAsciiAlnum(s[i])
    ensures k < cap && k < |s| ==> !Text.IsAsciiAlnum(s[k])
  {
    if cap == 0 || |s| == 0 || !Text.IsAsciiAlnum(s[0]) then 0
    else 1 + AlnumPrefix(s[1..], cap - 1)
  }

  /** Python's `$`: the end of the string, or just before a final newline. */
  predicate DollarAt(s: string, j: nat) {
    j == |s| || (j == |s| - 1 && s[j] == '\n')
  }

  /** Backtracking from `k` repetitions down to the minimum of 10. */
  predicate RepeatThenEnd(s: string, k: nat)
    decreases k
  {
    k >= 10 && (DollarAt(s, k) || RepeatThenEnd(s, k - 1))
  }

  predicate AlnumId(s: string) {
    10 <= |s| <= 20 && forall i :: 0 <= i < |s| ==> Text.IsAsciiAlnum(s[i])
  }

  /** The language the pattern accepts: 10 to 20 ASCII alphanumerics,
      optionally followed by one trailing newline. */
  lemma WeiboIdLanguage(id: string)
    ensures IsValidWeiboId(id) <==> AlnumId(id) || (|id| > 0 && id[|id| - 1] == '\n' && AlnumId(id[..|id| - 1]))
  {
    var k := AlnumPrefix(id, 20);
    if IsValidWeiboId(id) {
      var j := RepeatWitness(id, k);
      if j < |id| {
        assert id[..|id| - 1] == id[..j];
      }
    }
    if AlnumId(id) {
      assert k == |id|;
      assert DollarAt(id, k);
    }
    if |id| > 0 && id[|id| - 1] == '\n' && AlnumId(id[..|id| - 1]) {
      assert forall i :: 0 <= i < |id| - 1 ==> id[..|id| - 1][i] == id[i];
      assert k == |id| - 1;
      assert DollarAt(id, k);
    }
  }

  lemma RepeatWitness(s: string, k: nat) returns (j: nat)
    requires RepeatThenEnd(s, k)
    ensures 10 <= j <= k && DollarAt(s, j)
    decreases k
  {
    if DollarAt(s, k) {
      j := k;
    } else {
      j := RepeatWitness(s, k - 1);
    }
  }

  // ---------------------------------------------------------------------
  // format_number

  /** The four unit classes `format_number` recognises, in the order it
      tries them. */
  datatype Unit = TenThousand | Thousand | Hundred | Ten

  predicate InUnit(c: char, u: Unit) {
    match u
    case TenThousand => c == '万' || c == 'w' || c == 'W'
    case Thousand => c == '千' || c == 'k' || c == 'K'
    case Hundred => c == '百'
    case Ten => c == '十'
  }

  function Multiplier(u: Unit): nat {
    match u
    case TenThousand => 10000
    case Thousand => 1000
    case Hundred => 100
    case Ten => 10
  }

  predicate IsUnitChar(c: char) {
    InUnit(c, TenThousand) || InUnit(c, Thousand) || InUnit(c, Hundred) || InUnit(c, Ten)
  }

  /** The characters the first substitution keeps: digits, unit characters
      and '.'. */
  predicate IsNumberChar(c: char) {
    Text.IsDigit(c) || IsUnitChar(c) || c == '.'
  }

  function KeepNumberChars(s: string): (r: string)
    ensures |r| <= |s|
    ensures forall i :: 0 <= i < |r| ==> IsNumberChar(r[i])
  {
    if |s| == 0 then ""
    else if IsNumberChar(s[0]) then [s[0]] + KeepNumberChars(s[1..])
    else KeepNumberChars(s[1..])
  }

  predicate HasUnit(s: string, u: Unit) {
    exists i | 0 <= i < |s| :: InUnit(s[i], u)
  }

  function RemoveUnit(s: string, u: Unit): (r: string)
    ensures !HasUnit(r, u)
  {
    if |s| == 0 then ""
    else if InUnit(s[0], u) then RemoveUnit(s[1..], u)
    else [s[0]] + RemoveUnit(s[1..], u)
  }

  /** The priority of the if-chain in `format_number`: 万/w/W is tested
      first and 十 last. */
  function Rank(u: Unit): nat {
    match u
    case TenThousand => 4
    case Thousand => 3
    case Hundred => 2
    case Ten => 1
  }

  /** The first unit class present, in the order 万/w/W, 千/k/K, 百, 十. */
  function UnitOf(s: string): (r: Option<Unit>)
    ensures r.Some? ==> HasUnit(s, r.value)
    ensures r.Some? ==> forall u :: Rank(u) > Rank(r.value) ==> !HasUnit(s, u)
    ensures r.None? <==> (forall i :: 0 <= i < |s| ==> !IsUnitChar(s[i]))
  {
    if HasUnit(s, TenThousand) then Some(TenThousand)
    else if HasUnit(s, Thousand) then Some(Thousand)
    else if HasUnit(s, Hundred) then Some(Hundred)
    else if HasUnit(s, Ten) then Some(Ten)
    else None
  }

  /** A string `float()` reads as a decimal with a point: digits on at
      least one side of exactly one '.'. */
  predicate IsPointDecimal(part: string) {
    exists i | 0 <= i < |part| :: part[i] == '.' && |part| > 1
      && Text.AllDigits(part[..i]) && Text.AllDigits(part[i + 1..])
  }

  /** 2^53: every whole number below it is a double exactly, so `float()`
      of such a digit string and its product by a unit are exact. */
  const ExactFloatBound: nat := 0x20_0000_0000_0000

  /** `int(float(part) * mult)` on what is left after the unit characters
      are removed. A digit string whose scaled value stays below 2^53 scales
      exactly. A larger digit string, or a decimal with a point, goes
      through the binary floating-point product, which `floatScale` stands
      for (it rounds, and answers 0 where the product overflows and
      `int()` raises). Anything else (empty, two points, a stray unit) makes
      `float()` raise, and the helper answers 0. */
  function ScaleNumber(part: string, mult: nat, floatScale: (string, nat) -> nat): (r: nat)
    ensures Text.AllDigits(part) && |part| > 0 && Text.DigitsValue(part) * mult < ExactFloatBound ==>
              r == Text.DigitsValue(part) * mult
    ensures Text.AllDigits(part) && |part| > 0 && Text.DigitsValue(part) * mult >= ExactFloatBound ==>
              r == floatScale(part, mult)
    ensures !Text.AllDigits(part) && !IsPointDecimal(part) ==> r == 0
    ensures |part| == 0 ==> r == 0
  {
    if |part| > 0 && Text.AllDigits(part) then
      if Text.DigitsValue(part) * mult < ExactFloatBound then Text.DigitsValue(part) * mult
      else floatScale(part, mult)
    else if IsPointDecimal(part) then floatScale(part, mult)
    else 0
  }

  /** `format_number(num_str)`: keep the digits, the unit characters and
      '.', then scale what remains once the first unit class present is
      removed. */
  function FormatNumber(numStr: string, floatScale: (string, nat) -> nat): nat {
    var s := KeepNumberChars(numStr);
    if |s| == 0 then 0
    else match UnitOf(s)
      case None => ScaleNumber(s, 1, floatScale)
      case Some(u) => ScaleNumber(RemoveUnit(s, u), Multiplier(u), floatScale)
  }

  /** `format_number` once the kept characters are known. */
  lemma FormatNumberOf(numStr: string, s: string, floatScale: (string, nat) -> nat)
    requires KeepNumberChars(numStr) == s && |s| > 0
    ensures UnitOf(s).None? ==> FormatNumber(numStr, floatScale) == ScaleNumber(s, 1, floatScale)
    ensures UnitOf(s).Some? ==>
              var u := UnitOf(s).value;
              FormatNumber(numStr, floatScale) == ScaleNumber(RemoveUnit(s, u), Multiplier(u), floatScale)
  {
  }

  /** The branch `format_number` takes: the unit class of highest priority
      among those present is removed and its multiplier applied, whatever
      lower classes also appear; with no unit the text is read as it is. */
  lemma FormatNumberUnitPriority(numStr: string, u: Unit, floatScale: (string, nat) -> nat)
    requires HasUnit(KeepNumberChars(numStr), u)
    requires forall v :: Rank(v) > Rank(u) ==> !HasUnit(KeepNumberChars(numStr), v)
    ensures FormatNumber(numStr, floatScale) ==
              ScaleNumber(RemoveUnit(KeepNumberChars(numStr), u), Multiplier(u), floatScale)
  {
    var s := KeepNumberChars(numStr);
    var i :| 0 <= i < |s| && InUnit(s[i], u);
    assert UnitOf(s).Some?;
    var w := UnitOf(s).value;
    assert Rank(w) <= Rank(u) && Rank(u) <= Rank(w);
  }

  /** Digits followed by one unit character: that character's class is the
      unit, since a character belongs to one class only. */
  lemma UnitOfDigitsThen(d: string, c: char, u: Unit)
    requires Text.AllDigits(d) && InUnit(c, u)
    ensures UnitOf(d + [c]) == Some(u)
  {
    var s := d + [c];
    forall v: Unit ensures HasUnit(s, v) <==> InUnit(c, v) {
      if HasUnit(s, v) {
        var i :| 0 <= i < |s| && InUnit(s[i], v);
        if i < |d| {
          assert Text.IsDigit(d[i]);
        }
      }
      if InUnit(c, v) {
        assert InUnit(s[|d|], v);
      }
    }
  }

  /** A whole number with no unit reads back as itself, as long as
      `float()` holds it exactly. */
  lemma FormatNumberPlain(n: nat, floatScale: (string, nat) -> nat)
    requires n < ExactFloatBound
    ensures FormatNumber(Text.NatToString(n), floatScale) == n
  {
    var d := Text.NatToString(n);
    assert KeepNumberChars(d) == d by {
      KeepDigits(d);
    }
    assert UnitOf(d).None? by {
      forall i | 0 <= i < |d| ensures !IsUnitChar(d[i]) {
        assert Text.IsDigit(d[i]);
      }
    }
    FormatNumberOf(d, d, floatScale);
    assert ScaleNumber(d, 1, floatScale) == n by {
      Text.NatToStringValue(n);
    }
  }

  /** A whole number followed by one unit character reads back as the
      number times the unit, as long as the product stays below 2^53,
      where the floating-point product is exact. */
  lemma FormatNumberWithUnit(n: nat, c: char, u: Unit, floatScale: (string, nat) -> nat)
    requires InUnit(c, u) && n * Multiplier(u) < ExactFloatBound
    ensures FormatNumber(Text.NatToString(n) + [c], floatScale) == n * Multiplier(u)
  {
    var d := Text.NatToString(n);
    var s := d + [c];
    assert KeepNumberChars(s) == s by {
      KeepDigits(d);
      KeepAppend(d, [c]);
      assert KeepNumberChars([c]) == [c];
    }
    UnitOfDigitsThen(d, c, u);
    FormatNumberOf(s, s, floatScale);
    assert RemoveUnit(s, u) == d by {
      RemoveDigitsThenUnit(d, c, u);
    }
    assert ScaleNumber(d, Multiplier(u), floatScale) == n * Multiplier(u) by {
      Text.NatToStringValue(n);
    }
  }

  lemma {:induction false} KeepDigits(d: string)
    requires Text.AllDigits(d)
    ensures KeepNumberChars(d) == d
  {
    if |d| > 0 {
      KeepDigits(d[1..]);
    }
  }

  lemma {:induction false} KeepAppend(a: string, b: string)
    ensures KeepNumberChars(a + b) == KeepNumberChars(a) + KeepNumberChars(b)
  {
    if |a| > 0 {
      assert (a + b)[1..] == a[1..] + b;
      KeepAppend(a[1..], b);
    } else {
      assert a + b == b;
    }
  }

  lemma {:induction false} RemoveDigitsThenUnit(d: string, c: char, u: Unit)
    requires Text.AllDigits(d) && InUnit(c, u)
    ensures RemoveUnit(d + [c], u) == d
  {
    if |d| > 0 {
      assert (d + [c])[1..] == d[1..] + [c];
      RemoveDigitsThenUnit(d[1..], c, u);
    } else {
      assert d + [c] == [c];
    }
  }

  /** Two unit classes in one string leave a unit character in the number
      part, so `float()` raises and the answer is 0. */
  lemma FormatNumberMixedUnits(n: nat, floatScale: (string, nat) -> nat)
    ensures FormatNumber(Text.NatToString(n) + "千万", floatScale) == 0
  {
    var d := Text.NatToString(n);
    var s := d + "千万";
    KeepDigits(d);
    KeepAppend(d, "千万");
    assert KeepNumberChars("千万") == "千万";
    assert s[|s| - 1] == '万';
    assert UnitOf(s) == Some(TenThousand);
    var part := RemoveUnit(s, TenThousand);
    RemoveDigitsKeepsUnit(d, "千万");
    assert part == d + "千";
    assert part[|part| - 1] == '千';
  }

  lemma {:induction false} RemoveDigitsKeepsUnit(d: string, tail: string)
    requires Text.AllDigits(d) && tail == "千万"
    ensures RemoveUnit(d + tail, TenThousand) == d + "千"
  {
    if |d| > 0 {
      assert (d + tail)[1..] == d[1..] + tail;
      RemoveDigitsKeepsUnit(d[1..], tail);
    } else {
      assert d + tail == tail;
      assert tail[1..] == "万" && tail[1..][1..] == "";
      assert RemoveUnit(tail[1..], TenThousand) == "";
      assert RemoveUnit(tail, TenThousand) == ['千'] + RemoveUnit(tail[1..], TenThousand);
    }
  }

  // ---------------------------------------------------------------------

  /** `safe_bool(value, default)`: `None` gives the default, a bool itself,
      a string whether it spells true, 1, yes or on in any letter case, and
      anything else its truth value. */
  function SafeBool(value: Value, default: bool): (r: bool)
    ensures value.Null? ==> r == default
    ensures value.Bool? ==> r == value.b
    ensures value.Str? && value.s in {"true", "True", "TRUE", "1", "yes", "Yes", "YES", "on", "On", "ON"} ==> r
    ensures value.Str? && value.s in {"false", "False", "0", "no", "No", "off", "Off", "", "2"} ==> !r
    ensures value.Str? && r ==> 1 <= |value.s| <= 4
    ensures value.Int? ==> (r <==> value.i != 0)
    ensures value.Arr? ==> (r <==> |value.items| > 0)
  {
    TrueSpellings();
    FalseSpellings();
    match value
    case Null => default
    case Bool(b) => b
    case Str(s) => Text.Lower(s) in {"true", "1", "yes", "on"}
    case _ => Truthy(value)
  }

  lemma TrueSpellings()
    ensures Text.Lower("True") == "true" && Text.Lower("TRUE") == "true" && Text.Lower("true") == "true"
    ensures Text.Lower("Yes") == "yes" && Text.Lower("YES") == "yes" && Text.Lower("yes") == "yes"
    ensures Text.Lower("On") == "on" && Text.Lower("ON") == "on" && Text.Lower("on") == "on"
    ensures Text.Lower("1") == "1"
  {
  }

  lemma FalseSpellings()
    ensures Text.Lower("False") == "false" && Text.Lower("false") == "false"
    ensures Text.Lower("No") == "no" && Text.Lower("no") == "no"
    ensures Text.Lower("Off") == "off" && Text.Lower("off") == "off"
    ensures Text.Lower("0") == "0" && Text.Lower("2") == "2" && Text.Lower("") == ""
  {
  }

  /** `str()` of a bool reads back as that bool. */
  lemma SafeBoolReadsDisplayedBool(b: bool, default: bool)
    ensures SafeBool(Str(Display(Bool(b))), default) == b
  {
    if b {
      assert Text.Lower("True") == "true";
    } else {
      assert Text.Lower("False") == "false";
    }
  }

  /** The text after the last '.', which is `split('.')[-1]`. */
  function AfterLastDot(s: string): (r: string)
    requires '.' in s
    ensures '.' !in r && |r| < |s|
    ensures r == s[|s| - |r|..] && s[|s| - |r| - 1] == '.'
  {
    if s[|s| - 1] == '.' then ""
    else
      assert s[|s| - 1] != '.';
      var r' := AfterLastDot(s[..|s| - 1]);
      r' + [s[|s| - 1]]
  }

  /** `get_file_extension(filename)` */
  function GetFileExtension(filename: string): (r: string)
    ensures '.' !in r
    ensures '.' !in filename ==> r == ""
  {
    if '.' in filename then Text.Lower(AfterLastDot(filename)) else ""
  }

  /** Joining a base name and an extension with '.' gives the extension back,
      lower-cased. */
  lemma FileExtensionRoundTrip(base: string, ext: string)
    requires '.' !in ext
    ensures GetFileExtension(base + "." + ext) == Text.Lower(ext)
  {
    var f := base + "." + ext;
    assert f[|base|] == '.';
    assert AfterLastDot(f) == ext;
  }

  // ---------------------------------------------------------------------
  // calculate_time_diff, on a whole number of seconds

  /** The four formats `calculate_time_diff` chooses between. */
  datatype Elapsed =
    | DaysHours(days: nat, hours: nat)
    | HoursMinutes(hours: nat, minutes: nat)
    | MinutesSeconds(minutes: nat, seconds: nat)
    | Seconds(seconds: nat)

  /** `timedelta` keeps `days` (floored) and `seconds` in [0, 86400); the
      format is chosen from those two fields. */
  function ElapsedOf(total: int): (e: Elapsed)
    ensures e.DaysHours? <==> total >= 86400
    ensures e.DaysHours? ==> e.days * 86400 + e.hours * 3600 <= total < e.days * 86400 + (e.hours + 1) * 3600 && e.hours < 24
    ensures e.HoursMinutes? ==> e.hours * 3600 + e.minutes * 60 <= total % 86400 < e.hours * 3600 + (e.minutes + 1) * 60 && 1 <= e.hours < 24 && e.minutes < 60
    ensures e.MinutesSeconds? ==> e.minutes * 60 + e.seconds == total % 86400 && 1 <= e.minutes < 60 && e.seconds < 60
    ensures e.Seconds? ==> e.seconds == total % 86400 < 60
  {
    var days := total / 86400;
    var secs := total % 86400;
    if days > 0 then DaysHours(days, secs / 3600)
    else if secs >= 3600 then HoursMinutes(secs / 3600, (secs % 3600) / 60)
    else if secs >= 60 then MinutesSeconds(secs / 60, secs % 60)
    else Seconds(secs)
  }

  function FormatElapsed(e: Elapsed): string {
    match e
    case DaysHours(d, h) => Text.NatToString(d) + "天" + Text.NatToString(h) + "小时"
    case HoursMinutes(h, m) => Text.NatToString(h) + "小时" + Text.NatToString(m) + "分钟"
    case MinutesSeconds(m, s) => Text.NatToString(m) + "分钟" + Text.NatToString(s) + "秒"
    case Seconds(s) => Text.NatToString(s) + "秒"
  }

  /** `calculate_time_diff(start, end)` for `end - start == total` seconds. */
  function CalculateTimeDiff(total: int): string {
    FormatElapsed(ElapsedOf(total))
  }
}

=== FILE: pic_patterns.dfy ===
/** The four `pic_url_patterns` of utils/data_processor.py and the scan
    `re.findall` makes of a content string with each of them. A match is
    computed the way the regular-expression engine finds it (greedy runs,
    backtracking, alternatives tried in order), and `Matches` defines the
    same patterns as sets of whole strings, independently of the scan. */
module PicPatterns {
  import opened Wrappers
  import Text

  /** `[^\s<>"]`, the class the URL body of every pattern is drawn from. */
  predicate UrlChar(c: char) {
    !Text.IsSpace(c) && c != '<' && c != '>' && c != '"'
  }

  predicate AllUrlChars(t: string) {
    forall m :: 0 <= m < |t| ==> UrlChar(t[m])
  }

  /** `https?://[^\s<>"]+\.(?:jpg|jpeg|png|gif|webp|bmp)` is `ImageFile`;
      `https?://<host>\d+\.sinaimg\.cn/[^\s<>"]+` is `Sina(host)`. */
  datatype Pattern = ImageFile | Sina(host: string)

  /** The patterns, in the order `_extract_pic_urls` applies them. */
  const Patterns: seq<Pattern> := [ImageFile, Sina("wx"), Sina("tva"), Sina("ww")]

  /** The alternatives of `(?:jpg|jpeg|png|gif|webp|bmp)`, in the order tried. */
  const Extensions: seq<string> := ["jpg", "jpeg", "png", "gif", "webp", "bmp"]

  /** `\.sinaimg\.cn/` */
  const SinaDomain: string := ".sinaimg.cn/"

  function Min(a: int, b: int): int {
    if a <= b then a else b
  }

  // ---------------------------------------------------------------------
  // The engine's view: a match attempt at one position

  /** The length of `https?://` at `i`, or 0 when it does not match there.
      Dropping the optional `s` cannot rescue a failed `https://`, because
      `http` must then be followed by `:`. */
  function SchemeAt(s: string, i: nat): (n: nat)
    ensures n == 0 || n == 7 || n == 8
  {
    if Text.OccursAt(s, "https://", i) then 8
    else if Text.OccursAt(s, "http://", i) then 7
    else 0
  }

  /** Where a greedy run of `ok` characters starting at `i` stops. */
  function SpanEnd(s: string, i: nat, ok: char -> bool): (e: nat)
    requires i <= |s|
    ensures i <= e <= |s|
    ensures forall m :: i <= m < e ==> ok(s[m])
    ensures e < |s| ==> !ok(s[e])
    decreases |s| - i
  {
    if i == |s| || !ok(s[i]) then i else SpanEnd(s, i + 1, ok)
  }

  /** The length of the first alternative, from the `k`-th on, that matches
      at `p`, or 0 when none does. */
  function ExtFrom(s: string, p: nat, k: nat): nat
    requires k <= |Extensions|
    decreases |Extensions| - k
  {
    if k == |Extensions| then 0
    else if Text.OccursAt(s, Extensions[k], p) then |Extensions[k]|
    else ExtFrom(s, p, k + 1)
  }

  /** The length of the extension `(?:jpg|jpeg|png|gif|webp|bmp)` matches at
      `p`, or 0. */
  function ExtAt(s: string, p: nat): nat {
    ExtFrom(s, p, 0)
  }

  /** The length of the extension when `\.` and the alternation match at
      `q`, or 0. */
  function DotExtAt(s: string, q: nat): nat {
    if q < |s| && s[q] == '.' then ExtAt(s, q + 1) else 0
  }

  /** The backtracking of the greedy body `[^\s<>"]+` in `ImageFile`: body
      lengths are tried from the longest down, so the dot taken is the last
      one in `lo+1..q` that an extension follows. */
  function LastDot(s: string, lo: nat, q: nat): (r: Option<nat>)
    requires lo < q
    ensures r.Some? ==> lo < r.value <= q && DotExtAt(s, r.value) > 0
    ensures r.Some? ==> forall q' :: r.value < q' <= q ==> DotExtAt(s, q') == 0
    ensures r.None? ==> forall q' :: lo < q' <= q ==> DotExtAt(s, q') == 0
    decreases q
  {
    if DotExtAt(s, q) > 0 then Some(q)
    else if q == lo + 1 then None
    else LastDot(s, lo, q - 1)
  }

  /** The end of an `ImageFile` match whose body starts at `lo`: the
      longest run of URL characters, backtracked to the last `.` and
      extension inside it. */
  function ImageFileEnd(s: string, lo: nat): (r: Option<nat>)
    requires lo <= |s|
    ensures r.Some? ==> lo < r.value <= |s|
  {
    var e := SpanEnd(s, lo, UrlChar);
    if e == lo then None
    else
      match LastDot(s, lo, e)
      case None => None
      case Some(q) => ExtFits(s, q); Some(q + 1 + DotExtAt(s, q))
  }

  /** The end of a `Sina(host)` match whose host starts at `a`. */
  function SinaEnd(host: string, s: string, a: nat): (r: Option<nat>)
    requires a <= |s|
    ensures r.Some? ==> a < r.value <= |s|
  {
    if !Text.OccursAt(s, host, a) then None
    else
      var d := SpanEnd(s, a + |host|, Text.IsDigit);
      if d == a + |host| || !Text.OccursAt(s, SinaDomain, d) then None
      else
        var t := d + |SinaDomain|;
        var e := SpanEnd(s, t, UrlChar);
        if e == t then None else Some(e)
  }

  /** The end of the match of `p` that starts at `i`, or `None`. */
  function MatchAt(p: Pattern, s: string, i: nat): (r: Option<nat>)
    requires i <= |s|
    ensures r.Some? ==> i < r.value <= |s|
  {
    var n := SchemeAt(s, i);
    if n == 0 then None
    else match p
      case ImageFile => ImageFileEnd(s, i + n)
      case Sina(host) => SinaEnd(host, s, i + n)
  }

  lemma ExtFits(s: string, q: nat)
    requires DotExtAt(s, q) > 0
    ensures q + 1 + DotExtAt(s, q) <= |s|
  {
    var k := ExtAtSome(s, q + 1);
  }

  // ---------------------------------------------------------------------
  // `re.findall`: the scan over the whole string

  /** The spans `re.findall(p, s)` reports when scanning from `i`: a match
      found at a position is reported and the scan resumes at its end; a
      position without a match is stepped over. */
  function Spans(p: Pattern, s: string, i: nat): (r: seq<(nat, nat)>)
    requires i <= |s|
    ensures forall k :: 0 <= k < |r| ==> i <= r[k].0 < r[k].1 <= |s|
    decreases |s| - i
  {
    if i == |s| then []
    else
      var m := MatchAt(p, s, i);
      if m.Some? then [(i, m.value)] + Spans(p, s, m.value) else Spans(p, s, i + 1)
  }

  /** Each of `spans` is the engine's match at its start. */
  predicate AreMatches(p: Pattern, s: string, spans: seq<(nat, nat)>) {
    forall k :: 0 <= k < |spans| ==> spans[k].0 <= |s| && MatchAt(p, s, spans[k].0) == Some(spans[k].1)
  }

  /** `spans` do not overlap and come in text order. */
  predicate InTextOrder(spans: seq<(nat, nat)>) {
    forall k :: 0 <= k < |spans| - 1 ==> spans[k].1 <= spans[k + 1].0
  }

  lemma MatchesCons(p: Pattern, s: string, i: nat, j: nat, rest: seq<(nat, nat)>)
    requires i <= |s| && MatchAt(p, s, i) == Some(j) && AreMatches(p, s, rest)
    ensures AreMatches(p, s, [(i, j)] + rest)
  {
    var r := [(i, j)] + rest;
    forall k | 0 <= k < |r|
      ensures r[k].0 <= |s| && MatchAt(p, s, r[k].0) == Some(r[k].1)
    {
      if k > 0 {
        assert r[k] == rest[k - 1];
      }
    }
  }

  lemma OrderCons(i: nat, j: nat, rest: seq<(nat, nat)>)
    requires InTextOrder(rest) && (|rest| > 0 ==> j <= rest[0].0)
    ensures InTextOrder([(i, j)] + rest)
  {
    var r := [(i, j)] + rest;
    assert forall k :: 0 < k < |r| ==> r[k] == rest[k - 1];
  }

  /** Every reported span is the engine's match at its start. */
  lemma {:induction false} SpansAreMatches(p: Pattern, s: string, i: nat)
    requires i <= |s|
    ensures AreMatches(p, s, Spans(p, s, i))
    decreases |s| - i
  {
    if i < |s| {
      match MatchAt(p, s, i)
      case Some(j) =>
        SpansAreMatches(p, s, j);
        SpansStep(p, s, i, j);
        MatchesCons(p, s, i, j, Spans(p, s, j));
      case None =>
        SpansAreMatches(p, s, i + 1);
        SpansSkip(p, s, i);
    }
  }

  /** The reported spans do not overlap and come in text order. */
  lemma {:induction false} SpansInOrder(p: Pattern, s: string, i: nat)
    requires i <= |s|
    ensures InTextOrder(Spans(p, s, i))
    decreases |s| - i
  {
    if i < |s| {
      match MatchAt(p, s, i)
      case Some(j) =>
        SpansInOrder(p, s, j);
        SpansStep(p, s, i, j);
        OrderCons(i, j, Spans(p, s, j));
      case None =>
        SpansInOrder(p, s, i + 1);
        SpansSkip(p, s, i);
    }
  }

  /** Position `m` is the start of one of `spans` or lies inside one. */
  predicate Covered(spans: seq<(nat, nat)>, m: nat) {
    exists k :: 0 <= k < |spans| && spans[k].0 <= m < spans[k].1
  }

  /** Nothing is skipped: every position where a match starts is the start
      of a reported span or lies inside one. */
  lemma {:induction false} SpansCoverMatches(p: Pattern, s: string, i: nat)
    requires i <= |s|
    ensures forall m :: i <= m <= |s| && MatchAt(p, s, m).Some? ==> Covered(Spans(p, s, i), m)
    decreases |s| - i
  {
    if i < |s| {
      var r := MatchAt(p, s, i);
      if r.Some? {
        SpansCoverMatches(p, s, r.value);
        SpansStep(p, s, i, r.value);
        SpansCover(p, s, i, r.value, Spans(p, s, r.value));
      } else {
        SpansCoverMatches(p, s, i + 1);
        SpansSkip(p, s, i);
      }
    }
  }

  lemma SpansStep(p: Pattern, s: string, i: nat, j: nat)
    requires i < |s| && MatchAt(p, s, i) == Some(j)
    ensures Spans(p, s, i) == [(i, j)] + Spans(p, s, j)
  {
  }

  lemma SpansSkip(p: Pattern, s: string, i: nat)
    requires i < |s| && MatchAt(p, s, i).None?
    ensures Spans(p, s, i) == Spans(p, s, i + 1)
    ensures forall m :: i + 1 <= m <= |s| && MatchAt(p, s, m).Some? && Covered(Spans(p, s, i + 1), m)
              ==> Covered(Spans(p, s, i), m)
  {
  }

  lemma SpansCover(p: Pattern, s: string, i: nat, j: nat, rest: seq<(nat, nat)>)
    requires i < j <= |s|
    requires forall m :: j <= m <= |s| && MatchAt(p, s, m).Some? ==> Covered(rest, m)
    ensures forall m :: i <= m <= |s| && MatchAt(p, s, m).Some? ==> Covered([(i, j)] + rest, m)
  {
    var r := [(i, j)] + rest;
    forall m | i <= m <= |s| && MatchAt(p, s, m).Some?
      ensures Covered(r, m)
    {
      if m < j {
        assert r[0].0 <= m < r[0].1;
      } else {
        assert Covered(rest, m);
        var k :| 0 <= k < |rest| && rest[k].0 <= m < rest[k].1;
        assert r[k + 1] == rest[k];
      }
    }
  }

  /** The strings of the spans, as `re.findall` returns them (none of the
      patterns has a capturing group). */
  function Texts(s: string, spans: seq<(nat, nat)>): (r: seq<string>)
    requires forall k :: 0 <= k < |spans| ==> spans[k].0 <= spans[k].1 <= |s|
    ensures |r| == |spans|
  {
    seq(|spans|, k requires 0 <= k < |spans| => s[spans[k].0..spans[k].1])
  }

  /** `re.findall(p, s)` */
  function FindAll(p: Pattern, s: string): (r: seq<string>) {
    Texts(s, Spans(p, s, 0))
  }

  /** The candidate list `_extract_pic_urls` builds: the matches of each
      pattern appended pattern by pattern, so every match of an earlier
      pattern precedes every match of a later one. */
  function Candidates(s: string, ps: seq<Pattern>): seq<string> {
    if |ps| == 0 then [] else FindAll(ps[0], s) + Candidates(s, ps[1..])
  }

  function PicCandidates(content: string): seq<string> {
    Candidates(content, Patterns)
  }

  // ---------------------------------------------------------------------
  // The patterns as sets of whole strings

  /** `t` ends in `.` and `ext`, with at least one body character before. */
  predicate ImageTail(t: string, ext: string) {
    |t| >= |ext| + 2 && t[|t| - |ext| - 1] == '.' && Text.EndsWith(t, ext)
  }

  /** `t` is `host`, one or more digits, `.sinaimg.cn/` and a non-empty run
      of URL characters. The digits run up to the first non-digit, because
      the `.` after them is not a digit. */
  predicate SinaTail(t: string, host: string) {
    && Text.StartsWith(t, host)
    && var d := SpanEnd(t, |host|, Text.IsDigit);
       d > |host| && DomainTail(t, d)
  }

  /** `.sinaimg.cn/` at `d` of `t`, then a non-empty run of URL characters
      to the end. */
  predicate DomainTail(t: string, d: nat) {
    && Text.OccursAt(t, SinaDomain, d)
    && d + |SinaDomain| < |t|
    && AllUrlChars(t[d + |SinaDomain|..])
  }

  /** The whole strings pattern `p` matches. */
  predicate Matches(p: Pattern, t: string) {
    var n := SchemeAt(t, 0);
    && n > 0
    && match p
       case ImageFile =>
         AllUrlChars(t[n..]) && exists k :: 0 <= k < |Extensions| && ImageTail(t[n..], Extensions[k])
       case Sina(host) => SinaTail(t[n..], host)
  }

  // ---------------------------------------------------------------------
  // Reading a slice on the whole string

  lemma SliceSlice(s: string, i: nat, j: nat, a: nat, b: nat)
    requires i <= j <= |s| && a <= b <= j - i
    ensures s[i..j][a..b] == s[i + a..i + b]
  {
    assert forall m :: 0 <= m < b - a ==> s[i..j][a..b][m] == s[i + a + m];
  }

  lemma OccursAtSlice(s: string, i: nat, j: nat, sub: string, a: nat)
    requires i <= j <= |s|
    ensures Text.OccursAt(s[i..j], sub, a) <==> i + a + |sub| <= j && Text.OccursAt(s, sub, i + a)
  {
    if i + a + |sub| <= j {
      SliceSlice(s, i, j, a, a + |sub|);
    }
  }

  lemma {:induction false} SpanEndSlice(s: string, i: nat, j: nat, a: nat, ok: char -> bool)
    requires i <= j <= |s| && a <= j - i
    ensures SpanEnd(s[i..j], a, ok) == Min(SpanEnd(s, i + a, ok), j) - i
    decreases j - i - a
  {
    if a < j - i {
      assert s[i..j][a] == s[i + a];
      if ok(s[i + a]) {
        SpanEndSlice(s, i, j, a + 1, ok);
      }
    }
  }

  lemma SchemeSlice(s: string, i: nat, j: nat)
    requires i <= j <= |s|
    ensures SchemeAt(s[i..j], 0) > 0 ==> SchemeAt(s, i) == SchemeAt(s[i..j], 0)
    ensures SchemeAt(s, i) > 0 && i + SchemeAt(s, i) <= j ==> SchemeAt(s[i..j], 0) == SchemeAt(s, i)
  {
    OccursAtSlice(s, i, j, "https://", 0);
    OccursAtSlice(s, i, j, "http://", 0);
    if Text.OccursAt(s, "http://", i) {
      assert s[i + 4] == "http://"[4];
    }
  }

  // ---------------------------------------------------------------------
  // The extensions

  /** Two alternatives differ in the first letter, except `jpg` and
      `jpeg`, which differ in the third. */
  lemma ExtensionsDiffer(k: nat, l: nat)
    requires k < |Extensions| && l < |Extensions| && k != l
    ensures Extensions[k][0] != Extensions[l][0] || Extensions[k][2] != Extensions[l][2]
  {
  }

  /** So two alternatives never match at the same position. */
  lemma ExtensionsExclusive(s: string, p: nat, k: nat, l: nat)
    requires k < |Extensions| && l < |Extensions| && k != l
    requires Text.OccursAt(s, Extensions[k], p)
    ensures !Text.OccursAt(s, Extensions[l], p)
  {
    var e := Extensions[k];
    assert s[p] == e[0] && s[p + 2] == e[2] by {
      assert s[p..p + |e|] == e;
    }
    if Text.OccursAt(s, Extensions[l], p) {
      var f := Extensions[l];
      assert s[p] == f[0] && s[p + 2] == f[2] by {
        assert s[p..p + |f|] == f;
      }
      ExtensionsDiffer(k, l);
    }
  }

  lemma {:induction false} ExtFromSome(s: string, p: nat, k: nat)
    requires k <= |Extensions| && ExtFrom(s, p, k) > 0
    ensures exists l :: k <= l < |Extensions| && |Extensions[l]| == ExtFrom(s, p, k)
                        && Text.OccursAt(s, Extensions[l], p)
    decreases |Extensions| - k
  {
    if !Text.OccursAt(s, Extensions[k], p) {
      ExtFromSome(s, p, k + 1);
    }
  }

  lemma {:induction false} ExtFromFinds(s: string, p: nat, k: nat, l: nat)
    requires k <= l < |Extensions| && Text.OccursAt(s, Extensions[l], p)
    ensures ExtFrom(s, p, k) == |Extensions[l]|
    decreases l - k
  {
    if k < l {
      ExtensionsExclusive(s, p, l, k);
      ExtFromFinds(s, p, k + 1, l);
    }
  }

  /** The extension found at `p` is an alternative that matches there. */
  lemma ExtAtSome(s: string, p: nat) returns (k: nat)
    requires ExtAt(s, p) > 0
    ensures k < |Extensions| && |Extensions[k]| == ExtAt(s, p) && Text.OccursAt(s, Extensions[k], p)
  {
    ExtFromSome(s, p, 0);
    k :| 0 <= k < |Extensions| && |Extensions[k]| == ExtFrom(s, p, 0) && Text.OccursAt(s, Extensions[k], p);
  }

  /** Any alternative that matches at `p` is the one found. */
  lemma ExtensionUnique(s: string, p: nat, k: nat)
    requires k < |Extensions| && Text.OccursAt(s, Extensions[k], p)
    ensures ExtAt(s, p) == |Extensions[k]|
  {
    ExtFromFinds(s, p, 0, k);
  }

  /** The characters of a matched extension are lower-case letters: URL
      characters, and not `.`. */
  lemma ExtensionChars(s: string, p: nat, k: nat)
    requires k < |Extensions| && Text.OccursAt(s, Extensions[k], p)
    ensures forall m :: p <= m < p + |Extensions[k]| ==> UrlChar(s[m]) && s[m] != '.'
  {
    var e := Extensions[k];
    assert forall c :: c in e ==> 'a' <= c <= 'z';
    forall m | p <= m < p + |e|
      ensures UrlChar(s[m]) && s[m] != '.'
    {
      assert s[m] == s[p..p + |e|][m - p];
      assert s[m] in e;
    }
  }

  lemma DotExtChars(s: string, q: nat)
    requires DotExtAt(s, q) > 0
    ensures s[q] == '.' && UrlChar(s[q])
    ensures forall m :: q < m <= q + DotExtAt(s, q) ==> UrlChar(s[m]) && s[m] != '.'
  {
    var k := ExtAtSome(s, q + 1);
    ExtensionChars(s, q + 1, k);
  }

  // ---------------------------------------------------------------------
  // The engine finds the longest match

  lemma TailOn(s: string, lo: nat, j: nat, ext: string)
    requires lo <= j <= |s| && ImageTail(s[lo..j], ext)
    ensures lo < j - |ext| - 1 && s[j - |ext| - 1] == '.' && Text.OccursAt(s, ext, j - |ext|)
  {
    var r := s[lo..j];
    var x := |ext|;
    var q := j - x - 1;
    assert s[q] == r[|r| - x - 1];
    assert s[q + 1..j] == r[|r| - x..];
  }

  lemma ExtOn(s: string, lo: nat, j: nat) returns (k: nat)
    requires lo <= j <= |s| && exists k :: 0 <= k < |Extensions| && ImageTail(s[lo..j], Extensions[k])
    ensures k < |Extensions| && lo < j - |Extensions[k]| - 1
    ensures DotExtAt(s, j - |Extensions[k]| - 1) == |Extensions[k]|
  {
    k :| 0 <= k < |Extensions| && ImageTail(s[lo..j], Extensions[k]);
    ExtOnAt(s, lo, j, k);
  }

  lemma ExtOnAt(s: string, lo: nat, j: nat, k: nat)
    requires lo <= j <= |s| && k < |Extensions| && ImageTail(s[lo..j], Extensions[k])
    ensures lo < j - |Extensions[k]| - 1
    ensures DotExtAt(s, j - |Extensions[k]| - 1) == |Extensions[k]|
  {
    TailOn(s, lo, j, Extensions[k]);
    ExtensionUnique(s, j - |Extensions[k]|, k);
  }

  lemma CharsOn(s: string, lo: nat, j: nat)
    requires lo <= j <= |s| && AllUrlChars(s[lo..j])
    ensures forall m :: lo <= m < j ==> UrlChar(s[m])
  {
    forall m | lo <= m < j
      ensures UrlChar(s[m])
    {
      assert s[m] == s[lo..j][m - lo];
    }
  }

  /** `Matches(ImageFile, s[i..j])`, read on `s` itself: `k` is the
      extension it ends with. */
  lemma ImageFileOn(s: string, i: nat, j: nat) returns (k: nat)
    requires i <= j <= |s| && Matches(ImageFile, s[i..j])
    ensures SchemeAt(s, i) > 0 && i + SchemeAt(s, i) < j
    ensures forall m :: i + SchemeAt(s, i) <= m < j ==> UrlChar(s[m])
    ensures k < |Extensions| && i + SchemeAt(s, i) < j - |Extensions[k]| - 1
    ensures DotExtAt(s, j - |Extensions[k]| - 1) == |Extensions[k]|
  {
    var t := s[i..j];
    var n := SchemeAt(t, 0);
    SchemeSlice(s, i, j);
    SliceSlice(s, i, j, n, j - i);
    assert t[n..] == s[i + n..j];
    CharsOn(s, i + n, j);
    k := ExtOn(s, i + n, j);
  }

  lemma TailFrom(s: string, lo: nat, q: nat, ext: string)
    requires lo < q && q + 1 + |ext| <= |s| && s[q] == '.' && Text.OccursAt(s, ext, q + 1)
    ensures ImageTail(s[lo..q + 1 + |ext|], ext)
  {
    var r := s[lo..q + 1 + |ext|];
    assert r[|r| - |ext| - 1] == s[q];
    assert r[|r| - |ext|..] == s[q + 1..q + 1 + |ext|];
  }

  /** The engine's `ImageFile` match, read as a whole string. */
  lemma ImageFileFrom(s: string, i: nat, q: nat, j: nat)
    requires SchemeAt(s, i) > 0 && i + SchemeAt(s, i) < q && DotExtAt(s, q) > 0
    requires j == q + 1 + DotExtAt(s, q) <= |s|
    requires forall m :: i + SchemeAt(s, i) <= m < j ==> UrlChar(s[m])
    ensures Matches(ImageFile, s[i..j])
  {
    var n := SchemeAt(s, i);
    SchemeSlice(s, i, j);
    CharsFrom(s, i + n, j);
    var k := ExtTailFrom(s, i + n, q);
    ImageFileWholeOn(s, i, j, n, k);
  }

  lemma ImageFileWholeOn(s: string, i: nat, j: nat, n: nat, k: nat)
    requires i + n <= j <= |s| && SchemeAt(s[i..j], 0) == n > 0
    requires AllUrlChars(s[i + n..j]) && k < |Extensions| && ImageTail(s[i + n..j], Extensions[k])
    ensures Matches(ImageFile, s[i..j])
  {
    SliceSlice(s, i, j, n, j - i);
    assert s[i..j][n..] == s[i + n..j];
    ImageFileWhole(s[i..j], n, k);
  }

  lemma ExtTailFrom(s: string, lo: nat, q: nat) returns (k: nat)
    requires lo < q && DotExtAt(s, q) > 0 && q + 1 + DotExtAt(s, q) <= |s|
    ensures k < |Extensions| && ImageTail(s[lo..q + 1 + DotExtAt(s, q)], Extensions[k])
  {
    k := ExtAtSome(s, q + 1);
    TailFrom(s, lo, q, Extensions[k]);
  }

  lemma ImageFileWhole(t: string, n: nat, k: nat)
    requires SchemeAt(t, 0) == n > 0 && n <= |t|
    requires AllUrlChars(t[n..]) && k < |Extensions| && ImageTail(t[n..], Extensions[k])
    ensures Matches(ImageFile, t)
  {
  }

  /** The engine's `ImageFile` body ends at the dot `q` the backtracking
      settles on, then its extension; everything from `lo` to there is a
      URL character. */
  lemma ImageFileEndFits(s: string, lo: nat) returns (q: nat)
    requires lo <= |s| && ImageFileEnd(s, lo).Some?
    ensures lo < q && DotExtAt(s, q) > 0
    ensures ImageFileEnd(s, lo) == Some(q + 1 + DotExtAt(s, q))
    ensures forall m :: lo <= m < q + 1 + DotExtAt(s, q) ==> UrlChar(s[m])
  {
    var e := SpanEnd(s, lo, UrlChar);
    q := LastDot(s, lo, e).value;
    DotExtChars(s, q);
    ExtFits(s, q);
    var j := q + 1 + DotExtAt(s, q);
    assert q < e;
    forall m | lo <= m < j
      ensures UrlChar(s[m])
    {
      if e <= m {
        assert q < m <= q + DotExtAt(s, q);
      }
    }
  }

  lemma RunCovers(s: string, lo: nat, j: nat)
    requires lo <= j <= |s| && forall m :: lo <= m < j ==> UrlChar(s[m])
    ensures j <= SpanEnd(s, lo, UrlChar)
  {
  }

  /** A later dot that an extension follows ends a later match: the
      extension after an earlier dot cannot reach past a later one. */
  lemma LaterDotEndsLater(s: string, q': nat, q: nat)
    requires q' <= q && DotExtAt(s, q') > 0 && DotExtAt(s, q) > 0
    ensures q' + 1 + DotExtAt(s, q') <= q + 1 + DotExtAt(s, q)
  {
    if q' < q {
      DotExtChars(s, q');
      DotExtChars(s, q);
      assert !(q' < q <= q' + DotExtAt(s, q'));
    }
  }

  /** A body of URL characters from `lo` to a dot at `q'` and its
      extension: the engine's backtracking settles on a dot no earlier. */
  lemma DotReaches(s: string, lo: nat, q': nat, j: nat)
    requires lo < q' && DotExtAt(s, q') > 0 && j == q' + 1 + DotExtAt(s, q') <= |s|
    requires forall m :: lo <= m < j ==> UrlChar(s[m])
    ensures ImageFileEnd(s, lo).Some? && j <= ImageFileEnd(s, lo).value
  {
    RunCovers(s, lo, j);
    var e := SpanEnd(s, lo, UrlChar);
    var q := LastDot(s, lo, e).value;
    LaterDotEndsLater(s, q', q);
  }

  /** Any `ImageFile` match starting at `i` ends no later than the
      engine's. */
  lemma ImageFileEndReaches(s: string, i: nat, j: nat)
    requires i <= j <= |s| && Matches(ImageFile, s[i..j])
    ensures MatchAt(ImageFile, s, i).Some? && j <= MatchAt(ImageFile, s, i).value
  {
    var k := ImageFileOn(s, i, j);
    ExtensionReaches(s, i, j, k);
    MatchAtImageFile(s, i);
  }

  lemma ExtensionReaches(s: string, i: nat, j: nat, k: nat)
    requires i <= j <= |s| && SchemeAt(s, i) > 0
    requires forall m :: i + SchemeAt(s, i) <= m < j ==> UrlChar(s[m])
    requires k < |Extensions| && i + SchemeAt(s, i) < j - |Extensions[k]| - 1
    requires DotExtAt(s, j - |Extensions[k]| - 1) == |Extensions[k]|
    ensures ImageFileEnd(s, i + SchemeAt(s, i)).Some? && j <= ImageFileEnd(s, i + SchemeAt(s, i)).value
  {
    DotReaches(s, i + SchemeAt(s, i), j - |Extensions[k]| - 1, j);
  }

  lemma MatchAtImageFile(s: string, i: nat)
    requires i <= |s| && SchemeAt(s, i) > 0
    ensures MatchAt(ImageFile, s, i) == ImageFileEnd(s, i + SchemeAt(s, i))
  {
  }

  /** The engine's `ImageFile` match is a whole-string match. */
  lemma ImageFileEndMatches(s: string, i: nat, j: nat)
    requires i <= |s| && MatchAt(ImageFile, s, i) == Some(j)
    ensures Matches(ImageFile, s[i..j])
  {
    MatchAtImageFile(s, i);
    var q := ImageFileEndFits(s, i + SchemeAt(s, i));
    ImageFileFrom(s, i, q, j);
  }

  lemma ImageFileLongest(s: string, i: nat)
    requires i <= |s|
    ensures MatchAt(ImageFile, s, i).Some? ==> Matches(ImageFile, s[i..MatchAt(ImageFile, s, i).value])
    ensures forall j :: i <= j <= |s| && Matches(ImageFile, s[i..j]) ==>
              MatchAt(ImageFile, s, i).Some? && j <= MatchAt(ImageFile, s, i).value
  {
    if MatchAt(ImageFile, s, i).Some? {
      ImageFileEndMatches(s, i, MatchAt(ImageFile, s, i).value);
    }
    forall j | i <= j <= |s| && Matches(ImageFile, s[i..j])
      ensures MatchAt(ImageFile, s, i).Some? && j <= MatchAt(ImageFile, s, i).value
    {
      ImageFileEndReaches(s, i, j);
    }
  }

  lemma CharsFrom(s: string, lo: nat, j: nat)
    requires lo <= j <= |s| && forall m :: lo <= m < j ==> UrlChar(s[m])
    ensures AllUrlChars(s[lo..j])
  {
    forall m | 0 <= m < j - lo
      ensures UrlChar(s[lo..j][m])
    {
      assert s[lo..j][m] == s[lo + m];
    }
  }

  /** The facts on `s` that make `s[a..j]` a `host`-digits-domain-tail. */
  predicate SinaTailAt(host: string, s: string, a: nat, j: nat)
    requires a <= j <= |s|
  {
    && Text.OccursAt(s, host, a)
    && var d := SpanEnd(s, a + |host|, Text.IsDigit);
       d > a + |host| && DomainTailAt(s, d, j)
  }

  /** `DomainTail` of `s[..j]`, read on `s` itself. */
  predicate DomainTailAt(s: string, d: nat, j: nat)
    requires j <= |s|
  {
    && Text.OccursAt(s, SinaDomain, d)
    && d + |SinaDomain| < j
    && forall m :: d + |SinaDomain| <= m < j ==> UrlChar(s[m])
  }

  lemma SinaTailOn(host: string, s: string, a: nat, j: nat)
    requires a <= j <= |s|
    ensures SinaTail(s[a..j], host) <==> SinaTailAt(host, s, a, j)
  {
    var r := s[a..j];
    OccursAtSlice(s, a, j, host, 0);
    assert Text.StartsWith(r, host) <==> Text.OccursAt(r, host, 0);
    if Text.OccursAt(s, host, a) && a + |host| <= j {
      var d := SpanEnd(s, a + |host|, Text.IsDigit);
      SpanEndSlice(s, a, j, |host|, Text.IsDigit);
      if d <= j {
        SinaDigitsOn(host, s, a, j, d);
      } else {
        assert SpanEnd(r, |host|, Text.IsDigit) == j - a;
      }
    }
  }

  /** `SinaTailOn` once the host and the digits end inside the slice. */
  lemma SinaDigitsOn(host: string, s: string, a: nat, j: nat, d: nat)
    requires a + |host| <= d <= j <= |s| && Text.OccursAt(s, host, a) && Text.StartsWith(s[a..j], host)
    requires d == SpanEnd(s, a + |host|, Text.IsDigit) && SpanEnd(s[a..j], |host|, Text.IsDigit) == d - a
    ensures SinaTail(s[a..j], host) <==> SinaTailAt(host, s, a, j)
  {
    RestSlice(s, a, j, d);
  }

  /** The domain and the URL characters after the digits, read on the
      slice `s[a..j]` and on `s`. */
  lemma RestSlice(s: string, a: nat, j: nat, d: nat)
    requires a <= d <= j <= |s|
    ensures DomainTail(s[a..j], d - a) <==> DomainTailAt(s, d, j)
  {
    var r := s[a..j];
    var dr := d - a;
    var e := d + |SinaDomain|;
    OccursAtSlice(s, a, j, SinaDomain, dr);
    if e < j {
      SliceSlice(s, a, j, dr + |SinaDomain|, j - a);
      assert r[dr + |SinaDomain|..] == s[e..j];
      CharsIff(s, e, j);
    }
  }

  lemma CharsIff(s: string, lo: nat, j: nat)
    requires lo <= j <= |s|
    ensures AllUrlChars(s[lo..j]) <==> forall m :: lo <= m < j ==> UrlChar(s[m])
  {
    if AllUrlChars(s[lo..j]) {
      CharsOn(s, lo, j);
    }
    if forall m :: lo <= m < j ==> UrlChar(s[m]) {
      CharsFrom(s, lo, j);
    }
  }

  /** `Matches(Sina(host), s[i..j])`, read on `s` itself. */
  lemma SinaOn(host: string, s: string, i: nat, j: nat)
    requires i <= j <= |s|
    ensures Matches(Sina(host), s[i..j]) <==>
              SchemeAt(s, i) > 0 && i + SchemeAt(s, i) <= j && SinaTailAt(host, s, i + SchemeAt(s, i), j)
  {
    var t := s[i..j];
    SchemeSlice(s, i, j);
    var n := SchemeAt(s, i);
    if n > 0 && i + n <= j {
      SliceSlice(s, i, j, n, j - i);
      assert t[n..] == s[i + n..j];
      SinaTailOn(host, s, i + n, j);
    }
  }

  lemma SinaLongest(host: string, s: string, i: nat)
    requires i <= |s|
    ensures MatchAt(Sina(host), s, i).Some? ==> Matches(Sina(host), s[i..MatchAt(Sina(host), s, i).value])
    ensures forall j :: i <= j <= |s| && Matches(Sina(host), s[i..j]) ==>
              MatchAt(Sina(host), s, i).Some? && j <= MatchAt(Sina(host), s, i).value
  {
    var n := SchemeAt(s, i);
    if MatchAt(Sina(host), s, i).Some? {
      var e := MatchAt(Sina(host), s, i).value;
      assert SinaEnd(host, s, i + n) == Some(e);
      assert SinaTailAt(host, s, i + n, e);
      SinaOn(host, s, i, e);
    }
    forall j | i <= j <= |s| && Matches(Sina(host), s[i..j])
      ensures MatchAt(Sina(host), s, i).Some? && j <= MatchAt(Sina(host), s, i).value
    {
      SinaOn(host, s, i, j);
      SinaEndReaches(host, s, i + n, j);
    }
  }

  /** When `s[a..j]` is a host-digits-domain-tail, the engine's run of URL
      characters reaches at least `j`. */
  lemma SinaEndReaches(host: string, s: string, a: nat, j: nat)
    requires a <= j <= |s| && SinaTailAt(host, s, a, j)
    ensures SinaEnd(host, s, a).Some? && j <= SinaEnd(host, s, a).value
  {
  }

  /** The engine's match at `i` is a whole-string match of the pattern,
      and every match starting at `i` ends no later: for these patterns the
      greedy, backtracking search finds exactly the longest match, and
      finds none only when no prefix of `s[i..]` matches. */
  lemma MatchAtLongest(p: Pattern, s: string, i: nat)
    requires i <= |s|
    ensures MatchAt(p, s, i).Some? ==> Matches(p, s[i..MatchAt(p, s, i).value])
    ensures forall j :: i <= j <= |s| && Matches(p, s[i..j]) ==>
              MatchAt(p, s, i).Some? && j <= MatchAt(p, s, i).value
  {
    match p
    case ImageFile => ImageFileLongest(s, i);
    case Sina(host) => SinaLongest(host, s, i);
  }

  // ---------------------------------------------------------------------
  // What `re.findall` returns

  /** `re.findall(p, s)`: each returned string is the piece of `s` at a
      reported span, the pattern matches it in full, and no longer piece
      starting at the same place matches; the spans come in text order
      without overlap; and every position where some piece matching the
      pattern starts is the start of a span or lies inside one. */
  lemma FindAllMatches(p: Pattern, s: string)
    ensures |FindAll(p, s)| == |Spans(p, s, 0)|
    ensures forall k :: 0 <= k < |Spans(p, s, 0)| ==>
              var a := Spans(p, s, 0)[k].0;
              var b := Spans(p, s, 0)[k].1;
              && FindAll(p, s)[k] == s[a..b]
              && Matches(p, s[a..b])
              && forall j :: b < j <= |s| ==> !Matches(p, s[a..j])
    ensures InTextOrder(Spans(p, s, 0))
    ensures forall m, j :: 0 <= m <= j <= |s| && Matches(p, s[m..j]) ==> Covered(Spans(p, s, 0), m)
  {
    var spans := Spans(p, s, 0);
    SpansAreMatches(p, s, 0);
    SpansInOrder(p, s, 0);
    SpansCoverMatches(p, s, 0);
    forall k | 0 <= k < |spans|
      ensures Matches(p, s[spans[k].0..spans[k].1])
      ensures forall j :: spans[k].1 < j <= |s| ==> !Matches(p, s[spans[k].0..j])
    {
      MatchAtLongest(p, s, spans[k].0);
    }
    forall m, j | 0 <= m <= j <= |s| && Matches(p, s[m..j])
      ensures Covered(spans, m)
    {
      MatchAtLongest(p, s, m);
    }
  }

  /** Each string `re.findall(p, s)` returns occurs in `s` and matches `p`
      in full. */
  lemma FindAllPieces(p: Pattern, s: string)
    ensures forall c :: c in FindAll(p, s) ==> Text.Contains(s, c) && Matches(p, c)
  {
    forall c | c in FindAll(p, s)
      ensures Text.Contains(s, c) && Matches(p, c)
    {
      var k :| 0 <= k < |FindAll(p, s)| && FindAll(p, s)[k] == c;
      FindAllPiece(p, s, k);
    }
  }

  lemma FindAllPiece(p: Pattern, s: string, k: nat)
    requires k < |FindAll(p, s)|
    ensures Text.Contains(s, FindAll(p, s)[k]) && Matches(p, FindAll(p, s)[k])
  {
    var spans := Spans(p, s, 0);
    var a := spans[k].0;
    var b := spans[k].1;
    assert FindAll(p, s)[k] == s[a..b];
    SpansAreMatches(p, s, 0);
    assert MatchAt(p, s, a) == Some(b);
    MatchAtLongest(p, s, a);
    assert Text.OccursAt(s, s[a..b], a);
  }

  lemma {:induction false} CandidatesSound(s: string, ps: seq<Pattern>)
    ensures forall c :: c in Candidates(s, ps) ==> Text.Contains(s, c) && exists p :: p in ps && Matches(p, c)
    decreases |ps|
  {
    if |ps| > 0 {
      FindAllPieces(ps[0], s);
      CandidatesSound(s, ps[1..]);
      forall c | c in Candidates(s, ps)
        ensures Text.Contains(s, c) && exists p :: p in ps && Matches(p, c)
      {
        if c in FindAll(ps[0], s) {
          assert ps[0] in ps;
        } else {
          var p :| p in ps[1..] && Matches(p, c);
          assert p in ps;
        }
      }
    }
  }

  /** The candidates of `_extract_pic_urls` are the matches of the first
      pattern, then of the second, the third and the fourth; each is a
      piece of the content that one of the four patterns matches in full. */
  lemma PicCandidatesSound(content: string)
    ensures PicCandidates(content) == FindAll(ImageFile, content) + FindAll(Sina("wx"), content)
                                      + FindAll(Sina("tva"), content) + FindAll(Sina("ww"), content)
    ensures forall c :: c in PicCandidates(content) ==>
              Text.Contains(content, c) && exists p :: p in Patterns && Matches(p, c)
  {
    CandidatesSound(content, Patterns);
    var ps := Patterns;
    var f0, f1 := FindAll(ImageFile, content), FindAll(Sina("wx"), content);
    var f2, f3 := FindAll(Sina("tva"), content), FindAll(Sina("ww"), content);
    assert Candidates(content, ps[3..]) == f3 by {
      assert ps[3..][1..] == [];
    }
    assert Candidates(content, ps[2..]) == f2 + f3 by {
      assert ps[2..][1..] == ps[3..];
    }
    assert Candidates(content, ps[1..]) == f1 + (f2 + f3) by {
      assert ps[1..][1..] == ps[2..];
    }
    assert PicCandidates(content) == f0 + (f1 + (f2 + f3));
    AppendAssoc4(f0, f1, f2, f3);
  }

  lemma AppendAssoc4<T>(a: seq<T>, b: seq<T>, c: seq<T>, d: seq<T>)
    ensures a + (b + (c + d)) == a + b + c + d
  {
  }
}

=== FILE: ranking.dfy ===
/** The collection operations the report is built from: SQL's `WHERE`,
    `GROUP BY ... COUNT(*)`, `ORDER BY ... DESC LIMIT n`, `SUM` and `MAX`,
    and `Counter(...).most_common(n)`. Ties in an `ORDER BY` are left to
    the server by SQL; the model breaks them the way Python's stable sort
    does, by first occurrence. */
module Ranking {
  import opened Wrappers

  // ---------------------------------------------------------------------
  // Filtering

  /** `[x for x in s if p(x)]`, or a `WHERE` clause. */
  function Filter<T(==,!new)>(s: seq<T>, p: T -> bool): (r: seq<T>)
    ensures |r| <= |s|
    ensures forall i :: 0 <= i < |r| ==> p(r[i])
    ensures forall x :: multiset(r)[x] == if p(x) then multiset(s)[x] else 0
  {
    if |s| == 0 then []
    else
      var rest := Filter(s[1..], p);
      assert s == [s[0]] + s[1..];
      if p(s[0]) then [s[0]] + rest else rest
  }

  /** The positions of `s` whose element satisfies `p`. */
  function Positions<T>(s: seq<T>, p: T -> bool): set<int> {
    set i | 0 <= i < |s| && p(s[i])
  }

  /** A filter keeps as many elements as there are positions satisfying
      the predicate. */
  lemma {:induction false} FilterCount<T(!new)>(s: seq<T>, p: T -> bool)
    ensures |Filter(s, p)| == |Positions(s, p)|
    decreases |s|
  {
    if |s| > 0 {
      var init := s[..|s| - 1];
      assert s == init + [s[|s| - 1]];
      FilterAppend(init, [s[|s| - 1]], p);
      FilterCount(init, p);
      PositionsStep(s, p);
    }
  }

  /** The positions satisfying `p` grow by the last one when it does. */
  lemma PositionsStep<T>(s: seq<T>, p: T -> bool)
    requires |s| > 0
    ensures |Positions(s, p)| == |Positions(s[..|s| - 1], p)| + (if p(s[|s| - 1]) then 1 else 0)
  {
    var n := |s| - 1;
    var a := Positions(s[..n], p);
    var b := Positions(s, p);
    if p(s[n]) {
      assert b == a + {n};
    } else {
      assert b == a;
    }
  }

  /** Any sequence holding what a filter keeps, as often, is as long as
      the number of positions that satisfy it. */
  lemma CountOfFiltered<T(!new)>(r: seq<T>, s: seq<T>, p: T -> bool)
    requires forall x :: multiset(r)[x] == if p(x) then multiset(s)[x] else 0
    ensures |r| == |Positions(s, p)|
  {
    assert multiset(r) == multiset(Filter(s, p));
    assert |multiset(r)| == |multiset(Filter(s, p))|;
    FilterCount(s, p);
  }

  /** Filtering distributes over concatenation. */
  lemma {:induction false} FilterAppend<T(!new)>(a: seq<T>, b: seq<T>, p: T -> bool)
    ensures Filter(a + b, p) == Filter(a, p) + Filter(b, p)
    decreases |a|
  {
    if |a| == 0 {
      assert a + b == b;
    } else {
      assert (a + b)[1..] == a[1..] + b;
      FilterAppend(a[1..], b, p);
    }
  }

  /** `[f(x) for x in s]` */
  function Map<T, U>(s: seq<T>, f: T -> U): (r: seq<U>)
    ensures |r| == |s|
    ensures forall i :: 0 <= i < |s| ==> r[i] == f(s[i])
  {
    seq(|s|, i requires 0 <= i < |s| => f(s[i]))
  }

  lemma MapAppend<T, U>(a: seq<T>, b: seq<T>, f: T -> U)
    ensures Map(a + b, f) == Map(a, f) + Map(b, f)
  {
  }

  // ---------------------------------------------------------------------
  // Stable descending sort and top-n

  predicate SortedBy<T>(s: seq<T>, key: T -> int) {
    forall i, j :: 0 <= i < j < |s| ==> key(s[i]) >= key(s[j])
  }

  predicate BoundedBy<T>(s: seq<T>, key: T -> int, b: int) {
    forall i :: 0 <= i < |s| ==> key(s[i]) <= b
  }

  /** Inserts `x` in front of the first element whose key is not greater,
      so that it stays ahead of equal keys that came after it. */
  function InsertBy<T(==)>(x: T, s: seq<T>, key: T -> int): (r: seq<T>)
    requires SortedBy(s, key)
    ensures SortedBy(r, key)
    ensures multiset(r) == multiset(s) + multiset{x}
    ensures |r| == |s| + 1
    ensures BoundedBy(r, key, if |s| == 0 || key(x) >= key(s[0]) then key(x) else key(s[0]))
  {
    if |s| == 0 then [x]
    else if key(x) >= key(s[0]) then
      InsertAhead(x, s, key);
      [x] + s
    else
      SortedHead(s, key);
      var t := InsertBy(x, s[1..], key);
      InsertBehind(x, s, t, key);
      [s[0]] + t
  }

  lemma InsertAhead<T>(x: T, s: seq<T>, key: T -> int)
    requires SortedBy(s, key) && |s| > 0 && key(x) >= key(s[0])
    ensures SortedBy([x] + s, key) && BoundedBy([x] + s, key, key(x))
    ensures multiset([x] + s) == multiset(s) + multiset{x}
  {
    SortedHead(s, key);
    BoundedWeaken(s, key, key(s[0]), key(x));
    ConsSorted(x, s, key);
  }

  /** The step behind the head: `t` is the tail with `x` inserted. */
  lemma InsertBehind<T>(x: T, s: seq<T>, t: seq<T>, key: T -> int)
    requires SortedBy(s, key) && |s| > 0 && key(x) < key(s[0])
    requires SortedBy(t, key) && multiset(t) == multiset(s[1..]) + multiset{x}
    requires BoundedBy(t, key, if |s| == 1 || key(x) >= key(s[1]) then key(x) else key(s[1]))
    ensures SortedBy([s[0]] + t, key) && BoundedBy([s[0]] + t, key, key(s[0]))
    ensures multiset([s[0]] + t) == multiset(s) + multiset{x}
  {
    SortedHead(s, key);
    BoundedWeaken(t, key, if |s| == 1 || key(x) >= key(s[1]) then key(x) else key(s[1]), key(s[0]));
    ConsSorted(s[0], t, key);
    assert s == [s[0]] + s[1..];
  }

  /** A sorted list is bounded by its head, and its tail is sorted. */
  lemma SortedHead<T>(s: seq<T>, key: T -> int)
    requires SortedBy(s, key) && |s| > 0
    ensures BoundedBy(s, key, key(s[0])) && SortedBy(s[1..], key)
  {
    forall i | 0 <= i < |s| ensures key(s[i]) <= key(s[0]) {
      if i > 0 {
        assert key(s[0]) >= key(s[i]);
      }
    }
  }

  lemma BoundedWeaken<T>(s: seq<T>, key: T -> int, b: int, c: int)
    requires BoundedBy(s, key, b) && b <= c
    ensures BoundedBy(s, key, c)
  {
  }

  /** Putting an element no lower than the rest in front keeps a list
      sorted, and bounds it by the new head. */
  lemma ConsSorted<T>(a: T, t: seq<T>, key: T -> int)
    requires SortedBy(t, key) && BoundedBy(t, key, key(a))
    ensures SortedBy([a] + t, key) && BoundedBy([a] + t, key, key(a))
  {
    var r := [a] + t;
    forall i, j | 0 <= i < j < |r| ensures key(r[i]) >= key(r[j]) {
      assert r[j] == t[j - 1];
      if i > 0 {
        assert r[i] == t[i - 1];
      }
    }
  }

  /** `sorted(s, key=key, reverse=True)`: a stable insertion sort. */
  function SortBy<T(==)>(s: seq<T>, key: T -> int): (r: seq<T>)
    ensures SortedBy(r, key)
    ensures multiset(r) == multiset(s)
    ensures |r| == |s|
  {
    if |s| == 0 then []
    else
      assert s == [s[0]] + s[1..];
      InsertBy(s[0], SortBy(s[1..], key), key)
  }

  function Min(a: int, b: int): int {
    if a <= b then a else b
  }

  /** `ORDER BY key DESC LIMIT n`, and `most_common(n)`: the first `n` of
      the stable descending sort. */
  function TopOf<T(==)>(s: seq<T>, key: T -> int, n: nat): (r: seq<T>)
    ensures |r| == Min(n, |s|)
    ensures SortedBy(r, key)
    ensures multiset(r) <= multiset(s)
    ensures |s| <= n ==> multiset(r) == multiset(s)
  {
    var t := SortBy(s, key);
    var m := Min(n, |s|);
    assert t == t[..m] + t[m..];
    t[..m]
  }

  /** A prefix holds no more than the whole. */
  lemma PrefixMultiset<T>(s: seq<T>, m: nat)
    requires m <= |s|
    ensures multiset(s[..m]) <= multiset(s)
  {
    assert s == s[..m] + s[m..];
  }

  /** What the top `n` leave out ranks no higher than anything they keep. */
  lemma TopOfLeavesLower<T>(s: seq<T>, key: T -> int, n: nat)
    ensures var r := TopOf(s, key, n);
      forall x :: x in multiset(s) - multiset(r) ==> forall i :: 0 <= i < |r| ==> key(x) <= key(r[i])
  {
    var t := SortBy(s, key);
    var m := Min(n, |s|);
    var r := t[..m];
    assert t == r + t[m..];
    assert multiset(s) == multiset(r) + multiset(t[m..]);
    forall x | x in multiset(s) - multiset(r) ensures forall i :: 0 <= i < |r| ==> key(x) <= key(r[i]) {
      BehindIsLower(t, key, m, x);
    }
  }

  /** In a sorted sequence, what comes after position `m` ranks no higher
      than anything before it. */
  lemma BehindIsLower<T>(t: seq<T>, key: T -> int, m: nat, x: T)
    requires SortedBy(t, key) && m <= |t| && x in multiset(t[m..])
    ensures forall i :: 0 <= i < m ==> key(x) <= key(t[..m][i])
  {
    var j :| 0 <= j < |t[m..]| && t[m..][j] == x;
    assert t[m + j] == x;
  }

  /** The elements whose key is `k`, in their order in `s`: what a stable
      sort must not reorder. */
  function Ties<T>(s: seq<T>, key: T -> int, k: int): seq<T>
    decreases |s|
  {
    if |s| == 0 then []
    else TieOf(s[0], key, k) + Ties(s[1..], key, k)
  }

  lemma {:induction false} TiesAppend<T>(a: seq<T>, b: seq<T>, key: T -> int, k: int)
    ensures Ties(a + b, key, k) == Ties(a, key, k) + Ties(b, key, k)
    decreases |a|
  {
    if |a| == 0 {
      assert a + b == b;
    } else {
      assert (a + b)[1..] == a[1..] + b;
      TiesAppend(a[1..], b, key, k);
    }
  }

  lemma TiesCons<T>(x: T, s: seq<T>, key: T -> int, k: int)
    ensures Ties([x] + s, key, k) == TieOf(x, key, k) + Ties(s, key, k)
  {
    assert ([x] + s)[1..] == s;
  }

  /** Inserting goes ahead of every element of an equal key. */
  lemma {:induction false} InsertByStable<T>(x: T, s: seq<T>, key: T -> int, k: int)
    requires SortedBy(s, key)
    ensures Ties(InsertBy(x, s, key), key, k) == TieOf(x, key, k) + Ties(s, key, k)
    decreases |s|
  {
    if |s| == 0 {
      TiesCons(x, [], key, k);
    } else if key(x) >= key(s[0]) {
      TiesCons(x, s, key, k);
    } else {
      var t := InsertBy(x, s[1..], key);
      InsertByStable(x, s[1..], key, k);
      assert s == [s[0]] + s[1..];
      calc {
        Ties(InsertBy(x, s, key), key, k);
        Ties([s[0]] + t, key, k);
        { TiesCons(s[0], t, key, k); }
        TieOf(s[0], key, k) + (TieOf(x, key, k) + Ties(s[1..], key, k));
        { SwapTies(s[0], x, key, k, Ties(s[1..], key, k)); }
        TieOf(x, key, k) + (TieOf(s[0], key, k) + Ties(s[1..], key, k));
        { TiesCons(s[0], s[1..], key, k); }
        TieOf(x, key, k) + Ties(s, key, k);
      }
    }
  }

  /** `x` itself when its key is `k`, else nothing. */
  function TieOf<T>(x: T, key: T -> int, k: int): seq<T> {
    if key(x) == k then [x] else []
  }

  /** Two elements of different keys cannot both be ties of `k`, so their
      order among the ties does not matter. */
  lemma SwapTies<T>(a: T, b: T, key: T -> int, k: int, rest: seq<T>)
    requires key(a) != key(b)
    ensures TieOf(a, key, k) + (TieOf(b, key, k) + rest) == TieOf(b, key, k) + (TieOf(a, key, k) + rest)
  {
    if key(a) == k {
      assert TieOf(b, key, k) == [];
    } else {
      assert TieOf(a, key, k) == [];
    }
  }

  /** The sort is stable: elements of equal key keep their input order. */
  lemma {:induction false} SortByStable<T>(s: seq<T>, key: T -> int, k: int)
    ensures Ties(SortBy(s, key), key, k) == Ties(s, key, k)
    decreases |s|
  {
    if |s| > 0 {
      assert s == [s[0]] + s[1..];
      SortByStable(s[1..], key, k);
      InsertByStable(s[0], SortBy(s[1..], key), key, k);
      TiesCons(s[0], s[1..], key, k);
    }
  }

  /** Of the elements of one key, the top `n` keep the earliest, in input
      order. */
  lemma TopOfStable<T>(s: seq<T>, key: T -> int, n: nat, k: int)
    ensures Ties(TopOf(s, key, n), key, k) <= Ties(s, key, k)
  {
    var t := SortBy(s, key);
    var m := Min(n, |s|);
    assert t == t[..m] + t[m..];
    TiesAppend(t[..m], t[m..], key, k);
    SortByStable(s, key, k);
  }

  // ---------------------------------------------------------------------
  // Grouping

  /** A group: a key and how many times it occurs. */
  type Group<K> = (K, nat)

  function Labels<K>(g: seq<Group<K>>): (r: seq<K>)
    ensures |r| == |g|
  {
    seq(|g|, i requires 0 <= i < |g| => g[i].0)
  }

  predicate Distinct<K(==)>(u: seq<K>) {
    forall i, j :: 0 <= i < j < |u| ==> u[i] != u[j]
  }

  /** The distinct keys in order of first occurrence. */
  function FirstOccurrences<K(==,!new)>(keys: seq<K>): (u: seq<K>)
    ensures Distinct(u)
    ensures forall k :: k in keys <==> k in u
    decreases |keys|
  {
    if |keys| == 0 then []
    else
      var init := keys[..|keys| - 1];
      var k := keys[|keys| - 1];
      assert keys == init + [k];
      var u := FirstOccurrences(init);
      if k in u then u else u + [k]
  }

  /** `GROUP BY k ... COUNT(*)`, or `Counter(keys)`: one group per
      distinct key, in order of first occurrence, counting its
      occurrences. */
  function GroupCounts<K(==,!new)>(keys: seq<K>): (r: seq<Group<K>>)
    ensures Labels(r) == FirstOccurrences(keys)
    ensures forall i, j :: 0 <= i < j < |r| ==> r[i].0 != r[j].0
    ensures forall i :: 0 <= i < |r| ==> r[i].1 == multiset(keys)[r[i].0] && r[i].1 > 0
    ensures forall k :: k in keys <==> k in Labels(r)
  {
    var u := FirstOccurrences(keys);
    var r := seq(|u|, i requires 0 <= i < |u| => (u[i], multiset(keys)[u[i]]));
    assert Labels(r) == u;
    assert forall i :: 0 <= i < |u| ==> u[i] in u && u[i] in keys;
    r
  }

  /** Every key that occurs has its group, carrying its number of
      occurrences. */
  lemma GroupCountOf<K(!new)>(keys: seq<K>, k: K)
    requires k in keys
    ensures exists i :: 0 <= i < |GroupCounts(keys)| && GroupCounts(keys)[i] == (k, multiset(keys)[k])
  {
    var r := GroupCounts(keys);
    assert k in Labels(r);
    var i :| 0 <= i < |r| && Labels(r)[i] == k;
  }

  /** Groups with distinct labels occur once each. */
  lemma MultiplicityOne<K>(g: seq<Group<K>>, a: int)
    requires forall x, y :: 0 <= x < y < |g| ==> g[x].0 != g[y].0
    requires 0 <= a < |g|
    ensures multiset(g)[g[a]] == 1
  {
    assert g == g[..a] + [g[a]] + g[a + 1..];
    var before, after := g[..a], g[a + 1..];
    assert forall x :: 0 <= x < |before| ==> before[x].0 != g[a].0;
    assert forall y :: 0 <= y < |after| ==> after[y] == g[a + 1 + y] && after[y].0 != g[a].0;
  }

  /** Taking some of a list of groups with distinct labels, in any order,
      keeps the labels distinct. */
  lemma DistinctLabelsSub<K>(g: seq<Group<K>>, d: seq<Group<K>>)
    requires forall a, b :: 0 <= a < b < |g| ==> g[a].0 != g[b].0
    requires multiset(d) <= multiset(g)
    ensures forall i, j :: 0 <= i < j < |d| ==> d[i].0 != d[j].0
  {
    forall i, j | 0 <= i < j < |d| ensures d[i].0 != d[j].0 {
      assert d[i] in multiset(g) && d[j] in multiset(g);
      var a :| 0 <= a < |g| && g[a] == d[i];
      var b :| 0 <= b < |g| && g[b] == d[j];
      if a == b {
        assert multiset(d)[d[i]] >= 2 by {
          assert d == d[..j] + d[j..];
          assert d[i] in multiset(d[..j]);
          assert d[j] in multiset(d[j..]);
        }
        MultiplicityOne(g, a);
      } else {
        assert g[a].0 != g[b].0;
      }
    }
  }

  function Count<K>(g: Group<K>): int {
    g.1
  }

  /** `Counter(keys).most_common(n)`: at most `n` entries, most common
      first, each a key with its number of occurrences, no key twice; a key
      left out has a full list ahead of it, each occurring no less often;
      keys of equal count come in order of first occurrence. */
  predicate MostCommon<K(==,!new)>(r: seq<Group<K>>, keys: seq<K>, n: nat) {
    && |r| <= n
    && SortedBy(r, Count)
    && (forall i :: 0 <= i < |r| ==> r[i].0 in keys && r[i].1 == multiset(keys)[r[i].0] > 0)
    && (forall i, j :: 0 <= i < j < |r| ==> r[i].0 != r[j].0)
    && (forall k :: k in keys && k !in Labels(r) ==>
          |r| == n && forall i :: 0 <= i < |r| ==> multiset(keys)[k] <= r[i].1)
    && (forall i :: 0 <= i < |r| ==> Ties(r, Count, r[i].1) <= Ties(GroupCounts(keys), Count, r[i].1))
  }

  /** The top `n` of the counted keys are the most common `n`. */
  lemma TopCountsSound<K(!new)>(keys: seq<K>, n: nat)
    ensures MostCommon(TopOf(GroupCounts(keys), Count, n), keys, n)
  {
    TopCountsKept(keys, n);
    TopCountsLeaveLower(keys, n);
    var g := GroupCounts(keys);
    var r := TopOf(g, Count, n);
    forall i | 0 <= i < |r| ensures Ties(r, Count, r[i].1) <= Ties(g, Count, r[i].1) {
      TopOfStable(g, Count, n, r[i].1);
    }
  }

  lemma TopCountsKept<K(!new)>(keys: seq<K>, n: nat)
    ensures var r := TopOf(GroupCounts(keys), Count, n);
      && (forall i :: 0 <= i < |r| ==> r[i].0 in keys && r[i].1 == multiset(keys)[r[i].0] > 0)
      && (forall i, j :: 0 <= i < j < |r| ==> r[i].0 != r[j].0)
  {
    var g := GroupCounts(keys);
    var r := TopOf(g, Count, n);
    forall i | 0 <= i < |r| ensures r[i].0 in keys && r[i].1 == multiset(keys)[r[i].0] > 0 {
      GroupsFrom(g, r, i);
      var k :| 0 <= k < |g| && g[k] == r[i];
      assert Labels(g)[k] == r[i].0;
    }
    DistinctLabelsSub(g, r);
  }

  lemma TopCountsLeaveLower<K(!new)>(keys: seq<K>, n: nat)
    ensures var r := TopOf(GroupCounts(keys), Count, n);
      forall k :: k in keys && k !in Labels(r) ==>
        |r| == n && forall i :: 0 <= i < |r| ==> multiset(keys)[k] <= r[i].1
  {
    var g := GroupCounts(keys);
    var r := TopOf(g, Count, n);
    forall k | k in keys && k !in Labels(r)
      ensures |r| == n && forall i :: 0 <= i < |r| ==> multiset(keys)[k] <= r[i].1
    {
      LeftOutRanksLower(g, r, n, k);
    }
  }

  /** A group left out of the top `n` counts no more than any kept, and
      the top list is full. */
  lemma LeftOutRanksLower<T>(g: seq<Group<T>>, r: seq<Group<T>>, n: nat, v: T)
    requires r == TopOf(g, Count, n) && v in Labels(g) && v !in Labels(r)
    ensures |r| == n
    ensures exists k :: 0 <= k < |g| && g[k].0 == v && forall i :: 0 <= i < |r| ==> g[k].1 <= r[i].1
  {
    var k :| 0 <= k < |g| && Labels(g)[k] == v;
    forall i | 0 <= i < |r| ensures r[i] != g[k] {
      assert Labels(r)[i] == r[i].0 != v;
    }
    assert multiset(r)[g[k]] == 0;
    assert g[k] in multiset(g) - multiset(r);
    TopOfLeavesLower(g, Count, n);
    assert forall i :: 0 <= i < |r| ==> Count(g[k]) <= Count(r[i]);
  }

  /** Each group of a sub-multiset is one of the original groups. */
  lemma GroupsFrom<K>(g: seq<Group<K>>, d: seq<Group<K>>, i: int)
    requires multiset(d) <= multiset(g) && 0 <= i < |d|
    ensures exists k :: 0 <= k < |g| && g[k] == d[i]
  {
    assert d[i] in multiset(d);
    assert d[i] in multiset(g);
  }

  /** Reordering groups keeps their labels. */
  lemma LabelsPermuted<K>(g: seq<Group<K>>, d: seq<Group<K>>, b: K)
    requires multiset(d) == multiset(g)
    ensures b in Labels(d) <==> b in Labels(g)
  {
    if b in Labels(d) {
      var i :| 0 <= i < |d| && Labels(d)[i] == b;
      GroupsFrom(g, d, i);
      var k :| 0 <= k < |g| && g[k] == d[i];
      assert Labels(g)[k] == b;
    }
    if b in Labels(g) {
      var k :| 0 <= k < |g| && Labels(g)[k] == b;
      GroupsFrom(d, g, k);
      var i :| 0 <= i < |d| && d[i] == g[k];
      assert Labels(d)[i] == b;
    }
  }

  // ---------------------------------------------------------------------
  // SQL aggregates

  /** `SUM(x)`: NULLs are skipped, and the sum of no values is NULL. */
  function SumOf(xs: seq<Option<int>>): (r: Option<int>)
    ensures r.None? <==> forall i :: 0 <= i < |xs| ==> xs[i].None?
  {
    if |xs| == 0 then None
    else
      var rest := SumOf(xs[1..]);
      assert forall i :: 1 <= i < |xs| ==> xs[i] == xs[1..][i - 1];
      match (xs[0], rest)
      case (None, _) => rest
      case (Some(a), None) => Some(a)
      case (Some(a), Some(b)) => Some(a + b)
  }

  /** `x or 0` on an aggregate. */
  function OrZero(x: Option<int>): int {
    x.GetOr(0)
  }

  /** Summing two sets of rows adds their `SUM(x) or 0`. */
  lemma {:induction false} SumAppend(a: seq<Option<int>>, b: seq<Option<int>>)
    ensures OrZero(SumOf(a + b)) == OrZero(SumOf(a)) + OrZero(SumOf(b))
    decreases |a|
  {
    if |a| > 0 {
      assert (a + b)[1..] == a[1..] + b;
      SumAppend(a[1..], b);
    } else {
      assert a + b == b;
    }
  }

  /** `MAX(x)`: the largest non-NULL value, NULL when there is none. */
  function MaxOf(xs: seq<Option<int>>): (r: Option<int>)
    ensures r.None? <==> forall i :: 0 <= i < |xs| ==> xs[i].None?
    ensures r.Some? ==> forall i :: 0 <= i < |xs| && xs[i].Some? ==> xs[i].value <= r.value
    ensures r.Some? ==> Some(r.value) in xs
  {
    if |xs| == 0 then None
    else
      var rest := MaxOf(xs[1..]);
      assert forall i :: 1 <= i < |xs| ==> xs[i] == xs[1..][i - 1];
      match (xs[0], rest)
      case (None, _) => rest
      case (Some(a), None) => Some(a)
      case (Some(a), Some(b)) => Some(if a >= b then a else b)
  }

  /** `MIN(x)`: the smallest non-NULL value, NULL when there is none. */
  function MinOf(xs: seq<Option<int>>): (r: Option<int>)
    ensures r.None? <==> forall i :: 0 <= i < |xs| ==> xs[i].None?
    ensures r.Some? ==> forall i :: 0 <= i < |xs| && xs[i].Some? ==> r.value <= xs[i].value
    ensures r.Some? ==> Some(r.value) in xs
  {
    if |xs| == 0 then None
    else
      var rest := MinOf(xs[1..]);
      assert forall i :: 1 <= i < |xs| ==> xs[i] == xs[1..][i - 1];
      match (xs[0], rest)
      case (None, _) => rest
      case (Some(a), None) => Some(a)
      case (Some(a), Some(b)) => Some(if a <= b then a else b)
  }
}

=== FILE: storage.dfy ===
/** The session archive of `DataStorageManager`: one directory per crawl,
    named after the moment it started and the keyword, with three
    sub-directories and a fixed naming scheme for the files saved into
    them. File contents and the file system are outside the model: a save
    reports the path it opens and whether the write went through, which is
    an input. */
module Storage {
  import opened Wrappers
  import Text
  import opened Values
  import Helpers

  // ---------------------------------------------------------------------
  // Timestamps

  /** A wall-clock reading, as `datetime.now()` returns it. */
  datatype DateTime = DateTime(year: nat, month: nat, day: nat, hour: nat, minute: nat, second: nat)

  /** The readings `%Y%m%d_%H%M%S` renders with fixed widths: four-digit
      years and in-range fields. */
  predicate ValidDateTime(t: DateTime) {
    && 1000 <= t.year <= 9999 && 1 <= t.month <= 12 && 1 <= t.day <= 31
    && t.hour < 24 && t.minute < 60 && t.second < 60
  }

  function Pow10(w: nat): (p: nat)
    ensures p >= 1
  {
    if w == 0 then 1 else 10 * Pow10(w - 1)
  }

  /** The last `w` decimal digits of `n`, zero-filled: `%0wd` for
      `n < 10^w`. */
  function Fixed(n: nat, w: nat): (r: string)
    ensures |r| == w && Text.AllDigits(r)
  {
    if w == 0 then "" else Fixed(n / 10, w - 1) + [Text.DigitChar(n % 10)]
  }

  lemma {:induction false} FixedValue(n: nat, w: nat)
    requires n < Pow10(w)
    ensures Text.DigitsValue(Fixed(n, w)) == n
  {
    if w > 0 {
      var r := Fixed(n, w);
      var p := Fixed(n / 10, w - 1);
      assert r == p + [Text.DigitChar(n % 10)];
      assert r[..w - 1] == p;
      assert n / 10 < Pow10(w - 1);
      FixedValue(n / 10, w - 1);
      assert Text.DigitsValue(r) == (n / 10) * 10 + n % 10;
    }
  }

  /** Fifteen characters, digits except for the `_` at index 8. */
  predicate TimestampShape(s: string) {
    |s| == 15 && s[8] == '_' && forall k :: 0 <= k < 15 && k != 8 ==> Text.IsDigit(s[k])
  }

  /** `strftime("%Y%m%d_%H%M%S")` */
  function SessionTimestamp(t: DateTime): (r: string)
    ensures TimestampShape(r)
  {
    var r := Fixed(t.year, 4) + Fixed(t.month, 2) + Fixed(t.day, 2) + "_"
             + Fixed(t.hour, 2) + Fixed(t.minute, 2) + Fixed(t.second, 2);
    var a := Fixed(t.year, 4) + Fixed(t.month, 2) + Fixed(t.day, 2);
    var b := Fixed(t.hour, 2) + Fixed(t.minute, 2) + Fixed(t.second, 2);
    assert r == a + "_" + b;
    assert forall k :: 0 <= k < 8 ==> r[k] == a[k];
    assert forall k :: 9 <= k < 15 ==> r[k] == b[k - 9];
    r
  }

  /** The number written in `s[i..j]`. */
  function DigitsAt(s: string, i: nat, j: nat): nat
    requires i <= j <= |s| && forall k :: i <= k < j ==> Text.IsDigit(s[k])
  {
    var t := s[i..j];
    assert forall k :: 0 <= k < |t| ==> t[k] == s[i + k];
    Text.DigitsValue(t)
  }

  /** Reads the six fields back from a `%Y%m%d_%H%M%S` string. */
  function ParseTimestamp(s: string): DateTime
    requires TimestampShape(s)
  {
    DateTime(DigitsAt(s, 0, 4), DigitsAt(s, 4, 6), DigitsAt(s, 6, 8),
             DigitsAt(s, 9, 11), DigitsAt(s, 11, 13), DigitsAt(s, 13, 15))
  }

  /** The session timestamp loses nothing: the reading comes back from it. */
  lemma TimestampRoundTrip(t: DateTime)
    requires ValidDateTime(t)
    ensures ParseTimestamp(SessionTimestamp(t)) == t
  {
    var s := SessionTimestamp(t);
    assert s[0..4] == Fixed(t.year, 4);
    assert s[4..6] == Fixed(t.month, 2);
    assert s[6..8] == Fixed(t.day, 2);
    assert s[9..11] == Fixed(t.hour, 2);
    assert s[11..13] == Fixed(t.minute, 2);
    assert s[13..15] == Fixed(t.second, 2);
    FixedValue(t.year, 4);
    FixedValue(t.month, 2);
    FixedValue(t.day, 2);
    FixedValue(t.hour, 2);
    FixedValue(t.minute, 2);
    FixedValue(t.second, 2);
  }

  // ---------------------------------------------------------------------
  // Names

  const MaxKeywordLength := 50

  /** `_clean_filename(keyword)`: the shared substitutions, cut to 50
      characters. */
  function CleanFilename(keyword: string): (r: string)
    ensures |r| <= MaxKeywordLength && Helpers.FileSafe(r)
    ensures |r| <= |Helpers.ReplaceUnsafe(keyword)| && r == Helpers.ReplaceUnsafe(keyword)[..|r|]
    ensures |Helpers.ReplaceUnsafe(keyword)| <= MaxKeywordLength ==> r == Helpers.ReplaceUnsafe(keyword)
  {
    var t := Helpers.ReplaceUnsafe(keyword);
    var r := Text.PyPrefix(t, MaxKeywordLength);
    assert forall i :: 0 <= i < |r| ==> r[i] == t[i];
    r
  }

  /** The directory name `create_session_directory` picks: the timestamp,
      then `_` and the cleaned keyword when a non-empty keyword is given. */
  function SessionName(timestamp: string, keyword: Option<string>): string {
    if keyword.Some? && |keyword.value| > 0 then timestamp + "_" + CleanFilename(keyword.value)
    else timestamp
  }

  /** `re.match(r'^\d{8}_\d{6}', name)` */
  predicate IsSessionDirectory(name: string) {
    |name| >= 15 && name[8] == '_' && forall k :: 0 <= k < 15 && k != 8 ==> Text.IsDigit(name[k])
  }

  /** A session name starts with its timestamp. */
  lemma SessionNameStartsWithTimestamp(ts: string, keyword: Option<string>)
    ensures var n := SessionName(ts, keyword);
      |n| >= |ts| && n[..|ts|] == ts
      && (|n| > |ts| ==> n[|ts|] == '_')
  {
  }

  /** Every directory the manager creates is recognised as a session. */
  lemma SessionNameRecognised(t: DateTime, keyword: Option<string>)
    ensures IsSessionDirectory(SessionName(SessionTimestamp(t), keyword))
  {
    var ts := SessionTimestamp(t);
    SessionNameStartsWithTimestamp(ts, keyword);
    var n := SessionName(ts, keyword);
    assert forall k :: 0 <= k < 15 ==> n[k] == n[..15][k];
  }

  /** `name.split('_')[0] + '_' + name.split('_')[1]` when `name` has a
      `_`, else `name`: the timestamp `_get_session_info` derives. */
  function TimestampOfName(name: string): string {
    var i := Text.Find(name, '_');
    if i < 0 then name
    else
      var rest := name[i + 1..];
      var j := Text.Find(rest, '_');
      name[..i] + "_" + (if j < 0 then rest else rest[..j])
  }

  /** The split of a name that starts with a timestamp. */
  lemma TimestampOfShapedName(n: string)
    requires |n| >= 15 && TimestampShape(n[..15]) && (|n| > 15 ==> n[15] == '_')
    ensures TimestampOfName(n) == n[..15]
  {
    var ts := n[..15];
    assert forall k :: 0 <= k < 15 ==> n[k] == ts[k];
    Text.FindAt(n, '_', 8);
    var rest := n[9..];
    assert forall k :: 0 <= k < 6 ==> rest[k] == ts[9 + k];
    if |n| > 15 {
      Text.FindAt(rest, '_', 6);
      assert rest[..6] == ts[9..];
    } else {
      assert rest == ts[9..];
    }
    assert ts == ts[..8] + "_" + ts[9..];
  }

  /** The derived timestamp of a session directory is the timestamp it was
      named with, whatever the keyword (whose spaces became `_`) holds. */
  lemma TimestampOfSessionName(t: DateTime, keyword: Option<string>)
    ensures TimestampOfName(SessionName(SessionTimestamp(t), keyword)) == SessionTimestamp(t)
  {
    var ts := SessionTimestamp(t);
    SessionNameStartsWithTimestamp(ts, keyword);
    TimestampOfShapedName(SessionName(ts, keyword));
  }

  /** `f"{page:03d}"`: at least three digits, the sign counted in the
      width. */
  function Page03(page: int): (r: string)
    ensures page >= 0 ==> |r| >= 3 && Text.AllDigits(r) && Text.DigitsValue(r) == page
    ensures page < 0 ==> |r| >= 3 && r[0] == '-'
  {
    if page >= 0 then
      Text.PaddedValue(page, 3);
      Text.ZeroPad(Text.NatToString(page), 3)
    else "-" + Text.ZeroPad(Text.NatToString(-page), 2)
  }

  /** The raw-page file name: `{data_type}_raw_page_{page:03d}.json`, or
      with the `%H%M%S` clock reading when no page is given. */
  function RawFilename(dataType: string, page: Option<int>, clock: string): (r: string)
    ensures page.Some? ==> Text.StartsWith(r, dataType + "_raw_page_") && Text.EndsWith(r, ".json")
  {
    if page.Some? then dataType + "_raw_page_" + Page03(page.value) + ".json"
    else dataType + "_raw_" + clock + ".json"
  }

  /** The page number comes back from the raw-page file name. */
  lemma RawPageNumberRoundTrip(dataType: string, page: nat, clock: string)
    ensures var f := RawFilename(dataType, Some(page), clock);
      var digits := f[|dataType| + 10..|f| - 5];
      Text.AllDigits(digits) && |digits| >= 3 && Text.DigitsValue(digits) == page
  {
    var f := RawFilename(dataType, Some(page), clock);
    assert f[|dataType| + 10..|f| - 5] == Page03(page);
  }

  // ---------------------------------------------------------------------
  // The manager and its saves

  datatype Session = Session(dir: string, timestamp: string)

  /** The manager's state: the base directory and the current session. */
  datatype Manager = Manager(baseDir: string, session: Option<Session>)

  const SubDirs: seq<string> := ["raw_data", "structured_data", "analysis_report"]

  function Join(dir: string, name: string): string {
    dir + "/" + name
  }

  /** The outcome of one `create_session_directory` call: the new state,
      the directory it returns (`None` when a `mkdir` failed), and the
      directories it creates. */
  datatype Created = Created(manager: Manager, result: Option<string>, made: seq<string>)

  /** `create_session_directory(keyword)`. `now` is the clock and `mkdirOk`
      whether the directory creations succeed. The session is recorded
      before the first `mkdir`, so a failed creation still leaves it set. */
  function CreateSessionDirectory(m: Manager, now: DateTime, keyword: Option<string>, mkdirOk: bool): (c: Created)
    ensures c.manager.baseDir == m.baseDir && c.manager.session.Some?
    ensures c.manager.session.value.timestamp == SessionTimestamp(now)
    ensures c.manager.session.value.dir == Join(m.baseDir, SessionName(SessionTimestamp(now), keyword))
    ensures c.result.Some? <==> mkdirOk
    ensures mkdirOk ==> c.result == Some(c.manager.session.value.dir)
    ensures mkdirOk ==> (|c.made| == 4 && c.made[0] == c.manager.session.value.dir
                         && forall i :: 1 <= i < 4 ==> c.made[i] == Join(c.made[0], SubDirs[i - 1]))
    ensures !mkdirOk ==> c.made == []
  {
    var ts := SessionTimestamp(now);
    var dir := Join(m.baseDir, SessionName(ts, keyword));
    var m' := Manager(m.baseDir, Some(Session(dir, ts)));
    if mkdirOk then
      Created(m', Some(dir), [dir] + seq(3, i requires 0 <= i < 3 => Join(dir, SubDirs[i])))
    else Created(m', None, [])
  }

  /** What a save does: whether it reports success, and the file it opens
      (`None` when it writes nothing). */
  datatype Saved = Saved(ok: bool, path: Option<string>)

  /** `save_raw_data(data, page, data_type)`; `clock` is the `%H%M%S`
      reading and `writeOk` whether the file write succeeds. */
  function SaveRawData(m: Manager, page: Option<int>, dataType: string, clock: string, writeOk: bool): (r: Saved)
    ensures m.session.None? ==> r == Saved(false, None)
    ensures r.ok <==> m.session.Some? && writeOk
    ensures m.session.Some? ==>
              r.path == Some(Join(Join(m.session.value.dir, "raw_data"), RawFilename(dataType, page, clock)))
  {
    match m.session
    case None => Saved(false, None)
    case Some(s) => Saved(writeOk, Some(Join(Join(s.dir, "raw_data"), RawFilename(dataType, page, clock))))
  }

  /** `save_structured_data(data, filename)`: an empty or missing name
      becomes `structured_data_{timestamp}.json`. */
  function SaveStructuredData(m: Manager, filename: Option<string>, writeOk: bool): (r: Saved)
    ensures m.session.None? ==> r == Saved(false, None)
    ensures r.ok <==> m.session.Some? && writeOk
    ensures m.session.Some? && filename.Some? && |filename.value| > 0 ==>
              r.path == Some(Join(Join(m.session.value.dir, "structured_data"), filename.value))
    ensures m.session.Some? && !(filename.Some? && |filename.value| > 0) ==>
              r.path == Some(Join(Join(m.session.value.dir, "structured_data"),
                                  "structured_data_" + m.session.value.timestamp + ".json"))
  {
    match m.session
    case None => Saved(false, None)
    case Some(s) =>
      var name := if filename.Some? && |filename.value| > 0 then filename.value
                  else "structured_data_" + s.timestamp + ".json";
      Saved(writeOk, Some(Join(Join(s.dir, "structured_data"), name)))
  }

  /** `save_analysis_report(report, db_manager, keyword)`. `generated` is
      what the analyser produces when a database manager is given (`None`
      when there is none). An empty report that is not replaced by a
      non-empty one is refused. */
  function SaveAnalysisReport(m: Manager, report: Dict, generated: Option<Dict>, writeOk: bool): (r: Saved)
    ensures m.session.None? ==> r == Saved(false, None)
    ensures r.path.Some? <==> m.session.Some? && (|report| > 0 || (generated.Some? && |generated.value| > 0))
    ensures r.ok <==> r.path.Some? && writeOk
    ensures r.path.Some? ==>
              r.path == Some(Join(Join(m.session.value.dir, "analysis_report"),
                                  "analysis_report_" + m.session.value.timestamp + ".json"))
  {
    match m.session
    case None => Saved(false, None)
    case Some(s) =>
      var final := if |report| == 0 && generated.Some? then generated.value else report;
      if |final| == 0 then Saved(false, None)
      else Saved(writeOk, Some(Join(Join(s.dir, "analysis_report"), "analysis_report_" + s.timestamp + ".json")))
  }

  /** The fixed description of the three sub-directories. */
  const DataStructure: Value := Obj([
    Field("raw_data", Str("原始爬取数据，按页面分文件存储")),
    Field("structured_data", Str("处理后的结构化数据")),
    Field("analysis_report", Str("数据分析报告"))])

  /** The session fields `save_session_metadata` adds. */
  function SessionFields(s: Session, nowIso: string): (u: Dict)
    ensures Lookup(u, "session_id") == Some(Str(s.timestamp))
    ensures Lookup(u, "session_dir") == Some(Str(s.dir))
    ensures Lookup(u, "created_at") == Some(Str(nowIso))
    ensures Lookup(u, "data_structure") == Some(DataStructure)
    ensures forall k :: Has(u, k) <==> IsMetadataKey(k)
  {
    var u := [Field("session_id", Str(s.timestamp)), Field("session_dir", Str(s.dir)),
              Field("created_at", Str(nowIso)), Field("data_structure", DataStructure)];
    MetadataKeysApart();
    assert forall k :: Lookup(u, k) == Lookup(u[1..], k) || k == "session_id";
    assert forall k :: Lookup(u[1..], k) == Lookup(u[2..], k) || k == "session_dir";
    assert forall k :: Lookup(u[2..], k) == Lookup(u[3..], k) || k == "created_at";
    assert forall k :: Lookup(u[3..], k) == (if k == "data_structure" then Some(DataStructure) else None);
    u
  }

  /** `metadata.update({...})` with the session fields. */
  function AugmentMetadata(metadata: Dict, s: Session, nowIso: string): (r: Dict)
    ensures Lookup(r, "session_id") == Some(Str(s.timestamp))
    ensures Lookup(r, "session_dir") == Some(Str(s.dir))
    ensures Lookup(r, "created_at") == Some(Str(nowIso))
    ensures Lookup(r, "data_structure") == Some(DataStructure)
    ensures forall k :: !IsMetadataKey(k) ==> Lookup(r, k) == Lookup(metadata, k)
  {
    var u := SessionFields(s, nowIso);
    UpdateSession(metadata, u, s, nowIso);
    Update(metadata, u)
  }

  /** Updating with the session fields, whatever other keys `metadata` has. */
  lemma UpdateSession(metadata: Dict, u: Dict, s: Session, nowIso: string)
    requires Lookup(u, "session_id") == Some(Str(s.timestamp))
    requires Lookup(u, "session_dir") == Some(Str(s.dir))
    requires Lookup(u, "created_at") == Some(Str(nowIso))
    requires Lookup(u, "data_structure") == Some(DataStructure)
    requires forall k :: Has(u, k) <==> IsMetadataKey(k)
    ensures var r := Update(metadata, u);
      && Lookup(r, "session_id") == Some(Str(s.timestamp))
      && Lookup(r, "session_dir") == Some(Str(s.dir))
      && Lookup(r, "created_at") == Some(Str(nowIso))
      && Lookup(r, "data_structure") == Some(DataStructure)
      && forall k :: !IsMetadataKey(k) ==> Lookup(r, k) == Lookup(metadata, k)
  {
    UpdateTakes(metadata, u, "session_id");
    UpdateTakes(metadata, u, "session_dir");
    UpdateTakes(metadata, u, "created_at");
    UpdateTakes(metadata, u, "data_structure");
    forall k | !IsMetadataKey(k) ensures Lookup(Update(metadata, u), k) == Lookup(metadata, k) {
      UpdateKeeps(metadata, u, k);
    }
  }


  lemma MetadataKeysApart()
    ensures "session_id" != "session_dir" && "session_id" != "created_at" && "session_id" != "data_structure"
    ensures "session_dir" != "created_at" && "session_dir" != "data_structure" && "created_at" != "data_structure"
  {
  }

  predicate IsMetadataKey(k: string) {
    k == "session_id" || k == "session_dir" || k == "created_at" || k == "data_structure"
  }

  /** `save_session_metadata(metadata)`: the result, and the metadata dict
      as the call leaves it (it is updated in place). */
  function SaveSessionMetadata(m: Manager, metadata: Dict, nowIso: string, writeOk: bool): (r: (Saved, Dict))
    ensures m.session.None? ==> r == (Saved(false, None), metadata)
    ensures r.0.ok <==> m.session.Some? && writeOk
    ensures m.session.Some? ==>
              && r.0.path == Some(Join(m.session.value.dir, "session_metadata.json"))
              && Lookup(r.1, "session_id") == Some(Str(m.session.value.timestamp))
  {
    match m.session
    case None => (Saved(false, None), metadata)
    case Some(s) =>
      (Saved(writeOk, Some(Join(s.dir, "session_metadata.json"))), AugmentMetadata(metadata, s, nowIso))
  }

  /** No save writes anything before a session exists. */
  lemma NoSessionNoWrites(m: Manager, page: Option<int>, dataType: string, clock: string, filename: Option<string>,
                          report: Dict, generated: Option<Dict>, metadata: Dict, nowIso: string, writeOk: bool)
    requires m.session.None?
    ensures SaveRawData(m, page, dataType, clock, writeOk) == Saved(false, None)
    ensures SaveStructuredData(m, filename, writeOk) == Saved(false, None)
    ensures SaveAnalysisReport(m, report, generated, writeOk) == Saved(false, None)
    ensures SaveSessionMetadata(m, metadata, nowIso, writeOk) == (Saved(false, None), metadata)
  {
  }

  /** Once a session is created, every save targets a file inside its
      directory. */
  lemma SavesStayInSession(m: Manager, now: DateTime, keyword: Option<string>, mkdirOk: bool,
                           page: Option<int>, dataType: string, clock: string, writeOk: bool)
    ensures var c := CreateSessionDirectory(m, now, keyword, mkdirOk);
      var dir := c.manager.session.value.dir;
      var p := SaveRawData(c.manager, page, dataType, clock, writeOk).path;
      p.Some? && Text.StartsWith(p.value, Join(dir, "raw_data") + "/")
  {
    var c := CreateSessionDirectory(m, now, keyword, mkdirOk);
    assert c.manager.session.Some?;
    var dir := c.manager.session.value.dir;
    var name := RawFilename(dataType, page, clock);
    assert SaveRawData(c.manager, page, dataType, clock, writeOk).path == Some(Join(Join(dir, "raw_data"), name));
    JoinPrefix(Join(dir, "raw_data"), name);
  }

  /** A path joined onto a directory lies under it. */
  lemma JoinPrefix(dir: string, name: string)
    ensures Text.StartsWith(Join(dir, name), dir + "/")
  {
    assert Join(dir, name)[..|dir + "/"|] == dir + "/";
  }

  // ---------------------------------------------------------------------
  // Listing the sessions

  /** What the metadata file of a directory yields: no file, a dict, or an
      error (unreadable or not JSON), which skips the directory. */
  datatype MetaFile = NoMetaFile | MetaDict(d: Dict) | MetaError

  /** One entry of the base directory, as `iterdir` lists it. */
  datatype DirEntry = DirEntry(name: string, isDir: bool, meta: MetaFile, ctimeIso: string)

  /** `_get_session_info(dir)`: the saved metadata, or the basic fields
      with the derived timestamp. */
  function SessionInfo(baseDir: string, e: DirEntry): (r: Option<Dict>)
    ensures e.meta.NoMetaFile? ==> r.Some? && Lookup(r.value, "timestamp") == Some(Str(TimestampOfName(e.name)))
    ensures e.meta.MetaDict? ==> r == Some(e.meta.d)
    ensures e.meta.MetaError? ==> r.None?
  {
    match e.meta
    case MetaDict(d) => Some(d)
    case MetaError => None
    case NoMetaFile =>
      var d := [Field("session_id", Str(e.name)), Field("session_dir", Str(Join(baseDir, e.name))),
                Field("created_at", Str(e.ctimeIso)), Field("timestamp", Str(TimestampOfName(e.name)))];
      assert "session_id" != "timestamp" && "session_dir" != "timestamp" && "created_at" != "timestamp";
      assert Lookup(d, "timestamp") == Lookup(d[1..], "timestamp") == Lookup(d[2..], "timestamp")
          == Lookup(d[3..], "timestamp");
      Some(d)
  }

  /** The sessions found, in listing order, before sorting. */
  function CollectSessions(baseDir: string, entries: seq<DirEntry>): (r: seq<Dict>)
    ensures |r| <= |entries|
    ensures forall k :: 0 <= k < |r| ==> |r[k]| > 0
  {
    if |entries| == 0 then []
    else
      var e := entries[0];
      var rest := CollectSessions(baseDir, entries[1..]);
      if e.isDir && IsSessionDirectory(e.name) then
        match SessionInfo(baseDir, e)
        case Some(d) => if |d| > 0 then [d] + rest else rest
        case None => rest
      else rest
  }

  /** A `timestamp` sort key as Python compares it: strings with strings,
      and ints, floats and bools with one another by value. */
  datatype SortKey = StrKey(s: string) | NumKey(x: real)

  /** `x.get('timestamp', '')` when Python can compare it with a key of
      its own kind; `None` for null, lists, dicts and datetimes. */
  function KeyOf(d: Dict): Option<SortKey> {
    match Lookup(d, "timestamp")
    case None => Some(StrKey(""))
    case Some(Str(s)) => Some(StrKey(s))
    case Some(Int(i)) => Some(NumKey(i as real))
    case Some(Float(f)) => Some(NumKey(f))
    case Some(Bool(b)) => Some(NumKey(if b then 1.0 else 0.0))
    case Some(_) => None
  }

  function Key(d: Dict): SortKey {
    KeyOf(d).GetOr(StrKey(""))
  }

  /** Python's `<` on two keys of one kind; keys of different kinds are
      never compared by a sort that succeeds. */
  predicate Less(a: SortKey, b: SortKey) {
    if a.StrKey? && b.StrKey? then Text.StrLess(a.s, b.s)
    else if a.NumKey? && b.NumKey? then a.x < b.x
    else false
  }

  lemma LessIrreflexive(a: SortKey)
    ensures !Less(a, a)
  {
    if a.StrKey? {
      Text.StrLessIrreflexive(a.s);
    }
  }

  lemma LessTransitive(a: SortKey, b: SortKey, c: SortKey)
    requires Less(a, b) && Less(b, c)
    ensures Less(a, c)
  {
    if a.StrKey? {
      Text.StrLessTransitive(a.s, b.s, c.s);
    }
  }

  lemma NotLessTransitive(a: SortKey, b: SortKey, c: SortKey)
    requires a.StrKey? == b.StrKey? == c.StrKey?
    requires !Less(a, b) && !Less(b, c)
    ensures !Less(a, c)
  {
    if a.StrKey? {
      Text.StrNotLessTransitive(a.s, b.s, c.s);
    }
  }

  /** Every key is of one kind: strings when `str`, numbers otherwise. */
  predicate OfKind(s: seq<Dict>, str: bool) {
    forall k :: 0 <= k < |s| ==> Key(s[k]).StrKey? == str
  }

  /** Every `timestamp` is comparable, and all of them are of one kind. */
  predicate Keyed(s: seq<Dict>, str: bool) {
    forall k :: 0 <= k < |s| ==> KeyOf(s[k]).Some? && KeyOf(s[k]).value.StrKey? == str
  }

  predicate SortedDesc(s: seq<Dict>) {
    forall i, j :: 0 <= i < j < |s| ==> !Less(Key(s[i]), Key(s[j]))
  }

  /** The entries whose key is `k`, in order: what a stable sort keeps. */
  function WithKey(s: seq<Dict>, k: SortKey): seq<Dict> {
    if |s| == 0 then []
    else KeyTie(s[0], k) + WithKey(s[1..], k)
  }

  /** `x` itself when its key is `k`, else nothing. */
  function KeyTie(x: Dict, k: SortKey): seq<Dict> {
    if Key(x) == k then [x] else []
  }

  /** Entries of different keys are never both ties of `k`. */
  lemma SwapKeyTies(a: Dict, b: Dict, k: SortKey, rest: seq<Dict>)
    requires Key(a) != Key(b)
    ensures KeyTie(a, k) + (KeyTie(b, k) + rest) == KeyTie(b, k) + (KeyTie(a, k) + rest)
  {
    if Key(a) == k {
      assert KeyTie(b, k) == [];
    } else {
      assert KeyTie(a, k) == [];
    }
  }

  lemma WithKeyCons(x: Dict, s: seq<Dict>)
    ensures forall k :: WithKey([x] + s, k) == KeyTie(x, k) + WithKey(s, k)
  {
    assert ([x] + s)[1..] == s;
  }

  /** Inserts `x` in front of the first element whose key is not greater,
      so that `x` stays ahead of the equal keys that came after it. */
  function InsertDesc(x: Dict, s: seq<Dict>, str: bool): (r: seq<Dict>)
    requires SortedDesc(s) && OfKind(s, str) && Key(x).StrKey? == str
    ensures SortedDesc(r) && OfKind(r, str)
    ensures multiset(r) == multiset(s) + multiset{x}
  {
    if |s| == 0 then [x]
    else if !Less(Key(x), Key(s[0])) then
      InsertFrontSorted(x, s, str);
      [x] + s
    else
      var t := InsertDesc(x, s[1..], str);
      InsertBehindSorted(x, s, t);
      InsertBehindKind(x, s, t, str);
      [s[0]] + t
  }

  lemma InsertBehindKind(x: Dict, s: seq<Dict>, t: seq<Dict>, str: bool)
    requires |s| > 0 && OfKind(s, str) && OfKind(t, str)
    requires multiset(t) == multiset(s[1..]) + multiset{x}
    ensures OfKind([s[0]] + t, str) && multiset([s[0]] + t) == multiset(s) + multiset{x}
  {
    assert s == [s[0]] + s[1..];
    var r := [s[0]] + t;
    assert forall k :: 1 <= k < |r| ==> r[k] == t[k - 1];
  }

  lemma InsertFrontSorted(x: Dict, s: seq<Dict>, str: bool)
    requires SortedDesc(s) && OfKind(s, str) && Key(x).StrKey? == str
    requires |s| > 0 && !Less(Key(x), Key(s[0]))
    ensures SortedDesc([x] + s)
  {
    var r := [x] + s;
    forall i, j | 0 <= i < j < |r| ensures !Less(Key(r[i]), Key(r[j])) {
      if i == 0 && j > 1 {
        NotLessTransitive(Key(x), Key(s[0]), Key(s[j - 1]));
      }
    }
  }

  lemma InsertBehindSorted(x: Dict, s: seq<Dict>, t: seq<Dict>)
    requires SortedDesc(s) && |s| > 0 && Less(Key(x), Key(s[0]))
    requires SortedDesc(t) && multiset(t) == multiset(s[1..]) + multiset{x}
    ensures SortedDesc([s[0]] + t)
  {
    var r := [s[0]] + t;
    forall i, j | 0 <= i < j < |r| ensures !Less(Key(r[i]), Key(r[j])) {
      if i == 0 {
        var z := t[j - 1];
        assert z in multiset(t);
        if z == x {
          if Less(Key(s[0]), Key(x)) {
            LessTransitive(Key(x), Key(s[0]), Key(x));
            LessIrreflexive(Key(x));
          }
        } else {
          assert z in multiset(s[1..]);
          var k :| 0 <= k < |s[1..]| && s[1..][k] == z;
          assert s[k + 1] == z;
        }
      }
    }
  }

  /** Inserting `x` puts it ahead of the entries that share its key and
      leaves the order of every other key alone. */
  lemma {:induction false} InsertDescStable(x: Dict, s: seq<Dict>, str: bool)
    requires SortedDesc(s) && OfKind(s, str) && Key(x).StrKey? == str
    ensures forall k :: WithKey(InsertDesc(x, s, str), k) == KeyTie(x, k) + WithKey(s, k)
    decreases |s|
  {
    if |s| == 0 {
      WithKeyCons(x, []);
      assert [x] + [] == [x];
    } else if !Less(Key(x), Key(s[0])) {
      WithKeyCons(x, s);
    } else {
      var t := InsertDesc(x, s[1..], str);
      InsertDescStable(x, s[1..], str);
      WithKeyCons(s[0], t);
      WithKeyCons(s[0], s[1..]);
      assert s == [s[0]] + s[1..];
      LessIrreflexive(Key(x));
      forall k ensures WithKey(InsertDesc(x, s, str), k) == KeyTie(x, k) + WithKey(s, k) {
        calc {
          WithKey(InsertDesc(x, s, str), k);
          WithKey([s[0]] + t, k);
          KeyTie(s[0], k) + (KeyTie(x, k) + WithKey(s[1..], k));
          { SwapKeyTies(s[0], x, k, WithKey(s[1..], k)); }
          KeyTie(x, k) + (KeyTie(s[0], k) + WithKey(s[1..], k));
          KeyTie(x, k) + WithKey(s, k);
        }
      }
    }
  }

  /** `sessions.sort(key=timestamp, reverse=True)` on keys of one kind: a
      stable insertion sort, descending. */
  function SortDesc(s: seq<Dict>, str: bool): (r: seq<Dict>)
    requires OfKind(s, str)
    ensures SortedDesc(r) && OfKind(r, str)
    ensures multiset(r) == multiset(s)
    ensures forall k :: WithKey(r, k) == WithKey(s, k)
  {
    if |s| == 0 then []
    else
      var t := SortDesc(s[1..], str);
      InsertDescStable(s[0], t, str);
      WithKeyCons(s[0], s[1..]);
      assert s == [s[0]] + s[1..];
      InsertDesc(s[0], t, str)
  }

  /** `list_all_sessions()`. A missing base directory gives the empty list.
      When every `timestamp` is comparable with the others (all strings,
      with a missing one read as `''`, or all numbers), the sort succeeds:
      the result is sorted descending and, the sort being stable, entries
      with equal keys keep their listing order. Otherwise the comparison
      raises midway and the handler returns the list in an order this
      model does not fix; it is still the collected sessions. */
  function ListAllSessions(baseExists: bool, baseDir: string, entries: seq<DirEntry>): (r: seq<Dict>)
    ensures !baseExists ==> r == []
    ensures baseExists ==> multiset(r) == multiset(CollectSessions(baseDir, entries))
    ensures baseExists && (Keyed(CollectSessions(baseDir, entries), true) || Keyed(CollectSessions(baseDir, entries), false)) ==>
              SortedDesc(r) && forall k :: WithKey(r, k) == WithKey(CollectSessions(baseDir, entries), k)
    ensures baseExists && |CollectSessions(baseDir, entries)| <= 1 ==> r == CollectSessions(baseDir, entries)
  {
    if !baseExists then []
    else
      var found := CollectSessions(baseDir, entries);
      if Keyed(found, true) then SortDesc(found, true)
      else if Keyed(found, false) then SortDesc(found, false)
      else found
  }
}

=== FILE: text.dfy ===
/** Character classes and string helpers shared by the text utilities.
    Strings are sequences of Unicode scalar values, as Python `str` is. */
module Text {

  /** Python's `str.isspace()`, which is also what `\s` matches in a `str`
      regular expression. */
  predicate IsSpace(c: char) {
    || c == ' '
    || ('\t' <= c <= '\r')
    || ('\U{1C}' <= c <= '\U{1F}')
    || c == '\U{85}' || c == '\U{A0}' || c == '\U{1680}'
    || ('\U{2000}' <= c <= '\U{200A}')
    || c == '\U{2028}' || c == '\U{2029}' || c == '\U{202F}'
    || c == '\U{205F}' || c == '\U{3000}'
  }

  predicate IsDigit(c: char) {
    '0' <= c <= '9'
  }

  predicate IsAsciiLetter(c: char) {
    ('A' <= c <= 'Z') || ('a' <= c <= 'z')
  }

  predicate IsAsciiAlnum(c: char) {
    IsAsciiLetter(c) || IsDigit(c)
  }

  predicate AllDigits(s: string) {
    forall i :: 0 <= i < |s| ==> IsDigit(s[i])
  }

  predicate NoSpace(s: string) {
    forall i :: 0 <= i < |s| ==> !IsSpace(s[i])
  }

  predicate AllSpace(s: string) {
    forall i :: 0 <= i < |s| ==> IsSpace(s[i])
  }

  /** ASCII lower-casing. Every needle the source compares a lowered string
      against is ASCII, so non-ASCII case mappings are not modelled. */
  function LowerChar(c: char): char {
    if 'A' <= c <= 'Z' then (c as int + 32) as char else c
  }

  function Lower(s: string): (r: string)
    ensures |r| == |s|
    ensures forall i :: 0 <= i < |s| ==> r[i] == LowerChar(s[i])
  {
    seq(|s|, i requires 0 <= i < |s| => LowerChar(s[i]))
  }

  function DigitVal(c: char): nat
    requires IsDigit(c)
  {
    c as int - '0' as int
  }

  function DigitChar(d: nat): (c: char)
    requires d < 10
    ensures IsDigit(c) && DigitVal(c) == d
  {
    ('0' as int + d) as char
  }

  /** The value of a string of ASCII digits, as Python's `int()` reads it. */
  function DigitsValue(s: string): nat
    requires AllDigits(s)
  {
    if |s| == 0 then 0 else DigitsValue(s[..|s| - 1]) * 10 + DigitVal(s[|s| - 1])
  }

  /** Decimal rendering of a natural number, without leading zeros. */
  function NatToString(n: nat): (r: string)
    ensures |r| >= 1 && AllDigits(r)
    ensures |r| > 1 ==> r[0] != '0'
  {
    if n < 10 then [DigitChar(n)] else NatToString(n / 10) + [DigitChar(n % 10)]
  }

  /** Python's `str(i)` for an integer. */
  function IntToString(i: int): string {
    if i < 0 then "-" + NatToString(-i) else NatToString(i)
  }

  lemma {:induction false} NatToStringValue(n: nat)
    ensures DigitsValue(NatToString(n)) == n
  {
    if n >= 10 {
      var s := NatToString(n);
      assert s[..|s| - 1] == NatToString(n / 10);
      NatToStringValue(n / 10);
    }
  }

  lemma NatToStringInjective(a: nat, b: nat)
    requires NatToString(a) == NatToString(b)
    ensures a == b
  {
    NatToStringValue(a);
    NatToStringValue(b);
  }

  function Zeros(n: nat): (r: string)
    ensures |r| == n && AllDigits(r)
    ensures forall i :: 0 <= i < n ==> r[i] == '0'
  {
    seq(n, _ => '0')
  }

  /** Left-pads `s` with '0' up to `width` characters (the `0Nd` format). */
  function ZeroPad(s: string, width: nat): (r: string)
    ensures |r| == if |s| >= width then |s| else width
  {
    if |s| >= width then s else Zeros(width - |s|) + s
  }

  lemma {:induction false} LeadingZerosValue(z: nat, s: string)
    requires AllDigits(s)
    ensures AllDigits(Zeros(z) + s)
    ensures DigitsValue(Zeros(z) + s) == DigitsValue(s)
  {
    if |s| > 0 {
      var t := Zeros(z) + s;
      assert t[..|t| - 1] == Zeros(z) + s[..|s| - 1];
      LeadingZerosValue(z, s[..|s| - 1]);
    } else {
      assert Zeros(z) + s == Zeros(z);
      ZerosValue(z);
    }
  }

  lemma {:induction false} ZerosValue(z: nat)
    ensures DigitsValue(Zeros(z)) == 0
  {
    if z > 0 {
      assert Zeros(z)[..z - 1] == Zeros(z - 1);
      ZerosValue(z - 1);
    }
  }

  /** The padded rendering still reads back as the same number. */
  lemma PaddedValue(n: nat, width: nat)
    ensures AllDigits(ZeroPad(NatToString(n), width))
    ensures DigitsValue(ZeroPad(NatToString(n), width)) == n
  {
    var s := NatToString(n);
    NatToStringValue(n);
    if |s| < width {
      LeadingZerosValue(width - |s|, s);
    }
  }

  predicate StartsWith(s: string, prefix: string) {
    |prefix| <= |s| && s[..|prefix|] == prefix
  }

  predicate EndsWith(s: string, suffix: string) {
    |suffix| <= |s| && s[|s| - |suffix|..] == suffix
  }

  predicate OccursAt(s: string, sub: string, i: int) {
    0 <= i <= |s| - |sub| && s[i..i + |sub|] == sub
  }

  /** Python's `sub in s`. */
  predicate Contains(s: string, sub: string) {
    exists i | 0 <= i <= |s| - |sub| :: OccursAt(s, sub, i)
  }

  /** Python's `s[:n]`, including negative `n` counted from the end. */
  function PyPrefix(s: string, n: int): (r: string)
    ensures |r| <= |s|
    ensures r == s[..|r|]
    ensures 0 <= n <= |s| ==> |r| == n
    ensures n >= |s| ==> r == s
  {
    if n >= 0 then (if n <= |s| then s[..n] else s)
    else if |s| + n >= 0 then s[..|s| + n] else []
  }

  /** The number of whitespace characters `s` starts with. */
  function LeadingSpaces(s: string): (k: nat)
    ensures k <= |s|
    ensures forall i :: 0 <= i < k ==> IsSpace(s[i])
    ensures k < |s| ==> !IsSpace(s[k])
  {
    if |s| > 0 && IsSpace(s[0]) then 1 + LeadingSpaces(s[1..]) else 0
  }

  /** The number of whitespace characters `s` ends with. */
  function TrailingSpaces(s: string): (k: nat)
    ensures k <= |s|
    ensures forall i :: |s| - k <= i < |s| ==> IsSpace(s[i])
    ensures k < |s| ==> !IsSpace(s[|s| - k - 1])
  {
    if |s| > 0 && IsSpace(s[|s| - 1]) then 1 + TrailingSpaces(s[..|s| - 1]) else 0
  }

  /** Python's `str.lstrip()`. */
  function LStrip(s: string): (r: string)
    ensures |r| <= |s| && r == s[|s| - |r|..]
    ensures forall i :: 0 <= i < |s| - |r| ==> IsSpace(s[i])
    ensures |r| > 0 ==> !IsSpace(r[0])
  {
    s[LeadingSpaces(s)..]
  }

  /** Python's `str.rstrip()`. */
  function RStrip(s: string): (r: string)
    ensures |r| <= |s| && r == s[..|r|]
    ensures forall i :: |r| <= i < |s| ==> IsSpace(s[i])
    ensures |r| > 0 ==> !IsSpace(r[|r| - 1])
  {
    s[..|s| - TrailingSpaces(s)]
  }

  /** Stripping a leading whitespace character changes nothing. */
  lemma LStripStep(s: string)
    requires |s| > 0 && IsSpace(s[0])
    ensures LStrip(s) == LStrip(s[1..])
  {
    assert LeadingSpaces(s) == 1 + LeadingSpaces(s[1..]);
  }

  /** Python's `str.strip()`. */
  function Strip(s: string): (r: string)
    ensures |r| <= |s|
    ensures Stripped(r)
  {
    RStrip(LStrip(s))
  }

  /** No whitespace at either end. */
  predicate Stripped(s: string) {
    |s| > 0 ==> !IsSpace(s[0]) && !IsSpace(s[|s| - 1])
  }

  /** A string without surrounding whitespace is its own strip. */
  lemma StripStripped(s: string)
    requires Stripped(s)
    ensures Strip(s) == s
  {
  }

  /** No two adjacent characters of `s` are both `c`. */
  ghost predicate NoRepeat(s: string, c: char) {
    forall i, j :: 0 <= i < j < |s| && j == i + 1 ==> !(s[i] == c && s[j] == c)
  }

  /** `re.sub(r'\s+', rep, s)`: every maximal run of whitespace becomes one
      `rep`. */
  function CollapseSpaceRuns(s: string, rep: char): (r: string)
    ensures |r| <= |s|
    ensures |s| > 0 ==> |r| > 0
    ensures forall i :: 0 <= i < |r| && IsSpace(r[i]) ==> r[i] == rep
    ensures IsSpace(rep) ==> NoRepeat(r, rep)
    ensures |s| > 0 && !IsSpace(s[0]) ==> |r| > 0 && r[0] == s[0]
    ensures |s| > 0 && IsSpace(s[0]) ==> |r| > 0 && r[0] == rep
    decreases |s|
  {
    if |s| == 0 then ""
    else if IsSpace(s[0]) then [rep] + CollapseSpaceRuns(LStrip(s), rep)
    else [s[0]] + CollapseSpaceRuns(s[1..], rep)
  }

  /** A string with no whitespace at all is left as it is. */
  lemma {:induction false} CollapseNoSpace(s: string, rep: char)
    requires NoSpace(s)
    ensures CollapseSpaceRuns(s, rep) == s
  {
    if |s| > 0 {
      CollapseNoSpace(s[1..], rep);
    }
  }

  /** Whitespace only as single `rep` characters. */
  ghost predicate SingleSpaced(s: string, rep: char) {
    && (forall i :: 0 <= i < |s| && IsSpace(s[i]) ==> s[i] == rep)
    && NoRepeat(s, rep)
  }

  lemma SingleSpacedTail(s: string, rep: char)
    requires |s| > 0 && SingleSpaced(s, rep)
    ensures SingleSpaced(s[1..], rep)
  {
    var t := s[1..];
    assert forall i :: 0 <= i < |t| ==> t[i] == s[i + 1];
  }

  /** Past a single whitespace character nothing more is stripped. */
  lemma SingleSpacedLStrip(s: string, rep: char)
    requires |s| > 0 && IsSpace(s[0]) && IsSpace(rep) && SingleSpaced(s, rep)
    ensures LStrip(s) == s[1..]
  {
    var t := s[1..];
    LStripStep(s);
    if |t| > 0 {
      assert !(s[0] == rep && s[1] == rep);
      assert !IsSpace(t[0]);
    }
  }

  /** A string whose only whitespace is single `rep` characters is left as
      it is. */
  lemma {:induction false} CollapseSingleSpaces(s: string, rep: char)
    requires IsSpace(rep) && SingleSpaced(s, rep)
    ensures CollapseSpaceRuns(s, rep) == s
  {
    if |s| > 0 {
      var t := s[1..];
      SingleSpacedTail(s, rep);
      CollapseSingleSpaces(t, rep);
      if IsSpace(s[0]) {
        SingleSpacedLStrip(s, rep);
        assert s == [rep] + t;
      } else {
        assert s == [s[0]] + t;
      }
    }
  }

  /** `s.find(c)`: the first index of `c`, or -1. */
  function Find(s: string, c: char): (i: int)
    ensures -1 <= i < |s|
    ensures i >= 0 ==> s[i] == c && c !in s[..i]
    ensures i < 0 <==> c !in s
  {
    if |s| == 0 then -1
    else if s[0] == c then 0
    else
      var j := Find(s[1..], c);
      assert s[1..][..(if j >= 0 then j else 0)] == s[1..1 + (if j >= 0 then j else 0)];
      if j < 0 then -1 else 1 + j
  }

  /** `s.rfind(c)`: the last index of `c`, or -1. */
  function RFind(s: string, c: char): (i: int)
    ensures -1 <= i < |s|
    ensures i >= 0 ==> s[i] == c && c !in s[i + 1..]
    ensures i < 0 <==> c !in s
  {
    if |s| == 0 then -1
    else if s[|s| - 1] == c then |s| - 1
    else
      var j := RFind(s[..|s| - 1], c);
      assert j >= 0 ==> s[j + 1..] == s[..|s| - 1][j + 1..] + [s[|s| - 1]];
      assert s == s[..|s| - 1] + [s[|s| - 1]];
      j
  }

  /** `s.find(c, start)` for `0 <= start`. */
  function FindFrom(s: string, c: char, start: nat): (i: int)
    ensures -1 <= i < |s|
    ensures i >= 0 ==> start <= i && s[i] == c && forall j :: start <= j < i ==> s[j] != c
    ensures i < 0 ==> forall j :: start <= j < |s| ==> s[j] != c
  {
    if start >= |s| then -1
    else
      var j := Find(s[start..], c);
      if j < 0 then
        assert forall k :: start <= k < |s| ==> s[k] == s[start..][k - start];
        -1
      else
        assert forall k :: start <= k < start + j ==> s[k] == s[start..][..j][k - start];
        start + j
  }

  /** Python's `a < b` on strings: code point by code point, a proper
      prefix first. */
  predicate StrLess(a: string, b: string) {
    if |a| == 0 then |b| > 0
    else if |b| == 0 then false
    else if a[0] != b[0] then a[0] < b[0]
    else StrLess(a[1..], b[1..])
  }

  lemma {:induction false} StrLessIrreflexive(a: string)
    ensures !StrLess(a, a)
  {
    if |a| > 0 {
      StrLessIrreflexive(a[1..]);
    }
  }

  lemma {:induction false} StrLessTotal(a: string, b: string)
    ensures a == b || StrLess(a, b) || StrLess(b, a)
  {
    if |a| > 0 && |b| > 0 && a[0] == b[0] {
      StrLessTotal(a[1..], b[1..]);
      if a[1..] == b[1..] {
        assert a == [a[0]] + a[1..] && b == [b[0]] + b[1..];
      }
    }
  }

  lemma {:induction false} StrLessTransitive(a: string, b: string, c: string)
    requires StrLess(a, b) && StrLess(b, c)
    ensures StrLess(a, c)
  {
    if |a| > 0 && a[0] == b[0] && b[0] == c[0] {
      StrLessTransitive(a[1..], b[1..], c[1..]);
    }
  }

  /** `not a < b` is a total order: `b <= a`. */
  lemma StrNotLessTransitive(a: string, b: string, c: string)
    requires !StrLess(a, b) && !StrLess(b, c)
    ensures !StrLess(a, c)
  {
    StrLessTotal(a, b);
    if StrLess(a, c) && StrLess(b, a) {
      StrLessTransitive(b, a, c);
    }
  }

  /** The first occurrence is where `find` stops. */
  lemma FindAt(s: string, c: char, i: nat)
    requires i < |s| && s[i] == c
    requires forall k :: 0 <= k < i ==> s[k] != c
    ensures Find(s, c) == i
  {
    var f := Find(s, c);
    assert c in s;
    assert forall k :: 0 <= k < f ==> s[..f][k] == s[k];
  }
}

=== FILE: values.dfy ===
/** Python-like dynamic values: what `json.loads` produces, plus the
    `datetime` objects the crawler stores in its record dicts. Records are
    plain dicts in the source, and they are modelled that way here. */
module Values {
  import opened Wrappers
  import Text

  datatype Value =
    | Null
    | Bool(b: bool)
    | Int(i: int)
    | Float(f: real)
    | Str(s: string)
    | Time(t: int)          // a `datetime`, as seconds since the epoch
    | Arr(items: seq<Value>)
    | Obj(fields: seq<Field>)

  datatype Field = Field(key: string, val: Value)

  /** A dict, in insertion order. Lookups see the first binding of a key. */
  type Dict = seq<Field>

  function Lookup(d: Dict, key: string): Option<Value> {
    if |d| == 0 then None
    else if d[0].key == key then Some(d[0].val)
    else Lookup(d[1..], key)
  }

  /** `key in d` */
  predicate Has(d: Dict, key: string) {
    Lookup(d, key).Some?
  }

  /** `d.get(key, default)` */
  function Get(d: Dict, key: string, default: Value): Value {
    Lookup(d, key).GetOr(default)
  }

  function KeysOf(d: Dict): seq<string> {
    seq(|d|, i requires 0 <= i < |d| => d[i].key)
  }

  /** `d[key] = v`: overwrites an existing binding in place, or appends. */
  function Set(d: Dict, key: string, v: Value): (r: Dict)
    ensures Lookup(r, key) == Some(v)
    ensures forall k :: k != key ==> Lookup(r, k) == Lookup(d, k)
    ensures KeysOf(r) == if Has(d, key) then KeysOf(d) else KeysOf(d) + [key]
  {
    if |d| == 0 then [Field(key, v)]
    else if d[0].key == key then [Field(key, v)] + d[1..]
    else
      var rest := Set(d[1..], key, v);
      assert KeysOf([d[0]] + rest) == [d[0].key] + KeysOf(rest);
      assert KeysOf(d) == [d[0].key] + KeysOf(d[1..]);
      [d[0]] + rest
  }

  /** `d.update(u)`: every key of `u` takes the value `u` gives it, the
      other keys keep theirs. */
  function Update(d: Dict, u: Dict): (r: Dict)
    ensures forall k :: Lookup(r, k) == if Has(u, k) then Lookup(u, k) else Lookup(d, k)
  {
    if |u| == 0 then d else Set(Update(d, u[1..]), u[0].key, u[0].val)
  }

  /** A key `u` binds takes `u`'s value. */
  lemma UpdateTakes(d: Dict, u: Dict, k: string)
    requires Has(u, k)
    ensures Lookup(Update(d, u), k) == Lookup(u, k)
  {
  }

  /** A key `u` does not bind keeps `d`'s value. */
  lemma UpdateKeeps(d: Dict, u: Dict, k: string)
    requires !Has(u, k)
    ensures Lookup(Update(d, u), k) == Lookup(d, k)
  {
  }

  /** A key bound at position `i` and at no earlier position is looked up
      to the value bound there. */
  lemma {:induction false} LookupAt(d: Dict, i: nat)
    requires i < |d| && forall a :: 0 <= a < i ==> d[a].key != d[i].key
    ensures Lookup(d, d[i].key) == Some(d[i].val)
  {
    if i > 0 {
      assert d[1..][i - 1] == d[i];
      LookupAt(d[1..], i - 1);
    }
  }

  /** In a dict whose keys are pairwise distinct, every binding is found. */
  lemma LookupDistinct(d: Dict)
    requires forall a, b :: 0 <= a < b < |d| ==> d[a].key != d[b].key
    ensures forall i :: 0 <= i < |d| ==> Lookup(d, d[i].key) == Some(d[i].val)
  {
    forall i | 0 <= i < |d| ensures Lookup(d, d[i].key) == Some(d[i].val) {
      LookupAt(d, i);
    }
  }

  /** The dict literal `{keys[0]: vals[0], ...}`. With distinct keys every
      key finds its own value. */
  function Record(keys: seq<string>, vals: seq<Value>): (r: Dict)
    requires |keys| == |vals|
    ensures KeysOf(r) == keys
    ensures (forall a, b :: 0 <= a < b < |keys| ==> keys[a] != keys[b]) ==>
              forall i :: 0 <= i < |keys| ==> Lookup(r, keys[i]) == Some(vals[i])
  {
    var r := seq(|keys|, i requires 0 <= i < |keys| => Field(keys[i], vals[i]));
    RecordLookups(r);
    r
  }

  lemma RecordLookups(d: Dict)
    ensures (forall a, b :: 0 <= a < b < |d| ==> d[a].key != d[b].key) ==>
              forall i :: 0 <= i < |d| ==> Lookup(d, d[i].key) == Some(d[i].val)
  {
    if forall a, b :: 0 <= a < b < |d| ==> d[a].key != d[b].key {
      LookupDistinct(d);
    }
  }

  /** Python's `bool(v)`. */
  predicate Truthy(v: Value) {
    match v
    case Null => false
    case Bool(b) => b
    case Int(i) => i != 0
    case Float(f) => f != 0.0
    case Str(s) => |s| > 0
    case Time(_) => true
    case Arr(items) => |items| > 0
    case Obj(fields) => |fields| > 0
  }

  /** `isinstance(v, int)`; `bool` is a subclass of `int` in Python. */
  predicate IsInt(v: Value) {
    v.Int? || v.Bool?
  }

  /** Whether `v` may be a member of a Python `set` (lists and dicts may not). */
  predicate Hashable(v: Value) {
    !v.Arr? && !v.Obj?
  }

  /** The representative Python's `set` and `dict` compare a hashable value
      by: `True`, `1` and `1.0` are one key, so booleans and whole floats
      collapse to the integer they equal. */
  function HashKey(v: Value): (k: Value)
    ensures v.Bool? || v.Int? || v.Float? ==> k.Int? || k.Float?
    ensures !(v.Bool? || v.Float?) ==> k == v
  {
    match v
    case Bool(b) => Int(if b then 1 else 0)
    case Float(f) => if f == f.Floor as real then Int(f.Floor) else v
    case _ => v
  }

  /** Python's numeric `v == n`, under which `True == 1` and `9.0 == 9`. */
  predicate NumEquals(v: Value, n: int) {
    || v == Int(n)
    || v == Float(n as real)
    || (v.Bool? && (if v.b then 1 else 0) == n)
  }

  /** Python's `int(f)` on a float truncates toward zero. */
  function Trunc(f: real): (r: int)
    ensures f >= 0.0 ==> r as real <= f < r as real + 1.0
    ensures f < 0.0 ==> r as real - 1.0 < f <= r as real
  {
    if f >= 0.0 then f.Floor else -((-f).Floor)
  }

  /** Python's `int(s)` on a string already stripped of surrounding
      whitespace: an optional sign followed by ASCII digits. */
  function ParseInt(s: string): Option<int> {
    if |s| > 0 && (s[0] == '+' || s[0] == '-') then
      var body := s[1..];
      if |body| > 0 && Text.AllDigits(body) then
        var n: int := Text.DigitsValue(body);
        Some(if s[0] == '-' then -n else n)
      else None
    else if |s| > 0 && Text.AllDigits(s) then Some(Text.DigitsValue(s))
    else None
  }

  /** Python's `int(v)` for a value that is not `None`; `None` stands for the
      `ValueError` or `TypeError` it raises. */
  function PyInt(v: Value): Option<int> {
    match v
    case Bool(b) => Some(if b then 1 else 0)
    case Int(i) => Some(i)
    case Float(f) => Some(Trunc(f))
    case Str(s) => ParseInt(Text.Strip(s))
    case _ => None
  }

  /** Python's `str(v)` for the scalars record ids and user ids are made of.
      Floats, datetimes, lists and dicts render as a fixed placeholder. */
  function Display(v: Value): string {
    match v
    case Str(s) => s
    case Int(i) => Text.IntToString(i)
    case Bool(b) => if b then "True" else "False"
    case Null => "None"
    case _ => "<object>"
  }

  /** Keys are their own keys. */
  lemma HashKeyIdempotent(v: Value)
    ensures HashKey(HashKey(v)) == HashKey(v)
  {
  }

  /** Numeric equality with an integer is equality of hash keys. */
  lemma HashKeyNumEquals(v: Value, n: int)
    ensures NumEquals(v, n) <==> HashKey(v) == Int(n)
  {
  }

  /** The integer `int(v)` yields is the one its decimal text denotes. */
  lemma {:induction false} ParseIntRendered(i: int)
    ensures ParseInt(Text.IntToString(i)) == Some(i)
  {
    Text.NatToStringValue(if i < 0 then -i else i);
    if i < 0 {
      var s := Text.IntToString(i);
      assert s[1..] == Text.NatToString(-i);
    }
  }
}

=== FILE: weibo_spider.dfy ===
/** The Weibo adapter (`WeiboSpider`): reading counters out of link texts,
    turning a web search card or a mobile API card into a `weibo_data`
    record, the per-parser fresh-id filter, and the primary/fallback retry.
    HTML parsing is outside the model: a web card arrives as the fields
    BeautifulSoup would have found in it. */
module WeiboSpider {
  import opened Wrappers
  import Text
  import opened Values
  import Database
  import Spider

  // ---------------------------------------------------------------------
  // Digit runs and `_extract_count`

  /** The end of the run of digits starting at `i`. */
  function DigitRunEnd(s: string, i: nat): (j: nat)
    requires i <= |s|
    ensures i <= j <= |s|
    ensures forall k :: i <= k < j ==> Text.IsDigit(s[k])
    ensures j < |s| ==> !Text.IsDigit(s[j])
    decreases |s| - i
  {
    if i < |s| && Text.IsDigit(s[i]) then DigitRunEnd(s, i + 1) else i
  }

  /** The first digit at or after `i`, or `|s|`. */
  function FirstDigit(s: string, i: nat): (j: nat)
    requires i <= |s|
    ensures i <= j <= |s|
    ensures forall k :: i <= k < j ==> !Text.IsDigit(s[k])
    ensures j < |s| ==> Text.IsDigit(s[j])
    decreases |s| - i
  {
    if i < |s| && !Text.IsDigit(s[i]) then FirstDigit(s, i + 1) else i
  }

  /** A digit-free stretch followed by a digit ends at that digit. */
  lemma {:induction false} FirstDigitAt(s: string, i: nat, j: nat)
    requires i <= j < |s| && Text.IsDigit(s[j])
    requires forall k :: i <= k < j ==> !Text.IsDigit(s[k])
    ensures FirstDigit(s, i) == j
    decreases j - i
  {
    if i < j {
      FirstDigitAt(s, i + 1, j);
    }
  }

  /** A run of digits followed by the end or by a non-digit is the run. */
  lemma {:induction false} DigitRunEndAt(s: string, i: nat, j: nat)
    requires i <= j <= |s|
    requires forall k :: i <= k < j ==> Text.IsDigit(s[k])
    requires j < |s| ==> !Text.IsDigit(s[j])
    ensures DigitRunEnd(s, i) == j
    decreases j - i
  {
    if i < j {
      DigitRunEndAt(s, i + 1, j);
    }
  }

  /** `_extract_count(text)`: `int(re.findall(r'\d+', text)[0])`, or 0
      when the text holds no digit. */
  function ExtractCount(text: string): (n: nat)
    ensures (forall k :: 0 <= k < |text| ==> !Text.IsDigit(text[k])) ==> n == 0
  {
    var i := FirstDigit(text, 0);
    if i == |text| then 0
    else
      var run := text[i..DigitRunEnd(text, i)];
      assert forall k :: 0 <= k < |run| ==> run[k] == text[i + k];
      Text.DigitsValue(run)
  }

  /** The count comes back from a text that writes it after a digit-free
      label: `转发 12` yields 12. */
  lemma ExtractCountOf(before: string, n: nat, after: string)
    requires forall k :: 0 <= k < |before| ==> !Text.IsDigit(before[k])
    requires |after| > 0 ==> !Text.IsDigit(after[0])
    ensures ExtractCount(before + Text.NatToString(n) + after) == n
  {
    var digits := Text.NatToString(n);
    var s := before + digits + after;
    var i := |before|;
    var j := i + |digits|;
    assert forall k :: 0 <= k < i ==> s[k] == before[k];
    assert forall k :: i <= k < j ==> s[k] == digits[k - i];
    assert j < |s| ==> s[j] == after[0];
    FirstDigitAt(s, 0, i);
    DigitRunEndAt(s, i, j);
    assert s[i..j] == digits;
    Text.NatToStringValue(n);
  }

  // ---------------------------------------------------------------------
  // Action links

  datatype Counter = Reposts | Comments | Likes

  /** The counter a link of the card's action bar sets, checked in the
      order `转发`, `评论`, `赞`. */
  function LinkKind(text: string): Option<Counter> {
    if Text.Contains(text, "转发") then Some(Reposts)
    else if Text.Contains(text, "评论") then Some(Comments)
    else if Text.Contains(text, "赞") then Some(Likes)
    else None
  }

  datatype Counts = Counts(reposts: nat, comments: nat, likes: nat) {
    function Of(k: Counter): nat {
      match k
      case Reposts => reposts
      case Comments => comments
      case Likes => likes
    }
  }

  /** `i` is the last link that sets counter `k`. */
  predicate LastOfKind(links: seq<string>, k: Counter, i: int) {
    && 0 <= i < |links| && LinkKind(links[i]) == Some(k)
    && forall j :: i < j < |links| ==> LinkKind(links[j]) != Some(k)
  }

  /** The three counters after the loop over the action links. */
  function ActionCounts(links: seq<string>): Counts
    decreases |links|
  {
    if |links| == 0 then Counts(0, 0, 0)
    else
      var c := ActionCounts(links[..|links| - 1]);
      var t := links[|links| - 1];
      match LinkKind(t)
      case Some(Reposts) => c.(reposts := ExtractCount(t))
      case Some(Comments) => c.(comments := ExtractCount(t))
      case Some(Likes) => c.(likes := ExtractCount(t))
      case None => c
  }

  /** Each counter is set by the last link of its kind, and stays 0
      without one. */
  lemma {:induction false} ActionCountsSpec(links: seq<string>, k: Counter)
    ensures (forall i :: 0 <= i < |links| ==> LinkKind(links[i]) != Some(k)) ==> ActionCounts(links).Of(k) == 0
    ensures forall i :: LastOfKind(links, k, i) ==> ActionCounts(links).Of(k) == ExtractCount(links[i])
    decreases |links|
  {
    if |links| > 0 {
      var init := links[..|links| - 1];
      ActionCountsSpec(init, k);
      ActionCountsLast(links, k);
      CountStep(links, k, ActionCounts(init).Of(k), ActionCounts(links).Of(k));
    }
  }

  /** The inductive step of `ActionCountsSpec`, on the counter values
      alone: `prev` after all links but the last, `cur` after all. */
  lemma CountStep(links: seq<string>, k: Counter, prev: nat, cur: nat)
    requires |links| > 0
    requires var init := links[..|links| - 1];
      && ((forall i :: 0 <= i < |init| ==> LinkKind(init[i]) != Some(k)) ==> prev == 0)
      && (forall i :: LastOfKind(init, k, i) ==> prev == ExtractCount(init[i]))
    requires var t := links[|links| - 1];
      cur == if LinkKind(t) == Some(k) then ExtractCount(t) else prev
    ensures (forall i :: 0 <= i < |links| ==> LinkKind(links[i]) != Some(k)) ==> cur == 0
    ensures forall i :: LastOfKind(links, k, i) ==> cur == ExtractCount(links[i])
  {
    var init := links[..|links| - 1];
    var n := |init|;
    forall i | LastOfKind(links, k, i) ensures cur == ExtractCount(links[i]) {
      if i < n {
        assert LinkKind(links[n]) != Some(k);
        assert init[i] == links[i];
        forall j | i < j < n ensures LinkKind(init[j]) != Some(k) {
          assert init[j] == links[j];
        }
        assert LastOfKind(init, k, i);
      }
    }
    if forall i :: 0 <= i < |links| ==> LinkKind(links[i]) != Some(k) {
      forall i | 0 <= i < n ensures LinkKind(init[i]) != Some(k) {
        assert init[i] == links[i];
      }
    }
  }

  /** The last link sets its own counter and leaves the others. */
  lemma ActionCountsLast(links: seq<string>, k: Counter)
    requires |links| > 0
    ensures var t := links[|links| - 1];
      ActionCounts(links).Of(k)
        == if LinkKind(t) == Some(k) then ExtractCount(t) else ActionCounts(links[..|links| - 1]).Of(k)
  {
  }

  // ---------------------------------------------------------------------
  // The `/uid/mid` link

  /** The end of the run of ASCII letters and digits starting at `i`. */
  function AlnumRunEnd(s: string, i: nat): (j: nat)
    requires i <= |s|
    ensures i <= j <= |s|
    ensures forall k :: i <= k < j ==> Text.IsAsciiAlnum(s[k])
    ensures j < |s| ==> !Text.IsAsciiAlnum(s[j])
    decreases |s| - i
  {
    if i < |s| && Text.IsAsciiAlnum(s[i]) then AlnumRunEnd(s, i + 1) else i
  }

  lemma {:induction false} AlnumRunEndAt(s: string, i: nat, j: nat)
    requires i <= j <= |s|
    requires forall k :: i <= k < j ==> Text.IsAsciiAlnum(s[k])
    requires j < |s| ==> !Text.IsAsciiAlnum(s[j])
    ensures AlnumRunEnd(s, i) == j
    decreases j - i
  {
    if i < j {
      AlnumRunEndAt(s, i + 1, j);
    }
  }

  /** `/(\d+)/([A-Za-z0-9]+)` matched at position `i`. The digit run must
      be followed by `/`, so the greedy run is the only one that can match. */
  function MatchAt(h: string, i: nat): Option<(string, string)>
    requires i <= |h|
  {
    if i < |h| && h[i] == '/' then
      var j := DigitRunEnd(h, i + 1);
      if j > i + 1 && j < |h| && h[j] == '/' then
        var e := AlnumRunEnd(h, j + 1);
        if e > j + 1 then Some((h[i + 1..j], h[j + 1..e])) else None
      else None
    else None
  }

  function SearchFrom(h: string, i: nat): Option<(string, string)>
    requires i <= |h|
    decreases |h| - i
  {
    if i == |h| then None
    else if MatchAt(h, i).Some? then MatchAt(h, i)
    else SearchFrom(h, i + 1)
  }

  /** `re.search(r'/(\d+)/([A-Za-z0-9]+)', href)`: the user id and the
      post id of the leftmost match. */
  function HrefMatch(h: string): Option<(string, string)> {
    SearchFrom(h, 0)
  }

  lemma {:induction false} SearchSkips(h: string, i: nat, j: nat)
    requires i <= j <= |h|
    requires forall k :: i <= k < j ==> MatchAt(h, k).None?
    ensures SearchFrom(h, i) == SearchFrom(h, j)
    decreases j - i
  {
    if i < j {
      SearchSkips(h, i + 1, j);
    }
  }

  /** Without a digit before position `n` no match starts before `n - 1`:
      a match needs a digit right after its first `/`. */
  lemma SearchSkipsDigitFree(h: string, n: nat)
    requires 0 < n <= |h|
    requires forall k :: 0 <= k < n ==> !Text.IsDigit(h[k])
    ensures HrefMatch(h) == SearchFrom(h, n - 1)
  {
    forall k | 0 <= k < n - 1 ensures MatchAt(h, k).None? {
      if h[k] == '/' {
        DigitRunEndAt(h, k + 1, k + 1);
      }
    }
    SearchSkips(h, 0, n - 1);
  }

  /** The host part of a post URL. */
  const WeiboHost := "https://weibo.com/"

  /** The host holds no digit and ends in `/`. */
  lemma WeiboHostShape()
    ensures |WeiboHost| == 18 && WeiboHost[17] == '/'
    ensures forall k :: 0 <= k < |WeiboHost| ==> !Text.IsDigit(WeiboHost[k])
  {
  }

  /** The post URL a record carries. */
  function WeiboUrl(uid: string, mid: string): string {
    WeiboHost + uid + "/" + mid
  }

  predicate AllAlnum(s: string) {
    forall k :: 0 <= k < |s| ==> Text.IsAsciiAlnum(s[k])
  }

  /** The ids a web card's link carries are the ids its record's URL
      carries: searching the URL finds them again. */
  lemma WeiboUrlRoundTrip(uid: string, mid: string)
    requires |uid| > 0 && Text.AllDigits(uid) && |mid| > 0 && AllAlnum(mid)
    ensures HrefMatch(WeiboUrl(uid, mid)) == Some((uid, mid))
  {
    WeiboHostShape();
    var s := WeiboUrl(uid, mid);
    var h := |WeiboHost|;
    var j := h + |uid|;
    assert forall k :: 0 <= k < h ==> s[k] == WeiboHost[k];
    assert forall k :: h <= k < j ==> s[k] == uid[k - h];
    assert s[j] == '/';
    assert forall k :: j + 1 <= k < |s| ==> s[k] == mid[k - j - 1];
    SearchSkipsDigitFree(s, h);
    DigitRunEndAt(s, h, j);
    AlnumRunEndAt(s, j + 1, |s|);
    assert s[h..j] == uid;
    assert s[j + 1..|s|] == mid;
    assert MatchAt(s, h - 1) == Some((uid, mid));
  }

  // ---------------------------------------------------------------------
  // Records

  /** A `weibo_data` record: the INSERT's 27 columns, in order, with the
      given values. */
  function WeiboRecord(vals: seq<Value>): (r: Dict)
    requires |vals| == |Database.WeiboColumns|
    ensures KeysOf(r) == Database.WeiboColumns
    ensures forall i :: 0 <= i < |vals| ==> Lookup(r, Database.WeiboColumns[i]) == Some(vals[i])
  {
    Database.WeiboColumnsDistinct();
    Values.Record(Database.WeiboColumns, vals)
  }

  /** Every record binds every parameter of the INSERT. */
  lemma RecordBindsColumns(vals: seq<Value>)
    requires |vals| == |Database.WeiboColumns|
    ensures Database.Binds(WeiboRecord(vals), Database.WeiboColumns)
  {
    var r := WeiboRecord(vals);
    forall i | 0 <= i < |Database.WeiboColumns| ensures Has(r, Database.WeiboColumns[i]) {
      assert Lookup(r, Database.WeiboColumns[i]) == Some(vals[i]);
    }
  }

  /** The identity columns of a record, by name. */
  lemma RecordIds(vals: seq<Value>)
    requires |vals| == |Database.WeiboColumns|
    ensures Lookup(WeiboRecord(vals), "_id") == Some(vals[0])
    ensures Lookup(WeiboRecord(vals), "mblogid") == Some(vals[1])
  {
    assert Database.WeiboColumns[0] == "_id" && Database.WeiboColumns[1] == "mblogid";
  }

  /** The counter columns of a record, by name. */
  lemma RecordCounts(vals: seq<Value>)
    requires |vals| == |Database.WeiboColumns|
    ensures Lookup(WeiboRecord(vals), "reposts_count") == Some(vals[10])
    ensures Lookup(WeiboRecord(vals), "comments_count") == Some(vals[11])
    ensures Lookup(WeiboRecord(vals), "attitudes_count") == Some(vals[12])
  {
    assert Database.WeiboColumns[10] == "reposts_count";
    assert Database.WeiboColumns[11] == "comments_count";
    assert Database.WeiboColumns[12] == "attitudes_count";
  }

  /** The picture and length columns of a record, by name. */
  lemma RecordPictures(vals: seq<Value>)
    requires |vals| == |Database.WeiboColumns|
    ensures Lookup(WeiboRecord(vals), "pic_urls") == Some(vals[15])
    ensures Lookup(WeiboRecord(vals), "pic_num") == Some(vals[16])
    ensures Lookup(WeiboRecord(vals), "isLongText") == Some(vals[17])
  {
    assert Database.WeiboColumns[15] == "pic_urls";
    assert Database.WeiboColumns[16] == "pic_num";
    assert Database.WeiboColumns[17] == "isLongText";
  }

  /** The author, link and keyword columns of a record, by name. */
  lemma RecordOrigin(vals: seq<Value>)
    requires |vals| == |Database.WeiboColumns|
    ensures Lookup(WeiboRecord(vals), "user_id") == Some(vals[18])
    ensures Lookup(WeiboRecord(vals), "url") == Some(vals[25])
    ensures Lookup(WeiboRecord(vals), "keyword") == Some(vals[26])
  {
    assert Database.WeiboColumns[18] == "user_id";
    assert Database.WeiboColumns[25] == "url";
    assert Database.WeiboColumns[26] == "keyword";
  }

  // ---------------------------------------------------------------------
  // Web cards

  /** What BeautifulSoup finds in a `card-wrap` div: the `p.txt` text, the
      `href` of the first link matching `/\d+/[A-Za-z0-9]+`, the `a.name`
      text, the parsed time (or the clock), the action-bar link texts, and
      the source and picture URLs the data processor extracts from the
      text. */
  datatype WebCard = WebCard(text: Option<string>, href: Option<string>, userName: Option<string>,
                             createdAt: Value, actions: seq<string>, source: Value, picUrls: seq<string>)

  function StrValues(s: seq<string>): (r: seq<Value>)
    ensures |r| == |s|
  {
    seq(|s|, i requires 0 <= i < |s| => Str(s[i]))
  }

  /** The 27 column values of a web card whose link names `uid` and `mid`. */
  function WebValues(card: WebCard, content: string, uid: string, mid: string, picsJson: Value, keyword: string): (vals: seq<Value>)
    ensures |vals| == |Database.WeiboColumns|
  {
    var counts := ActionCounts(card.actions);
    [Str(mid), Str(mid), card.createdAt, Null, Null, Null, Null, Null, Null, Null,
     Int(counts.reposts), Int(counts.comments), Int(counts.likes), card.source, Str(content),
     picsJson, Int(|card.picUrls|), Bool(|content| > 140), Str(uid), Null,
     Str(card.userName.GetOr("")), Bool(false), Int(0), Int(0), Int(-1),
     Str(WeiboUrl(uid, mid)), Str(keyword)]
  }

  lemma WebValuesIds(card: WebCard, content: string, uid: string, mid: string, picsJson: Value, keyword: string)
    ensures var vals := WebValues(card, content, uid, mid, picsJson, keyword);
      vals[0] == vals[1] == Str(mid) && vals[25] == Str(WeiboUrl(uid, mid)) && vals[26] == Str(keyword)
  {
  }

  lemma WebValuesCounts(card: WebCard, content: string, uid: string, mid: string, picsJson: Value, keyword: string)
    ensures var vals := WebValues(card, content, uid, mid, picsJson, keyword);
      var counts := ActionCounts(card.actions);
      vals[10] == Int(counts.reposts) && vals[11] == Int(counts.comments) && vals[12] == Int(counts.likes)
  {
  }

  lemma WebValuesPictures(card: WebCard, content: string, uid: string, mid: string, picsJson: Value, keyword: string)
    ensures var vals := WebValues(card, content, uid, mid, picsJson, keyword);
      vals[15] == picsJson && vals[16] == Int(|card.picUrls|) && vals[17] == Bool(|content| > 140)
  {
  }

  /** The serialised `pic_urls` column: `None` for no pictures, else the
      JSON text, or no value at all when serialising raises. */
  function PicsJson(pics: seq<Value>, dumps: Value -> Option<string>): (r: Option<Value>)
    ensures r == Some(Null) <==> |pics| == 0
  {
    if |pics| == 0 then Some(Null)
    else match dumps(Arr(pics))
         case Some(j) => Some(Str(j))
         case None => None
  }

  /** `_extract_weibo_from_card(card, keyword)`; `dumps` is `json.dumps`,
      whose failure is caught like any other exception (`None`). A card
      yields a record exactly when it has a text, a link whose `/uid/mid`
      part matches, and pictures that serialise. */
  function ExtractWeiboFromCard(card: WebCard, keyword: string, dumps: Value -> Option<string>): (r: Option<Dict>)
    ensures r.Some? <==> card.text.Some? && card.href.Some? && HrefMatch(card.href.value).Some?
                         && PicsJson(StrValues(card.picUrls), dumps).Some?
  {
    if card.text.None? || card.href.None? then None
    else
      match HrefMatch(card.href.value)
      case None => None
      case Some(ids) =>
        match PicsJson(StrValues(card.picUrls), dumps)
        case None => None
        case Some(picsJson) => Some(WeiboRecord(WebValues(card, card.text.value, ids.0, ids.1, picsJson, keyword)))
  }

  /** What a web card's record holds: the post id of its link as `_id`
      and `mblogid`, the URL rebuilt from both ids, the counters of its
      action bar, the picture count, `isLongText` for texts over 140
      characters, and the keyword; and it binds every INSERT parameter. */
  lemma WebCardRecord(card: WebCard, keyword: string, dumps: Value -> Option<string>)
    requires ExtractWeiboFromCard(card, keyword, dumps).Some?
    ensures var r := ExtractWeiboFromCard(card, keyword, dumps).value;
            var ids := HrefMatch(card.href.value).value;
            var counts := ActionCounts(card.actions);
            && Lookup(r, "_id") == Some(Str(ids.1)) && Lookup(r, "mblogid") == Some(Str(ids.1))
            && Lookup(r, "url") == Some(Str(WeiboUrl(ids.0, ids.1)))
            && Lookup(r, "reposts_count") == Some(Int(counts.reposts))
            && Lookup(r, "comments_count") == Some(Int(counts.comments))
            && Lookup(r, "attitudes_count") == Some(Int(counts.likes))
            && Lookup(r, "pic_num") == Some(Int(|card.picUrls|))
            && (Lookup(r, "pic_urls") == Some(Null) <==> |card.picUrls| == 0)
            && Lookup(r, "isLongText") == Some(Bool(|card.text.value| > 140))
            && Lookup(r, "keyword") == Some(Str(keyword))
            && Database.Binds(r, Database.WeiboColumns)
  {
    var ids := HrefMatch(card.href.value).value;
    var picsJson := PicsJson(StrValues(card.picUrls), dumps).value;
    var vals := WebValues(card, card.text.value, ids.0, ids.1, picsJson, keyword);
    WebValuesIds(card, card.text.value, ids.0, ids.1, picsJson, keyword);
    WebValuesCounts(card, card.text.value, ids.0, ids.1, picsJson, keyword);
    WebValuesPictures(card, card.text.value, ids.0, ids.1, picsJson, keyword);
    RecordIds(vals);
    RecordCounts(vals);
    RecordPictures(vals);
    RecordOrigin(vals);
    RecordBindsColumns(vals);
  }

  /** What the per-card loop of `_parse_search_results` sees: the outcome
      of each card. */
  function WebParsed(cards: seq<WebCard>, keyword: string, dumps: Value -> Option<string>): (p: seq<Option<Dict>>)
    ensures |p| == |cards|
    ensures forall i :: 0 <= i < |p| ==> p[i] == ExtractWeiboFromCard(cards[i], keyword, dumps)
  {
    seq(|cards|, i requires 0 <= i < |cards| => ExtractWeiboFromCard(cards[i], keyword, dumps))
  }

  /** `_parse_search_results` after the HTML is split into cards: the fresh
      records, and `crawled_ids` grown by their ids. */
  function ParseSearchResults(cards: seq<WebCard>, keyword: string, crawled: set<Value>,
                              dumps: Value -> Option<string>): (r: (seq<Dict>, set<Value>))
    ensures r.1 == crawled + Spider.IdKeys(r.0)
    ensures forall k :: 0 <= k < |r.0| ==> Spider.IdKeyOf(r.0[k]) !in crawled
    ensures forall j, k :: 0 <= j < k < |r.0| ==> Spider.IdKeyOf(r.0[j]) != Spider.IdKeyOf(r.0[k])
    ensures forall k :: 0 <= k < |r.0| ==> Some(r.0[k]) in WebParsed(cards, keyword, dumps)
  {
    Spider.KeepFresh(WebParsed(cards, keyword, dumps), crawled)
  }

  /** Each record of the web parse comes from one of the cards. */
  lemma WebRecordFromCard(cards: seq<WebCard>, keyword: string, crawled: set<Value>,
                          dumps: Value -> Option<string>, k: int)
    requires 0 <= k < |ParseSearchResults(cards, keyword, crawled, dumps).0|
    ensures var rec := ParseSearchResults(cards, keyword, crawled, dumps).0[k];
      exists i :: 0 <= i < |cards| && ExtractWeiboFromCard(cards[i], keyword, dumps) == Some(rec)
  {
    var p := WebParsed(cards, keyword, dumps);
    var x := Some(ParseSearchResults(cards, keyword, crawled, dumps).0[k]);
    assert x in p;
    var i :| 0 <= i < |p| && p[i] == x;
  }

  // ---------------------------------------------------------------------
  // Mobile cards

  /** A sub-card that carries a post: a dict with an `mblog` key. */
  predicate IsMblogCard(v: Value) {
    v.Obj? && Has(v.fields, "mblog")
  }

  /** The `mblog` of the first sub-card that has one, or `None`'s stand-in
      `Null`. */
  function FirstMblog(items: seq<Value>): (m: Value)
    ensures (forall i :: 0 <= i < |items| ==> !IsMblogCard(items[i])) ==> m == Null
    ensures forall i :: 0 <= i < |items| && IsMblogCard(items[i]) && (forall j :: 0 <= j < i ==> !IsMblogCard(items[j])) ==>
              m == Lookup(items[i].fields, "mblog").value
  {
    if |items| == 0 then Null
    else if IsMblogCard(items[0]) then Lookup(items[0].fields, "mblog").value
    else
      var m := FirstMblog(items[1..]);
      assert forall i :: 1 <= i < |items| ==> items[i] == items[1..][i - 1];
      m
  }

  /** The `mblog` a mobile card yields: its own, else the first in its
      `card_group`; `Null` when there is none, and `None` when iterating
      the `card_group` raises. */
  function FindMblog(card: Dict): Option<Value> {
    if Has(card, "mblog") then Lookup(card, "mblog")
    else if Has(card, "card_group") then
      match Lookup(card, "card_group").value
      case Arr(items) => Some(FirstMblog(items))
      case Obj(_) => Some(Null)   // iterating a dict yields its keys, none of them a dict
      case Str(_) => Some(Null)   // likewise its characters
      case _ => None              // not iterable: TypeError
    else Some(Null)
  }

  /** The picture URLs of `pic_infos`: `info['large']['url']` per entry in
      order, `None` when some entry or its `large` is not a dict. */
  function PicList(infos: seq<Field>): (r: Option<seq<Value>>)
    ensures r.Some? ==> |r.value| == |infos|
  {
    if |infos| == 0 then Some([])
    else
      var info := infos[0].val;
      if !info.Obj? then None
      else
        var large := Get(info.fields, "large", Obj([]));
        if !large.Obj? then None
        else
          match PicList(infos[1..])
          case None => None
          case Some(rest) => Some([Get(large.fields, "url", Str(""))] + rest)
  }

  /** `mblog.get('pic_infos', {})` read into URLs: none when it is falsy. */
  function PicUrls(infos: Value): (r: Option<seq<Value>>)
    ensures !Truthy(infos) ==> r == Some([])
  {
    if !Truthy(infos) then Some([])
    else if !infos.Obj? then None
    else PicList(infos.fields)
  }

  /** The geo columns of a mobile post: type, serialised coordinates, and
      the detail dict the four `geo_detail_*` columns are read from. */
  function GeoColumns(geo: Value, dumps: Value -> Option<string>): Option<(Value, Value, Dict)> {
    if !Truthy(geo) then Some((Null, Null, []))
    else if !geo.Obj? then None
    else
      match dumps(Get(geo.fields, "coordinates", Arr([])))
      case None => None
      case Some(c) =>
        var detail := Get(geo.fields, "detail", Obj([]));
        if detail.Obj? then Some((Get(geo.fields, "type", Null), Str(c), detail.fields)) else None
  }

  /** The 27 column values of a mobile post. */
  function MobileValues(m: Dict, u: Dict, geo: (Value, Value, Dict), pics: seq<Value>, picsJson: Value,
                        keyword: string, parseTime: Value -> Value): (vals: seq<Value>)
    ensures |vals| == |Database.WeiboColumns|
  {
    var mid := Get(m, "mid", Str(""));
    var uid := Display(Get(u, "id", Str("")));
    [mid, mid, parseTime(Get(m, "created_at", Str(""))), geo.0, geo.1,
     Get(geo.2, "poiid", Null), Get(geo.2, "title", Null), Get(geo.2, "type", Null), Get(geo.2, "spot_type", Null),
     Get(m, "region_name", Str("")), Get(m, "reposts_count", Int(0)), Get(m, "comments_count", Int(0)),
     Get(m, "attitudes_count", Int(0)), Get(m, "source", Str("")), Get(m, "text", Str("")),
     picsJson, Int(|pics|), Get(m, "isLongText", Bool(false)), Str(uid),
     Get(u, "avatar_hd", Str("")), Get(u, "screen_name", Str("")), Get(u, "verified", Bool(false)),
     Get(u, "mbrank", Int(0)), Get(u, "mbtype", Int(0)), Get(u, "verified_type", Int(-1)),
     Str(WeiboUrl(uid, Display(mid))), Str(keyword)]
  }

  lemma MobileValuesIds(m: Dict, u: Dict, geo: (Value, Value, Dict), pics: seq<Value>, picsJson: Value,
                        keyword: string, parseTime: Value -> Value)
    ensures var vals := MobileValues(m, u, geo, pics, picsJson, keyword, parseTime);
      var uid := Display(Get(u, "id", Str("")));
      && vals[0] == vals[1] == Get(m, "mid", Str("")) && vals[18] == Str(uid)
      && vals[25] == Str(WeiboUrl(uid, Display(Get(m, "mid", Str("")))))
      && vals[26] == Str(keyword)
  {
  }

  lemma MobileValuesPictures(m: Dict, u: Dict, geo: (Value, Value, Dict), pics: seq<Value>, picsJson: Value,
                             keyword: string, parseTime: Value -> Value)
    ensures var vals := MobileValues(m, u, geo, pics, picsJson, keyword, parseTime);
      vals[15] == picsJson && vals[16] == Int(|pics|)
  {
  }

  /** `_extract_weibo_from_mobile_card(card, keyword)`. `parseTime` is
      `parse_weibo_time` (it reads the clock) and `dumps` is `json.dumps`.
      Any exception, such as `.get` on a value that is not a dict, gives
      `None`; so does a card without a post. */
  function ExtractWeiboFromMobileCard(card: Dict, keyword: string, parseTime: Value -> Value,
                                     dumps: Value -> Option<string>): (r: Option<Dict>)
    ensures r.Some? ==> FindMblog(card).Some? && Truthy(FindMblog(card).value) && FindMblog(card).value.Obj?
    ensures r.Some? ==> PicUrls(Get(FindMblog(card).value.fields, "pic_infos", Obj([]))).Some?
  {
    match FindMblog(card)
    case None => None
    case Some(mblog) =>
      if !Truthy(mblog) || !mblog.Obj? then None
      else
        var m := mblog.fields;
        var user := Get(m, "user", Obj([]));
        var geo := GeoColumns(Get(m, "geo", Null), dumps);
        var pics := PicUrls(Get(m, "pic_infos", Obj([])));
        if !user.Obj? || geo.None? || pics.None? then None
        else
          match PicsJson(pics.value, dumps)
          case None => None
          case Some(picsJson) =>
            Some(WeiboRecord(MobileValues(m, user.fields, geo.value, pics.value, picsJson, keyword, parseTime)))
  }

  /** What a mobile card's record says of its post: the `mid` as `_id`
      and `mblogid`, the author's id as text, the URL built from both, and
      the keyword. */
  lemma MobileCardRecord(card: Dict, keyword: string, parseTime: Value -> Value, dumps: Value -> Option<string>)
    requires ExtractWeiboFromMobileCard(card, keyword, parseTime, dumps).Some?
    ensures var r := ExtractWeiboFromMobileCard(card, keyword, parseTime, dumps).value;
            var m := FindMblog(card).value.fields;
            var mid := Get(m, "mid", Str(""));
            var uid := Display(Get(Get(m, "user", Obj([])).fields, "id", Str("")));
            && Lookup(r, "_id") == Some(mid) && Lookup(r, "mblogid") == Some(mid)
            && Lookup(r, "user_id") == Some(Str(uid))
            && Lookup(r, "url") == Some(Str(WeiboUrl(uid, Display(mid))))
            && Lookup(r, "keyword") == Some(Str(keyword))
  {
    var m := FindMblog(card).value.fields;
    var user := Get(m, "user", Obj([]));
    var geo := GeoColumns(Get(m, "geo", Null), dumps).value;
    var pics := PicUrls(Get(m, "pic_infos", Obj([]))).value;
    var vals := MobileValues(m, user.fields, geo, pics, PicsJson(pics, dumps).value, keyword, parseTime);
    assert ExtractWeiboFromMobileCard(card, keyword, parseTime, dumps) == Some(WeiboRecord(vals));
    MobileValuesIds(m, user.fields, geo, pics, PicsJson(pics, dumps).value, keyword, parseTime);
    RecordIds(vals);
    RecordOrigin(vals);
  }

  /** A mobile card's record counts the post's pictures, stores `None` for
      them exactly when there are none, and binds every INSERT parameter. */
  lemma MobileCardPictures(card: Dict, keyword: string, parseTime: Value -> Value, dumps: Value -> Option<string>)
    requires ExtractWeiboFromMobileCard(card, keyword, parseTime, dumps).Some?
    ensures var r := ExtractWeiboFromMobileCard(card, keyword, parseTime, dumps).value;
            var pics := PicUrls(Get(FindMblog(card).value.fields, "pic_infos", Obj([]))).value;
            && Lookup(r, "pic_num") == Some(Int(|pics|))
            && (Lookup(r, "pic_urls") == Some(Null) <==> |pics| == 0)
            && Database.Binds(r, Database.WeiboColumns)
  {
    var m := FindMblog(card).value.fields;
    var user := Get(m, "user", Obj([]));
    var geo := GeoColumns(Get(m, "geo", Null), dumps).value;
    var pics := PicUrls(Get(m, "pic_infos", Obj([]))).value;
    var vals := MobileValues(m, user.fields, geo, pics, PicsJson(pics, dumps).value, keyword, parseTime);
    assert ExtractWeiboFromMobileCard(card, keyword, parseTime, dumps) == Some(WeiboRecord(vals));
    MobileValuesPictures(m, user.fields, geo, pics, PicsJson(pics, dumps).value, keyword, parseTime);
    RecordPictures(vals);
    RecordBindsColumns(vals);
  }

  /** `json_data['data']['cards']`, when that is a list; any other shape
      raises inside the parser's `try` or iterates nothing. */
  function MobileCards(json: Value): seq<Value> {
    if json.Obj? && Has(json.fields, "data") then
      var data := Lookup(json.fields, "data").value;
      if data.Obj? && Has(data.fields, "cards") then
        match Lookup(data.fields, "cards").value
        case Arr(items) => items
        case _ => []
      else []
    else []
  }

  /** How many leading cards are dicts: `card.get` on the first one that is
      not raises outside the per-card `try` and ends the loop. */
  function DictPrefix(cards: seq<Value>): (n: nat)
    ensures n <= |cards|
    ensures forall i :: 0 <= i < n ==> cards[i].Obj?
    ensures n < |cards| ==> !cards[n].Obj?
  {
    if |cards| == 0 || !cards[0].Obj? then 0
    else
      var n := DictPrefix(cards[1..]);
      assert forall i :: 1 <= i < |cards| ==> cards[i] == cards[1..][i - 1];
      1 + n
  }

  /** `card.get('card_type') in [9, 11]` */
  predicate IsPostCard(card: Dict) {
    var t := Get(card, "card_type", Null);
    NumEquals(t, 9) || NumEquals(t, 11)
  }

  /** What the per-card loop of `_parse_mobile_results` sees: one entry
      per leading dict card, a record only for a post card that yields
      one. */
  function MobileParsed(json: Value, keyword: string, parseTime: Value -> Value,
                        dumps: Value -> Option<string>): (p: seq<Option<Dict>>)
    ensures |p| == DictPrefix(MobileCards(json))
    ensures forall i :: 0 <= i < |p| ==>
              (p[i].Some? ==> IsPostCard(MobileCards(json)[i].fields))
              && (IsPostCard(MobileCards(json)[i].fields) ==>
                    p[i] == ExtractWeiboFromMobileCard(MobileCards(json)[i].fields, keyword, parseTime, dumps))
  {
    var cards := MobileCards(json);
    var n := DictPrefix(cards);
    seq(n, i requires 0 <= i < n =>
          if IsPostCard(cards[i].fields) then ExtractWeiboFromMobileCard(cards[i].fields, keyword, parseTime, dumps)
          else None)
  }

  /** `_parse_mobile_results(json_data, keyword)`: the fresh records, and
      `crawled_ids` grown by their ids. Only cards of type 9 or 11 before
      the first card that is not a dict contribute. */
  function ParseMobileResults(json: Value, keyword: string, crawled: set<Value>, parseTime: Value -> Value,
                              dumps: Value -> Option<string>): (r: (seq<Dict>, set<Value>))
    ensures r.1 == crawled + Spider.IdKeys(r.0)
    ensures forall k :: 0 <= k < |r.0| ==> Spider.IdKeyOf(r.0[k]) !in crawled
    ensures forall j, k :: 0 <= j < k < |r.0| ==> Spider.IdKeyOf(r.0[j]) != Spider.IdKeyOf(r.0[k])
    ensures forall k :: 0 <= k < |r.0| ==> Some(r.0[k]) in MobileParsed(json, keyword, parseTime, dumps)
  {
    Spider.KeepFresh(MobileParsed(json, keyword, parseTime, dumps), crawled)
  }

  /** The mobile card that carries its own `mblog` uses it, whatever its
      `card_group` holds. */
  lemma TopLevelMblogFirst(card: Dict)
    requires Has(card, "mblog")
    ensures FindMblog(card) == Lookup(card, "mblog")
  {
  }

  // ---------------------------------------------------------------------
  // Primary and fallback search

  /** One pass of the Weibo retry loop: the list it returns, or `None` when
      an exception escapes and the loop goes on. A non-empty primary answer
      is returned; otherwise the fallback's answer is, even if empty. */
  function Round(primary: Spider.Attempt, fallback: Spider.Attempt): (r: Option<seq<Dict>>)
    ensures Spider.Hit(primary) ==> r == Some(primary.items)
    ensures primary.Returned? && !Spider.Hit(primary) && fallback.Returned? ==> r == Some(fallback.items)
    ensures r.None? <==> primary.Raised? || (!Spider.Hit(primary) && fallback.Raised?)
  {
    match primary
    case Raised => None
    case Returned(items) =>
      if |items| > 0 then Some(items)
      else match fallback
           case Raised => None
           case Returned(other) => Some(other)
  }

  /** The reference outcome: the answer of the first pass that returns,
      or `[]`. */
  function FirstReturn(rounds: nat -> Option<seq<Dict>>, from: nat, n: nat): seq<Dict>
    decreases n - from
  {
    if from >= n then []
    else if rounds(from).Some? then rounds(from).value
    else FirstReturn(rounds, from + 1, n)
  }

  /** The passes of `crawl_with_retry(keyword, page, use_mobile)`:
      `mobile(a)` and `web(a)` are what the two searches do on attempt `a`,
      and the primary is the mobile API when `useMobile` holds. */
  function Rounds(useMobile: bool, mobile: nat -> Spider.Attempt, web: nat -> Spider.Attempt): nat -> Option<seq<Dict>> {
    (a: nat) => if useMobile then Round(mobile(a), web(a)) else Round(web(a), mobile(a))
  }

  /** `crawl_with_retry(keyword, page, use_mobile)`: the records and the
      number of passes made. The loop stops at the first pass that returns
      and otherwise makes `retryTimes` of them. */
  method WeiboCrawlWithRetry(retryTimes: int, useMobile: bool, mobile: nat -> Spider.Attempt, web: nat -> Spider.Attempt)
    returns (results: seq<Dict>, passes: nat)
    ensures passes <= Spider.RangeLen(retryTimes)
    ensures results == FirstReturn(Rounds(useMobile, mobile, web), 0, Spider.RangeLen(retryTimes))
    ensures forall a: nat :: a + 1 < passes ==> Rounds(useMobile, mobile, web)(a).None?
    ensures passes > 0 && Rounds(useMobile, mobile, web)(passes - 1).Some? ==>
              results == Rounds(useMobile, mobile, web)(passes - 1).value
    ensures passes == 0 || Rounds(useMobile, mobile, web)(passes - 1).None? ==>
              results == [] && passes == Spider.RangeLen(retryTimes)
  {
    var rounds := Rounds(useMobile, mobile, web);
    var n := Spider.RangeLen(retryTimes);
    results, passes := [], 0;
    var done := false;
    while passes < n && !done
      invariant passes <= n
      invariant forall a: nat :: a < passes && (!done || a + 1 < passes) ==> rounds(a).None?
      invariant !done ==> results == [] && FirstReturn(rounds, 0, n) == FirstReturn(rounds, passes, n)
      invariant done ==> passes > 0 && rounds(passes - 1).Some? && results == rounds(passes - 1).value
                         && FirstReturn(rounds, 0, n) == results
    {
      var r := rounds(passes);
      if r.Some? {
        results := r.value;
        done := true;
      }
      passes := passes + 1;
    }
  }
}

=== FILE: wrappers.dfy ===
/** Failure-compatible optional value, used for every Python `None`-or-value
    result and for the "this step raised and was caught" outcome. */
module Wrappers {

  datatype Option<+T> = None | Some(value: T) {

    predicate IsFailure() {
      None?
    }

    function PropagateFailure<U>(): Option<U>
      requires None?
    {
      None
    }

    function Extract(): T
      requires Some?
    {
      value
    }

    function GetOr(default: T): T {
      match this
      case Some(v) => v
      case None => default
    }
  }
}
